=== FILE: README.md ===
# Efficient Logfile Analysis, modelled in Dafny

Efficient Logfile Analysis is a Java web service with a browser front end
for searching large log4j-style log files. The backend reads every log file
of a configured directory and groups its lines into log entries. A line that
starts with a date opens an entry; any other line continues the open one.
For each entry it keeps the byte offset where the entry starts. It indexes
the entries in Lucene, together with small on-disk indexes:

- file ids, module ids, class ids and level ids;
- the dates covered by each file;
- the levels each file contains.

These indexes are serialised through a family of type converters. The REST
layer answers searches with one summary per file and counts entries per
level over twelve time intervals. The browser scripts validate the search
form, build the filter object, keep the user's choices in cookies, page
through the results and draw the statistics charts.

This project models that core in Dafny 4.11:

- the byte encodings and their converters;
- the index files, with their write/read round trips and the cases where
  they do not round-trip;
- the log line grouping, parsing and readers;
- the exception name search;
- the index bookkeeping of `IndexCreator`;
- the search filter and the grouping of hits per file;
- the statistics counting;
- the settings file;
- the browser scripts: date validation, the filter object and date formats,
  cookies, pagination and the statistics page.

Objects whose fields the source updates in place are classes with
`modifies` frames. Parsers and encodings are functions with lemmas.
Loops are methods with invariants, proved against the functions that
specify them.

Every module is self-contained. Give all `.dfy` files to `dafny verify`
together.

## Model

Source paths are relative to the repository root.

| member | source | states |
|---|---|---|
| ByteConverter.ShortToBytes | src/main/java/com/efficientlogfileanalysis/util/ByteConverter.java:13-19 | a short becomes exactly two signed bytes |
| ByteConverter.BytesToShort | src/main/java/com/efficientlogfileanalysis/util/ByteConverter.java:27-30 | succeeds exactly when the array has at least two bytes; the result is a short |
| ByteConverter.ShortToBytesIsBigEndian | src/main/java/com/efficientlogfileanalysis/util/ByteConverter.java:13-19 | the bit patterns of the two bytes are the big-endian encoding of the short |
| ByteConverter.ShortRoundTrip | src/main/java/com/efficientlogfileanalysis/util/ByteConverter.java:32-34 | byteToShort(shortToByte(v)) == v for every short, generalising the sample in main |
| ByteConverter.BytesRoundTrip | src/main/java/com/efficientlogfileanalysis/util/ByteConverter.java:27-30 | shortToByte(byteToShort(b)) == b for every pair of signed bytes, so the encoding is a bijection |
| ByteConverter.BytesToShortMasks | src/main/java/com/efficientlogfileanalysis/util/ByteConverter.java:29 | the result depends only on the low eight bits of the first two elements |
| IdSequences.Wrap32 | src/main/java/com/efficientlogfileanalysis/data/Sequence.java:13 | the result is an int congruent to the input modulo 2^32 |
| IdSequences.Wrap32Id | src/main/java/com/efficientlogfileanalysis/data/Sequence.java:26-28 | a value already in int range is unchanged by the increment's wrap |
| IdSequences.Sequence.constructor | src/main/java/com/efficientlogfileanalysis/data/Sequence.java:18-20 | nothing handed out yet, counter at -1 |
| IdSequences.Sequence.NextValue | src/main/java/com/efficientlogfileanalysis/data/Sequence.java:26-28 | returns the wrapped successor of the counter, stores it and records it as handed out; the k-th value is k wrapped to an int |
| IdSequences.Sequence.CurrentValue | src/main/java/com/efficientlogfileanalysis/data/Sequence.java:34-36 | the last value handed out, -1 before the first; nothing changes |
| IdSequences.SuccessorWraps | src/main/java/com/efficientlogfileanalysis/data/Sequence.java:27 | incrementing the wrapped counter equals wrapping the incremented count |
| IdSequences.WrapOfCount | src/main/java/com/efficientlogfileanalysis/data/Sequence.java:27 | the k-th value is k up to Integer.MAX_VALUE and k - 2^32 after it |
| IdSequences.NeverRepeats | src/main/java/com/efficientlogfileanalysis/data/Sequence.java:3-4 | no value repeats within 2^32 calls (the class's promise); call 2^32 + i repeats call i |
| BiMaps.Lookup | src/main/java/com/efficientlogfileanalysis/data/BiMap.java:42-51 | getOrDefault(k, null): present exactly when k is a key, with that key's value |
| BiMaps.PutKeepsInverse | src/main/java/com/efficientlogfileanalysis/data/BiMap.java:5-30 | putValue keeps the two maps inverse to each other exactly when neither the key nor the value is already paired with something else |
| BiMaps.StaleReverseEntry | src/main/java/com/efficientlogfileanalysis/data/BiMap.java:27-30 | rebinding key 1 from "a" to "b" leaves getKey("a") == 1 while getValue(1) == "b": the maps are no longer inverse |
| BiMaps.BiMap.constructor | src/main/java/com/efficientlogfileanalysis/data/BiMap.java:19-22 | both maps empty |
| BiMaps.BiMap.PutValue | src/main/java/com/efficientlogfileanalysis/data/BiMap.java:27-30 | map1 gains key -> value and map2 gains value -> key; both look up |
| BiMaps.BiMap.PutKey | src/main/java/com/efficientlogfileanalysis/data/BiMap.java:35-37 | putKey(a, b) is putValue(b, a) |
| BiMaps.BiMap.GetValue | src/main/java/com/efficientlogfileanalysis/data/BiMap.java:42-44 | the map1 entry of the key, or null |
| BiMaps.BiMap.GetKey | src/main/java/com/efficientlogfileanalysis/data/BiMap.java:49-51 | the map2 entry of the value, or null |
| BiMaps.BiMap.Size | src/main/java/com/efficientlogfileanalysis/data/BiMap.java:53-55 | the number of keys in map1 |
| BiMaps.PutValues | src/main/java/com/efficientlogfileanalysis/data/SerializableBiMap.java:56-65 | putValue for each pair in order: map1 is the pairs put in order and map2 is the swapped pairs put in order |
| TimeRanges.OverlapsIffShareDate | src/main/java/com/efficientlogfileanalysis/index/data/TimeRange.java:26-41 | for ranges whose begin is not after their end, overlaps holds exactly when some date lies in both ranges; it is symmetric |
| TimeRanges.ReversedRangeOverlaps | src/main/java/com/efficientlogfileanalysis/index/data/TimeRange.java:36-41 | a range whose end precedes its begin contains no date, yet overlaps can still hold for it |
| TimeRanges.DisjointExample | src/main/java/com/efficientlogfileanalysis/index/data/TimeRange.java:52-56 | the main example: (10, 20) and (22, 25) do not overlap |
| IndexRecords.WriteWith | src/main/java/com/efficientlogfileanalysis/index/data/I_TypeConverter.java:30 | a converter's write overwrites its bytes at the file pointer, advances the pointer by their number and returns the converter's own count |
| IndexRecords.ReadWith | src/main/java/com/efficientlogfileanalysis/index/data/I_TypeConverter.java:22 | a converter's read leaves the file unchanged, decodes from the pointer and leaves the pointer before the bytes it did not consume |
| IndexRecords.EncodeNonEmpty | src/main/java/com/efficientlogfileanalysis/index/data/I_TypeConverter.java:91-255 | every predefined converter writes at least one byte |
| IndexRecords.DecodeWithShrinks | src/main/java/com/efficientlogfileanalysis/index/data/I_TypeConverter.java:91-255 | every successful read consumes at least one byte |
| IndexRecords.StdReadsBack | src/main/java/com/efficientlogfileanalysis/index/data/I_TypeConverter.java:22-30 | each predefined converter's read gives back, with its count, the value its write wrote |
| IndexRecords.LongFreeCounts | src/main/java/com/efficientlogfileanalysis/index/data/I_TypeConverter.java:27-30 | for values with no LONG inside, write returns exactly the number of bytes it wrote |
| IndexRecords.Pairs | src/main/java/com/efficientlogfileanalysis/index/data/SerializableMap.java:87-93 | the pairs visited by the keySet loop: one per key in iteration order, each with its map value |
| IndexRecords.StdAllReadBack | src/main/java/com/efficientlogfileanalysis/index/data/I_TypeConverter.java:22-30 | the predefined converters read back every pair they can write |
| IndexRecords.LongFreeAllCount | src/main/java/com/efficientlogfileanalysis/index/data/I_TypeConverter.java:27-30 | without a LONG, every record's write counts equal its byte counts |
| IndexRecords.RecordCountExact | src/main/java/com/efficientlogfileanalysis/index/data/SerializableMap.java:83-96 | when every write returns its byte count, the stored total equals the number of record bytes |
| IndexRecords.RecordBytesLength | src/main/java/com/efficientlogfileanalysis/index/data/SerializableMap.java:86-93 | each record takes at least two bytes |
| IndexRecords.WrittenStoredTotal | src/main/java/com/efficientlogfileanalysis/index/data/SerializableMap.java:50-96 | readLong after writeIndex gives the sum of the write counts, as a signed long |
| IndexRecords.ScanFirst | src/main/java/com/efficientlogfileanalysis/index/data/SerializableMap.java:51-60 | the first loop iteration reads back the first pair and subtracts its byte lengths from the budget |
| IndexRecords.ScanRecords | src/main/java/com/efficientlogfileanalysis/index/data/SerializableMap.java:51-60 | with the record byte total as budget, the readIndex loop returns exactly the pairs written, with no exception and budget 0 |
| IndexRecords.ReadWrittenIndex | src/main/java/com/efficientlogfileanalysis/index/data/SerializableMap.java:44-97 | after an 8-byte total and records are written at p, reading from p scans those records with the stored total as budget; it reads something whenever there are records |
| IndexRecords.WrittenIndexScan | src/main/java/com/efficientlogfileanalysis/index/data/SerializableMap.java:44-97 | the same, for the bytes writeIndex actually produces |
| IndexRecords.TotalReadsBack | src/main/java/com/efficientlogfileanalysis/index/data/SerializableMap.java:50-96 | a long written with writeLong reads back with readLong |
| IndexRecords.IndexRoundTrip | src/main/java/com/efficientlogfileanalysis/index/data/SerializableMap.java:44-97 | write then read at the same position gives back every pair in order without an exception, when converters read back, counts are exact and the total fits a long |
| IndexRecords.StoredTotalExact | src/main/java/com/efficientlogfileanalysis/index/data/SerializableMap.java:96 | with exact counts, the stored total reads back as the number of record bytes |
| IndexRecords.ScanAllRecords | src/main/java/com/efficientlogfileanalysis/index/data/SerializableMap.java:51-60 | the whole loop over records that read back, budgeted by their byte count, returns them all |
| IndexRecords.StdIndexRoundTrip | src/main/java/com/efficientlogfileanalysis/index/data/SerializableMap.java:44-97 | the round trip for the predefined converters, provided no LONG is written |
| IndexRecords.ReadStopsAfterFirst | src/main/java/com/efficientlogfileanalysis/index/data/SerializableMap.java:51-60 | when the stored total is positive but no larger than the first record, readIndex returns after that record whatever follows |
| IndexRecords.LongValuesLoseRecords | src/main/java/com/efficientlogfileanalysis/index/data/I_TypeConverter.java:111-114 | a SHORT-to-LONG map with two entries stores the total 8 for 20 bytes of records, so readIndex stops after the first record |
| IndexRecords.ShortLongSizes | src/main/java/com/efficientlogfileanalysis/index/data/I_TypeConverter.java:111-172 | two SHORT-to-LONG records are 20 bytes, yet their write calls return 8 |
| IndexRecords.WriteField | src/main/java/com/efficientlogfileanalysis/index/data/I_TypeConverter.java:30 | converter.write through a format: overwrite at the pointer, advance, return the count |
| IndexRecords.ReadField | src/main/java/com/efficientlogfileanalysis/index/data/I_TypeConverter.java:22 | converter.read through a format: file unchanged, pointer left before the unconsumed bytes |
| IndexRecords.WriteRecords | src/main/java/com/efficientlogfileanalysis/index/data/SerializableMap.java:87-93 | the keySet loop writes the records after the pointer and returns the summed counts |
| IndexRecords.WriteIndexFile | src/main/java/com/efficientlogfileanalysis/index/data/SerializableMap.java:81-97 | skip 8 bytes, write the records, seek back and write the total; the pointer ends after the header |
| IndexRecords.ReadRecord | src/main/java/com/efficientlogfileanalysis/index/data/SerializableMap.java:53-57 | one loop iteration: read a key, read a value, subtract their counts |
| IndexRecords.ReadRecords | src/main/java/com/efficientlogfileanalysis/index/data/SerializableMap.java:44-60 | the length check, readLong and the loop, giving the pairs in read order and the exception that ended the loop, if any |
| IndexRecords.PutAllRestores | src/main/java/com/efficientlogfileanalysis/index/data/SerializableMap.java:59 | putting the pairs of a map, each key once, into an empty map rebuilds the map |
| SerializableMaps.SerializableMap.constructor | src/main/java/com/efficientlogfileanalysis/index/data/SerializableMap.java:19-24 | an empty map with the two converters |
| SerializableMaps.SerializableMap.ReadIndex | src/main/java/com/efficientlogfileanalysis/index/data/SerializableMap.java:44-61 | the file is unchanged; each pair read is put in order, and an exception ends the loop and is returned |
| SerializableMaps.SerializableMap.WriteIndex | src/main/java/com/efficientlogfileanalysis/index/data/SerializableMap.java:81-97 | the file holds the total followed by the records in keySet order; the pointer ends after the header |
| SerializableMaps.MapRoundTrip | src/main/java/com/efficientlogfileanalysis/index/data/SerializableMap.java:44-97 | write, then read into an empty map: the map comes back without an exception, when converters read back, counts are exact and the total fits a long |
| SerializableMaps.StdMapRoundTrip | src/main/java/com/efficientlogfileanalysis/index/data/SerializableMap.java:44-97 | the map round trip for the predefined converters without a LONG |
| SerializableMaps.LongValuesLoseEntry | src/main/java/com/efficientlogfileanalysis/index/data/I_TypeConverter.java:111-114 | a Short-to-Long map of two entries reads back as its first entry only |
| SerializableMaps.ReadKeepsOtherEntries | src/main/java/com/efficientlogfileanalysis/index/data/SerializableMap.java:59 | reading into a map that already has entries: keys not read keep their values |
| SerializableBiMaps.SerializableBiMap.constructor | src/main/java/com/efficientlogfileanalysis/data/SerializableBiMap.java:24-29 | empty maps, indexLength 0, the two converters |
| SerializableBiMaps.SerializableBiMap.ReadIndex | src/main/java/com/efficientlogfileanalysis/data/SerializableBiMap.java:49-66 | putValue for each pair read, in order, on both maps; indexLength is the total read when the file has room for one; the exception, if any, is returned |
| SerializableBiMaps.SerializableBiMap.WriteIndex | src/main/java/com/efficientlogfileanalysis/data/SerializableBiMap.java:86-104 | the file holds the total and the records of map1 in key order; indexLength is the total written |
| SerializableBiMaps.SwappedRestores | src/main/java/com/efficientlogfileanalysis/data/SerializableBiMap.java:64 | for a BiMap whose two maps are inverse, putting the swapped pairs of map1 into an empty map rebuilds map2 |
| SerializableBiMaps.BiMapRoundTrip | src/main/java/com/efficientlogfileanalysis/data/SerializableBiMap.java:49-104 | write a consistent BiMap, then read it into an empty one: both lookup directions come back without an exception |
| SerializableBiMaps.LengthRoundTrip | src/main/java/com/efficientlogfileanalysis/data/SerializableBiMap.java:55-103 | after the round trip, indexLength is the number of record bytes, as writeIndex left it |
| TypeConverters.Chunks | src/main/java/com/efficientlogfileanalysis/index/data/I_TypeConverter.java:79-82 | one encoding per element of a collection |
| TypeConverters.EncodeAllSnoc | src/main/java/com/efficientlogfileanalysis/index/data/I_TypeConverter.java:79-82 | writing one more element appends its bytes and adds its count |
| TypeConverters.DecodeEncodeFixed | src/main/java/com/efficientlogfileanalysis/index/data/I_TypeConverter.java:99-200 | LONG, INTEGER, SHORT and BYTE read back their written value, reporting the bytes written and leaving what follows |
| TypeConverters.DecodeEncodeString | src/main/java/com/efficientlogfileanalysis/index/data/I_TypeConverter.java:215-235 | STRING reads back the bytes written after their 4-byte length, reporting 4 + length |
| TypeConverters.DecodeEncodeRange | src/main/java/com/efficientlogfileanalysis/index/data/I_TypeConverter.java:243-253 | TIME_RANGE reads back begin and end, reporting 16 |
| TypeConverters.DecodeEncodeScalar | src/main/java/com/efficientlogfileanalysis/index/data/I_TypeConverter.java:91-255 | read after write for every predefined converter: the value, its byte count, the pointer right after it |
| TypeConverters.DecodeChunks | src/main/java/com/efficientlogfileanalysis/index/data/I_TypeConverter.java:63-68 | for any element converter that reads back each element, the element loop reads back the whole sequence from the concatenated bytes |
| TypeConverters.ScalarReadsBack | src/main/java/com/efficientlogfileanalysis/index/data/I_TypeConverter.java:65 | each predefined converter used as element converter reads back what it wrote |
| TypeConverters.DecodeEncodeAll | src/main/java/com/efficientlogfileanalysis/index/data/I_TypeConverter.java:63-82 | the read loop returns the elements the write loop wrote, in order |
| TypeConverters.DecodeEncodeCollection | src/main/java/com/efficientlogfileanalysis/index/data/I_TypeConverter.java:57-85 | a list or set converter reads back the size and the elements it wrote; a set comes back in insertion order |
| TypeConverters.DecodeEncode | src/main/java/com/efficientlogfileanalysis/index/data/I_TypeConverter.java:22-255 | read after write for every converter: the value written, exactly its byte count, the pointer right after it |
| TypeConverters.DecodeShrinks | src/main/java/com/efficientlogfileanalysis/index/data/I_TypeConverter.java:22 | every successful read consumes at least one byte |
| TypeConverters.DecodeScalarSuffix | src/main/java/com/efficientlogfileanalysis/index/data/I_TypeConverter.java:99-247 | what a predefined read leaves after the pointer is a tail of what was there |
| TypeConverters.DecodeItemsSuffix | src/main/java/com/efficientlogfileanalysis/index/data/I_TypeConverter.java:63-68 | the same for the element loop |
| TypeConverters.DecodeSuffix | src/main/java/com/efficientlogfileanalysis/index/data/I_TypeConverter.java:22 | the same for every converter |
| TypeConverters.ReadAfterWrite | src/main/java/com/efficientlogfileanalysis/index/data/I_TypeConverter.java:22-30 | write v at p, seek back to p, read: v comes back with its byte count, followed by the old bytes after the write |
| TypeConverters.WriteCountShortfallAll | src/main/java/com/efficientlogfileanalysis/index/data/I_TypeConverter.java:79-114 | the element loop's count falls short of its bytes by 6 per LONG element and by nothing otherwise |
| TypeConverters.WriteCountShortfall | src/main/java/com/efficientlogfileanalysis/index/data/I_TypeConverter.java:27-114 | write returns its byte count minus 6 for every LONG it writes |
| TypeConverters.WriteCountMatchesRead | src/main/java/com/efficientlogfileanalysis/index/data/I_TypeConverter.java:19-27 | without a LONG, write and read report the same count |
| TypeConverters.LongWriteUnderReports | src/main/java/com/efficientlogfileanalysis/index/data/I_TypeConverter.java:111-114 | LONG writes 8 bytes and its read reports 8, but its write returns 2 |
| TypeConverters.CorrectedWriteCount | src/main/java/com/efficientlogfileanalysis/index/data/I_TypeConverter.java:103-114 | the count the documentation promises: exactly the bytes written, so LONG reports 8 |
| TypeConverters.CorrectedCountMatchesRead | src/main/java/com/efficientlogfileanalysis/index/data/I_TypeConverter.java:19-27 | with the corrected count, every converter's write and read report the same count |
| TypeConverters.WriteScalar | src/main/java/com/efficientlogfileanalysis/index/data/I_TypeConverter.java:111-253 | a predefined write: its bytes at the pointer, pointer advanced, the code's count returned |
| TypeConverters.WriteString | src/main/java/com/efficientlogfileanalysis/index/data/I_TypeConverter.java:230-235 | writeInt(length), then the bytes; returns 4 + length |
| TypeConverters.WriteRange | src/main/java/com/efficientlogfileanalysis/index/data/I_TypeConverter.java:250-254 | writeLong(begin), writeLong(end); returns 16 |
| TypeConverters.Write | src/main/java/com/efficientlogfileanalysis/index/data/I_TypeConverter.java:30 | write for any converter emits its encoding at the pointer and returns the reported count |
| TypeConverters.WriteCollection | src/main/java/com/efficientlogfileanalysis/index/data/I_TypeConverter.java:74-85 | writeInt(size), then every element in iteration order; returns 4 plus the element counts |
| TypeConverters.WriteElement | src/main/java/com/efficientlogfileanalysis/index/data/I_TypeConverter.java:79-82 | one iteration of the write loop appends element i after the earlier ones |
| TypeConverters.ReadFixed | src/main/java/com/efficientlogfileanalysis/index/data/I_TypeConverter.java:100-187 | readLong/readInt/readShort/readByte: w big-endian bytes or an EOFException, the pointer after them |
| TypeConverters.ReadScalar | src/main/java/com/efficientlogfileanalysis/index/data/I_TypeConverter.java:99-247 | a predefined read as a function of the bytes after the pointer |
| TypeConverters.ReadString | src/main/java/com/efficientlogfileanalysis/index/data/I_TypeConverter.java:215-220 | readInt(size), then read(byte[size]), which copies what is left and never fails on a short file |
| TypeConverters.ReadRange | src/main/java/com/efficientlogfileanalysis/index/data/I_TypeConverter.java:243-247 | readLong(begin), readLong(end), count 16 |
| TypeConverters.Read | src/main/java/com/efficientlogfileanalysis/index/data/I_TypeConverter.java:22 | read for any converter: the decoded value and count, the pointer left after the bytes consumed |
| TypeConverters.ReadCollection | src/main/java/com/efficientlogfileanalysis/index/data/I_TypeConverter.java:57-71 | readInt(count), then the element loop into a new ArrayList or LinkedHashSet |
| TypeConverters.ReadElements | src/main/java/com/efficientlogfileanalysis/index/data/I_TypeConverter.java:61-68 | n reads with the element converter, each element added to the collection (a set drops repeats) |
| TypeConverters.ReadElement | src/main/java/com/efficientlogfileanalysis/index/data/I_TypeConverter.java:65-67 | one iteration of the read loop; a failed read ends the whole read with that error |
| TypeConverters.DecodeItemsSnoc | src/main/java/com/efficientlogfileanalysis/index/data/I_TypeConverter.java:63-68 | reading one more element after i successful reads |
| TypeConverters.DecodeItemsStopsAtError | src/main/java/com/efficientlogfileanalysis/index/data/I_TypeConverter.java:63-68 | once a read fails, reading more elements fails with the same error |
| TypeConverters.CollectStep | src/main/java/com/efficientlogfileanalysis/index/data/I_TypeConverter.java:33-67 | ArrayList.add appends; LinkedHashSet.add appends only a new element |
| RandomAccess.Overwrite | src/main/java/com/efficientlogfileanalysis/index/data/I_TypeConverter.java:112-233 | the file after a write is at least as long as before and reaches past the written bytes |
| RandomAccess.OverwriteAt | src/main/java/com/efficientlogfileanalysis/index/data/I_TypeConverter.java:112-233 | byte by byte: the written bytes where they were written, old bytes elsewhere, zeros in a gap |
| RandomAccess.OverwriteContents | src/main/java/com/efficientlogfileanalysis/index/data/I_TypeConverter.java:112-233 | the written range holds the written bytes, the old bytes elsewhere are kept, a gap reads as zero |
| RandomAccess.OverwriteTwice | src/main/java/com/efficientlogfileanalysis/index/data/I_TypeConverter.java:232-233 | two consecutive writes are one write of their concatenation |
| RandomAccess.Available | src/main/java/com/efficientlogfileanalysis/index/data/I_TypeConverter.java:217-218 | read(byte[n]) copies n bytes, or as many as remain |
| RandomAccess.Remaining | src/main/java/com/efficientlogfileanalysis/index/data/SerializableMap.java:46 | the bytes from the pointer to the end, none past the end |
| RandomAccess.RemainingAfterWrite | src/main/java/com/efficientlogfileanalysis/index/data/I_TypeConverter.java:22-30 | reading from where bs was written gives bs, then what followed it before |
| RandomAccess.RandomAccessFile.constructor | src/main/java/com/efficientlogfileanalysis/index/data/SerializableMap.java:34 | a file of the given bytes with the pointer at 0 |
| RandomAccess.RandomAccessFile.Seek | src/main/java/com/efficientlogfileanalysis/index/data/SerializableMap.java:86-95 | seek moves the pointer and changes no byte |
| RandomAccess.RandomAccessFile.Write | src/main/java/com/efficientlogfileanalysis/index/data/I_TypeConverter.java:112-233 | the bytes overwrite the file at the pointer, which advances past them |
| RandomAccess.RandomAccessFile.ReadFully | src/main/java/com/efficientlogfileanalysis/index/data/I_TypeConverter.java:100-129 | exactly n bytes and the pointer after them, or an EOFException when fewer remain |
| RandomAccess.RandomAccessFile.ReadAvailable | src/main/java/com/efficientlogfileanalysis/index/data/I_TypeConverter.java:218 | up to n bytes, fewer at the end of the file, never an error |
| JavaNum.BigEndian | src/main/java/com/efficientlogfileanalysis/index/data/I_TypeConverter.java:112-199 | writeLong/writeInt/writeShort/writeByte emit exactly w bytes |
| JavaNum.SignedRange | src/main/java/com/efficientlogfileanalysis/index/data/I_TypeConverter.java:100-187 | a decoded w-byte number lies in the range of the w-byte Java type |
| JavaNum.UnsignedOfBigEndian | src/main/java/com/efficientlogfileanalysis/index/data/I_TypeConverter.java:112-141 | the w written bytes, read unsigned, are the value modulo 256^w |
| JavaNum.BigEndianOfUnsigned | src/main/java/com/efficientlogfileanalysis/index/data/I_TypeConverter.java:100-129 | encoding the unsigned reading of bytes reproduces them |
| JavaNum.SignedOfBigEndian | src/main/java/com/efficientlogfileanalysis/index/data/I_TypeConverter.java:100-112 | readLong(writeLong(v)) == v for every in-range v, and likewise for int, short and byte |
| JavaNum.BigEndianOfSigned | src/main/java/com/efficientlogfileanalysis/index/data/I_TypeConverter.java:100-112 | writing back the value a byte pattern decodes to reproduces the pattern |
| JavaNum.BigEndianMod | src/main/java/com/efficientlogfileanalysis/index/data/I_TypeConverter.java:112 | the written bytes depend only on the value modulo 256^w |
| JavaNum.NarrowMod | src/main/java/com/efficientlogfileanalysis/util/ByteConverter.java:16-17 | a narrowing cast keeps the residue modulo 256^w |
| JavaNum.NarrowCongruent | src/main/java/com/efficientlogfileanalysis/util/ByteConverter.java:16-17 | a narrowing cast depends on nothing but that residue |
| JavaNum.NarrowId | src/main/java/com/efficientlogfileanalysis/util/ByteConverter.java:16-17 | a narrowing cast leaves in-range values alone |
| JavaNum.NatToDecimal | src/main/java/com/efficientlogfileanalysis/data/Settings.java:66 | the decimal text of a non-negative number: at least one character, all digits |
| JavaNum.JavaDigit | src/main/java/com/efficientlogfileanalysis/data/Settings.java:95 | `Character.digit(c, 10)`: a decimal digit of any script in the Basic Multilingual Plane gives its value below ten, and an ASCII digit its usual value |
| JavaNum.ParseLong | src/main/java/com/efficientlogfileanalysis/data/Settings.java:95 | Long.parseLong: an optional sign and digits read by `Character.digit`; a successful result is a long parsed from non-empty text |
| JavaNum.AsciiDigitsAgree | src/main/java/com/efficientlogfileanalysis/data/Settings.java:95 | on ASCII digits `Character.digit` reads the number the ASCII rule reads |
| JavaNum.ScriptDigitsParse | src/main/java/com/efficientlogfileanalysis/data/Settings.java:95 | a number written with the digits of any script parses as the same number in ASCII digits |
| JavaNum.ParseArabicIndic | src/main/java/com/efficientlogfileanalysis/data/Settings.java:95 | the Arabic-Indic digits one and two parse as 12 |
| JavaNum.ParseFullwidth | src/main/java/com/efficientlogfileanalysis/data/Settings.java:95 | a minus and the fullwidth digits one and two parse as -12 |
| JavaNum.ParseSuperscript | src/main/java/com/efficientlogfileanalysis/data/Settings.java:95 | the superscript two is no digit: NumberFormatException |
| JavaNum.UnsignedRoundTrip | src/main/java/com/efficientlogfileanalysis/data/Settings.java:66-95 | a non-negative long printed in decimal parses back to itself |
| JavaNum.NegativeRoundTrip | src/main/java/com/efficientlogfileanalysis/data/Settings.java:66-95 | a minus followed by the decimal text of a number whose negation is a long parses back to that negation |
| JavaNum.DecimalRoundTrip | src/main/java/com/efficientlogfileanalysis/data/Settings.java:66-95 | printing a long in decimal and parsing it back gives the same long |
| Maps.PutAllLookup | src/main/java/com/efficientlogfileanalysis/index/data/SerializableMap.java:59 | after put for each pair, the last pair with key k decides k's value; keys in no pair keep their old entry |
| Maps.PutAllSnoc | src/main/java/com/efficientlogfileanalysis/index/data/SerializableMap.java:59 | putting one more pair updates that key |
| Maps.Swapped | src/main/java/com/efficientlogfileanalysis/data/BiMap.java:29 | map2 receives each pair with key and value exchanged |
| Sequences.Dedup | src/main/java/com/efficientlogfileanalysis/index/data/I_TypeConverter.java:37-67 | adding elements to a LinkedHashSet keeps at most as many as were added |
| Sequences.DedupElements | src/main/java/com/efficientlogfileanalysis/index/data/I_TypeConverter.java:37-67 | the set holds exactly the elements added |
| Sequences.DedupDistinct | src/main/java/com/efficientlogfileanalysis/index/data/I_TypeConverter.java:37-67 | the set holds each element once |
| Sequences.DedupOfDistinct | src/main/java/com/efficientlogfileanalysis/index/data/I_TypeConverter.java:37-67 | adding distinct elements keeps all of them, in order |
| LegacyConverters.DecodeLegacyInteger | src/main/java/com/efficientlogfileanalysis/bl/IndexManager.java:29-31 | read succeeds exactly when four bytes remain; as written, the datum is the constant 4 and the count is the number read |
| LegacyConverters.DecodeLegacyString | src/main/java/com/efficientlogfileanalysis/bl/IndexManager.java:41-45 | read needs the 4-byte size; as written, it returns size zero bytes with count size + 4 and leaves the pointer before the payload |
| LegacyConverters.ReadLegacy | src/main/java/com/efficientlogfileanalysis/bl/IndexManager.java:24 | a legacy read leaves the file unchanged and the pointer after the bytes it consumed |
| LegacyConverters.LegacyIntegerSwapsRoles | src/main/java/com/efficientlogfileanalysis/bl/IndexManager.java:29-36 | an INTEGER written as 7 reads back as the datum 4 with count 7 |
| LegacyConverters.LegacyStringSkipsPayload | src/main/java/com/efficientlogfileanalysis/bl/IndexManager.java:41-54 | the STRING "ab" reads back as two zero bytes, and the payload is left for the next read |
| LegacyConverters.CorrectedLegacyDecode | src/main/java/com/efficientlogfileanalysis/bl/IndexManager.java:24-55 | the intended read: on bytes the shared write produced, it returns the value and its byte count, leaving what follows |
| LegacyConverters.CorrectedDecodesWrites | src/main/java/com/efficientlogfileanalysis/bl/IndexManager.java:24-55 | the intended read is the standard converter's read |
| BlIndexManagers.IndexManager.constructor | src/main/java/com/efficientlogfileanalysis/bl/IndexManager.java:65-71 | an empty map with the two converters |
| BlIndexManagers.IndexManager.ReadIndex | src/main/java/com/efficientlogfileanalysis/bl/IndexManager.java:73-92 | the file is unchanged; each pair read is put in order; indexLength is the total read when the file has room for it; an exception ends the loop |
| BlIndexManagers.IndexManager.WriteIndex | src/main/java/com/efficientlogfileanalysis/bl/IndexManager.java:94-116 | the map is unchanged, the file holds the total and the records in keySet order, indexLength is the new total, and the message is printed exactly when the total changed |
| BlIndexManagers.IndexManager.GetSize | src/main/java/com/efficientlogfileanalysis/bl/IndexManager.java:118-120 | the number of entries |
| BlIndexManagers.IndexManager.HasKey | src/main/java/com/efficientlogfileanalysis/bl/IndexManager.java:122-124 | true exactly when the key is present |
| BlIndexManagers.IndexManager.GetValue | src/main/java/com/efficientlogfileanalysis/bl/IndexManager.java:126-128 | the key's value, or null |
| BlIndexManagers.IndexManager.PutValue | src/main/java/com/efficientlogfileanalysis/bl/IndexManager.java:130-132 | the key is bound to the value; indexLength is unchanged |
| BlIndexManagers.LegacyIntegerFormat | src/main/java/com/efficientlogfileanalysis/bl/IndexManager.java:29-37 | the legacy INTEGER converter writes n as four bytes with count 4, and reads those bytes as the datum 4 with count n |
| BlIndexManagers.LegacyIntegerIndexSwapsRoles | src/main/java/com/efficientlogfileanalysis/bl/IndexManager.java:79-90 | an INTEGER-to-INTEGER index holding 7 -> 9 is written and then read back as 4 -> 4 |
| BlIndexManagers.LegacyIndexReadsOne | src/main/java/com/efficientlogfileanalysis/bl/IndexManager.java:79-90 | the same, for any format that writes and reads 7 and 9 the way the legacy INTEGER converter does |
| LogIndexManagers.IndexManager.constructor | src/main/java/com/efficientlogfileanalysis/log/IndexManager.java:170-176 | stores the converters and calls createIndex: empty maps |
| LogIndexManagers.IndexManager.CreateIndex | src/main/java/com/efficientlogfileanalysis/log/IndexManager.java:181-183 | a new empty BiMap replaces the old one |
| LogIndexManagers.IndexManager.ReadIndex | src/main/java/com/efficientlogfileanalysis/log/IndexManager.java:190-207 | putValue for each pair read, on both maps, in order; indexLength is the total read when the file has room for one; an exception ends the loop |
| LogIndexManagers.IndexManager.WriteIndex | src/main/java/com/efficientlogfileanalysis/log/IndexManager.java:214-236 | the BiMap is unchanged, the file holds the total and the records of map1 in key order, indexLength is the new total, and the message is printed exactly when it changed |
| LogIndexManagers.IndexManager.GetSize | src/main/java/com/efficientlogfileanalysis/log/IndexManager.java:247-249 | the number of keys |
| LogIndexManagers.IndexManager.HasKey | src/main/java/com/efficientlogfileanalysis/log/IndexManager.java:251-253 | true exactly when the BiMap holds the key as a key |
| LogIndexManagers.IndexManager.PutValue | src/main/java/com/efficientlogfileanalysis/log/IndexManager.java:255-257 | putValue on the BiMap |
| LogIndexManagers.IndexManager.PutKey | src/main/java/com/efficientlogfileanalysis/log/IndexManager.java:259-261 | putKey(value, key) binds key to value in both directions |
| NameIdManagers.AddNameKeepsDense | src/main/java/com/efficientlogfileanalysis/log/ModuleIDManager.java:82-93 | addIfAbsent keeps ids dense (exactly 0 .. size-1) and the two maps paired; afterwards the id and the name look each other up; a known name changes nothing and a new one grows the map by one |
| NameIdManagers.AddNameIdempotent | src/main/java/com/efficientlogfileanalysis/log/ModuleIDManager.java:82-93 | a second addIfAbsent of the same name returns the same id and changes nothing |
| NameIdManagers.AddAllDense | src/main/java/com/efficientlogfileanalysis/log/ClassIDManager.java:88-99 | starting from an empty index, names added only through addIfAbsent give dense ids, and the stored names are exactly the names added |
| NameIdManagers.NamesAreValues | src/main/java/com/efficientlogfileanalysis/log/ModuleIDManager.java:72-75 | for inverse maps, the names are exactly the values stored under the ids |
| NameIdManagers.CreationFault | src/main/java/com/efficientlogfileanalysis/log/ModuleIDManager.java:96-110 | the constructor throws only when the stored index exists and readIndex throws something other than an IOException, and then throws exactly that; an EOFException or other IOException is caught |
| NameIdManagers.NameIds.constructor | src/main/java/com/efficientlogfileanalysis/log/ModuleIDManager.java:26-111 | an INTEGER-to-STRING index: empty when the index file is absent, otherwise what readIndex reads from it; the exception it ends with is the one CreationFault gives |
| NameIdManagers.NegativeNameSizeThrows | src/main/java/com/efficientlogfileanalysis/log/IndexManager.java:140-142 | a stored index whose first name has size -1 makes the constructor throw NegativeArraySizeException, with nothing read into the maps |
| NameIdManagers.TruncatedIndexReported | src/main/java/com/efficientlogfileanalysis/log/ModuleIDManager.java:100-109 | a stored index cut off inside a name makes readIndex throw an EOFException, which the constructor catches |
| NameIdManagers.NameIds.Get | src/main/java/com/efficientlogfileanalysis/log/ModuleIDManager.java:55-57 | the name of an id, or null |
| NameIdManagers.NameIds.GetId | src/main/java/com/efficientlogfileanalysis/log/ModuleIDManager.java:64-66 | the id of a name, or null |
| NameIdManagers.NameIds.Names | src/main/java/com/efficientlogfileanalysis/log/ModuleIDManager.java:72-75 | the set of names held |
| NameIdManagers.NameIds.AddIfAbsent | src/main/java/com/efficientlogfileanalysis/log/ModuleIDManager.java:82-93 | the returned id and the new maps are those AddName gives: the known id, or size() as a new id |
| LogLevelIds.NumberLevelsSize | src/main/java/com/efficientlogfileanalysis/log/LogLevelIDManager.java:32-38 | for up to 128 names, every name gets a new id and the ids are exactly 0 .. n-1 |
| LogLevelIds.NumberLevelsAt | src/main/java/com/efficientlogfileanalysis/log/LogLevelIDManager.java:36 | for up to 128 names, the i-th name is stored under id i |
| LogLevelIds.NumberLevelsAsAdded | src/main/java/com/efficientlogfileanalysis/log/LogLevelIDManager.java:32-38 | for at most 128 distinct names, createIndex numbers them exactly as addIfAbsent would |
| LogLevelIds.SearchLevelIds | src/main/java/com/efficientlogfileanalysis/log/LogLevelIDManager.java:59-64 | with the six levels, get((byte) 2) is "WARN" and get("WARN") is 2 |
| LogLevelIds.LevelIds.constructor | src/main/java/com/efficientlogfileanalysis/log/LogLevelIDManager.java:15-38 | a BYTE-to-STRING index whose maps are the numbered level names |
| LogLevelIds.LevelIds.CreateIndex | src/main/java/com/efficientlogfileanalysis/log/LogLevelIDManager.java:32-38 | a new BiMap, then putValue((byte) size(), s) for each level name in order |
| LogLevelIds.LevelIds.Get | src/main/java/com/efficientlogfileanalysis/log/LogLevelIDManager.java:40-42 | the level name of an id, or null |
| LogLevelIds.LevelIds.GetId | src/main/java/com/efficientlogfileanalysis/log/LogLevelIDManager.java:44-46 | the id of a level name, or null |
| LogLevelIndexes.FilePairs | src/main/java/com/efficientlogfileanalysis/log/LogLevelIndexManager.java:43-45 | the pairs createIndex puts: file i with the level bytes found for it |
| LogLevelIndexes.FilePairsLookup | src/main/java/com/efficientlogfileanalysis/log/LogLevelIndexManager.java:43-45 | after createIndex, file i maps to the i-th level list and no other key is stored |
| LogLevelIndexes.FilesWithMembers | src/main/java/com/efficientlogfileanalysis/log/LogLevelIndexManager.java:78-96 | get(byte) answers exactly the files whose level bytes contain the level, each once when keys are visited once |
| LogLevelIndexes.StoredFiles | src/main/java/com/efficientlogfileanalysis/log/LogLevelIndexManager.java:43 | the short loop counter stores files 0..32767 and no more; every file is stored when there are at most 32768 |
| LogLevelIndexes.LevelIndex.constructor | src/main/java/com/efficientlogfileanalysis/log/LogLevelIndexManager.java:15-22 | the constructor runs createIndex twice, with the stored maps and the exception CreateFault gives |
| LogLevelIndexes.LevelIndex.CreateIndex | src/main/java/com/efficientlogfileanalysis/log/LogLevelIndexManager.java:36-51 | a new BiMap holding the stored files' level strings in both directions; with more than 32767 files the wrapped counter makes files.get throw |
| LogLevelIndexes.LevelIndex.GetLevels | src/main/java/com/efficientlogfileanalysis/log/LogLevelIndexManager.java:74-76 | the level bytes of a file; a file without an entry is a NullPointerException |
| LogLevelIndexes.LevelIndex.FilesWithLevel | src/main/java/com/efficientlogfileanalysis/log/LogLevelIndexManager.java:78-96 | a new array holding the file ids whose level bytes contain the level, in key order |
| LogDates.RangeAt | src/main/java/com/efficientlogfileanalysis/log/LogDateManager.java:95-101 | get(short) returns a time range: the stored one, or a new default range |
| LogDates.SettersChangeOneDate | src/main/java/com/efficientlogfileanalysis/log/LogDateManager.java:115-134 | setBeginDate changes only that file's begin and keeps its end (the default end for a new file); setEndDate the other way round; no other file changes |
| LogDates.BeginThenEnd | src/main/java/com/efficientlogfileanalysis/log/LogDateManager.java:115-145 | setting the begin and then the end of a file equals setDateRange for it |
| LogDates.DateRanges.constructor | src/main/java/com/efficientlogfileanalysis/log/LogDateManager.java:57-78 | a SHORT-to-TIME_RANGE index: empty when the file is absent, otherwise what readIndex reads from it |
| LogDates.DateRanges.CreateIndex | src/main/java/com/efficientlogfileanalysis/log/LogDateManager.java:64-78 | a new BiMap, then what readIndex reads from an existing index file; an IOException is swallowed |
| LogDates.DateRanges.Get | src/main/java/com/efficientlogfileanalysis/log/LogDateManager.java:95-101 | the stored range of the file, or a default range |
| LogDates.DateRanges.SetBeginDate | src/main/java/com/efficientlogfileanalysis/log/LogDateManager.java:115-121 | map1 is SetBegin of the old ranges; map2 gains the default range only for a file seen for the first time |
| LogDates.DateRanges.SetEndDate | src/main/java/com/efficientlogfileanalysis/log/LogDateManager.java:128-134 | map1 is SetEnd of the old ranges; map2 as for setBeginDate |
| LogDates.DateRanges.SetDateRange | src/main/java/com/efficientlogfileanalysis/log/LogDateManager.java:142-145 | putValue(fileID, new TimeRange(begin, end)) in both directions |
| LogLevels.IdsDistinct | src/main/java/com/efficientlogfileanalysis/logs/data/LogLevel.java:16-27 | the ids are 1 .. 6, one per level |
| LogLevels.ValueOf | src/main/java/com/efficientlogfileanalysis/logs/data/LogEntry.java:66 | LogLevel.valueOf: a level whose name is the text; any other text is an IllegalArgumentException |
| LogLevels.FromIdInvertsId | src/main/java/com/efficientlogfileanalysis/logs/data/LogLevel.java:29-38 | fromID inverts the id of every level and is null for every id outside 1 .. 6 |
| LogLevels.GetSlow | src/main/java/com/efficientlogfileanalysis/logs/data/LogLevel.java:40-49 | getSlow answers the same as fromID |
| Filters.FilterBuilder.constructor | src/main/java/com/efficientlogfileanalysis/luceneSearch/data/Filter.java:29-39 | the builder's defaults: all dates, no levels, no text filters, file -1 |
| Filters.FilterBuilder.AddLogLevel | src/main/java/com/efficientlogfileanalysis/luceneSearch/data/Filter.java:41-45 | one more id in the level set, nothing else changes |
| Filters.ParseFilterData | src/main/java/com/efficientlogfileanalysis/luceneSearch/data/FilterData.java:27-66 | a null level list is a NullPointerException; otherwise missing dates default to 0 and Long.MAX_VALUE, an empty message is dropped, the other fields are copied, and the file id is -1 |
| Filters.Parse | src/main/java/com/efficientlogfileanalysis/luceneSearch/data/FilterData.java:27-66 | parse fills a new builder field by field, with the result ParseFilterData gives |
| Filters.AddLevels | src/main/java/com/efficientlogfileanalysis/luceneSearch/data/FilterData.java:42 | the stream adds the id of each name in turn: with every name a level the builder gains exactly `LevelIds`, and otherwise the first failing name's exception ends it |
| Filters.LevelIdsAccepted | src/main/java/com/efficientlogfileanalysis/luceneSearch/data/FilterData.java:42 | the names are accepted exactly when each names a level, and otherwise the exception is IllegalArgumentException |
| Filters.LevelIdsMembers | src/main/java/com/efficientlogfileanalysis/luceneSearch/data/FilterData.java:42 | an accepted list gives exactly the ids of the levels it names |
| Filters.LevelIdsStopAtError | src/main/java/com/efficientlogfileanalysis/luceneSearch/data/FilterData.java:42 | once a level name fails, the names after it do not matter |
| Filters.LevelIdsAreNamed | src/main/java/com/efficientlogfileanalysis/luceneSearch/data/FilterData.java:42 | the names are accepted exactly when each names a level (otherwise IllegalArgumentException), and the set is exactly the ids of the named levels |
| Filters.ParsedLevelsAreIds | src/main/java/com/efficientlogfileanalysis/luceneSearch/data/FilterData.java:42 | every id in a parsed filter is between 1 and 6 |
| SearchEntries.SearchEntry.constructor | src/main/java/com/efficientlogfileanalysis/luceneSearch/data/SearchEntry.java:17-25 | no hits, firstDate Long.MAX_VALUE, lastDate 0, the file name kept |
| SearchEntries.SearchEntry.AddLogEntry | src/main/java/com/efficientlogfileanalysis/luceneSearch/data/SearchEntry.java:27-45 | the id is appended; the level is appended only if new; firstDate and lastDate move to a smaller or larger date; the summary stays consistent with the hits |
| SearchEntries.AddTextEntry | src/main/java/com/efficientlogfileanalysis/data/search/SearchEntry.java:27-45 | the string-level version adds the id, level text and time of a parsed entry |
| SearchEntries.LevelsOnce | src/main/java/com/efficientlogfileanalysis/luceneSearch/data/SearchEntry.java:31-34 | the levels are the levels of the hits, each once |
| SearchEntries.FirstDateIsMinimum | src/main/java/com/efficientlogfileanalysis/luceneSearch/data/SearchEntry.java:17-39 | firstDate is the least of Long.MAX_VALUE and the dates added |
| SearchEntries.LastDateIsMaximum | src/main/java/com/efficientlogfileanalysis/luceneSearch/data/SearchEntry.java:18-44 | lastDate is the greatest of 0 and the dates added |
| SearchEntries.DatesOrdered | src/main/java/com/efficientlogfileanalysis/luceneSearch/data/SearchEntry.java:36-44 | once a hit dated within [0, Long.MAX_VALUE] was added, firstDate <= lastDate |
| Text.IndexOf | src/main/java/com/efficientlogfileanalysis/logs/data/LogEntry.java:68-73 | `indexOf(pat, from)` is -1 or an occurrence at or after `from`, and no occurrence lies between `from` and the result |
| Text.ContainsIffFound | src/main/java/com/efficientlogfileanalysis/logs/data/LogEntry.java:89 | `contains` holds exactly when `indexOf` finds something |
| Text.IndexOfFirst | src/main/java/com/efficientlogfileanalysis/logs/data/LogEntry.java:68-71 | the first occurrence at or after `from` is what `indexOf` returns |
| Text.Substring | src/main/java/com/efficientlogfileanalysis/logs/data/LogEntry.java:65-72 | `substring(b, e)` succeeds exactly when 0 <= b <= e <= length, with e - b characters; otherwise it is an index error |
| Text.SubstringFrom | src/main/java/com/efficientlogfileanalysis/logs/data/LogEntry.java:73 | `substring(b)` succeeds exactly when 0 <= b <= length |
| Text.TrimStart | src/main/java/com/efficientlogfileanalysis/logs/data/LogEntry.java:66 | a suffix of the text that does not start with a character <= ' ', and everything dropped is <= ' ' |
| Text.TrimEnd | src/main/java/com/efficientlogfileanalysis/logs/data/LogEntry.java:66 | a prefix of the text that does not end with a character <= ' ', and everything dropped is <= ' ' |
| Text.CharAt | src/main/webapp/js/Cookie.js:27 | the first position at or after `i` holding `c`, or the length; no `c` before it |
| Text.SplitAll | src/main/webapp/js/Cookie.js:27-83 | `split(c)` yields at least one piece |
| Text.SplitJoin | src/main/webapp/js/Cookie.js:27-83 | joining the pieces of `split(c)` with `c` gives the text back, and no piece holds `c` |
| Text.SplitNone | src/main/webapp/js/Cookie.js:58-83 | a text without `c` splits into itself alone |
| Text.SplitFirst | src/main/webapp/js/Cookie.js:27 | the first piece is the text before the first `c` |
| Text.JoinSplit | src/main/webapp/js/Cookie.js:58-83 | pieces without `c`, joined with `c`, split back into the same pieces |
| LogLines.JoinedAppend | src/main/java/com/efficientlogfileanalysis/logs/LogReader.java:105-138 | the file text of two runs of lines is the concatenation of their texts |
| LogLines.NextStart | src/main/java/com/efficientlogfileanalysis/logs/LogReader.java:117-120 | the entry opened at line j ends at the next line that opens an entry (or the end), and no line in between opens one |
| LogLines.GroupsFromFlatten | src/main/java/com/efficientlogfileanalysis/log/LogReader.java:50-69 | grouping lines into entries loses no line and keeps their order |
| LogLines.GroupsFromShape | src/main/java/com/efficientlogfileanalysis/log/LogReader.java:50-69 | every entry is non-empty, only its first line may open an entry, and every entry after the first opens with such a line |
| LogLines.GroupsFromStep | src/main/java/com/efficientlogfileanalysis/log/LogReader.java:52-65 | a line that opens an entry closes the open one, whose lines become one entry |
| LogLines.NextStartIs | src/main/java/com/efficientlogfileanalysis/logs/LogReader.java:117-120 | the end of an entry is the first later line that opens one |
| LogEntries.CharIndex | src/main/java/com/efficientlogfileanalysis/logs/data/LogEntry.java:68-71 | `indexOf` of one character is -1 exactly when the character does not occur at or after `from`, and otherwise its first position there |
| LogEntries.CharAfter | src/main/java/com/efficientlogfileanalysis/logs/data/LogEntry.java:68-71 | the first `c` after a `c`-free run is the character that ends the run |
| LogEntries.FieldsLocated | src/main/java/com/efficientlogfileanalysis/logs/data/LogEntry.java:68-72 | the parse succeeds exactly when some `]` at or after 32 is followed, two or more characters later, by a `:`; the module then is the `]`-free text from 32 and the class name the `:`-free text after `] `; otherwise the parse fails with an index error |
| LogEntries.NoFields | src/main/java/com/efficientlogfileanalysis/logs/data/LogEntry.java:68-72 | without such a `]` and `:` the parse fails with an index error |
| LogEntries.FieldsBetween | src/main/java/com/efficientlogfileanalysis/logs/data/LogEntry.java:68-72 | the module runs from 32 to the first `]`, the class name from two past it to the next `:` |
| LogEntries.FieldsFound | src/main/java/com/efficientlogfileanalysis/logs/data/LogEntry.java:68-73 | a `]`-free module at 32, `] `, a `:`-free class name and a `:` parse into that module and class name, with the message after the first ` - ` following the colon |
| LogEntries.ParseFieldsAt | src/main/java/com/efficientlogfileanalysis/data/LogEntry.java:35-40 | the fields once the `]` and `:` are located, and the message after the next ` - ` |
| LogEntries.ParseLogEntryWithId | src/main/java/com/efficientlogfileanalysis/logs/data/LogEntry.java:76-80 | the two-argument constructor succeeds exactly when the one-argument one does, and the result differs only in the entry id given |
| LogEntries.ParsersAgree | src/main/java/com/efficientlogfileanalysis/logs/data/LogEntry.java:63-74 | both constructors succeed exactly when the line has 31 characters, the date parses and the fields are found (and, for the enum version, the trimmed level names a level); they then agree on date, module, class name and message, and the level text is the enum's name |
| LogEntries.MakeTextEntry | src/main/java/com/efficientlogfileanalysis/data/LogEntry.java:43-50 | the five-argument constructor succeeds exactly when the date text parses, and stores the other fields as given |
| LogEntries.Spaces | src/main/java/com/efficientlogfileanalysis/logs/data/LogEntry.java:118 | n spaces, as the logger pads the level |
| LogEntries.HeadParts | src/main/java/com/efficientlogfileanalysis/logs/data/LogEntry.java:118 | the first 32 characters of a logged line are the 24-character date, then the level padded into characters 24-30 |
| LogEntries.TrimLevelField | src/main/java/com/efficientlogfileanalysis/logs/data/LogEntry.java:66 | the trimmed level field of a logged line is the level's name |
| LogEntries.TrimPadded | src/main/java/com/efficientlogfileanalysis/logs/data/LogEntry.java:66 | `trim` removes the padding spaces around a name |
| LogEntries.TrimStartSpaces | src/main/java/com/efficientlogfileanalysis/logs/data/LogEntry.java:66 | leading spaces are removed up to the first character above ' ' |
| LogEntries.LineParts | src/main/java/com/efficientlogfileanalysis/logs/data/LogEntry.java:118 | a logged line is its head, the module, `] `, the class name and `:? - ` with the message |
| LogEntries.LineShape | src/main/java/com/efficientlogfileanalysis/logs/data/LogEntry.java:118 | where the date, level, module, class name and the rest lie in a logged line |
| LogEntries.LevelField | src/main/java/com/efficientlogfileanalysis/logs/data/LogEntry.java:65-66 | the level field of a logged line parses back into the level |
| LogEntries.NameParses | src/main/java/com/efficientlogfileanalysis/logs/data/LogLevel.java:15-27 | `LogLevel.valueOf` of a level's name is that level |
| LogEntries.LineFields | src/main/java/com/efficientlogfileanalysis/logs/data/LogEntry.java:68-73 | the module, class name and message of a logged line are found again when the module has no `]` and the class name no `:` |
| LogEntries.LineRoundTrip | src/main/java/com/efficientlogfileanalysis/logs/data/LogEntry.java:63-119 | parsing a line written by `toString` gives back its date, level, module, class name and message (module without `]`, class name without `:`), for both constructors |
| LogEntries.SampleLine | src/main/java/com/efficientlogfileanalysis/data/LogEntry.java:72 | the sample line of `main` parses into level INFO, module `NGKP-RCV Chl: 1, Port: 2012` and class `DefaultSocTelegramHandler` |
| LogEntries.MissingSeparator | src/main/java/com/efficientlogfileanalysis/logs/data/LogEntry.java:73 | without ` - ` after the class name, `indexOf` gives -1 and the message is the line from character 2 |
| ExceptionNames.RunEnd | src/main/java/com/efficientlogfileanalysis/logs/data/LogEntry.java:24 | the end of the run of word characters from p: all word characters before, none at it |
| ExceptionNames.HasMatchAt | src/main/java/com/efficientlogfileanalysis/logs/data/LogEntry.java:24-92 | the executable test at p holds exactly when `(\w+Exception\w*)` matches at p |
| ExceptionNames.MatchAtFound | src/main/java/com/efficientlogfileanalysis/logs/data/LogEntry.java:24 | a match at p exists exactly when the next `Exception` after p lies within the word run from p |
| ExceptionNames.FindFromLeftmost | src/main/java/com/efficientlogfileanalysis/logs/data/LogEntry.java:91-94 | the search from p finds nothing exactly when no match starts at or after p, and otherwise the whole word of the leftmost match |
| ExceptionNames.NoNameNoMatch | src/main/java/com/efficientlogfileanalysis/logs/data/LogEntry.java:89 | without `Exception` in the message no match starts anywhere, so the `contains` test drops nothing |
| ExceptionNames.MatchHoldsName | src/main/java/com/efficientlogfileanalysis/logs/data/LogEntry.java:24 | the word a match starts contains `Exception` |
| ExceptionNames.NoMatchWithin | src/main/java/com/efficientlogfileanalysis/logs/data/LogEntry.java:24 | no match starts at p when its word ends before any `E` |
| ExceptionNames.FindExceptionLeftmost | src/main/java/com/efficientlogfileanalysis/logs/data/LogEntry.java:87-99 | `findException` is empty exactly when the message has no match; otherwise it is the whole word of the leftmost match, and that word contains `Exception` |
| ExceptionNames.FoundAt | src/main/java/com/efficientlogfileanalysis/logs/data/LogEntry.java:91-94 | the leftmost match decides the result |
| ExceptionNames.SimpleNameFound | src/main/java/com/efficientlogfileanalysis/logs/data/LogEntry.java:87-99 | in `a FooException b` the name found is `FooException` |
| ExceptionNames.PackageDropped | src/main/java/com/efficientlogfileanalysis/logs/data/LogEntry.java:24-94 | for `java.io.IOException: x` the result is `IOException`, without the package the comment promises |
| ExceptionNames.BareNameNotFound | src/main/java/com/efficientlogfileanalysis/logs/data/LogEntry.java:24 | a bare `Exception` is not found, because `\w+` needs a character before it |
| ExceptionFullNames.FullMatchEnd | src/main/java/com/efficientlogfileanalysis/logs/data/LogEntry.java:27 | where the full pattern ends when tried at p, after p |
| ExceptionFullNames.FullMatchHasSimple | src/main/java/com/efficientlogfileanalysis/logs/data/LogEntry.java:24-27 | a full match ends where a simple match at or after its start ends |
| ExceptionFullNames.FindFullLikeSimple | src/main/java/com/efficientlogfileanalysis/logs/data/LogEntry.java:27 | the full search from p finds something exactly when a simple match starts at or after p, and the text runs from its start to the end of a simple match |
| ExceptionFullNames.FullFindsWhereSimpleFinds | src/main/java/com/efficientlogfileanalysis/logs/data/LogEntry.java:24-27 | both patterns find a name in exactly the same messages |
| ExceptionFullNames.FullMatchSegment | src/main/java/com/efficientlogfileanalysis/logs/data/LogEntry.java:27 | a `name.` segment in front of a full match belongs to the match |
| ExceptionFullNames.FullMatchLast | src/main/java/com/efficientlogfileanalysis/logs/data/LogEntry.java:27 | a simple match whose word is not followed by `.` is the whole full match |
| ExceptionFullNames.RunEndAt | src/main/java/com/efficientlogfileanalysis/logs/data/LogEntry.java:24 | the run from p ends at the first non-word character |
| ExceptionFullNames.KeptName | src/main/java/com/efficientlogfileanalysis/logs/data/LogEntry.java:27 | tried at the class name of `java.io.IOException`, the full pattern ends after it |
| ExceptionFullNames.KeptInnerPackage | src/main/java/com/efficientlogfileanalysis/logs/data/LogEntry.java:27 | tried at `io.`, the full pattern takes that package |
| ExceptionFullNames.KeptPackages | src/main/java/com/efficientlogfileanalysis/logs/data/LogEntry.java:27 | tried at `java.`, the full pattern takes both packages |
| ExceptionFullNames.PackageKept | src/main/java/com/efficientlogfileanalysis/logs/data/LogEntry.java:27-85 | with the full pattern, a message starting `java.io.IOException:` gives `java.io.IOException` |
| EntryScanners.Nuls | src/main/java/com/efficientlogfileanalysis/log/LogReader.java:180-182 | n characters U+0000, what an unread `byte[]` holds |
| EntryScanners.Window | src/main/java/com/efficientlogfileanalysis/log/LogReader.java:180-182 | `read(new byte[n])` at p yields n characters, the file's own where all n are there |
| EntryScanners.ModuleEnd | src/main/java/com/efficientlogfileanalysis/log/LogReader.java:195-209 | the first `]` at or after p, or the end of the file, with no `]` before it |
| EntryScanners.ScanModule | src/main/java/com/efficientlogfileanalysis/log/LogReader.java:193-211 | the module loop keeps the text from p up to the first `]` (or the end) and leaves the pointer past that `]` |
| EntryScanners.ScanClass | src/main/java/com/efficientlogfileanalysis/log/LogReader.java:219-242 | the class loop keeps every character up to the `?` of the first `:?`, or up to the end of the file |
| EntryScanners.DropLast | src/main/java/com/efficientlogfileanalysis/log/LogReader.java:245 | `substring(0, length() - 1)` fails exactly on an empty builder, and otherwise drops only the last character |
| EntryScanners.ReadHead | src/main/java/com/efficientlogfileanalysis/log/LogReader.java:172-248 | `readLogEntryWithoutMessage` (up to the date and level conversions) reads what `HeadAt` describes: 24 date characters, 7 level characters or an EOF error, the module and the class name |
| EntryScanners.HeadAtSteps | src/main/java/com/efficientlogfileanalysis/logs/LogReader.java:245-321 | the head read is the date window, the trimmed level, the module loop's text and the class loop's text without its last character |
| EntryScanners.ClassStart | src/main/java/com/efficientlogfileanalysis/log/LogReader.java:215 | the class loop starts inside the file, after the module's `]` and one skipped byte |
| EntryScanners.ModuleEndAt | src/main/java/com/efficientlogfileanalysis/log/LogReader.java:199-204 | the first `]` from p is where the module loop stops |
| EntryScanners.HeadAtFields | src/main/java/com/efficientlogfileanalysis/log/LogReader.java:172-290 | where the module is closed by `]` and the class name by `:?`, the byte reader finds the date, trimmed level, module and class name at their places, and `readLogLevelOfEntry` the same level |
| EntryScanners.ClassTextAt | src/main/java/com/efficientlogfileanalysis/log/LogReader.java:225-241 | a `:`-free class name closed by `:?` is what the class loop keeps, with the `:` |
| EntryScanners.HeadOfLine | src/main/java/com/efficientlogfileanalysis/log/LogReader.java:172-290 | on an entry in the logger's layout the byte reader finds the date text, level, module and class name the line parser finds |
| EntryScanners.Shifted | src/main/java/com/efficientlogfileanalysis/log/LogReader.java:131 | the layout of an entry holds wherever in the file it lies after `seek` |
| ReadFile.CharReader.constructor | src/main/java/com/efficientlogfileanalysis/test/ReadFile.java:50 | a reader over a text, at its start |
| ReadFile.CharReader.Read | src/main/java/com/efficientlogfileanalysis/test/ReadFile.java:36 | `read()` returns the next character and advances by one, or -1 (None) at the end without moving |
| ReadFile.ReadLine | src/main/java/com/efficientlogfileanalysis/test/ReadFile.java:32-46 | `readLine` returns the characters up to and including the first newline, or the rest, or null when nothing is left, and advances past them |
| ReadFile.LineIsPrefix | src/main/java/com/efficientlogfileanalysis/test/ReadFile.java:36-43 | the line is a prefix of what is left, and not empty when something is left |
| ReadFile.NewlineOnlyAtEnd | src/main/java/com/efficientlogfileanalysis/test/ReadFile.java:41-42 | a line holds a newline only as its last character, and ends with one exactly when the text holds one |
| ReadFile.LineWithoutNewline | src/main/java/com/efficientlogfileanalysis/test/ReadFile.java:44-45 | without a newline the line is the whole rest |
| ReadFile.LineAtFirstNewline | src/main/java/com/efficientlogfileanalysis/test/ReadFile.java:41-42 | with one, the line ends at the first |
| ReadFile.LinesReassemble | src/main/java/com/efficientlogfileanalysis/test/ReadFile.java:48-53 | the successive lines put together give the text back, and none is empty |
| ReadFile.ReadLines | src/main/java/com/efficientlogfileanalysis/test/ReadFile.java:48-53 | `readBufferedReaderOwn` reads to the end, and its calls return the successive lines, which together are the text |
| CreateIndexReader.DropPending | src/main/java/com/efficientlogfileanalysis/log/CreateIndex.java:49-68 | after the last line, the entries closed so far are the result and the pending text is dropped |
| CreateIndexReader.FailEntry | src/main/java/com/efficientlogfileanalysis/log/CreateIndex.java:51-56 | an entry that does not parse while another is pending fails the file |
| CreateIndexReader.CloseEntryAtCount | src/main/java/com/efficientlogfileanalysis/log/CreateIndex.java:56-64 | a parsed entry is placed at the count so far, which then grows by the entry's text and one newline |
| CreateIndexReader.ReadLine | src/main/java/com/efficientlogfileanalysis/log/CreateIndex.java:51-64 | one round of the loop keeps the scan invariant: the line joins the pending text, or the pending entry is placed at the count so far; a parse error gives the file's result |
| CreateIndexReader.ReadEntries | src/main/java/com/efficientlogfileanalysis/log/CreateIndex.java:41-66 | the loop over one file computes `CreateSpec`: every entry but the last, at byte counts starting at 0 |
| CreateIndexReader.ReadAllLogEntries | src/main/java/com/efficientlogfileanalysis/log/CreateIndex.java:35-72 | `readAllLogEntries` reads the folder's files in order, with a `short` file index |
| CreateIndexReader.CreateAgreesWithRead | src/main/java/com/efficientlogfileanalysis/log/CreateIndex.java:45-66 | on a non-empty file it reads the entries of `readAllLogFiles` but the last, each one after the first placed one byte further on |
| CreateIndexReader.SingleEntryDropped | src/main/java/com/efficientlogfileanalysis/log/CreateIndex.java:49-68 | a file with a single entry yields none, where `readAllLogFiles` yields that entry at offset 0 |
| LogPackageReader.ParseAllPrefix | src/main/java/com/efficientlogfileanalysis/log/LogReader.java:42-69 | the entries parsed before n do not depend on the groups after |
| LogPackageReader.ParseAtPrefix | src/main/java/com/efficientlogfileanalysis/log/LogReader.java:58 | one entry's parse does not depend on the groups after it |
| LogPackageReader.ExtendPending | src/main/java/com/efficientlogfileanalysis/log/LogReader.java:52-55 | a continuation line joins the pending text followed by a newline |
| LogPackageReader.JoinedSnoc | src/main/java/com/efficientlogfileanalysis/log/LogReader.java:54 | one more line adds that line and a newline to the file text |
| LogPackageReader.PendingBytes | src/main/java/com/efficientlogfileanalysis/log/LogReader.java:59-62 | the pending text with the newline the reader adds counts the entry's bytes |
| LogPackageReader.JoinedBytes | src/main/java/com/efficientlogfileanalysis/log/LogReader.java:62 | the file text of some lines has one byte per character and one per newline |
| LogPackageReader.BytesCons | src/main/java/com/efficientlogfileanalysis/log/LogReader.java:62 | the bytes of a line in front of others are its length plus one plus theirs |
| LogPackageReader.CloseGroup | src/main/java/com/efficientlogfileanalysis/log/LogReader.java:52-64 | a line that opens an entry closes the pending group, and the last line closes the last one |
| LogPackageReader.CloseEntry | src/main/java/com/efficientlogfileanalysis/log/LogReader.java:58-65 | the pending entry, parsed, is placed at the bytes counted so far (0 for the first) and the count grows by its bytes; a parse failure fails the read |
| LogPackageReader.JoinLine | src/main/java/com/efficientlogfileanalysis/log/LogReader.java:52-55 | a line that does not open an entry, or any line while nothing is pending, joins the pending text and the count stays |
| LogPackageReader.CloseLine | src/main/java/com/efficientlogfileanalysis/log/LogReader.java:58-65 | a line that opens an entry while one is pending: the pending entry is parsed at the count (0 while that is -1) and the line becomes the pending text |
| LogPackageReader.OpenGroup | src/main/java/com/efficientlogfileanalysis/log/LogReader.java:64 | the line at i becomes the new pending entry after the closed groups |
| LogPackageReader.FailLine | src/main/java/com/efficientlogfileanalysis/log/LogReader.java:58 | when the pending entry does not parse, the read of the groups fails there |
| LogPackageReader.FailStops | src/main/java/com/efficientlogfileanalysis/log/LogReader.java:35-36 | once an entry fails, later entries do not change the failure |
| LogPackageReader.FinishLines | src/main/java/com/efficientlogfileanalysis/log/LogReader.java:69 | after the last line the pending text is parsed and placed, and that ends the file |
| LogPackageReader.FinishGroups | src/main/java/com/efficientlogfileanalysis/log/LogReader.java:69 | the last pending entry closes the list of groups |
| LogPackageReader.ReadLogFile | src/main/java/com/efficientlogfileanalysis/log/LogReader.java:42-69 | the loop over one file computes `ReadSpec`: every entry, the pending one included, parsed and placed at its byte count |
| LogPackageReader.ParseAllOk | src/main/java/com/efficientlogfileanalysis/log/LogReader.java:58-65 | the read of the groups succeeds exactly when every entry parses, and then gives one entry per group, in order |
| LogPackageReader.FlattenBytes | src/main/java/com/efficientlogfileanalysis/log/LogReader.java:62 | the file text of all groups has as many bytes as the groups together |
| LogPackageReader.GroupBytesAppend | src/main/java/com/efficientlogfileanalysis/log/LogReader.java:62 | the bytes of two runs of groups add up |
| LogPackageReader.OffsetsLocateEntries | src/main/java/com/efficientlogfileanalysis/log/LogReader.java:58-62 | the offset given to entry k is where its lines lie in the file, and each entry starts where the one before it ends |
| LogPackageReader.EntryAt | src/main/java/com/efficientlogfileanalysis/log/LogReader.java:58-62 | the same for one entry k |
| LogPackageReader.BytesPositive | src/main/java/com/efficientlogfileanalysis/log/LogReader.java:61-62 | a non-empty entry takes at least one byte, its newline |
| LogPackageReader.ParsedAtOffsets | src/main/java/com/efficientlogfileanalysis/log/LogReader.java:58-69 | parsing the groups succeeds exactly when every entry's text parses, and then gives one entry per group at its offset, with strictly increasing offsets |
| LogPackageReader.ReadEntriesAtOffsets | src/main/java/com/efficientlogfileanalysis/log/LogReader.java:42-69 | a non-empty file's groups hold all its lines, none is empty, and the read is the parse of those groups |
| LogPackageReader.OffsetsIncrease | src/main/java/com/efficientlogfileanalysis/log/LogReader.java:58-62 | increasing offsets from one entry to the next increase over any distance |
| LogPackageReader.EmptyFileFails | src/main/java/com/efficientlogfileanalysis/log/LogReader.java:44-69 | an empty file is one empty entry, which the parser rejects with an index error |
| LogPackageReader.ReadAllLogFiles | src/main/java/com/efficientlogfileanalysis/log/LogReader.java:36-75 | `readAllLogFiles` reads the files in the order listed, each with the loop above, indexing with a `short` |
| LogPackageReader.ErrStops | src/main/java/com/efficientlogfileanalysis/log/LogReader.java:35-36 | once one file fails, the whole read fails with its error |
| LogPackageReader.ReadFilesOk | src/main/java/com/efficientlogfileanalysis/log/LogReader.java:36-75 | the folder reads exactly when it has at most 32768 files and each file reads, and file i then holds the entries read from it |
| LogPackageReader.ReadLogEntryWithoutMessage | src/main/java/com/efficientlogfileanalysis/log/LogReader.java:172-248 | `readLogEntryWithoutMessage` converts the date window and the level and keeps the module and class name of the byte reader, with the entry id given |
| LogPackageReader.ReadsAgreeWithParse | src/main/java/com/efficientlogfileanalysis/log/LogReader.java:144-290 | on an entry in the logger's layout, the random-access read at its offset gives what parsing its line gives, without the message, and `readLogLevelOfEntry` the same level |
| LogsReader.StringContainsOnly | src/main/java/com/efficientlogfileanalysis/logs/LogReader.java:67-82 | `stringContainsOnly` as written is true exactly when the string is empty or its first character is one of the values |
| LogsReader.ContainsOnly | src/main/java/com/efficientlogfileanalysis/logs/LogReader.java:67-82 | the loop reading `charAt(i)` is true exactly when every character is one of the values |
| LogsReader.IndentedLineCountsAsBlank | src/main/java/com/efficientlogfileanalysis/logs/LogReader.java:111 | the line " x" counts as blank although it holds an `x` |
| LogsReader.SingleFile | src/main/java/com/efficientlogfileanalysis/logs/LogReader.java:91-149 | a successful read accounts for no more than the file size from the offset, succeeds exactly when the loop does, returns the loop's entries, and its count is the loop's `bytesRead - offset` when that is within the file |
| LogsReader.PrependNothing | src/main/java/com/efficientlogfileanalysis/logs/LogReader.java:126 | putting no entries in front changes nothing |
| LogsReader.PrependTwice | src/main/java/com/efficientlogfileanalysis/logs/LogReader.java:126 | entries put in front twice come in order |
| LogsReader.JoinedEmpty | src/main/java/com/efficientlogfileanalysis/logs/LogReader.java:108 | no lines make no text, and any line adds at least its newline |
| LogsReader.JoinedStep | src/main/java/com/efficientlogfileanalysis/logs/LogReader.java:108-118 | one more line joins the entry's text as it lies in the file |
| LogsReader.ReadSingleFile | src/main/java/com/efficientlogfileanalysis/logs/LogReader.java:91-149 | the loop of `readSingleFile` computes `SingleFile`: blank-looking lines skipped while no entry is open, lines grouped at date lines, each entry parsed at `bytesRead`, a caught failure ending the read, the count clamped to the file size |
| LogsReader.JoinedSplit | src/main/java/com/efficientlogfileanalysis/logs/LogReader.java:118 | the text of lines a to c is that of a to b followed by that of b to c |
| LogsReader.ScanAccounts | src/main/java/com/efficientlogfileanalysis/logs/LogReader.java:111-137 | `bytesRead` accounts for exactly the lines before the entry that was not taken (all lines when none failed), blank ones included |
| LogsReader.ScanIds | src/main/java/com/efficientlogfileanalysis/logs/LogReader.java:100-129 | each entry id lies between the count the loop started from and the one it ended with, and the ids strictly increase |
| LogsReader.StartNotBlank | src/main/java/com/efficientlogfileanalysis/logs/LogReader.java:28-111 | a line that opens an entry begins with a digit, so it never looks blank |
| LogsReader.EntryFromEarlier | src/main/java/com/efficientlogfileanalysis/logs/LogReader.java:111-120 | an entry found from line i on is found from an earlier line whose lines are counted |
| LogsReader.LocatedPastBlank | src/main/java/com/efficientlogfileanalysis/logs/LogReader.java:111-114 | a blank-looking line before any entry is counted and what follows is found after it |
| LogsReader.EntryAtStart | src/main/java/com/efficientlogfileanalysis/logs/LogReader.java:125 | a whole entry at line g parses at the count of g |
| LogsReader.LocatedPastEntry | src/main/java/com/efficientlogfileanalysis/logs/LogReader.java:125-132 | a whole entry taken at the count, then what is found after it |
| LogsReader.ScanLocates | src/main/java/com/efficientlogfileanalysis/logs/LogReader.java:105-138 | every entry read is the parse of a whole entry's text, with the byte offset of its first line as id |
| LogsReader.OpenAgain | src/main/java/com/efficientlogfileanalysis/logs/LogReader.java:117-120 | read from its first line, an open entry is taken up again line by line |
| LogsReader.ShiftedOpen | src/main/java/com/efficientlogfileanalysis/logs/LogReader.java:96 | the open entry's lines, read again from its first line, are the same lines |
| LogsReader.ScanResumes | src/main/java/com/efficientlogfileanalysis/logs/LogReader.java:122-137 | when the loop stops on an entry that fails, reading again from that entry's first line stops at once on it and takes nothing |
| LogsReader.LeadingBlanksSkipped | src/main/java/com/efficientlogfileanalysis/logs/LogReader.java:111-114 | blank-looking lines before the first entry are counted and dropped |
| LogsReader.EntryIdsAreOffsets | src/main/java/com/efficientlogfileanalysis/logs/LogReader.java:100-129 | the entries of `readSingleFile` are whole entries parsed at the byte offset of their first line, at least `offset`, with strictly increasing ids |
| LogsReader.ResumeAtFailedEntry | src/main/java/com/efficientlogfileanalysis/logs/LogReader.java:122-148 | the count covers exactly the lines before the failed entry (all when none failed), clamped to the file size, and reading again from `offset + count` stops at once on the failed entry |
| LogsReader.LineWithNewline | src/main/java/com/efficientlogfileanalysis/logs/LogReader.java:108-125 | a logged line with the newline the loop adds back is not blank and parses to its fields, its message keeping the newline |
| LogsReader.LineEnd | src/main/java/com/efficientlogfileanalysis/logs/LogReader.java:118 | text added to a line's message is added to the line, which begins with its date |
| LogsReader.OneEntryLine | src/main/java/com/efficientlogfileanalysis/logs/LogReader.java:105-138 | a file of one non-blank line that parses reads as that entry at `offset` |
| LogsReader.OneLineScan | src/main/java/com/efficientlogfileanalysis/logs/LogReader.java:122-137 | a single non-blank line is the file's one entry, or a caught failure that takes nothing, or an escaping error |
| LogsReader.BlankFile | src/main/java/com/efficientlogfileanalysis/logs/LogReader.java:111-148 | an empty or all-blank file reads no entries and counts its bytes, clamped to the file size |
| LogsReader.ReadLogEntryWithoutMessage | src/main/java/com/efficientlogfileanalysis/logs/LogReader.java:245-321 | `readLogEntryWithoutMessage` computes `EntryWithoutMessageAt`: date, level (`LogLevel.valueOf`), module and class name at the offset, with the offset as id |
| LogsReader.LevelReadsAgree | src/main/java/com/efficientlogfileanalysis/logs/LogReader.java:245-321 | where `readLogEntryWithoutMessage` succeeds, `readLogLevelOfEntry` at the same offset gives the same level |
| LogsReader.ReadsAgreeWithParse | src/main/java/com/efficientlogfileanalysis/logs/LogReader.java:245-321 | on an entry in the logger's layout the reads at its offset give what parsing its line gives, without the message, with the offset as id |
| LogsReader.NearbyStart | src/main/java/com/efficientlogfileanalysis/logs/LogReader.java:336-340 | `getNearbyEntries` starts at `byteRange` before the entry, or at 0 when that is negative |
| LogsReader.LastEntryFrom | src/main/java/com/efficientlogfileanalysis/logs/LogReader.java:425-444 | the backward search from p gives the position after the last `\n` at or before p followed by a date, or 0 when none is |
| LogsReader.GetIdOfLastLogEntry | src/main/java/com/efficientlogfileanalysis/logs/LogReader.java:421-445 | `getIDOfLastLogEntry` returns the position after the last `\n` whose next 24 bytes begin with a date, or 0 |
| LogsReader.WindowDate | src/main/java/com/efficientlogfileanalysis/logs/LogReader.java:432-438 | the 24-byte window at q begins with a date exactly when the text from q does |
| LogsReader.LastLineIsLastEntry | src/main/java/com/efficientlogfileanalysis/logs/LogReader.java:421-445 | when the file's last line begins with a date and follows a newline, the last entry's id is where that line begins |
| IndexCreation.AddIfAbsent | src/main/java/com/efficientlogfileanalysis/index/IndexCreator.java:99-153 | `addIfAbsent(size(), name)`: afterwards the name is known; a known name changes nothing; a new name gets the current size as id; known names keep their ids |
| IndexCreation.AddIfAbsentKeepsDense | src/main/java/com/efficientlogfileanalysis/index/IndexCreator.java:99-154 | adding a name keeps the ids 0..n-1 dense, the name and its id look each other up, a new name adds one id, and old ids keep their names |
| IndexCreation.IndexEntriesSnoc | src/main/java/com/efficientlogfileanalysis/index/IndexCreator.java:130-132 | indexing one more entry indexes it after the others |
| IndexCreation.RegisterFile | src/main/java/com/efficientlogfileanalysis/index/IndexCreator.java:99-102 | after registering a file, its byte counter exists |
| IndexCreation.Index.constructor | src/main/java/com/efficientlogfileanalysis/index/Index.java:36-57 | a new index has every manager empty |
| IndexCreation.IndexCreator.constructor | src/main/java/com/efficientlogfileanalysis/index/IndexCreator.java:42-58 | a creator over the given index whose writer has received no document |
| IndexCreation.IndexCreator.IndexLogEntry | src/main/java/com/efficientlogfileanalysis/index/IndexCreator.java:135-185 | `indexLogEntry` leaves the index as `IndexEntry` describes: the level added to the file's set, ids for class, module and exception, one document appended |
| IndexCreation.IndexCreator.IndexSingleLogFile | src/main/java/com/efficientlogfileanalysis/index/IndexCreator.java:96-133 | `indexSingleLogFile` leaves the index, and ends with the exception, that `IndexFile` describes |
| IndexCreation.IndexCreator.RecordRead | src/main/java/com/efficientlogfileanalysis/index/IndexCreator.java:114-128 | the counter advances by the bytes read and the file's range is set as `AfterRead` describes |
| IndexCreation.IndexCreator.IndexAll | src/main/java/com/efficientlogfileanalysis/index/IndexCreator.java:130-132 | the loop indexes the entries one after another |
| IndexCreation.IndexCreator.RepeatablyTryAndUpdateFile | src/main/java/com/efficientlogfileanalysis/index/IndexCreator.java:75-94 | the retry loop leaves the index, and ends with the exception, that `Attempts` describes |
| IndexCreation.AttemptStep | src/main/java/com/efficientlogfileanalysis/index/IndexCreator.java:80-92 | after a `FileSystemException` the attempts go on; any other ending is the last attempt |
| IndexCreation.RetryBound | src/main/java/com/efficientlogfileanalysis/index/IndexCreator.java:77-93 | at most 100 attempts call `indexSingleLogFile`, and a `FileSystemException` never escapes |
| IndexCreation.GrowsTransitive | src/main/java/com/efficientlogfileanalysis/index/IndexCreator.java:99-153 | what was registered stays registered under the same id, across any number of calls |
| IndexCreation.IndexEntryKeeps | src/main/java/com/efficientlogfileanalysis/index/IndexCreator.java:135-185 | `indexLogEntry` for a registered file keeps the index consistent, and the document's ids name the entry's class, module and exception (present exactly when `findException` finds one) |
| IndexCreation.IndexEntriesKeep | src/main/java/com/efficientlogfileanalysis/index/IndexCreator.java:130-132 | indexing a batch keeps the index consistent and changes no file record but the level sets |
| IndexCreation.IndexEntryAppends | src/main/java/com/efficientlogfileanalysis/index/IndexCreator.java:139-184 | `indexLogEntry` appends one document for the entry and adds its level to the file's set |
| IndexCreation.IndexEntriesDocuments | src/main/java/com/efficientlogfileanalysis/index/IndexCreator.java:130-170 | a batch appends one document per entry, in order, each with its entry's id, date, level and the file's id |
| IndexCreation.IndexEntriesLevels | src/main/java/com/efficientlogfileanalysis/index/IndexCreator.java:139-140 | the file's level set gains exactly the levels of the batch, and no other file's set changes |
| IndexCreation.LevelInSnoc | src/main/java/com/efficientlogfileanalysis/index/IndexCreator.java:140 | the levels of a batch with one more entry are those of the batch and that entry's |
| IndexCreation.RegisterFileIds | src/main/java/com/efficientlogfileanalysis/index/IndexCreator.java:99-102 | registering keeps the index consistent; a known file keeps its id, a new one gets the next id, its counter exists and starts at 0, and no other record changes |
| IndexCreation.AfterReadKeeps | src/main/java/com/efficientlogfileanalysis/index/IndexCreator.java:114-128 | recording a read keeps the index consistent and touches only the file's counter and range |
| IndexCreation.IndexFileConsistent | src/main/java/com/efficientlogfileanalysis/index/IndexCreator.java:96-133 | `indexSingleLogFile` keeps the index consistent, with the id registering gives |
| IndexCreation.IndexFileBookkeeping | src/main/java/com/efficientlogfileanalysis/index/IndexCreator.java:103-128 | the counter advances by exactly the bytes read when entries were read; the range then ends at the last entry's date and begins at the first's unless the file had a range; a failed or empty read changes only the id and the 0 counter |
| LuceneSearch.ExcludedLevels | src/main/java/com/efficientlogfileanalysis/luceneSearch/Search.java:92-104 | the level loop adds a MUST_NOT clause for each level, in `LogLevel.values()` order, whose id is not in the set |
| LuceneSearch.ParseFilter | src/main/java/com/efficientlogfileanalysis/luceneSearch/Search.java:78-196 | `parseFilter` fails with a NullPointerException exactly when a module, class or exception name given has no id (`Index.getModuleID` and the like unbox a null), and otherwise adds the clauses `FilterClauses` lists, in order |
| LuceneSearch.LevelClausesExclude | src/main/java/com/efficientlogfileanalysis/luceneSearch/Search.java:95-103 | a level clause is exactly a MUST_NOT on a level that is not in the set |
| LuceneSearch.LevelClausesOnLevels | src/main/java/com/efficientlogfileanalysis/luceneSearch/Search.java:99-102 | every level clause is a MUST_NOT on a level id |
| LuceneSearch.DateClause | src/main/java/com/efficientlogfileanalysis/luceneSearch/Search.java:85-90 | the query opens with a MUST over [beginDate, endDate] and holds no other date clause |
| LuceneSearch.LevelClausesOfFilter | src/main/java/com/efficientlogfileanalysis/luceneSearch/Search.java:92-104 | a non-empty level set excludes exactly the levels not in it; an empty one adds no level clause |
| LuceneSearch.OptionalClauses | src/main/java/com/efficientlogfileanalysis/luceneSearch/Search.java:106-151 | a module, class or exception name, a file id other than -1 and a message each add one MUST clause exactly when given, and no other clause is on that field; apart from the level exclusions every clause is a MUST |
| LuceneSearch.GetResultsFromSearch | src/main/java/com/efficientlogfileanalysis/luceneSearch/Search.java:204-229 | `getResultsFromSearch` makes one fresh entry per file among the hits, named after the file and holding that file's hits in search order, no entry shared by two files |
| LuceneSearch.AddHit | src/main/java/com/efficientlogfileanalysis/luceneSearch/Search.java:212-225 | one turn of the loop files the hit under its own file's entry |
| LuceneSearch.AddToEntry | src/main/java/com/efficientlogfileanalysis/luceneSearch/Search.java:224 | `addLogEntry` adds the hit's level and date to its file's entry and changes no other entry |
| LuceneSearch.EntryFor | src/main/java/com/efficientlogfileanalysis/luceneSearch/Search.java:223-224 | `putIfAbsent` then `get`: a known file keeps its entry, a new file gets a fresh empty entry named after it, and the other files keep theirs |
| LuceneSearch.FilesStep | src/main/java/com/efficientlogfileanalysis/luceneSearch/Search.java:212-223 | the files among the hits grow by the file of each hit |
| LuceneSearch.HitsOfFileStep | src/main/java/com/efficientlogfileanalysis/luceneSearch/Search.java:224 | adding a hit extends the hits of its own file and of no other |
| LuceneSearch.NoHitsOfOtherFile | src/main/java/com/efficientlogfileanalysis/luceneSearch/Search.java:212-225 | a file without hits gets nothing |
| LuceneSearch.HitIndicesStep | src/main/java/com/efficientlogfileanalysis/luceneSearch/Search.java:212 | the positions of a file's hits grow by the last position when it belongs to the file |
| LuceneSearch.HitsPartitioned | src/main/java/com/efficientlogfileanalysis/luceneSearch/Search.java:204-229 | a file's entry holds one hit per position of the result that belongs to it, and a file has hits exactly when it is among the hits' files |
| LuceneSearch.GetEntryIdsFromResult | src/main/java/com/efficientlogfileanalysis/luceneSearch/Search.java:248-258 | the stored `logEntryID` of each hit, in order |
| LuceneSearch.PageOf | src/main/java/com/efficientlogfileanalysis/luceneSearch/Search.java:401-420 | the page's ids, one per hit in order, and the cursor: null exactly for an empty page, else the last hit, whose id is the page's last id |
| StatisticResources.GapCoversSpan | src/main/java/com/efficientlogfileanalysis/rest/StatisticResource.java:39-41 | `gapTime` is the span's twelfth truncated toward zero: twelve gaps fall short of a non-negative span by less than 12 ms, and of a negative span likewise on the other side |
| StatisticResources.LocalTimeOf | src/main/java/com/efficientlogfileanalysis/rest/StatisticResource.java:49-61 | the hour, minute and second of a local date-time are within 0-23, 0-59 and 0-59 |
| StatisticResources.LocalTimeIsSecondOfDay | src/main/java/com/efficientlogfileanalysis/rest/StatisticResource.java:49-61 | the hour, minute and second are the whole seconds elapsed since local midnight |
| StatisticResources.TwoDigitsReadBack | src/main/java/com/efficientlogfileanalysis/rest/StatisticResource.java:53-61 | a number below 100 padded with `"0"` is two digits that read back as it |
| StatisticResources.LabelReadsBack | src/main/java/com/efficientlogfileanalysis/rest/StatisticResource.java:53-63 | a label is `HH:mm:ss` whose three fields read back as the local hour, minute and second |
| StatisticResources.TabulateAt | src/main/java/com/efficientlogfileanalysis/rest/StatisticResource.java:47-64 | after n puts the keys are exactly 1..n, each with its label |
| StatisticResources.LabelsOfIntervals | src/main/java/com/efficientlogfileanalysis/rest/StatisticResource.java:47-64 | after n rounds, label k (1..n) is the local time of `start + k * gap`, and no other key is present |
| StatisticResources.LevelNamesDistinct | src/main/java/com/efficientlogfileanalysis/rest/StatisticResource.java:74-79 | the six level names differ |
| StatisticResources.SumOverBump | src/main/java/com/efficientlogfileanalysis/rest/StatisticResource.java:126-130 | raising one count raises the total over distinct names by one when the level is among them |
| StatisticResources.InitialLevels | src/main/java/com/efficientlogfileanalysis/rest/StatisticResource.java:68-89 | `initializeMaps` puts exactly the six levels, each with count 0 |
| StatisticResources.StartWellFormed | src/main/java/com/efficientlogfileanalysis/rest/StatisticResource.java:34-89 | after `initializeMaps` and `setTimeSpan` both maps hold the same levels with twelve intervals each, and the boundary ends interval `counter` |
| StatisticResources.RecordKeeps | src/main/java/com/efficientlogfileanalysis/rest/StatisticResource.java:108-153 | one round succeeds exactly when the level is known (else a NullPointerException), then raises that level's count by one and no other's, moves the counter by at most one (and the boundary by one gap with it), and keeps the other levels' intervals |
| StatisticResources.ProcessStopsAtError | src/main/java/com/efficientlogfileanalysis/rest/StatisticResource.java:108-113 | once a round throws, the later entries are never looked at |
| StatisticResources.StartCounted | src/main/java/com/efficientlogfileanalysis/rest/StatisticResource.java:96-97 | the state before any entry counts no entry |
| StatisticResources.KnownLevelsAll | src/main/java/com/efficientlogfileanalysis/rest/StatisticResource.java:127 | every entry's level is one of the six exactly when each is |
| StatisticResources.ProcessShaped | src/main/java/com/efficientlogfileanalysis/rest/StatisticResource.java:108-113 | counting throws exactly when some entry's level is not one of the six, and otherwise keeps the shape |
| StatisticResources.ProcessTallied | src/main/java/com/efficientlogfileanalysis/rest/StatisticResource.java:108-130 | counting from a state that counts nothing gives each level the number of its entries, with counts summing to the number of entries |
| StatisticResources.ProcessCounts | src/main/java/com/efficientlogfileanalysis/rest/StatisticResource.java:94-124 | `sortedStatistics` throws exactly when an entry's level is not one of the six; otherwise each level's count is its number of entries, the counts add up to the number of entries, and no level has more entries in its intervals than its count |
| StatisticResources.CounterNeverDecreases | src/main/java/com/efficientlogfileanalysis/rest/StatisticResource.java:132-153 | the interval counter never goes back |
| StatisticResources.StatisticResource.constructor | src/main/java/com/efficientlogfileanalysis/rest/StatisticResource.java:20-32 | a new resource: empty maps and list, counter 0 |
| StatisticResources.StatisticResource.InitializeMaps | src/main/java/com/efficientlogfileanalysis/rest/StatisticResource.java:68-89 | both maps hold the six levels at 0 (and twelve zeros), the list is empty, the counter 0; nothing else changes |
| StatisticResources.StatisticResource.SetTimeSpan | src/main/java/com/efficientlogfileanalysis/rest/StatisticResource.java:34-66 | the gap is the span's twelfth, the first boundary one gap after the start, labels 1..12 are put, and the counts stay |
| StatisticResources.StatisticResource.PutLabel | src/main/java/com/efficientlogfileanalysis/rest/StatisticResource.java:49-63 | round j puts label j+1, the local time of the end of interval j+1 |
| StatisticResources.StatisticResource.AddLogLevelData | src/main/java/com/efficientlogfileanalysis/rest/StatisticResource.java:126-130 | one more entry of the level, or a NullPointerException for a level not in the map, with nothing changed |
| StatisticResources.StatisticResource.AddLogLevelDataDependingOnTime | src/main/java/com/efficientlogfileanalysis/rest/StatisticResource.java:132-153 | the interval placement as written, as `PlaceByTime` describes |
| StatisticResources.StatisticResource.Increment | src/main/java/com/efficientlogfileanalysis/rest/StatisticResource.java:136-148 | `value[counter]++` on the level's intervals |
| StatisticResources.StatisticResource.CountEntry | src/main/java/com/efficientlogfileanalysis/rest/StatisticResource.java:110-112 | one round of the loop |
| StatisticResources.StatisticResource.Reset | src/main/java/com/efficientlogfileanalysis/rest/StatisticResource.java:96-97 | `initializeMaps` then `setTimeSpan` give the starting state and the labels |
| StatisticResources.StatisticResource.Respond | src/main/java/com/efficientlogfileanalysis/rest/StatisticResource.java:115-119 | the list holds the counts, the intervals and the labels, and is the answer |
| StatisticResources.StatisticResource.CountAll | src/main/java/com/efficientlogfileanalysis/rest/StatisticResource.java:108-113 | the loop counts the entries in order until one throws |
| StatisticResources.StatisticResource.SortedStatistics | src/main/java/com/efficientlogfileanalysis/rest/StatisticResource.java:94-124 | an `IOException` from the search answers 500; an unknown level escapes as an exception; otherwise the answer is the counts, intervals and labels `Statistics` computes |
| StatisticResources.SkippedIntervalMisplaces | src/main/java/com/efficientlogfileanalysis/rest/StatisticResource.java:141-151 | with span 0..120 (gap 10), a first entry at 25, which lies in interval 2, is counted in interval 1 |
| StatisticResources.CorrectedPlacesInInterval | src/main/java/com/efficientlogfileanalysis/rest/StatisticResource.java:132-153 | the corrected placement counts an entry in interval `(time - start) / gap` and drops it exactly when that is 12 or more |
| StatisticsView.ChooseLayout | src/main/webapp/js/Statistics.js:135-169 | no chart clears the holder; one takes all twelve columns; three take four each; two take 6+6 when both values are 1 or both 2, else 8+4 or 4+8 for the one valued 2, and the holder is left alone otherwise; more than three leave it alone; a layout always fills twelve columns |
| StatisticsView.TwoChartWidths | src/main/webapp/js/Statistics.js:146-160 | the three two-chart cases give 6+6, 8+4 and 4+8 |
| StatisticsView.Containers | src/main/webapp/js/Statistics.js:185-195 | one container per chart, with its width and its name as canvas id |
| StatisticsView.Reloads | src/main/webapp/js/Statistics.js:171-212 | no more charts are drawn than are active |
| StatisticsView.KnownChartsAllReloaded | src/main/webapp/js/Statistics.js:203-212 | when every name is one of the three charts, each active chart is drawn once, in order |
| StatisticsView.ReloadStep | src/main/webapp/js/Statistics.js:171-172 | once a call has thrown, later charts are not drawn |
| StatisticsView.CanvasesPresent | src/main/webapp/js/Statistics.js:10-98 | with every canvas present no error is thrown and the named charts are drawn |
| StatisticsView.MissingCanvasThrows | src/main/webapp/js/Statistics.js:10-98 | a known chart whose canvas is missing throws a TypeError (`getContext` on null) |
| StatisticsView.ReloadFaultsAreTypeErrors | src/main/webapp/js/Statistics.js:10-98 | the only error the reloads throw is a TypeError |
| StatisticsView.FaultStops | src/main/webapp/js/Statistics.js:171-172 | after an error the remaining charts change nothing |
| StatisticsView.LaidOutChartsDrawn | src/main/webapp/js/Statistics.js:181-212 | on a holder laid out for the active charts, all of them are drawn without error |
| StatisticsView.StatisticsPage.constructor | src/main/webapp/js/Statistics.js:124 | a page with no charts, an empty holder and nothing drawn |
| StatisticsView.StatisticsPage.ShowActiveStatistics | src/main/webapp/js/Statistics.js:131-173 | `countStatistics` is the number of charts, the holder is laid out as `ChooseLayout` says (or left), and the charts are redrawn in order until one lacks a canvas |
| StatisticsView.StatisticsPage.ReloadAll | src/main/webapp/js/Statistics.js:171-172 | the loop of reloads draws what `ReloadRunOf` says and stops at the first error |
| StatisticsView.StatisticsPage.CreateChartContainer | src/main/webapp/js/Statistics.js:181-196 | the holder is emptied, then gets one container per counted chart, whatever it held before |
| StatisticsView.StatisticsPage.ReloadStatistics | src/main/webapp/js/Statistics.js:203-212 | the named chart is drawn if the name is one of the three; a missing canvas is a TypeError |
| StatisticsView.StatisticsPage.LoadChart | src/main/webapp/js/Statistics.js:10-98 | `load*Chart` draws the chart exactly when the canvas is present, and throws a TypeError otherwise |
| Cookies.StoreThenLookup | src/main/webapp/js/Cookie.js:17 | after storing a cookie its name reads back the value stored, other names read as before, and the jar stays well formed |
| Cookies.PairMatches | src/main/webapp/js/Cookie.js:26-34 | the test `indexOf(name + "=") == 0` holds exactly for the cookie of that name, and the rest of the pair is its value |
| Cookies.SameAt | src/main/webapp/js/Cookie.js:33 | a text starting with a prefix agrees with it position by position |
| Cookies.TrimBeforePair | src/main/webapp/js/Cookie.js:30-32 | the leading-space loop removes the one space in front of a pair and nothing of the pair |
| Cookies.ReadBack | src/main/webapp/js/Cookie.js:25-38 | over the text the browser reports, `getCookie` finds the value stored under the name, and "" for a name not stored |
| Cookies.HeaderPieces | src/main/webapp/js/Cookie.js:27 | splitting the reported text at `;` gives the first pair, then the pieces of the rest |
| Cookies.PairHasNoSemicolon | src/main/webapp/js/Cookie.js:27 | a pair of a well-formed cookie holds no `;` |
| Cookies.CookieValueIsLookup | src/main/webapp/js/Cookie.js:25-38 | `getCookie(n)` is the value stored under n, or "" |
| Cookies.BoolTexts | src/main/webapp/js/Cookie.js:72 | one `"true"`/`"false"` text per checkbox |
| Cookies.PipedIsJoined | src/main/webapp/js/Cookie.js:71-74 | the states each followed by `|` are the states joined by `|` plus one `|`, which the substring drops |
| Cookies.BoolTextsSnoc | src/main/webapp/js/Cookie.js:71-73 | one more checkbox adds its text at the end |
| Cookies.JoinSnoc | src/main/webapp/js/Cookie.js:72 | joining one more piece adds the separator and the piece |
| Cookies.ApplyStates | src/main/webapp/js/Cookie.js:61-63 | box k becomes checked exactly when piece k is `"true"`, for the pieces there are; the other boxes stay |
| Cookies.StatesRoundTrip | src/main/webapp/js/Cookie.js:58-77 | the stored states split back into one text per box, and applying them restores the boxes |
| Cookies.ColorsRoundTrip | src/main/webapp/js/Cookie.js:83-93 | two colours without `|` joined by `|` split back into the two |
| Cookies.Browser.constructor | src/main/webapp/js/Cookie.js:14-59 | a page with the given clock, cookie jar and checkboxes, nothing written yet |
| Cookies.Browser.SetCookie | src/main/webapp/js/Cookie.js:13-18 | `setCookie` writes `name=value;expires=…;path=/` with the expiry `exdays` days from now, and the jar then holds the value under the name |
| Cookies.Browser.GetCookie | src/main/webapp/js/Cookie.js:25-38 | the loop of `getCookie` returns the value of the first piece that starts with `name=`, after its leading spaces, or "" |
| Cookies.Browser.CheckCookie | src/main/webapp/js/Cookie.js:45-52 | true exactly when `getCookie` is not "" |
| Cookies.Browser.SetStatisticsCookie | src/main/webapp/js/Cookie.js:57-64 | box k is set from piece k of the stored states; more pieces than boxes is a TypeError |
| Cookies.Browser.ReloadStatisticsCookie | src/main/webapp/js/Cookie.js:69-77 | the checkbox states joined by `|` are stored under `statistics`, and the one assignment written sets them to expire 20 days from now |
| Cookies.Browser.SetColorCookie | src/main/webapp/js/Cookie.js:82-86 | the main colour is the first piece of the stored colours and the text colour the second (undefined when missing) |
| Cookies.Browser.ReloadColorCookie | src/main/webapp/js/Cookie.js:91-95 | the two colours joined by `|` are stored under `color`, and the one assignment written sets them to expire 20 days from now |
| Cookies.Browser.LoadCookies | src/main/webapp/js/Cookie.js:100-113 | a stored `statistics` cookie sets the boxes by its pieces and counts one chart reload, or, when it has more pieces than boxes, sets every box and then throws a TypeError that ends the call with nothing else changed; a stored `color` cookie sets the main and text colour from its pieces; a missing or empty cookie is written with its default for 20 days and leaves the boxes, reloads and colours; the jar and the assignments written are stated in full |
| Cookies.CookieNames | src/main/webapp/js/Cookie.js:105-111 | the two names and defaults are well formed, and the names differ |
| Cookies.StatesHaveNoSemicolon | src/main/webapp/js/Cookie.js:72 | the states text is a well-formed cookie value |
| Cookies.SplitJoinPieces | src/main/webapp/js/Cookie.js:72 | joining pieces that lack a character gives a text that lacks it |
| Cookies.StatisticsCookieRoundTrip | src/main/webapp/js/Cookie.js:57-77 | writing the checkbox states and applying the cookie again, as the next page load does, checks exactly the boxes that were checked |
| Pagination.PageCount | src/main/webapp/js/SimplePagination.js:64-67 | `Math.ceil(length / 5)`: the fewest pages of five rows that hold all rows |
| Pagination.ClampPage | src/main/webapp/js/SimplePagination.js:37-38 | a page in 1..pages is kept, a smaller one becomes 1, a larger one the last page; with no pages it is 0 |
| Pagination.PageItems | src/main/webapp/js/SimplePagination.js:42-47 | page p holds the rows from `(p-1)*5` up to `p*5` or the end, between one and five of them, in order |
| Pagination.RowOnOnePage | src/main/webapp/js/SimplePagination.js:42-67 | every row lies on exactly one page, `i/5 + 1`, at position `i%5` |
| Pagination.Paginator.constructor | src/main/webapp/js/SimplePagination.js:1-4 | page 1, no rows, nothing shown |
| Pagination.Paginator.FillElementArray | src/main/webapp/js/SimplePagination.js:6-11 | the rows are the given texts, each wrapped as `{element: …}`, in order; nothing else changes |
| Pagination.Paginator.ChangePage | src/main/webapp/js/SimplePagination.js:29-62 | the paginator is made visible; with rows, the clamped page's rows are shown, the page label and current page are set and the buttons are disabled at the ends; with no rows, the emptied table and a TypeError |
| Pagination.Paginator.ShowRows | src/main/webapp/js/SimplePagination.js:40-47 | the loop leaves exactly the rows of page p in the table |
| Pagination.Paginator.PrevPage | src/main/webapp/js/SimplePagination.js:13-19 | from a page above 1 the previous page is shown; on page 1 nothing changes |
| Pagination.Paginator.NextPage | src/main/webapp/js/SimplePagination.js:21-27 | below the last page the next page is shown; on the last page nothing changes |
| DateValidation.OneDigitValue | src/main/webapp/js/validation.js:172 | a one-digit field's value is its digit |
| DateValidation.TwoDigitValue | src/main/webapp/js/validation.js:172 | a two-digit field's value is ten times the first digit plus the second |
| DateValidation.FourDigitValue | src/main/webapp/js/validation.js:172 | a four-digit year is a hundred times its first two digits plus its last two |
| DateValidation.DayAlternatives | src/main/webapp/js/validation.js:172 | the day alternatives `31`, `29|30` and `0?[1-9]|1\d|2[0-8]` are exactly the day fields of value 31, 29-30 and 1-28 |
| DateValidation.MonthAlternatives | src/main/webapp/js/validation.js:172 | the month alternatives are exactly the month fields of the 31-day months, of every month but February, of February, and of any month |
| DateValidation.DigitClasses | src/main/webapp/js/validation.js:172 | the digit classes `[48]`, `[048]`, `[26]`, `[2468]`, `[13579]`, `[3579]` are digits of the stated residues |
| DateValidation.ByFour | src/main/webapp/js/validation.js:172 | a two-digit number is a multiple of four exactly when its tens digit is even and its units digit a multiple of four, or odd and two more |
| DateValidation.LeapEndingValue | src/main/webapp/js/validation.js:172 | `0[48]|[2468][048]|[13579][26]` matches exactly the nonzero two-digit multiples of four |
| DateValidation.LeapCenturyValue | src/main/webapp/js/validation.js:172 | `16|[2468][048]|[3579][26]` followed by `00` matches exactly the centuries from 16 that are multiples of four |
| DateValidation.LeapCenturyDigits | src/main/webapp/js/validation.js:172 | the leap-century alternatives by digit |
| DateValidation.CenturyValue | src/main/webapp/js/validation.js:172 | `1[6-9]|[2-9]\d` matches exactly the two-digit centuries from 16 |
| DateValidation.GregorianDigits | src/main/webapp/js/validation.js:172 | a year is a Gregorian leap year exactly as its last two digits and its century say |
| DateValidation.YearAlternatives | src/main/webapp/js/validation.js:172 | the year alternatives are exactly the two-digit years and the years 1600-9999, and the leap alternatives exactly the leap years among them |
| DateValidation.PatternIsCalendar | src/main/webapp/js/validation.js:172 | for one cut of the input into day, separator, month, separator, year, the pattern's alternatives hold exactly when the fields form a real calendar day with the same separator twice |
| DateValidation.DatePatternIsCalendar | src/main/webapp/js/validation.js:172-174 | the date pattern accepts a text exactly when it is a real calendar day written with one separator twice |
| DateValidation.FullYear | src/main/webapp/js/validation.js:106-116 | the `Date` constructor maps a year 0-99 to 1900-1999 and keeps the others |
| DateValidation.DigitsHaveNo | src/main/webapp/js/validation.js:105 | a digit field holds no separator |
| DateValidation.PatternDateParses | src/main/webapp/js/validation.js:104-175 | a date the pattern accepts with `.` is read by `stringToDate` as that day, month minus one, a two-digit year in 1900-1999 |
| DateValidation.DatePieceNumbers | src/main/webapp/js/validation.js:105-106 | split at `.`, the three fields read back as their numbers |
| DateValidation.ThreePieces | src/main/webapp/js/validation.js:105 | digit fields joined by a non-digit split back into the three fields |
| DateValidation.TimeTextParses | src/main/webapp/js/validation.js:114-138 | `hh` and `hh:mm` are read as that time of the base day, the missing fields as 0 |
| DateValidation.SameDayIsProper | src/main/webapp/js/validation.js:77-79 | the same day is a proper range, a proper range is earlier or the same, and never both |
| DateValidation.DateForm.constructor | src/main/webapp/js/validation.js:140-142 | a form with the given inputs, all of them valid, the times enabled and no combined dates |
| DateValidation.DateForm.CompareBothTimeInputs | src/main/webapp/js/validation.js:59-68 | both time inputs are valid exactly when the start time is strictly before the end time |
| DateValidation.DateForm.CompareBothDateInputs | src/main/webapp/js/validation.js:74-97 | both date inputs valid and the times enabled exactly when the start day is not after the end day, otherwise the combined dates are reset; `isSameDay` records equality |
| DateValidation.DateForm.AddTime | src/main/webapp/js/validation.js:148-159 | on the same day the times are compared, otherwise both are valid; both combined dates are set from the date and time inputs |
| DateValidation.DateForm.CheckInputValidity | src/main/webapp/js/validation.js:167-187 | a date input is valid only if it is a calendar date between 1 January 1970 and now and the range is proper; an input out of range is invalid and leaves the rest; then the times are added |
| DateValidation.DateForm.CheckDate | src/main/webapp/js/validation.js:168-185 | the date part of `checkInputValidity`, with the same statement about the two date inputs |
| DateValidation.ListInputValid | src/main/webapp/js/validation.js:194-204 | the selector `option[value='…']` fails to parse exactly when the string cannot be read (SyntaxError); otherwise the input is valid exactly when it is empty or the unescaped string is an option's value; for a value without backslash, line break or U+0000 that is: an error exactly when it holds a quote, else valid exactly when empty or an option |
| DateValidation.PlainValueSelf | src/main/webapp/js/validation.js:197 | a value without backslash, line break or U+0000 fails exactly when it holds a quote, and is otherwise looked for as typed |
| DateValidation.FailureNeedsBreak | src/main/webapp/js/validation.js:197 | the selector fails only when the value holds a quote or a line break |
| DateValidation.EscapedValueSelects | src/main/webapp/js/validation.js:197 | a text with its quotes and backslashes escaped selects the option of that very text |
| DateValidation.EscapedQuoteExample | src/main/webapp/js/validation.js:197 | `it\'s` selects the option "it's"; `it's` is a SyntaxError |
| DateValidation.HexEscapeExample | src/main/webapp/js/validation.js:197 | `a\62` selects the option "ab", not an option spelled `a\62` |
| JsNumbers.DigitsNumber | src/main/webapp/js/validation.js:106-116 | a field of digits converts to its decimal value |
| JsNumbers.Untrimmed | src/main/webapp/js/validation.js:106-116 | a text without surrounding white space converts as the numeric literal it spells |
| JsNumbers.NoExponent | src/main/webapp/js/validation.js:106-116 | without an exponent a decimal literal is its mantissa scaled by its fraction digits |
| JsNumbers.DigitsDecimal | src/main/webapp/js/validation.js:106-116 | a non-empty run of digits is an unsigned decimal literal of its value |
| JsNumbers.DigitsAreDecimal | src/main/webapp/js/validation.js:106-116 | a non-empty run of digits is a numeric literal of its value |
| JsNumbers.LeadingSpacesDropped | src/main/webapp/js/validation.js:106-116 | conversion strips exactly the leading white space |
| JsNumbers.TrailingSpacesDropped | src/main/webapp/js/validation.js:106-116 | conversion strips exactly the trailing white space |
| JsNumbers.PaddedNumber | src/main/webapp/js/validation.js:106-116 | white space around a text does not change its number |
| JsNumbers.PaddedDigits | src/main/webapp/js/validation.js:106-116 | digits between white space convert to their value |
| JsNumbers.DecimalBranch | src/main/webapp/js/validation.js:106-116 | a text starting with a digit and no radix prefix is read as a decimal literal |
| JsNumbers.SignBranches | src/main/webapp/js/validation.js:106-116 | a leading `+` keeps and a leading `-` negates the unsigned literal after it |
| JsNumbers.PlusDigits | src/main/webapp/js/validation.js:106-116 | `+` before digits does not change the number |
| JsNumbers.MinusDigits | src/main/webapp/js/validation.js:106-116 | `-` before digits negates the number |
| JsNumbers.DigitsAppend | src/main/webapp/js/validation.js:106-116 | the value of two digit runs joined is the first shifted by the second's length plus the second |
| JsNumbers.DigitsBelow | src/main/webapp/js/validation.js:106-116 | k digits have a value below 10^k |
| JsNumbers.CutFraction | src/main/webapp/js/validation.js:106-116 | dropping the fraction digits of a mantissa leaves its integer digits |
| JsNumbers.FractionMantissa | src/main/webapp/js/validation.js:106-116 | `a.b` has mantissa `ab` with `|b|` fraction digits |
| JsNumbers.FractionTruncated | src/main/webapp/js/validation.js:106-116 | a field `a.b` reaches the `Date` constructor as the integer `a`: the fraction is truncated |
| JsNumbers.TrailingLetter | src/main/webapp/js/validation.js:106-116 | digits followed by a letter (not a radix, exponent or dot) convert to NaN, an invalid date |
| JsNumbers.InfinityIsNoDate | src/main/webapp/js/validation.js:106-116 | `Infinity` converts to a value the `Date` constructor turns into an invalid date |
| SearchPage.MappedSnoc | src/main/webapp/js/Search.js:295-301 | mapping one more element adds its image at the end |
| SearchPage.NumberedSnoc | src/main/webapp/js/Search.js:294-301 | numbering one more element adds its image, with its position, at the end |
| SearchPage.CreateFilterData | src/main/webapp/js/Search.js:21-31 | the filter carries the two dates, the levels or `[]` when omitted, and the module, class and exception or `null` |
| SearchPage.CheckedLevels | src/main/webapp/js/Search.js:149-155 | at most one level per checkbox |
| SearchPage.CheckedLevelsMembers | src/main/webapp/js/Search.js:149-155 | a level is in the filter exactly when a checked box has it as value |
| SearchPage.BoxValues | src/main/webapp/js/Search.js:151-155 | one value per checkbox |
| SearchPage.CheckedLevelsExtremes | src/main/webapp/js/Search.js:149-155 | with every box checked the filter has every box's value in order; with none checked it has no level |
| SearchPage.PadTwo | src/main/webapp/js/Search.js:202-221 | `("0" + n).slice(-2)` has two characters |
| SearchPage.PadTwoReadsBack | src/main/webapp/js/Search.js:202-221 | for 0..99 the two characters are digits that read back as n |
| SearchPage.YearDigits | src/main/webapp/js/Search.js:201-218 | a year 1000..9999 prints as four digits that read back as the year |
| SearchPage.DayFirstLayout | src/main/webapp/js/Search.js:215-221 | fields of widths 2,2,4,2,2,2 joined as `d.m.y h:mi:s` sit at fixed positions of a 19-character text |
| SearchPage.YearFirstLayout | src/main/webapp/js/Search.js:200-206 | fields of widths 4,2,2,2,2,2 joined as `y.m.d h:mi:s` sit at fixed positions of a 19-character text |
| SearchPage.FieldDigits | src/main/webapp/js/Search.js:200-221 | each printed field of a date with a four-digit year reads back as that field, the month counted from 1 |
| SearchPage.FormatDateReadsBack | src/main/webapp/js/Search.js:214-222 | `formatDate` is 19 characters `DD.MM.YYYY HH:mm:ss` whose fields read back as the UTC day, month + 1, year, hours, minutes and seconds |
| SearchPage.FormatDate2ReadsBack | src/main/webapp/js/Search.js:199-207 | `formatDate2` is 19 characters `YYYY.MM.DD HH:mm:ss` (dots, not the colons its doc comment states) whose fields read back as the local year, month + 1, day, hours, minutes and seconds |
| SearchPage.StringLeTotal | src/main/webapp/js/Search.js:252 | the order `sort()` uses on strings is total |
| SearchPage.InsertLevel | src/main/webapp/js/Search.js:252 | inserting into a sorted list keeps it sorted and adds exactly the one level |
| SearchPage.SortLevels | src/main/webapp/js/Search.js:252 | `sort()` gives a sorted permutation of the levels |
| SearchPage.FirstLetterOrder | src/main/webapp/js/Search.js:252-253 | the first letters of ordered levels are ordered |
| SearchPage.Badges | src/main/webapp/js/Search.js:252-254 | one badge per level |
| SearchPage.BadgesOfLevels | src/main/webapp/js/Search.js:252-254 | a file gets exactly the badges of its levels, each the colour and first letter of a level, every level with its badge, the letters ascending |
| SearchPage.FileElements | src/main/webapp/js/Search.js:241-259 | one element per file |
| SearchPage.EntryRows | src/main/webapp/js/Search.js:295-301 | one row per entry |
| SearchPage.RowId | src/main/webapp/js/Search.js:296 | `'logEntry' + num` is longer than its prefix |
| SearchPage.RowIdsDistinct | src/main/webapp/js/Search.js:294-301 | different rows get different ids |
| SearchPage.RowIdNamesPosition | src/main/webapp/js/Search.js:296-300 | the digits after `logEntry` read back as the row's position |
| SearchPage.EntryRowIds | src/main/webapp/js/Search.js:294-301 | the rows of the entry table have distinct ids, each naming its position |
| SearchPage.SearchForm.constructor | src/main/webapp/js/Search.js:9 | a page with the two clock views, no filter yet and empty lists |
| SearchPage.SearchForm.ReadyForSearch | src/main/webapp/js/Search.js:145-164 | a missing start or end date is a TypeError that leaves the filter; otherwise the filter holds both times, the checked levels in document order, and no module, class or exception although they are read |
| SearchPage.SearchForm.CreateLogFileElements | src/main/webapp/js/Search.js:238-261 | one element per file, in data order, with the UTC period and the file's level badges |
| SearchPage.SearchForm.DisplayFileLogEntriesFast | src/main/webapp/js/Search.js:279-302 | the title names the file, the message is cleared and the table holds one row per entry in data order, the k-th with id `logEntry<k>` |
| ServerSettings.LinuxDefaultHasBackslash | src/main/java/com/efficientlogfileanalysis/data/Settings.java:43-45 | as written, on Linux the default log directory is `home\logs`, with a backslash |
| ServerSettings.CorrectedDefaults | src/main/java/com/efficientlogfileanalysis/data/Settings.java:42-47 | the intended defaults: no cache limit, `home\logs` on Windows and `home/logs` elsewhere |
| ServerSettings.NoBreakJoined | src/main/java/com/efficientlogfileanalysis/data/Settings.java:83 | two texts without a line break joined have none |
| ServerSettings.CommentLines | src/main/java/com/efficientlogfileanalysis/data/Settings.java:56-84 | the four comment lines have no line break and start with `#` |
| ServerSettings.FirstComments | src/main/java/com/efficientlogfileanalysis/data/Settings.java:56-58 | the first two comment lines have no line break |
| ServerSettings.LastComments | src/main/java/com/efficientlogfileanalysis/data/Settings.java:60-64 | the last two comment lines have no line break |
| ServerSettings.LineThenRest | src/main/java/com/efficientlogfileanalysis/data/Settings.java:83 | `readLine` returns a line ended by `\n` and then reads on after it |
| ServerSettings.LastLine | src/main/java/com/efficientlogfileanalysis/data/Settings.java:83 | a non-empty text without a break after it is one last line |
| ServerSettings.SplitKeyValue | src/main/java/com/efficientlogfileanalysis/data/Settings.java:88 | `key=value` splits into the key and the value, the value dropped when empty |
| ServerSettings.IgnoredLines | src/main/java/com/efficientlogfileanalysis/data/Settings.java:84-97 | a comment line or a line with another key leaves the settings |
| ServerSettings.PathLine | src/main/java/com/efficientlogfileanalysis/data/Settings.java:89-91 | `path_to_log_files=X…` sets the path to X, the text up to the next `=`; nothing else changes |
| ServerSettings.SizeLine | src/main/java/com/efficientlogfileanalysis/data/Settings.java:93-95 | `maxiumum_cache_file_size=X` sets the cache limit to `Long.parseLong(X)`, or throws NumberFormatException |
| ServerSettings.KeyNames | src/main/java/com/efficientlogfileanalysis/data/Settings.java:62-66 | the two keys hold no `=`, differ, and do not start with `#` |
| ServerSettings.PathLineWithoutValue | src/main/java/com/efficientlogfileanalysis/data/Settings.java:88-91 | `path_to_log_files=` has no second piece: `keyValuePair[1]` throws |
| ServerSettings.SplitMore | src/main/java/com/efficientlogfileanalysis/data/Settings.java:88 | a line with more `=` still splits into the key and the text up to the next `=` |
| ServerSettings.SplitAppend | src/main/java/com/efficientlogfileanalysis/data/Settings.java:88 | the first two pieces of `key=value…` are the key and the value |
| ServerSettings.DropKeepsNonEmpty | src/main/java/com/efficientlogfileanalysis/data/Settings.java:88 | dropping the trailing empty pieces keeps everything up to a non-empty one |
| ServerSettings.LaterLineOverrides | src/main/java/com/efficientlogfileanalysis/data/Settings.java:83-98 | a later `path_to_log_files` line overrides the earlier ones |
| ServerSettings.JoinSeven | src/main/java/com/efficientlogfileanalysis/data/Settings.java:56-66 | the seven written lines are joined by `\n` |
| ServerSettings.WrittenPieces | src/main/java/com/efficientlogfileanalysis/data/Settings.java:53-70 | the file holds the comments, a blank line, `path_to_log_files=<path>` and `maxiumum_cache_file_size=<size>`, in that order |
| ServerSettings.DecimalText | src/main/java/com/efficientlogfileanalysis/data/Settings.java:66 | a written size is non-empty, without `=` or a line break |
| ServerSettings.ReadJoinedLines | src/main/java/com/efficientlogfileanalysis/data/Settings.java:83 | lines without breaks joined by `\n` read back as those lines |
| ServerSettings.WrittenLines | src/main/java/com/efficientlogfileanalysis/data/Settings.java:53-83 | the written file reads back as its seven lines when the path has no line break |
| ServerSettings.ReadConfigAppend | src/main/java/com/efficientlogfileanalysis/data/Settings.java:83-98 | reading two runs of lines is reading the first, then the second from where it left off, and an exception stops it |
| ServerSettings.IgnoredLinesKeep | src/main/java/com/efficientlogfileanalysis/data/Settings.java:84-97 | lines that are all ignored leave the settings |
| ServerSettings.WriteThenRead | src/main/java/com/efficientlogfileanalysis/data/Settings.java:53-101 | writing the file and reading it back gives both settings, from any start, for a non-empty path without `=` or line break |
| ServerSettings.EmptyPathCannotBeRead | src/main/java/com/efficientlogfileanalysis/data/Settings.java:62-91 | a file written with an empty path throws when read back |
| ServerSettings.HeadSkipped | src/main/java/com/efficientlogfileanalysis/data/Settings.java:56-86 | the comment lines and the blank line of a written file leave the settings |
| ServerSettings.ReadConfigStopsAtError | src/main/java/com/efficientlogfileanalysis/data/Settings.java:83-98 | once a line throws, the lines after it are not read |
| ServerSettings.Settings.constructor | src/main/java/com/efficientlogfileanalysis/data/Settings.java:21-26 | an object with empty path and zero cache limit over the given file |
| ServerSettings.Settings.SetDefaultValues | src/main/java/com/efficientlogfileanalysis/data/Settings.java:42-47 | the settings become the defaults as written; the file is unchanged |
| ServerSettings.Settings.WriteConfigFile | src/main/java/com/efficientlogfileanalysis/data/Settings.java:53-70 | the file becomes the text of the current settings, which are unchanged |
| ServerSettings.Settings.ReadConfigFile | src/main/java/com/efficientlogfileanalysis/data/Settings.java:76-101 | the settings are the defaults updated by the file's lines, or the exception of the first line that throws |
| ServerSettings.Settings.ReadLine | src/main/java/com/efficientlogfileanalysis/data/Settings.java:84-97 | one line of the loop: a comment is skipped, a known key sets its setting, another key is ignored, a bad line throws |
| ServerSettings.Settings.SetLogFilePath | src/main/java/com/efficientlogfileanalysis/data/Settings.java:119-122 | the path is set and the file rewritten with the new settings |
| ServerSettings.Settings.SetMaxSizeOfCacheFile | src/main/java/com/efficientlogfileanalysis/data/Settings.java:124-127 | the cache limit is set and the file rewritten with the new settings |
| ServerSettings.Open | src/main/java/com/efficientlogfileanalysis/data/Settings.java:28-37 | a new file is created with the defaults; an existing one is read, and a read exception escapes |

## Left out

- IndexCreation.RegisterFile: the new file id is the list's size as an unbounded integer. The `(short) size()` cast of index/IndexCreator.java wraps after 32767 files, and that wrap is not modelled.
- IndexCreation.RegisterFile: the LinkedHashSet order of the level set is not kept; a file's levels are a `set`.
- IndexCreation.IndexCreator: the IOException of Lucene's `addDocument` is not modelled; a document is a value appended to a list.
- LogDates.DateRanges.SetBeginDate: Java's TimeRange hashes by identity, so the reverse map of two files holds two default ranges. The model compares ranges by value, so two files' default ranges share one reverse-map entry.
- LogsReader.EntryWithoutMessageAt: the message of an entry read without its message is "" where Java leaves it `null`.
- LogPackageReader.Offset: byte offsets count one byte per character, as do the scanner of `LogsReader` and `CreateIndexReader`. The source counts `line.getBytes().length` (log/LogReader.java:62, log/CreateIndex.java:61, logs/LogReader.java:112), so a line with non-ASCII characters shifts every later offset by its extra bytes.
- LogPackageReader.Located: a parsed entry paired with its offset. It stands in for the `data.LogEntry` and `setLogFileStartOfBytes` calls of log/LogReader.java and log/CreateIndex.java, which do not exist in the source's own classes.
- NameIdManagers.NamesAreValues: BiMap has no `getValueSet`, `getKeySet`, `containsKey` or `containsValue`, although the id managers and SerializableBiMap call them. The model reads the keys of the forward map instead, and `addIfAbsent`'s `containsValue` test is membership in the backward map.
- StatisticResources.LocalTimeOf: local time is UTC plus a fixed zone offset; daylight-saving changes are not modelled.
- LogEntries.ParseLogEntry, LogEntries.ParseTextEntry: the timestamp parser (`SimpleDateFormat`/`LocalDateTime.parse`) is the parameter `parseTime`. Dates, time zones and calendars are not modelled.
- LogLines.GroupsFrom, LogPackageReader.ReadLogFile, CreateIndexReader.ReadEntries, LogsReader.ReadSingleFile: the entry parser is the parameter `parse`, and in the lemmas the test that a line opens an entry is the parameter `starts`; the `Scanner` tokenisation of logs/LogReader.java is taken as given tokens.
- JsNumbers.JsNumber: numbers are unbounded integers after truncation toward zero. Double precision, rounding of long digit runs, and overflow to `Infinity` from a large exponent are not modelled.
- DateValidation.ListInputValid: text after an unescaped quote is read as selector syntax, so a crafted value such as `a'][value='b` forms the valid selector `option[value='a'][value='b']`; the model reports every unescaped quote as a SyntaxError. jQuery's retry with its own selector engine when `querySelectorAll` rejects a selector is not modelled. A carriage return followed by a line feed counts as two line breaks, where CSS merges them; a text input's value never holds a line break.
- JavaNum.JavaDigit: the digit blocks are those of Unicode 7.0 and later (Java 9 onwards); under Java 8 the Sinhala Lith and Myanmar Tai Laing digits are not digits. A Java `char` is a UTF-16 unit, so a digit outside the Basic Multilingual Plane is two non-digits; the model reads it as one character outside every block, with the same verdict.
- DateValidation.FoldCase: the `i` flag's case folding is modelled for ASCII letters. Folding of other letters cannot change whether a date is accepted, since the pattern's separators are compared and every other character is a digit.
- DateValidation.StringToDate: the `Date` constructor's calendar arithmetic is the parameter `makeTime` and the fields of a time value are `fieldsOf`. The local time zone is abstract, and characters outside the Basic Multilingual Plane count as two.
- Cookies.Browser.SetCookie: `toUTCString` is the abstract parameter `utcString`. The jar is simplified: one value per name, no path or expiry handling, and no removal of expired cookies.
- Pagination.Paginator.constructor: before `fillElementArray` the source's `elements` is `undefined`, and `changePage` then throws at `elements.length`. The model starts with no rows.
- SearchPage.SortLevels: `sort()` sorts the file's own level array in place; the model sorts a copy.
- SearchPage.YearDigits: `formatDate` and `formatDate2` are stated for years 1000-9999; other years print with another width.
- SearchPage.SearchForm: the fetches, the spinner, the DataTables widget and the HTML markup are not modelled; what the server returns is a parameter.
- StatisticsView: Chart.js drawing itself is not modelled; a drawn chart is a value.
- StatisticResources.StatisticResource.SortedStatistics: the counts are Java `int`s in the source, and their overflow is not modelled. The endpoint keeps the placement as written (see Findings), since that is what the server answers.
- ExceptionNames.FindException: the index stores the names that `REGEX_GET_EXCEPTION_NAME` finds, so the rest of the model keeps that as-written search; `ExceptionFullNames` is the intended one.
- IdSequences.Sequence: `synchronized` has no counterpart; the model is sequential.
- ServerSettings.Open: the singleton `getInstance`, the file system and the IOExceptions of reading and writing are not modelled. The file's text is a field. `user.home` and `os.name` are parameters.
- LuceneSearch: the Lucene query evaluation itself is not modelled; the hits are a parameter. Message phrase analysis is not modelled. `getResultsFromSearch` returns `HashMap.values()` in an unspecified order, and the model returns a map.
- LuceneSearch: `searchForLogLevelsInFiles`, `getLogLevelCount`, `sortedSearch` and `searchForFiles` of luceneSearch/Search.java (Lucene grouping and sorting) are not modelled.
- LogsReader: `getAllLogFiles` (the directory listing filtered by `.log`), `readAllLogFiles`, `getLogEntry`, `readDateOfEntry`, `getTimeRangeOfFile`, the open-file cache and `close` of logs/LogReader.java are not modelled. Of `getNearbyEntries` only the clamp of the start offset is modelled, not the entry loop after it.
- LogPackageReader: `getLogEntry` and `readDateOfEntry` of log/LogReader.java are not modelled.
- IndexCreation: `Thread.sleep`, console output, the Lucene field encodings of a document, `close` and `main` of index/IndexCreator.java are not modelled.
- RandomAccess: reading and writing files goes through the `RandomAccessFile` class over a byte sequence; the operating system's files are not modelled.

## Findings

| source | as written | input that shows it | evidently intended | confidence | as-written member | corrected member |
|---|---|---|---|---|---|---|
| src/main/java/com/efficientlogfileanalysis/index/data/I_TypeConverter.java:112-113 | the LONG converter reports 2 bytes written for its 8 | any long: 8 bytes are written and read, `write` returns 2, so `SerializableMap.bytesRead` falls 6 bytes short per long | report 8 bytes | not executed | TypeConverters.LongWriteUnderReports | TypeConverters.CorrectedCountMatchesRead |
| src/main/java/com/efficientlogfileanalysis/bl/IndexManager.java:29-30 | the INTEGER read returns (4, value) where callers take the first field as the value | an integer written as 7 reads back as the datum 4 with count 7 | return the value with count 4 | not executed | LegacyConverters.LegacyIntegerSwapsRoles | LegacyConverters.CorrectedLegacyDecode |
| src/main/java/com/efficientlogfileanalysis/bl/IndexManager.java:41-44 | the STRING read never reads the payload after the length | `"ab"` reads back as two zero bytes, and the payload is left for the next read | read the payload the length announces | not executed | LegacyConverters.LegacyStringSkipsPayload | LegacyConverters.CorrectedLegacyDecode |
| src/main/java/com/efficientlogfileanalysis/logs/LogReader.java:67-69 | `stringContainsOnly` tests `charAt(0)` in every round | `"-x"` with only `-` allowed is accepted | test each character | not executed | LogsReader.StringContainsOnly | LogsReader.ContainsOnly |
| src/main/java/com/efficientlogfileanalysis/log/CreateIndex.java:49-66 | the last entry of a file is never added, and every offset after the first is one byte too large | a file of one entry yields no entries | the entries and offsets `log/LogReader.readAllLogFiles` gives | not executed | CreateIndexReader.SingleEntryDropped | LogPackageReader.ReadLogFile |
| src/main/java/com/efficientlogfileanalysis/logs/data/LogEntry.java:24-97 | `findException` uses the pattern without the package | a message with `java.io.IOException` gives `IOException` | the full name `java.io.IOException`, as the doc comment says (the index keeps the as-written names) | not executed | ExceptionNames.PackageDropped | ExceptionFullNames.PackageKept |
| src/main/java/com/efficientlogfileanalysis/rest/StatisticResource.java:141-151 | an entry after an empty interval is counted one interval too early | span 0..120 (gap 10), first entry at 25 is counted in interval 1 | interval `(time - start) / gap` (the endpoint keeps the as-written placement) | not executed | StatisticResources.SkippedIntervalMisplaces | StatisticResources.CorrectedPlacesInInterval |
| src/main/java/com/efficientlogfileanalysis/data/Settings.java:43-45 | the separator test is case-sensitive and its branches are swapped | on Linux the default is `home\logs` | `\` on Windows, `/` elsewhere | not executed | ServerSettings.LinuxDefaultHasBackslash | ServerSettings.CorrectedDefaults |

=== FILE: bimap.dfy ===
/**
 * `data/BiMap`: two HashMaps, `map1` from keys to values and `map2` from
 * values back to keys. The class comment asks for unique keys and unique
 * values; nothing in the class enforces it.
 */
module BiMaps {
  import opened Wrappers
  import opened Maps

  /** `getOrDefault(k, null)`: the entry of `k`, or null. */
  function Lookup<K, V>(m: map<K, V>, k: K): (r: Option<V>)
    ensures r.Some? <==> k in m
    ensures r.Some? ==> r.value == m[k]
  {
    if k in m then Some(m[k]) else None
  }

  /** The two maps undo each other: the pairing the class comment promises. */
  ghost predicate Inverse<K, V>(forward: map<K, V>, backward: map<V, K>)
  {
    && (forall k :: k in forward ==> forward[k] in backward && backward[forward[k]] == k)
    && (forall v :: v in backward ==> backward[v] in forward && forward[backward[v]] == v)
  }

  /**
   * `putValue(k, v)` keeps the two maps each other's inverse exactly when
   * neither `k` nor `v` is already paired with something else.
   */
  lemma PutKeepsInverse<K, V>(forward: map<K, V>, backward: map<V, K>, k: K, v: V)
    requires Inverse(forward, backward)
    ensures Inverse(forward[k := v], backward[v := k])
        <==> (k in forward ==> forward[k] == v) && (v in backward ==> backward[v] == k)
  {
    var f, b := forward[k := v], backward[v := k];
    if k in forward && forward[k] != v {
      var old_v := forward[k];
      assert old_v in b && b[old_v] == k && f[k] != old_v;
    } else if v in backward && backward[v] != k {
      var old_k := backward[v];
      assert old_k in f && f[old_k] == v && b[v] != old_k;
    }
  }

  /**
   * Binding key 1 to "a" and then to "b" leaves "a" pointing back at 1:
   * `getKey("a")` still answers 1 while `getValue(1)` answers "b".
   */
  lemma StaleReverseEntry()
    ensures var forward := map[1 := "a"][1 := "b"];
      var backward := map["a" := 1]["b" := 1];
      && Lookup(forward, 1) == Some("b")
      && Lookup(backward, "a") == Some(1)
      && !Inverse(forward, backward)
  {
    var forward := map[1 := "a"][1 := "b"];
    var backward := map["a" := 1]["b" := 1];
    assert "a" in backward && forward[backward["a"]] != "a";
  }

  class BiMap<K(==), V(==)> {
    var map1: map<K, V>
    var map2: map<V, K>

    constructor ()
      ensures map1 == map[] && map2 == map[]
    {
      map1 := map[];
      map2 := map[];
    }

    /** The keys `map1` holds. */
    function KeySet(): set<K>
      reads this
    {
      map1.Keys
    }

    method PutValue(key: K, value: V)
      modifies this
      ensures map1 == old(map1)[key := value] && map2 == old(map2)[value := key]
      ensures Lookup(map1, key) == Some(value) && Lookup(map2, value) == Some(key)
    {
      map1 := map1[key := value];
      map2 := map2[value := key];
    }

    /** `putKey(a, b)` is `putValue(b, a)`. */
    method PutKey(key: V, value: K)
      modifies this
      ensures map1 == old(map1)[value := key] && map2 == old(map2)[key := value]
    {
      PutValue(value, key);
    }

    method GetValue(key: K) returns (r: Option<V>)
      ensures r == Lookup(map1, key)
    {
      r := if key in map1 then Some(map1[key]) else None;
    }

    method GetKey(value: V) returns (r: Option<K>)
      ensures r == Lookup(map2, value)
    {
      r := if value in map2 then Some(map2[value]) else None;
    }

    method Size() returns (n: nat)
      ensures n == |map1|
    {
      n := |map1|;
    }
  }

  /** `putValue` for each pair in order, as the `readIndex` loops do. */
  method PutValues<K(==), V(==)>(b: BiMap<K, V>, pairs: seq<(K, V)>)
    modifies b
    ensures b.map1 == PutAll(old(b.map1), pairs) && b.map2 == PutAll(old(b.map2), Swapped(pairs))
  {
    var i := 0;
    while i < |pairs|
      invariant 0 <= i <= |pairs|
      invariant b.map1 == PutAll(old(b.map1), pairs[..i])
      invariant b.map2 == PutAll(old(b.map2), Swapped(pairs)[..i])
    {
      PutAllSnoc(old(b.map1), pairs[..i], pairs[i]);
      PutAllSnoc(old(b.map2), Swapped(pairs)[..i], Swapped(pairs)[i]);
      assert pairs[..i + 1] == pairs[..i] + [pairs[i]];
      assert Swapped(pairs)[..i + 1] == Swapped(pairs)[..i] + [Swapped(pairs)[i]];
      b.PutValue(pairs[i].0, pairs[i].1);
      i := i + 1;
    }
    assert pairs[..i] == pairs;
    assert Swapped(pairs)[..i] == Swapped(pairs);
  }
}

=== FILE: bl_index_manager.dfy ===
/**
 * `bl/IndexManager`: a HashMap of keys and values, its two converters and
 * the `indexLength` total. Its converters' `read` returns the datum first and
 * the count second, and `readIndex` takes them in that order.
 */
module BlIndexManagers {
  import opened Wrappers
  import opened JavaNum
  import opened RandomAccess
  import opened TypeConverters
  import opened LegacyConverters
  import opened Maps
  import opened IndexRecords
  import opened BiMaps
  import opened SerializableMaps
  import opened SerializableBiMaps

  class IndexManager {
    var values: map<Value, Value>
    var indexLength: int
    const keyConverter: Format
    const valueConverter: Format

    constructor (keyConverter: Format, valueConverter: Format)
      ensures values == map[] && indexLength == 0
      ensures this.keyConverter == keyConverter && this.valueConverter == valueConverter
    {
      this.keyConverter := keyConverter;
      this.valueConverter := valueConverter;
      values := map[];
      indexLength := 0;
    }

    /** `readIndex(RandomAccessFile)`; the result is the IOException it throws, if any. */
    method ReadIndex(f: RandomAccessFile) returns (thrown: Option<Fault>)
      requires Consumes(keyConverter) && Consumes(valueConverter)
      modifies this, f
      ensures f.data == old(f.data)
      ensures var scan := ReadIndexScan(keyConverter, valueConverter, old(f.data), old(f.pointer));
        values == MapAfterRead(old(values), scan) && thrown == ReadFault(scan)
      ensures indexLength == LengthAfterRead(old(indexLength), StoredTotal(old(f.data), old(f.pointer)))
    {
      var scan, stored := ReadRecords(f, keyConverter, valueConverter);
      if stored.Some? {
        indexLength := stored.value;
      }
      if scan.Some? {
        values := PutAll(values, scan.value.pairs);
      }
      thrown := ReadFault(scan);
    }

    /**
     * `writeIndex(RandomAccessFile)`, the keys taken in the order `order`;
     * the result tells whether "Index Length changed!" went to the error stream.
     */
    method WriteIndex(f: RandomAccessFile, order: seq<Value>) returns (reported: bool)
      requires IsKeyOrder(order, values.Keys)
      requires forall k :: k in values ==> |keyConverter.bytes(k)| >= 1
      modifies this, f
      ensures values == old(values)
      ensures f.data == WriteIndexBytes(keyConverter, valueConverter, old(f.data), old(f.pointer), Pairs(order, values))
      ensures f.pointer == old(f.pointer) + 8
      ensures indexLength == RecordCount(keyConverter, valueConverter, Pairs(order, values))
      ensures reported <==> indexLength != old(indexLength)
    {
      var pairs := Pairs(order, values);
      var total := WriteIndexFile(f, keyConverter, valueConverter, pairs);
      reported := false;
      if total != indexLength {
        indexLength := total;
        reported := true;
      }
    }

    method GetSize() returns (n: nat)
      ensures n == |values|
    {
      n := |values|;
    }

    method HasKey(key: Value) returns (b: bool)
      ensures b <==> key in values
    {
      b := key in values;
    }

    /** `getValue`: `values.get(key)`, null for a missing key. */
    method GetValue(key: Value) returns (r: Option<Value>)
      ensures r == Lookup(values, key)
    {
      r := if key in values then Some(values[key]) else None;
    }

    method PutValue(key: Value, value: Value)
      modifies this
      ensures values == old(values)[key := value] && indexLength == old(indexLength)
    {
      values := values[key := value];
    }
  }

  /** What the legacy INTEGER converter writes for `n`, the count it returns, and what its `read` gives for those bytes. */
  lemma LegacyIntegerFormat(n: int, tail: seq<Octet>)
    requires IsInt(n)
    ensures var kf := FormatOf(Legacy(LegacyInteger));
      && kf.bytes(Number(n)) == BigEndian(n, 4) && kf.count(Number(n)) == 4
      && kf.read(BigEndian(n, 4) + tail) == Ok(Decoded(Number(4), n, tail))
  {
    SignedOfBigEndian(n, 4);
    assert (BigEndian(n, 4) + tail)[..4] == BigEndian(n, 4);
    assert (BigEndian(n, 4) + tail)[4..] == tail;
  }

  /** A loop whose first key and value reads use up the budget stops after one record. */
  lemma ScanOneRecord(kf: Format, vf: Format, stream: seq<Octet>, budget: int, n: nat, k: Decoded, v: Decoded)
    requires n > 0 && budget > 0 && kf.read(stream) == Ok(k) && vf.read(k.rest) == Ok(v)
    requires budget - k.count - v.count <= 0
    ensures ScanN(kf, vf, stream, budget, n) == ScanState([(k.value, v.value)], None, v.rest, budget - k.count - v.count)
  {
    assert [(k.value, v.value)] + [] == [(k.value, v.value)];
  }

  /**
   * Finding: an index from INTEGER to INTEGER holding 7 -> 9 is written as
   * the total 8 and the records 7, 9; reading it back takes the datum 4 with
   * count 7 for the key and the datum 4 with count 9 for the value, so the
   * map read is 4 -> 4.
   */
  lemma LegacyIntegerIndexSwapsRoles(data: seq<Octet>, p: nat)
    ensures var kf := FormatOf(Legacy(LegacyInteger));
      var m := map[Number(7) := Number(9)];
      var scan := ReadIndexScan(kf, kf, WriteIndexBytes(kf, kf, data, p, Pairs([Number(7)], m)), p);
      MapAfterRead(map[], scan) == map[Number(4) := Number(4)]
  {
    var kf := FormatOf(Legacy(LegacyInteger));
    var m := map[Number(7) := Number(9)];
    var pairs := Pairs([Number(7)], m);
    assert pairs == [(Number(7), Number(9))];
    var tail := Remaining(data, p + 16);
    LegacyIntegerFormat(7, BigEndian(9, 4) + tail);
    LegacyIntegerFormat(9, tail);
    TotalReadsBack(8);
    LegacyIndexReadsOne(kf, data, p, pairs, tail);
  }

  /** The same, for any format that writes and reads 7 and 9 the way the legacy INTEGER converter does. */
  lemma LegacyIndexReadsOne(kf: Format, data: seq<Octet>, p: nat, pairs: seq<Pair>, tail: seq<Octet>)
    requires pairs == [(Number(7), Number(9))] && tail == Remaining(data, p + 16)
    requires kf.bytes(Number(7)) == BigEndian(7, 4) && kf.count(Number(7)) == 4
    requires kf.bytes(Number(9)) == BigEndian(9, 4) && kf.count(Number(9)) == 4
    requires kf.read(BigEndian(7, 4) + (BigEndian(9, 4) + tail)) == Ok(Decoded(Number(4), 7, BigEndian(9, 4) + tail))
    requires kf.read(BigEndian(9, 4) + tail) == Ok(Decoded(Number(4), 9, tail))
    requires Signed(BigEndian(8, 8)) == 8
    ensures var scan := ReadIndexScan(kf, kf, WriteIndexBytes(kf, kf, data, p, pairs), p);
      MapAfterRead(map[], scan) == map[Number(4) := Number(4)]
  {
    var e7, e9 := BigEndian(7, 4), BigEndian(9, 4);
    assert pairs[1..] == [] && pairs[0] == (Number(7), Number(9));
    assert RecordBytes(kf, kf, pairs[1..]) == [] && RecordCount(kf, kf, pairs[1..]) == 0;
    var records := RecordBytes(kf, kf, pairs);
    assert records == e7 + e9 + [];
    assert RecordCount(kf, kf, pairs) == 8;
    var header := BigEndian(8, 8);
    WrittenIndexScan(kf, kf, data, p, pairs, header, records);
    var stream := records + tail;
    assert stream == e7 + (e9 + tail);
    ScanOneRecord(kf, kf, stream, 8, |stream| + 1, Decoded(Number(4), 7, e9 + tail), Decoded(Number(4), 9, tail));
    var s := ScanState([(Number(4), Number(4))], None, tail, -8);
    PutOne(map[], s, (Number(4), Number(4)));
  }
}

=== FILE: byte_converter.dfy ===
/**
 * `util/ByteConverter`: a Java `short` as two signed bytes, high byte first, and back.
 * Java bytes are signed (-128..127); `& 0xFF` turns one into its unsigned bit pattern.
 */
module ByteConverter {
  import opened Wrappers
  import opened JavaNum

  /** `shortToByte`: `(byte)(value >> 8)` then `(byte)value`. */
  function ShortToBytes(value: int): (r: seq<int>)
    requires IsShort(value)
    ensures |r| == 2 && IsByte(r[0]) && IsByte(r[1])
  {
    [Narrow(value / 256, 1), Narrow(value, 1)]
  }

  /** `byteToShort`: `(short)(((x[0] & 0xFF) << 8) | (x[1] & 0xFF))`; an array shorter than 2 is an index error. */
  function BytesToShort(x: seq<int>): (r: Result<int>)
    ensures r.Ok? <==> |x| >= 2
    ensures r.Ok? ==> IsShort(r.value)
  {
    if |x| < 2 then Err(IndexOutOfBounds)
    else
      var bits := BigEndian((x[0] % 256) * 256 + x[1] % 256, 2);
      SignedRange(bits);
      Ok(Signed(bits))
  }

  /** The bit patterns of the two bytes are the big-endian encoding of the short, high byte first. */
  lemma ShortToBytesIsBigEndian(value: int)
    requires IsShort(value)
    ensures var r := ShortToBytes(value); [r[0] % 256, r[1] % 256] == BigEndian(value, 2)
  {
    NarrowMod(value / 256, 1);
    NarrowMod(value, 1);
    assert BigEndian(value, 2) == BigEndian(value / 256, 1) + [value % 256];
    assert BigEndian(value / 256, 1) == [(value / 256) % 256];
  }

  /** `byteToShort(shortToByte(v)) == v` for every short, as `main` checks with -250. */
  lemma ShortRoundTrip(value: int)
    requires IsShort(value)
    ensures BytesToShort(ShortToBytes(value)) == Ok(value)
  {
    var r := ShortToBytes(value);
    NarrowMod(value / 256, 1);
    NarrowMod(value, 1);
    SplitMod(value, 256);
    NarrowCongruent((r[0] % 256) * 256 + r[1] % 256, value, 2);
    NarrowId(value, 2);
  }

  /** `shortToByte(byteToShort(b)) == b` for every pair of bytes: the encoding is a bijection. */
  lemma BytesRoundTrip(x: seq<int>)
    requires |x| == 2 && IsByte(x[0]) && IsByte(x[1])
    ensures BytesToShort(x).Ok? && ShortToBytes(BytesToShort(x).value) == x
  {
    var u := (x[0] % 256) * 256 + x[1] % 256;
    var s := Narrow(u, 2);
    NarrowMod(u, 2);
    ModUnique(u, Pow256(2), 0, u);
    SplitMod(s, 256);
    ModUnique(u, 256, x[0] % 256, x[1] % 256);
    ModUnique(s % Pow256(2), 256, (s / 256) % 256, s % 256);
    NarrowCongruent(s / 256, x[0], 1);
    NarrowCongruent(s, x[1], 1);
    NarrowId(x[0], 1);
    NarrowId(x[1], 1);
  }

  /** `byteToShort` reads only the bit patterns of `x[0]` and `x[1]`. */
  lemma BytesToShortMasks(x: seq<int>, y: seq<int>)
    requires |x| >= 2 && |y| >= 2
    requires x[0] % 256 == y[0] % 256 && x[1] % 256 == y[1] % 256
    ensures BytesToShort(x) == BytesToShort(y)
  {
  }
}

=== FILE: cookies.dfy ===
/**
 * `Cookie.js`: the user's choice of statistics and colours is kept in two
 * browser cookies, `statistics` (the checkbox states joined by `|`) and
 * `color` (the two colours joined by `|`).
 *
 * The browser's cookie store is the field `jar`; reading `document.cookie`
 * gives `Header(jar)`, and assigning it stores one cookie. The clock
 * (`new Date()`) and `Date.toUTCString` are the constants `now` and
 * `utcString`.
 */
module Cookies {
  import opened Wrappers
  import opened Text

  const MILLIS_PER_DAY: int := 24 * 60 * 60 * 1000
  const STATISTICS: string := "statistics"
  const COLOR: string := "color"
  /** All four statistics switched off. */
  const DEFAULT_STATISTICS: string := "false|false|false|false"
  /** Yellow as the main colour, white as the text colour. */
  const DEFAULT_COLOR: string := "#fff200|#ffffff"
  /** The lifetime both cookies are written with. */
  const COOKIE_DAYS: int := 20

  datatype Cookie = Cookie(name: string, value: string)

  function Pair(c: Cookie): string
  {
    c.name + "=" + c.value
  }

  /** `document.cookie` as the browser reports it: `name=value` pairs separated by `"; "`. */
  function Header(jar: seq<Cookie>): string
  {
    if jar == [] then "" else if |jar| == 1 then Pair(jar[0]) else Pair(jar[0]) + "; " + Header(jar[1..])
  }

  /** A name the browser stores as given. */
  predicate GoodName(n: string)
  {
    n != "" && n[0] != ' ' && '=' !in n && ';' !in n
  }

  predicate GoodValue(v: string)
  {
    ';' !in v
  }

  predicate ValidJar(jar: seq<Cookie>)
  {
    forall k :: 0 <= k < |jar| ==> GoodName(jar[k].name) && GoodValue(jar[k].value)
  }

  /** The value stored under `n`, or `""` when there is none. */
  function Lookup(jar: seq<Cookie>, n: string): string
  {
    if jar == [] then "" else if jar[0].name == n then jar[0].value else Lookup(jar[1..], n)
  }

  /** Assigning `n=v` to `document.cookie`: the cookie named `n` gets the value `v`, or is added at the end. */
  function Store(jar: seq<Cookie>, n: string, v: string): (r: seq<Cookie>)
  {
    if jar == [] then [Cookie(n, v)]
    else if jar[0].name == n then [Cookie(n, v)] + jar[1..]
    else [jar[0]] + Store(jar[1..], n, v)
  }

  /** Storing a cookie sets its value and leaves every other cookie as it was. */
  lemma {:induction false} StoreThenLookup(jar: seq<Cookie>, n: string, v: string, m: string)
    ensures Lookup(Store(jar, n, v), n) == v
    ensures m != n ==> Lookup(Store(jar, n, v), m) == Lookup(jar, m)
    ensures ValidJar(jar) && GoodName(n) && GoodValue(v) ==> ValidJar(Store(jar, n, v))
  {
    if jar != [] && jar[0].name != n {
      StoreThenLookup(jar[1..], n, v, m);
      assert Store(jar, n, v)[1..] == Store(jar[1..], n, v);
      if ValidJar(jar) && GoodName(n) && GoodValue(v) {
        var r := Store(jar, n, v);
        forall k | 0 <= k < |r|
          ensures GoodName(r[k].name) && GoodValue(r[k].value)
        {
          if k > 0 {
            assert r[k] == Store(jar[1..], n, v)[k - 1];
          }
        }
      }
    } else if jar != [] {
      assert Store(jar, n, v)[1..] == jar[1..];
    }
  }

  /** The leading spaces `getCookie` strips. */
  function TrimSpaces(s: string): string
  {
    if s != [] && s[0] == ' ' then TrimSpaces(s[1..]) else s
  }

  /** The rest of the first piece that starts with `name` once its spaces are stripped, or `""`. */
  function FirstMatch(pieces: seq<string>, name: string): string
  {
    if pieces == [] then ""
    else
      var c := TrimSpaces(pieces[0]);
      if StartsWith(c, name) then c[|name|..] else FirstMatch(pieces[1..], name)
  }

  /** What `getCookie(cname)` returns for the text `cookie` of `document.cookie`. */
  function CookieValue(cname: string, cookie: string): string
  {
    FirstMatch(SplitAll(cookie, ';'), cname + "=")
  }

  /**
   * The test includes the `=`: the pair `name=value` of a cookie starts
   * with `n=` exactly when the cookie is named `n` (so `ba=1` is no match
   * for `a`).
   */
  lemma PairMatches(c: Cookie, n: string)
    requires '=' !in c.name && '=' !in n
    ensures StartsWith(Pair(c), n + "=") <==> c.name == n
    ensures c.name == n ==> Pair(c)[|n + "="|..] == c.value
  {
    var p := Pair(c);
    if StartsWith(p, n + "=") {
      if |c.name| < |n| {
        SameAt(p, n + "=", |c.name|);
        assert false;
      } else if |c.name| > |n| {
        SameAt(p, n + "=", |n|);
        assert false;
      }
      assert c.name == p[..|n|] == n;
    }
    if c.name == n {
      assert p[..|n + "="|] == n + "=";
      assert p[|n + "="|..] == c.value;
    }
  }

  lemma SameAt(s: string, prefix: string, i: int)
    requires StartsWith(s, prefix) && 0 <= i < |prefix|
    ensures s[i] == prefix[i]
  {
    assert s[..|prefix|][i] == s[i];
  }

  /** Stripping the spaces before a pair gives the pair back. */
  lemma TrimBeforePair(pre: string, c: Cookie)
    requires pre == "" || pre == " "
    requires GoodName(c.name)
    ensures TrimSpaces(pre + Pair(c)) == Pair(c)
  {
    assert Pair(c)[0] == c.name[0];
    if pre == " " {
      assert (pre + Pair(c))[1..] == Pair(c);
    } else {
      assert pre + Pair(c) == Pair(c);
    }
  }

  /**
   * Reading a cookie back: over the text the browser reports, `getCookie`
   * finds the value stored under the name, and `""` for a name not stored.
   */
  lemma {:induction false} ReadBack(pre: string, jar: seq<Cookie>, n: string)
    requires pre == "" || pre == " "
    requires ValidJar(jar) && '=' !in n
    ensures FirstMatch(SplitAll(pre + Header(jar), ';'), n + "=") == Lookup(jar, n)
    decreases |jar|
  {
    if jar == [] {
      assert pre + Header(jar) == pre;
      SplitNone(pre, ';');
      assert TrimSpaces(pre) == "";
    } else {
      HeaderPieces(pre, jar);
      TrimBeforePair(pre, jar[0]);
      PairMatches(jar[0], n);
      if |jar| > 1 {
        ReadBack(" ", jar[1..], n);
      }
    }
  }

  /** The first piece of the header is the first pair, the rest are the other pairs after their space. */
  lemma HeaderPieces(pre: string, jar: seq<Cookie>)
    requires pre == "" || pre == " "
    requires ValidJar(jar) && jar != []
    ensures var pieces := SplitAll(pre + Header(jar), ';');
      pieces[0] == pre + Pair(jar[0])
      && pieces[1..] == if |jar| == 1 then [] else SplitAll(" " + Header(jar[1..]), ';')
  {
    var p := Pair(jar[0]);
    PairHasNoSemicolon(pre, jar[0]);
    if |jar| == 1 {
      assert pre + Header(jar) == pre + p;
      SplitNone(pre + p, ';');
    } else {
      assert pre + Header(jar) == (pre + p) + [';'] + (" " + Header(jar[1..]));
      SplitFirst(pre + p, " " + Header(jar[1..]), ';');
    }
  }

  lemma PairHasNoSemicolon(pre: string, c: Cookie)
    requires pre == "" || pre == " "
    requires GoodName(c.name) && GoodValue(c.value)
    ensures ';' !in pre + Pair(c)
  {
    var p := Pair(c);
    forall i | 0 <= i < |pre + p|
      ensures (pre + p)[i] != ';'
    {
      if i >= |pre| {
        assert (pre + p)[i] == p[i - |pre|];
        if i - |pre| > |c.name| {
          assert p[i - |pre|] == c.value[i - |pre| - |c.name| - 1];
        }
      }
    }
  }

  /** `getCookie` over the browser's cookies gives the value stored under the name, or `""`. */
  lemma CookieValueIsLookup(jar: seq<Cookie>, n: string)
    requires ValidJar(jar) && '=' !in n
    ensures CookieValue(n, Header(jar)) == Lookup(jar, n)
  {
    ReadBack("", jar, n);
    assert "" + Header(jar) == Header(jar);
  }

  /** What `setCookie` assigns to `document.cookie`. */
  function Assignment(cname: string, cvalue: string, expires: string): string
  {
    cname + "=" + cvalue + ";" + "expires=" + expires + ";path=/"
  }

  function BoolText(b: bool): string
  {
    if b then "true" else "false"
  }

  /** `$(this).prop("checked") + "|"` for every checkbox, in order. */
  function Piped(boxes: seq<bool>): string
  {
    if boxes == [] then "" else Piped(boxes[..|boxes| - 1]) + BoolText(boxes[|boxes| - 1]) + "|"
  }

  function BoolTexts(boxes: seq<bool>): (r: seq<string>)
    ensures |r| == |boxes| && forall k :: 0 <= k < |r| ==> r[k] == BoolText(boxes[k])
  {
    seq(|boxes|, k requires 0 <= k < |boxes| => BoolText(boxes[k]))
  }

  /** The `statistics` cookie's value: the states joined by `|`. */
  function StatesText(boxes: seq<bool>): string
  {
    Join(BoolTexts(boxes), '|')
  }

  /** Appending `"|"` after every state is the joined text plus one `"|"` at the end. */
  lemma {:induction false} PipedIsJoined(boxes: seq<bool>)
    requires boxes != []
    ensures Piped(boxes) == StatesText(boxes) + "|"
    decreases |boxes|
  {
    var init := boxes[..|boxes| - 1];
    var last := BoolText(boxes[|boxes| - 1]);
    assert Piped(boxes) == Piped(init) + last + "|";
    BoolTextsSnoc(boxes);
    if init == [] {
      assert BoolTexts(boxes) == [last];
    } else {
      PipedIsJoined(init);
      JoinSnoc(BoolTexts(init), last, '|');
    }
  }

  lemma BoolTextsSnoc(boxes: seq<bool>)
    requires boxes != []
    ensures BoolTexts(boxes) == BoolTexts(boxes[..|boxes| - 1]) + [BoolText(boxes[|boxes| - 1])]
  {
  }

  /** Joining one more piece adds the separator and the piece. */
  lemma {:induction false} JoinSnoc(parts: seq<string>, last: string, c: char)
    requires parts != []
    ensures Join(parts + [last], c) == Join(parts, c) + [c] + last
    decreases |parts|
  {
    if |parts| > 1 {
      JoinSnoc(parts[1..], last, c);
      assert (parts + [last])[1..] == parts[1..] + [last];
    } else {
      assert (parts + [last])[1..] == [last];
    }
  }

  /** What `setStatisticsCookie` does to the checkboxes: box `i` is checked iff piece `i` is `"true"`. */
  function ApplyStates(boxes: seq<bool>, pieces: seq<string>): (r: seq<bool>)
    ensures |r| == |boxes|
    ensures forall k :: 0 <= k < |boxes| ==> r[k] == if k < |pieces| then pieces[k] == "true" else boxes[k]
  {
    seq(|boxes|, k requires 0 <= k < |boxes| => if k < |pieces| then pieces[k] == "true" else boxes[k])
  }

  /** Joining the states and splitting them again checks exactly the boxes that were checked. */
  lemma StatesRoundTrip(boxes: seq<bool>, before: seq<bool>)
    requires boxes != [] && |before| == |boxes|
    ensures SplitAll(StatesText(boxes), '|') == BoolTexts(boxes)
    ensures ApplyStates(before, SplitAll(StatesText(boxes), '|')) == boxes
  {
    var texts := BoolTexts(boxes);
    forall k | 0 <= k < |texts|
      ensures '|' !in texts[k]
    {
      assert texts[k] == "true" || texts[k] == "false";
    }
    JoinSplit(texts, '|');
  }

  /** Two colours without `|`, joined and split, come back as they were. */
  lemma ColorsRoundTrip(mainColor: string, textColor: string)
    requires '|' !in mainColor && '|' !in textColor
    ensures SplitAll(mainColor + "|" + textColor, '|') == [mainColor, textColor]
  {
    SplitFirst(mainColor, textColor, '|');
    SplitNone(textColor, '|');
  }

  class Browser {
    /** The cookies the browser holds for the page. */
    var jar: seq<Cookie>
    /** Every text written to `document.cookie`, in order. */
    var written: seq<string>
    /** The `.statisticsCheckbox` states, in document order. */
    var boxes: seq<bool>
    /** What `saveColor` and `saveTextColor` were last given; `None` stands for `undefined`. */
    var mainColor: Option<string>
    var textColor: Option<string>
    /** How often `reloadAllActiveStatistics` was called. */
    var statisticsReloads: nat
    /** `new Date().getTime()`. */
    const now: int
    /** `Date.toUTCString` of an instant in milliseconds. */
    const utcString: int -> string

    constructor (now: int, utcString: int -> string, jar: seq<Cookie>, boxes: seq<bool>)
      ensures this.now == now && this.utcString == utcString && this.jar == jar && this.boxes == boxes
      ensures written == [] && mainColor == None && textColor == None && statisticsReloads == 0
    {
      this.now := now;
      this.utcString := utcString;
      this.jar := jar;
      this.boxes := boxes;
      written := [];
      mainColor := None;
      textColor := None;
      statisticsReloads := 0;
    }

    /** The text `setCookie(cname, cvalue, 20)` assigns: the cookie expires 20 days from now. */
    function Kept(cname: string, cvalue: string): string
    {
      Assignment(cname, cvalue, utcString(now + COOKIE_DAYS * MILLIS_PER_DAY))
    }

    /** `setCookie`: assigns `name=value;expires=...;path=/`, which stores the cookie. */
    method SetCookie(cname: string, cvalue: string, exdays: int)
      requires GoodName(cname) && GoodValue(cvalue)
      modifies this`jar, this`written
      ensures written == old(written) + [Assignment(cname, cvalue, utcString(now + exdays * MILLIS_PER_DAY))]
      ensures jar == Store(old(jar), cname, cvalue)
    {
      written := written + [Assignment(cname, cvalue, utcString(now + exdays * MILLIS_PER_DAY))];
      jar := Store(jar, cname, cvalue);
    }

    /** `getCookie`: the loop over the `;`-separated pieces of `document.cookie`. */
    method GetCookie(cname: string) returns (v: string)
      ensures v == CookieValue(cname, Header(jar))
    {
      var name := cname + "=";
      var ca := SplitAll(Header(jar), ';');
      for i := 0 to |ca|
        invariant FirstMatch(ca, name) == FirstMatch(ca[i..], name)
      {
        var c := ca[i];
        while c != [] && c[0] == ' '
          invariant TrimSpaces(c) == TrimSpaces(ca[i])
        {
          c := c[1..];
        }
        assert ca[i..][1..] == ca[i + 1..];
        if StartsWith(c, name) {
          return c[|name|..];
        }
      }
      v := "";
    }

    /** `checkCookie`: whether `getCookie` gives a non-empty value. */
    method CheckCookie(name: string) returns (b: bool)
      ensures b <==> CookieValue(name, Header(jar)) != ""
    {
      var cookie := GetCookie(name);
      b := cookie != "";
    }

    /** `setStatisticsCookie`: box `i` is checked iff piece `i` is `"true"`; a piece without a box throws. */
    method SetStatisticsCookie() returns (thrown: Option<Fault>)
      modifies this`boxes
      ensures var pieces := SplitAll(CookieValue(STATISTICS, Header(jar)), '|');
        boxes == ApplyStates(old(boxes), pieces)
        && (thrown.None? <==> |pieces| <= |boxes|)
        && (thrown.Some? ==> thrown == Some(TypeError))
    {
      var cookie := GetCookie(STATISTICS);
      var statisticsCookie := SplitAll(cookie, '|');
      ghost var before := boxes;
      for i := 0 to |statisticsCookie|
        invariant |boxes| == |before| && i <= |boxes|
        invariant forall k :: 0 <= k < |boxes| ==> boxes[k] == if k < i then statisticsCookie[k] == "true" else before[k]
      {
        if i >= |boxes| {
          assert boxes == ApplyStates(before, statisticsCookie);
          return Some(TypeError);
        }
        boxes := boxes[i := statisticsCookie[i] == "true"];
      }
      assert boxes == ApplyStates(before, statisticsCookie);
      thrown := None;
    }

    /** `reloadStatisticsCookie`: the checkbox states joined by `|` become the `statistics` cookie. */
    method ReloadStatisticsCookie()
      modifies this`jar, this`written
      ensures jar == Store(old(jar), STATISTICS, StatesText(boxes))
      ensures written == old(written) + [Kept(STATISTICS, StatesText(boxes))]
    {
      var statisticsValues := "";
      for i := 0 to |boxes|
        invariant statisticsValues == Piped(boxes[..i])
      {
        assert boxes[..i + 1][..i] == boxes[..i];
        statisticsValues := statisticsValues + BoolText(boxes[i]) + "|";
      }
      assert boxes[..|boxes|] == boxes;
      // `substring(0, length - 1)`, where -1 counts as 0
      statisticsValues := statisticsValues[..if |statisticsValues| == 0 then 0 else |statisticsValues| - 1];
      if boxes != [] {
        PipedIsJoined(boxes);
        assert (StatesText(boxes) + "|")[..|StatesText(boxes)|] == StatesText(boxes);
      }
      assert GoodValue(statisticsValues) by {
        StatesHaveNoSemicolon(boxes);
      }
      SetCookie(STATISTICS, statisticsValues, COOKIE_DAYS);
    }

    /** `setColorCookie`: the two `|`-separated colours go to `saveColor` and `saveTextColor`. */
    method SetColorCookie()
      modifies this`mainColor, this`textColor
      ensures var pieces := SplitAll(CookieValue(COLOR, Header(jar)), '|');
        mainColor == Some(pieces[0]) && textColor == (if |pieces| > 1 then Some(pieces[1]) else None)
    {
      var cookie := GetCookie(COLOR);
      var colorCookie := SplitAll(cookie, '|');
      mainColor := Some(colorCookie[0]);
      textColor := if |colorCookie| > 1 then Some(colorCookie[1]) else None;
    }

    /** `reloadColorCookie`: the two colours, joined by `|`, become the `color` cookie. */
    method ReloadColorCookie(mainColorValue: string, textColorValue: string)
      requires GoodValue(mainColorValue) && GoodValue(textColorValue)
      modifies this`jar, this`written
      ensures jar == Store(old(jar), COLOR, mainColorValue + "|" + textColorValue)
      ensures written == old(written) + [Kept(COLOR, mainColorValue + "|" + textColorValue)]
    {
      var cookieValues := mainColorValue + "|" + textColorValue;
      assert GoodValue(cookieValues) by {
        forall i | 0 <= i < |cookieValues|
          ensures cookieValues[i] != ';'
        {
          if i > |mainColorValue| {
            assert cookieValues[i] == textColorValue[i - |mainColorValue| - 1];
          }
        }
      }
      SetCookie(COLOR, cookieValues, COOKIE_DAYS);
    }

    /**
     * `loadCookies`: a stored `statistics` cookie sets the checkboxes (a
     * piece without a box throws, which ends the call) and the charts are
     * reloaded; a stored `color` cookie sets the two colours. A missing
     * cookie, or one holding the empty text, is written with its default
     * for 20 days and changes nothing else.
     */
    method LoadCookies() returns (thrown: Option<Fault>)
      requires ValidJar(jar)
      modifies this
      ensures var stats := Lookup(old(jar), STATISTICS);
        var pieces := SplitAll(stats, '|');
        && (thrown.Some? <==> stats != "" && |pieces| > |old(boxes)|)
        && (thrown.Some? ==> thrown == Some(TypeError))
        && boxes == (if stats == "" then old(boxes) else ApplyStates(old(boxes), pieces))
        && statisticsReloads == (if thrown.None? && stats != "" then old(statisticsReloads) + 1 else old(statisticsReloads))
      ensures var stats, color := Lookup(old(jar), STATISTICS), Lookup(old(jar), COLOR);
        var afterStats := if stats == "" then Store(old(jar), STATISTICS, DEFAULT_STATISTICS) else old(jar);
        var statsWritten := if stats == "" then [Kept(STATISTICS, DEFAULT_STATISTICS)] else [];
        if thrown.Some? then
          jar == old(jar) && written == old(written) && mainColor == old(mainColor) && textColor == old(textColor)
        else if color == "" then
          && jar == Store(afterStats, COLOR, DEFAULT_COLOR)
          && written == old(written) + statsWritten + [Kept(COLOR, DEFAULT_COLOR)]
          && mainColor == old(mainColor) && textColor == old(textColor)
        else
          var colors := SplitAll(color, '|');
          && jar == afterStats
          && written == old(written) + statsWritten
          && mainColor == Some(colors[0]) && textColor == (if |colors| > 1 then Some(colors[1]) else None)
      ensures Lookup(old(jar), STATISTICS) == "" ==> Lookup(jar, STATISTICS) == DEFAULT_STATISTICS
      ensures Lookup(old(jar), STATISTICS) != "" ==> Lookup(jar, STATISTICS) == Lookup(old(jar), STATISTICS)
      ensures thrown.None? && Lookup(old(jar), COLOR) == "" ==> Lookup(jar, COLOR) == DEFAULT_COLOR
      ensures Lookup(old(jar), COLOR) != "" ==> Lookup(jar, COLOR) == Lookup(old(jar), COLOR)
    {
      CookieNames();
      CookieValueIsLookup(jar, STATISTICS);
      CookieValueIsLookup(jar, COLOR);
      ghost var start := jar;
      var hasStatistics := CheckCookie(STATISTICS);
      if hasStatistics {
        thrown := SetStatisticsCookie();
        if thrown.Some? {
          return;
        }
        statisticsReloads := statisticsReloads + 1;
      } else {
        SetCookie(STATISTICS, DEFAULT_STATISTICS, COOKIE_DAYS);
        StoreThenLookup(start, STATISTICS, DEFAULT_STATISTICS, COLOR);
        CookieValueIsLookup(jar, COLOR);
      }
      thrown := None;
      var hasColor := CheckCookie(COLOR);
      if hasColor {
        SetColorCookie();
      } else {
        ghost var mid := jar;
        SetCookie(COLOR, DEFAULT_COLOR, COOKIE_DAYS);
        StoreThenLookup(mid, COLOR, DEFAULT_COLOR, STATISTICS);
      }
    }
  }

  /** The two cookie names are good names and differ; the defaults hold no `;`. */
  lemma CookieNames()
    ensures GoodName(STATISTICS) && GoodName(COLOR) && STATISTICS != COLOR
    ensures GoodValue(DEFAULT_STATISTICS) && GoodValue(DEFAULT_COLOR)
  {
    assert STATISTICS[0] != COLOR[0];
  }

  lemma StatesHaveNoSemicolon(boxes: seq<bool>)
    ensures GoodValue(StatesText(boxes))
  {
    var texts := BoolTexts(boxes);
    SplitJoinPieces(texts, '|', ';');
  }

  /** A joined text holds `d` only where a piece does, unless `d` is the separator. */
  lemma {:induction false} SplitJoinPieces(parts: seq<string>, c: char, d: char)
    requires c != d && forall k :: 0 <= k < |parts| ==> d !in parts[k]
    ensures d !in Join(parts, c)
    decreases |parts|
  {
    if |parts| > 1 {
      SplitJoinPieces(parts[1..], c, d);
      var j := Join(parts, c);
      assert j == parts[0] + [c] + Join(parts[1..], c);
      forall i | 0 <= i < |j|
        ensures j[i] != d
      {
        if i > |parts[0]| {
          assert j[i] == Join(parts[1..], c)[i - |parts[0]| - 1];
        }
      }
    }
  }

  /**
   * Writing the checkbox states and applying the cookie again, as the next
   * page load does, checks exactly the boxes that were checked.
   */
  lemma StatisticsCookieRoundTrip(jar: seq<Cookie>, boxes: seq<bool>)
    requires ValidJar(jar) && boxes != []
    ensures ApplyStates(boxes, SplitAll(CookieValue(STATISTICS, Header(Store(jar, STATISTICS, StatesText(boxes)))), '|')) == boxes
  {
    CookieNames();
    StatesHaveNoSemicolon(boxes);
    StoreThenLookup(jar, STATISTICS, StatesText(boxes), STATISTICS);
    CookieValueIsLookup(Store(jar, STATISTICS, StatesText(boxes)), STATISTICS);
    StatesRoundTrip(boxes, boxes);
  }
}

=== FILE: create_index.dfy ===
/**
 * `log/CreateIndex.readAllLogEntries`: the same grouping of lines into
 * entries as `log/LogReader.readAllLogFiles`, with two differences in the
 * loop. The byte count starts at 0 instead of the sentinel -1, and the text
 * still pending after the last line is never made into an entry.
 */
module CreateIndexReader {
  import opened Wrappers
  import opened JavaNum
  import opened Sequences
  import opened LogLines
  import opened LogEntries
  import opened LogPackageReader

  /**
   * What `readAllLogEntries` makes of one file: every entry but the last,
   * the first at 0 and entry `k` at `Offset + 1`; an empty file has none.
   */
  function CreateSpec(lines: seq<string>, starts: string -> bool, parse: string -> Result<TextEntry>): Result<seq<Located>>
  {
    var gs := Groups(lines, starts);
    if gs == [] then Ok([]) else ParseAll(gs, |gs| - 1, 1, parse)
  }

  /** After the last line the pending text is dropped: the entries closed so far are the result. */
  lemma DropPending(lines: seq<string>, starts: string -> bool, parse: string -> Result<TextEntry>, g: nat,
    closed: seq<seq<string>>, line: string, count: int, entries: seq<Located>)
    requires Scanned(lines, starts, parse, 1, |lines|, g, closed, line, count, entries)
    ensures CreateSpec(lines, starts, parse) == Ok(entries)
  {
    if |lines| == 0 {
      assert Groups(lines, starts) == [];
    } else {
      var i := |lines|;
      CloseGroup(lines, starts, closed, g, i);
      ParseAllPrefix(closed, [lines[g..i]], |closed|, 1, parse);
    }
  }

  /** An entry that does not parse while a later one is pending fails the file. */
  lemma FailEntry(lines: seq<string>, starts: string -> bool, parse: string -> Result<TextEntry>, i: nat, g: nat,
    closed: seq<seq<string>>, line: string, count: int, entries: seq<Located>)
    requires Scanned(lines, starts, parse, 1, i, g, closed, line, count, entries)
    requires i < |lines| && line != "" && starts(lines[i])
    requires parse(line).Err?
    ensures CreateSpec(lines, starts, parse) == Err(parse(line).fault)
  {
    FailLine(lines, starts, parse, 1, i, g, closed, line, count, entries);
    var gs := Groups(lines, starts);
    FailStops(gs, |closed| + 1, |gs| - 1, 1, parse);
  }

  /** An entry that parses is placed at the count so far, which grows by its text and one `\n`. */
  lemma CloseEntryAtCount(lines: seq<string>, starts: string -> bool, parse: string -> Result<TextEntry>, i: nat, g: nat,
    closed: seq<seq<string>>, line: string, count: int, entries: seq<Located>)
    requires Scanned(lines, starts, parse, 1, i, g, closed, line, count, entries)
    requires i < |lines| && line != "" && starts(lines[i]) && !starts("")
    requires parse(line).Ok?
    ensures Scanned(lines, starts, parse, 1, i + 1, i, closed + [lines[g..i]], lines[i], count + |line + "\n"|,
      entries + [Located(parse(line).value, count)])
  {
    CloseLine(lines, starts, parse, 1, i, g, closed, line, count, entries);
  }

  /**
   * One round of the loop of `readAllLogEntries`: the line joins the pending
   * text, or the pending entry is parsed at the count so far (a parse error
   * ends the read), its text and one `\n` are counted and the line becomes
   * the pending text.
   */
  method ReadLine(lines: seq<string>, parse: string -> Result<TextEntry>, i: nat, ghost g: nat,
    ghost closed: seq<seq<string>>, line: string, count: int, entries: seq<Located>)
    returns (failed: Option<Fault>, ghost g': nat, ghost closed': seq<seq<string>>, line': string, count': int,
      entries': seq<Located>)
    requires i < |lines| && Scanned(lines, StartsEntryLine, parse, 1, i, g, closed, line, count, entries)
    ensures failed.Some? ==> CreateSpec(lines, StartsEntryLine, parse) == Err(failed.value)
    ensures failed.None? ==> Scanned(lines, StartsEntryLine, parse, 1, i + 1, g', closed', line', count', entries')
  {
    if line == "" || !StartsEntryLine(lines[i]) {
      JoinLine(lines, StartsEntryLine, parse, 1, i, g, closed, line, count, entries);
      return None, g, closed, line + lines[i] + "\n", count, entries;
    }
    var e := parse(line);
    if e.Err? {
      FailEntry(lines, StartsEntryLine, parse, i, g, closed, line, count, entries);
      return Some(e.fault), g, closed, line, count, entries;
    }
    CloseEntryAtCount(lines, StartsEntryLine, parse, i, g, closed, line, count, entries);
    var ended := line + "\n";
    failed, g', closed', line', count', entries' := None, i, closed + [lines[g..i]], lines[i], count + |ended|,
      entries + [Located(e.value, count)];
  }

  /**
   * The loop of `readAllLogEntries` over one file: the loop of
   * `readAllLogFiles` with `currentByteCount` starting at 0 and no entry
   * made after the last line.
   */
  method ReadEntries(lines: seq<string>, parse: string -> Result<TextEntry>) returns (r: Result<seq<Located>>)
    ensures r == CreateSpec(lines, StartsEntryLine, parse)
  {
    var line := "";
    var count := 0;
    var entries: seq<Located> := [];
    ghost var closed: seq<seq<string>> := [];
    ghost var g := 0;
    var i := 0;
    while i < |lines|
      invariant Scanned(lines, StartsEntryLine, parse, 1, i, g, closed, line, count, entries)
    {
      var failed;
      failed, g, closed, line, count, entries := ReadLine(lines, parse, i, g, closed, line, count, entries);
      if failed.Some? {
        return Err(failed.value);
      }
      i := i + 1;
    }
    DropPending(lines, StartsEntryLine, parse, g, closed, line, count, entries);
    r := Ok(entries);
  }

  /** How `readAllLogEntries` reads one file's lines. */
  function EntryReader(parse: string -> Result<TextEntry>): seq<string> -> Result<seq<Located>>
  {
    lines => CreateSpec(lines, StartsEntryLine, parse)
  }

  /**
   * `readAllLogEntries` over the folder's files in the order listed, with
   * the same `short` file index as `readAllLogFiles`.
   */
  method ReadAllLogEntries(files: seq<LogFileText>, parseTime: string -> Option<int>) returns (r: Result<seq<LogFile>>)
    ensures r == ReadFiles(files, |files|, EntryReader(EntryParser(parseTime)))
  {
    var parse := EntryParser(parseTime);
    var read := EntryReader(parse);
    var logFiles: seq<LogFile> := [];
    var index := 0;
    while index < |files|
      invariant index <= |files|
      invariant ReadFiles(files, index, read) == Ok(logFiles)
    {
      if index > SHORT_MAX {
        ErrStops(files, index + 1, |files|, read);
        return Err(IndexOutOfBounds);
      }
      var entries := ReadEntries(files[index].lines, parse);
      if entries.Err? {
        ErrStops(files, index + 1, |files|, read);
        return Err(entries.fault);
      }
      logFiles := logFiles + [LogFile(files[index].name, entries.value)];
      index := index + 1;
    }
    r := Ok(logFiles);
  }

  // ----- how the two readers differ -----

  /**
   * Whenever `readAllLogFiles` reads a non-empty file, `readAllLogEntries`
   * reads the same entries but the last, and places every entry after the
   * first one byte past where `readAllLogFiles` does, which
   * `OffsetsLocateEntries` shows is the entry's start.
   */
  lemma CreateAgreesWithRead(lines: seq<string>, starts: string -> bool, parse: string -> Result<TextEntry>)
    requires lines != [] && ReadSpec(lines, starts, parse).Ok?
    ensures var r := ReadSpec(lines, starts, parse).value;
      var c := CreateSpec(lines, starts, parse);
      && c.Ok? && |c.value| + 1 == |r|
      && forall k :: 0 <= k < |c.value| ==>
           c.value[k].entry == r[k].entry && c.value[k].id == (if k == 0 then 0 else r[k].id + 1)
  {
    var gs := Groups(lines, starts);
    ReadEntriesAtOffsets(lines, starts, parse);
    ParsedAtOffsets(gs, parse);
    ParseAllOk(gs, |gs| - 1, 1, parse);
    forall k | 0 <= k < |gs| - 1
      ensures ParseAt(gs, k, 1, parse).Ok?
    {
      assert parse(PendingText(gs[k], k == 0)).Ok?;
    }
  }

  /**
   * A file holding one entry yields no entry at all, while
   * `readAllLogFiles` yields that entry at offset 0.
   */
  lemma SingleEntryDropped(lines: seq<string>, starts: string -> bool, parse: string -> Result<TextEntry>)
    requires lines != [] && forall k :: 0 < k < |lines| ==> !starts(lines[k])
    ensures CreateSpec(lines, starts, parse) == Ok([])
    ensures parse(Joined(lines)).Ok? ==> ReadSpec(lines, starts, parse) == Ok([Located(parse(Joined(lines)).value, 0)])
  {
    var gs := Groups(lines, starts);
    GroupsFromStep(lines, starts, 0, |lines|);
    assert lines[0..|lines|] == lines;
    assert gs == [lines];
    assert CreateSpec(lines, starts, parse) == ParseAll(gs, 0, 1, parse);
    assert ReadSpec(lines, starts, parse) == ParseAll(gs, 1, 0, parse);
    assert ParseAll(gs, 0, 0, parse) == Ok([]);
    assert PendingText(gs[0], true) == Joined(lines);
    if parse(Joined(lines)).Ok? {
      var x := Located(parse(Joined(lines)).value, 0);
      assert ParseAt(gs, 0, 0, parse) == Ok(x);
      assert [] + [x] == [x];
    }
  }
}

=== FILE: entry_scanners.dfy ===
/**
 * What `readLogEntryWithoutMessage`, `readLogLevelOfEntry` and
 * `getIDOfLastLogEntry` of both `LogReader` classes do with a
 * `RandomAccessFile` over a log file. The file is single-byte text: a byte
 * position is a character index.
 */
module EntryScanners {
  import opened Wrappers
  import opened Text
  import opened LogLines
  import opened LogLevels
  import opened LogEntries

  /** `n` characters U+0000: what is left in a fresh `byte[n]` where nothing was read. */
  function Nuls(n: nat): (r: string)
    ensures |r| == n && forall i :: 0 <= i < n ==> r[i] == '\0'
  {
    if n == 0 then "" else Nuls(n - 1) + "\0"
  }

  /**
   * `read(new byte[n])` at position `p`, turned into a `String`: the
   * characters that are there (none past the end), padded with U+0000.
   */
  function Window(s: string, p: nat, n: nat): (r: string)
    ensures |r| == n
    ensures p + n <= |s| ==> r == s[p..p + n]
  {
    if p >= |s| then Nuls(n)
    else if p + n <= |s| then s[p..p + n]
    else s[p..] + Nuls(p + n - |s|)
  }

  /** How far `read(new byte[n])` moves the file pointer from `p`. */
  function Advance(s: string, p: nat, n: nat): (q: nat)
  {
    if p >= |s| then p else if p + n <= |s| then p + n else |s|
  }

  /** The first `]` at or after `p`, or the end of the file. */
  function ModuleEnd(s: string, p: nat): (e: nat)
    requires p <= |s|
    ensures p <= e <= |s| && (e < |s| ==> s[e] == ']')
    ensures forall k :: p <= k < e ==> s[k] != ']'
    decreases |s| - p
  {
    if p == |s| || s[p] == ']' then p else ModuleEnd(s, p + 1)
  }

  /**
   * The module loop: `read()` one character at a time and keep it until a
   * `]` or the end of the file (`-1`); the pointer ends past the `]`.
   */
  method ScanModule(s: string, p: nat) returns (m: string, q: nat)
    requires p <= |s|
    ensures m == s[p..ModuleEnd(s, p)]
    ensures q == if ModuleEnd(s, p) < |s| then ModuleEnd(s, p) + 1 else |s|
  {
    m := "";
    q := p;
    var reading := true;
    while reading
      invariant p <= q <= |s|
      invariant reading ==> m == s[p..q] && forall k :: p <= k < q ==> s[k] != ']'
      invariant !reading ==> m == s[p..ModuleEnd(s, p)] && q == if ModuleEnd(s, p) < |s| then ModuleEnd(s, p) + 1 else |s|
      decreases |s| - q, reading
    {
      if q == |s| {
        reading := false;
      } else {
        var c := s[q];
        q := q + 1;
        if c == ']' {
          reading := false;
        } else {
          m := m + [c];
        }
      }
    }
  }

  /**
   * The class loop: keep every character up to the `?` of the first `:?`
   * from `p`, or up to the end of the file. What it keeps ends with the `:`
   * when the `:?` was found.
   */
  method ScanClass(s: string, p: nat) returns (c: string)
    requires p <= |s|
    ensures c == ClassText(s, p)
  {
    c := "";
    var q := p;
    var previous := ' ';
    var reading := true;
    while reading
      invariant p <= q <= |s|
      invariant reading ==> c == s[p..q] && previous == (if q == p then ' ' else s[q - 1])
      invariant reading ==> forall k :: p <= k && k + 2 <= q ==> !OccursAt(s, ":?", k)
      invariant !reading ==> var m := IndexOf(s, ":?", p);
        c == if m == -1 then s[p..] else s[p..m + 1]
      decreases |s| - q, reading
    {
      if q == |s| {
        reading := false;
        assert forall k :: p <= k ==> !OccursAt(s, ":?", k);
      } else {
        var ch := s[q];
        q := q + 1;
        if ch == '?' && previous == ':' {
          reading := false;
          assert OccursAt(s, ":?", q - 2);
          IndexOfFirst(s, ":?", p, q - 2);
        } else {
          assert s[p..q] == s[p..q - 1] + [ch];
          previous := ch;
          c := c + [ch];
        }
      }
    }
  }

  /** The characters the class loop keeps. */
  function ClassText(s: string, p: nat): string
    requires p <= |s|
  {
    var m := IndexOf(s, ":?", p);
    if m == -1 then s[p..] else s[p..m + 1]
  }

  /** `substring(0, length() - 1)`: drop the last character; an empty builder is an index error. */
  function DropLast(c: string): (r: Result<string>)
    ensures r.Ok? <==> c != []
    ensures r.Ok? ==> r.value + [c[|c| - 1]] == c
  {
    if c == [] then Err(IndexOutOfBounds) else Ok(c[..|c| - 1])
  }

  /**
   * The head of an entry as the byte reader sees it: the date text, the
   * trimmed level text, the module and the class name.
   */
  datatype EntryHead = EntryHead(timeText: string, levelText: string, moduleName: string, className: string)

  /**
   * `readLogEntryWithoutMessage` up to the conversions of the date and
   * level: 24 characters of date (`read`), 7 of level (`readFully`, an
   * EOFException when they are not all there), one skipped `[`, the module
   * loop, one skipped space, the class loop.
   */
  method ReadHead(s: string, id: nat) returns (r: Result<EntryHead>)
    ensures r == HeadAt(s, id)
  {
    var timeText := Window(s, id, 24);
    var p := Advance(s, id, 24);
    if p + 7 > |s| {
      return Err(EndOfFile);
    }
    var levelText := Trim(s[p..p + 7]);
    var mStart := if p + 8 <= |s| then p + 8 else |s|;
    var moduleName, q := ScanModule(s, mStart);
    q := if q + 1 <= |s| then q + 1 else |s|;
    assert q == ClassStart(s, mStart);
    var c := ScanClass(s, q);
    var className := DropLast(c);
    HeadAtSteps(s, id, mStart, moduleName, c);
    if className.Err? {
      return Err(className.fault);
    }
    r := Ok(EntryHead(timeText, levelText, moduleName, className.value));
  }

  /** `HeadAt` once the date and level were read: the two loops' results and the dropped `:`. */
  lemma HeadAtSteps(s: string, id: nat, mStart: nat, moduleName: string, c: string)
    requires Advance(s, id, 24) + 7 <= |s|
    requires mStart == if Advance(s, id, 24) + 8 <= |s| then Advance(s, id, 24) + 8 else |s|
    requires moduleName == s[mStart..ModuleEnd(s, mStart)]
    requires c == ClassText(s, ClassStart(s, mStart))
    ensures var p := Advance(s, id, 24);
      HeadAt(s, id) == match DropLast(c)
        case Err(f) => Err(f)
        case Ok(className) => Ok(EntryHead(Window(s, id, 24), Trim(s[p..p + 7]), moduleName, className))
  {
  }

  /** The position after the module loop and the skipped space. */
  function ClassStart(s: string, p: nat): (q: nat)
    requires p <= |s|
    ensures q <= |s|
  {
    var e := ModuleEnd(s, p);
    var q := if e < |s| then e + 1 else |s|;
    if q + 1 <= |s| then q + 1 else |s|
  }

  /** What `ReadHead` reads, as one expression. */
  function HeadAt(s: string, id: nat): Result<EntryHead>
  {
    var p := Advance(s, id, 24);
    if p + 7 > |s| then Err(EndOfFile)
    else
      var mStart := if p + 8 <= |s| then p + 8 else |s|;
      match DropLast(ClassText(s, ClassStart(s, mStart)))
      case Err(f) => Err(f)
      case Ok(className) => Ok(EntryHead(Window(s, id, 24), Trim(s[p..p + 7]), s[mStart..ModuleEnd(s, mStart)], className))
  }

  /** `readLogLevelOfEntry`: `read` seven characters at `id + 24` and trim them. */
  function LevelTextAt(s: string, id: nat): string
  {
    Trim(Window(s, id + 24, 7))
  }

  /** The first `]` from `p` is where the module loop stops. */
  lemma ModuleEndAt(s: string, p: nat, e: nat)
    requires p <= e < |s| && s[e] == ']'
    requires forall k :: p <= k < e ==> s[k] != ']'
    ensures ModuleEnd(s, p) == e
  {
  }

  /**
   * Where an entry's module is closed by `]` and its class name by `:?`,
   * the byte reader finds the date text, the trimmed level text, the
   * module and the class name at their places.
   */
  lemma HeadAtFields(s: string, id: nat, m: string, c: string)
    requires id + 32 + |m| + 2 + |c| + 2 <= |s|
    requires s[id + 32..id + 32 + |m|] == m && ']' !in m && s[id + 32 + |m|] == ']'
    requires s[id + 32 + |m| + 2..id + 32 + |m| + 2 + |c|] == c && ':' !in c
    requires s[id + 32 + |m| + 2 + |c|] == ':' && s[id + 32 + |m| + 2 + |c| + 1] == '?'
    ensures HeadAt(s, id) == Ok(EntryHead(s[id..id + 24], Trim(s[id + 24..id + 31]), m, c))
    ensures LevelTextAt(s, id) == Trim(s[id + 24..id + 31])
  {
    var close := id + 32 + |m|;
    assert Advance(s, id, 24) == id + 24;
    assert Window(s, id, 24) == s[id..id + 24];
    assert Window(s, id + 24, 7) == s[id + 24..id + 31];
    ModuleEndAt(s, id + 32, close) by {
      forall k | id + 32 <= k < close
        ensures s[k] != ']'
      {
        assert s[k] == m[k - id - 32];
      }
    }
    assert ClassStart(s, id + 32) == close + 2;
    ClassTextAt(s, close + 2, c);
    assert DropLast(c + ":") == Ok(c) by {
      assert (c + ":")[..|c|] == c;
    }
    HeadAtSteps(s, id, id + 32, m, c + ":");
  }

  /** A `:`-free class name closed by `:?` is what the class loop keeps, with the `:`. */
  lemma ClassTextAt(s: string, q: nat, c: string)
    requires q + |c| + 2 <= |s|
    requires s[q..q + |c|] == c && ':' !in c && s[q + |c|] == ':' && s[q + |c| + 1] == '?'
    ensures ClassText(s, q) == c + ":"
  {
    var colon := q + |c|;
    assert OccursAt(s, ":?", colon) by {
      assert s[colon..colon + 2] == [s[colon], s[colon + 1]];
    }
    forall k | q <= k < colon
      ensures !OccursAt(s, ":?", k)
    {
      assert s[k] == c[k - q];
      assert s[k..k + 2][0] == s[k];
    }
    IndexOfFirst(s, ":?", q, colon);
    assert s[q..colon + 1] == s[q..colon] + [s[colon]];
  }

  /**
   * On an entry written in the logger's layout, the byte reader finds the
   * date text, level, module and class name the line parser finds, and
   * `readLogLevelOfEntry` the same level.
   */
  lemma HeadOfLine(prefix: string, timeText: string, l: LogLevel, moduleName: string, className: string, message: string)
    requires |timeText| == 24
    requires ']' !in moduleName && ':' !in className
    ensures |Name(l)| <= 5
    ensures var s := prefix + Line(timeText, Name(l), moduleName, className, message);
      && HeadAt(s, |prefix|) == Ok(EntryHead(timeText, Name(l), moduleName, className))
      && LevelTextAt(s, |prefix|) == Name(l)
  {
    LevelField(timeText, l);
    var h := Head(timeText, Name(l));
    var rest := ":? - " + message;
    var t := h + moduleName + "] " + className + rest;
    LineParts(timeText, Name(l), moduleName, className, message);
    LineShape(h, moduleName, className, rest);
    Shifted(prefix, t, moduleName, className);
    var s := prefix + t;
    HeadAtFields(s, |prefix|, moduleName, className);
    assert s[|prefix|..|prefix| + 24] == timeText;
    assert Trim(s[|prefix| + 24..|prefix| + 31]) == Name(l);
  }

  /** The layout facts of an entry, moved to where the entry lies in the file. */
  lemma Shifted(prefix: string, t: string, m: string, c: string)
    requires 32 + |m| + 2 + |c| + 2 <= |t|
    requires t[32..32 + |m|] == m && ']' !in m && t[32 + |m|] == ']'
    requires t[32 + |m| + 2..32 + |m| + 2 + |c|] == c && ':' !in c
    requires t[32 + |m| + 2 + |c|] == ':' && t[32 + |m| + 2 + |c| + 1] == '?'
    ensures var s, id := prefix + t, |prefix|;
      && s[id..id + 24] == t[..24] && s[id + 24..id + 31] == t[24..31]
      && s[id + 32..id + 32 + |m|] == m && s[id + 32 + |m|] == ']'
      && s[id + 32 + |m| + 2..id + 32 + |m| + 2 + |c|] == c
      && s[id + 32 + |m| + 2 + |c|] == ':' && s[id + 32 + |m| + 2 + |c| + 1] == '?'
  {
    var s := prefix + t;
    assert s[|prefix|..] == t;
  }
}

=== FILE: exception_full.dfy ===
/**
 * The second pattern of `LogEntry`, `REGEX_GET_EXCEPTION_FULL`, which the
 * comment of `findException()` describes but its body does not use: the
 * exception name together with the packages in front of it.
 */
module ExceptionFullNames {
  import opened Wrappers
  import opened Text
  import opened ExceptionNames

  /** A character that may start a package name in the full pattern: a letter or `_`. */
  predicate IsNameStart(c: char)
  {
    ('a' <= c <= 'z') || ('A' <= c <= 'Z') || c == '_'
  }

  /**
   * Where the full pattern `((?:[a-zA-Z_]\w*\.)*\w+Exception\w*)` ends when it
   * is tried at `p`: the group takes as many `name.` segments as leave a
   * match of the simple pattern after them, trying more segments first.
   */
  function FullMatchEnd(s: string, p: int): (r: Option<int>)
    requires 0 <= p <= |s|
    ensures r.Some? ==> p < r.value <= |s|
    decreases |s| - p
  {
    var e := RunEnd(s, p);
    var more := if p < |s| && IsNameStart(s[p]) && e < |s| && s[e] == '.' then FullMatchEnd(s, e + 1) else None;
    if more.Some? then more
    else if HasMatchAt(s, p) then Some(e)
    else None
  }

  /** The first match of the full pattern at or after `p`. */
  function FindFullFrom(s: string, p: int): Option<string>
    requires 0 <= p <= |s|
    decreases |s| - p
  {
    if p == |s| then None
    else
      match FullMatchEnd(s, p)
      case Some(e) => Some(s[p..e])
      case None => FindFullFrom(s, p + 1)
  }

  /**
   * `findException()` as its comment describes it, with
   * `REGEX_GET_EXCEPTION_FULL`: the exception name with its packages.
   */
  function FindExceptionFull(message: string): Option<string>
  {
    if !Contains(message, "Exception") then None else FindFullFrom(message, 0)
  }

  /** A full match ends where a match of the simple pattern at or after its start ends. */
  lemma {:induction false} FullMatchHasSimple(s: string, p: int)
    requires 0 <= p <= |s| && FullMatchEnd(s, p).Some?
    ensures exists j :: p <= j < |s| && MatchAt(s, j) && FullMatchEnd(s, p).value == RunEnd(s, j)
    decreases |s| - p
  {
    var e := RunEnd(s, p);
    if p < |s| && IsNameStart(s[p]) && e < |s| && s[e] == '.' && FullMatchEnd(s, e + 1).Some? {
      FullMatchHasSimple(s, e + 1);
    } else {
      assert MatchAt(s, p);
    }
  }

  /**
   * The full pattern finds something at or after `p` exactly when the simple
   * one does, and what it finds runs from its start to the end of a simple
   * match.
   */
  lemma {:induction false} FindFullLikeSimple(s: string, p: int)
    requires 0 <= p <= |s|
    ensures var r := FindFullFrom(s, p);
      && (r == None <==> forall j :: p <= j < |s| ==> !MatchAt(s, j))
      && (r.Some? ==> exists i, j :: p <= i <= j < |s| && MatchAt(s, j) && r.value == s[i..RunEnd(s, j)])
    decreases |s| - p
  {
    if p < |s| {
      if FullMatchEnd(s, p).Some? {
        FullMatchHasSimple(s, p);
      } else {
        assert !MatchAt(s, p);
        FindFullLikeSimple(s, p + 1);
      }
    }
  }

  /** Both patterns find a name in exactly the same messages. */
  lemma FullFindsWhereSimpleFinds(message: string)
    ensures FindExceptionFull(message).Some? <==> FindException(message).Some?
  {
    FindExceptionLeftmost(message);
    FindFullLikeSimple(message, 0);
  }

  /** A `name.` segment at `p` followed by a full match: the match extends back to `p`. */
  lemma FullMatchSegment(s: string, p: int, e: int, m: int)
    requires 0 <= p < e < |s| && e == RunEnd(s, p) && IsNameStart(s[p]) && s[e] == '.'
    requires FullMatchEnd(s, e + 1) == Some(m)
    ensures FullMatchEnd(s, p) == Some(m)
  {
  }

  /** A simple match at `p` whose word is not followed by `.` is the whole full match. */
  lemma FullMatchLast(s: string, p: int, e: int)
    requires 0 <= p < e < |s| && e == RunEnd(s, p) && s[e] != '.' && MatchAt(s, p)
    ensures FullMatchEnd(s, p) == Some(e)
  {
  }

  /** The run from `p` ends at the first non-word character after word characters. */
  lemma {:induction false} RunEndAt(s: string, p: int, e: int)
    requires 0 <= p <= e < |s| && WordRun(s, p, e) && !IsWordChar(s[e])
    ensures RunEnd(s, p) == e
    decreases e - p
  {
    if p < e {
      RunEndAt(s, p + 1, e);
    }
  }

  /**
   * In a message that starts with `java.io.IOException` and goes on with a
   * character that is neither a word character nor `.`, the full pattern
   * tried at the class name ends after it.
   */
  lemma KeptName(s: string)
    requires |s| > 19 && s[..19] == "java.io.IOException" && !IsWordChar(s[19]) && s[19] != '.'
    ensures FullMatchEnd(s, 8) == Some(19)
  {
    assert forall k :: 0 <= k < 19 ==> s[k] == s[..19][k];
    assert WordRun(s, 8, 19);
    RunEndAt(s, 8, 19);
    assert MatchAt(s, 8) by {
      assert s[10..19] == s[..19][10..19] == "Exception";
      assert WordRun(s, 8, 10);
    }
    FullMatchLast(s, 8, 19);
  }

  /** Tried at `io.` in such a message, the full pattern takes that package. */
  lemma KeptInnerPackage(s: string)
    requires |s| > 19 && s[..19] == "java.io.IOException" && !IsWordChar(s[19]) && s[19] != '.'
    ensures FullMatchEnd(s, 5) == Some(19)
  {
    assert WordRun(s, 5, 7) && IsNameStart(s[5]) && !IsWordChar(s[7]) && s[7] == '.' by {
      assert s[5..8] == s[..19][5..8] == "io.";
      assert s[5] == s[5..8][0] == 'i' && s[6] == s[5..8][1] == 'o' && s[7] == s[5..8][2] == '.';
    }
    RunEndAt(s, 5, 7);
    KeptName(s);
    FullMatchSegment(s, 5, 7, 19);
  }

  /** Tried at the start of such a message, the full pattern takes both packages. */
  lemma KeptPackages(s: string)
    requires |s| > 19 && s[..19] == "java.io.IOException" && !IsWordChar(s[19]) && s[19] != '.'
    ensures FullMatchEnd(s, 0) == Some(19)
  {
    assert WordRun(s, 0, 4) && IsNameStart(s[0]) && !IsWordChar(s[4]) && s[4] == '.' by {
      assert s[..5] == s[..19][..5] == "java.";
      assert s[0] == s[..5][0] == 'j' && s[1] == s[..5][1] == 'a' && s[2] == s[..5][2] == 'v';
      assert s[3] == s[..5][3] == 'a' && s[4] == s[..5][4] == '.';
    }
    RunEndAt(s, 0, 4);
    KeptInnerPackage(s);
    FullMatchSegment(s, 0, 4, 19);
  }

  /**
   * With the full pattern the package stays part of the name: a message
   * starting `java.io.IOException: ` gives `java.io.IOException`, where
   * `findException()` gives `IOException`.
   */
  lemma PackageKept(s: string)
    requires |s| > 19 && s[..19] == "java.io.IOException" && !IsWordChar(s[19]) && s[19] != '.'
    ensures FindExceptionFull(s) == Some("java.io.IOException")
  {
    KeptPackages(s);
    assert s[10..19] == s[..19][10..19] == "Exception";
    assert OccursAt(s, "Exception", 10);
  }
}

=== FILE: filter.dfy ===
/**
 * `luceneSearch/data/Filter` with its builder, and `FilterData.parse`, which
 * turns the filter the browser posts (names and nullable fields) into a
 * `Filter` (level ids and defaults).
 */
module Filters {
  import opened Wrappers
  import opened JavaNum
  import opened LogLevels

  datatype Filter = Filter(
    beginDate: int,
    endDate: int,
    logLevels: set<int>,
    moduleName: Option<string>,
    className: Option<string>,
    exception: Option<string>,
    fileID: int,
    message: Option<string>)

  /** `Filter.FilterBuilder`: the fields of the filter being built. */
  class FilterBuilder {
    var beginDate: int
    var endDate: int
    var logLevels: set<int>
    var moduleName: Option<string>
    var className: Option<string>
    var exception: Option<string>
    var fileID: int
    var message: Option<string>

    /** `Filter.builder()`: all dates, no levels, no text filters, no file (-1). */
    constructor ()
      ensures Build() == Filter(0, LONG_MAX, {}, None, None, None, -1, None)
    {
      beginDate := 0;
      endDate := LONG_MAX;
      logLevels := {};
      moduleName := None;
      className := None;
      exception := None;
      fileID := -1;
      message := None;
    }

    /** `addLogLevel`: one more id in the set; nothing else changes. */
    method AddLogLevel(logLevel: int)
      modifies this
      ensures Build() == old(Build()).(logLevels := old(logLevels) + {logLevel})
    {
      logLevels := logLevels + {logLevel};
    }

    /** `build()`. */
    function Build(): Filter
      reads this
    {
      Filter(beginDate, endDate, logLevels, moduleName, className, exception, fileID, message)
    }
  }

  /** The JSON body of a search request: every field may be null. */
  datatype FilterData = FilterData(
    beginDate: Option<int>,
    endDate: Option<int>,
    logLevels: Option<seq<string>>,
    moduleName: Option<string>,
    className: Option<string>,
    exception: Option<string>,
    message: Option<string>)

  /**
   * The level ids of the names, as the stream `map(LogLevel::valueOf)
   * .map(LogLevel::getId).forEach(addLogLevel)` adds them one after another.
   */
  function LevelIds(names: seq<string>): Result<set<int>>
  {
    if names == [] then Ok({})
    else
      match LevelIds(names[..|names| - 1])
      case Err(f) => Err(f)
      case Ok(ids) =>
        match ValueOf(names[|names| - 1])
        case Err(f) => Err(f)
        case Ok(l) => Ok(ids + {Id(l)})
  }

  /** What `parse` returns, or the exception it ends with. */
  function ParseFilterData(d: FilterData): (r: Result<Filter>)
    ensures d.logLevels.None? ==> r == Err(NullPointer)
    ensures r.Ok? ==> r.value.fileID == -1
    ensures r.Ok? ==> r.value.beginDate == (if d.beginDate.Some? then d.beginDate.value else 0)
    ensures r.Ok? ==> r.value.endDate == (if d.endDate.Some? then d.endDate.value else LONG_MAX)
    ensures r.Ok? ==> (r.value.message.Some? <==> d.message.Some? && d.message.value != "")
    ensures r.Ok? ==> r.value.moduleName == d.moduleName && r.value.className == d.className && r.value.exception == d.exception
  {
    if d.logLevels.None? then Err(NullPointer)
    else
      match LevelIds(d.logLevels.value)
      case Err(f) => Err(f)
      case Ok(ids) =>
        Ok(Filter(
          if d.beginDate.Some? then d.beginDate.value else 0,
          if d.endDate.Some? then d.endDate.value else LONG_MAX,
          ids,
          d.moduleName,
          d.className,
          d.exception,
          -1,
          if d.message.Some? && d.message.value != "" then d.message else None))
  }

  /**
   * The stream `map(LogLevel::valueOf).map(LogLevel::getId).forEach(addLogLevel)`:
   * the ids of the names are added one after another, and the first name
   * that is not a level ends it with its exception.
   */
  method AddLevels(builder: FilterBuilder, names: seq<string>) returns (failed: Option<Fault>)
    modifies builder
    ensures LevelIds(names).Err? ==> failed == Some(LevelIds(names).fault)
    ensures LevelIds(names).Ok? ==>
      failed.None? && builder.Build() == old(builder.Build()).(logLevels := old(builder.logLevels) + LevelIds(names).value)
  {
    var i := 0;
    while i < |names|
      invariant i <= |names|
      invariant LevelIds(names[..i]).Ok?
      invariant builder.Build() == old(builder.Build()).(logLevels := old(builder.logLevels) + LevelIds(names[..i]).value)
    {
      assert names[..i + 1][..i] == names[..i];
      var level := ValueOf(names[i]);
      if level.Err? {
        LevelIdsStopAtError(names, i + 1);
        return Some(level.fault);
      }
      builder.AddLogLevel(Id(level.value));
      i := i + 1;
    }
    assert names[..i] == names;
    failed := None;
  }

  /** `FilterData.parse`: fill a fresh builder field by field. */
  method Parse(d: FilterData) returns (r: Result<Filter>)
    ensures r == ParseFilterData(d)
  {
    var builder := new FilterBuilder();
    if d.beginDate.Some? {
      builder.beginDate := d.beginDate.value;
    }
    if d.endDate.Some? {
      builder.endDate := d.endDate.value;
    }
    if d.logLevels.None? {
      return Err(NullPointer);
    }
    var failed := AddLevels(builder, d.logLevels.value);
    if failed.Some? {
      return Err(failed.value);
    }
    assert builder.logLevels == LevelIds(d.logLevels.value).value;
    if d.moduleName.Some? {
      builder.moduleName := d.moduleName;
    }
    if d.className.Some? {
      builder.className := d.className;
    }
    if d.exception.Some? {
      builder.exception := d.exception;
    }
    if d.message.Some? && d.message.value != "" {
      builder.message := d.message;
    }
    r := Ok(builder.Build());
  }

  // ----- the level set -----

  /** Once a name fails, the names after it do not matter. */
  lemma {:induction false} LevelIdsStopAtError(names: seq<string>, k: nat)
    requires k <= |names| && LevelIds(names[..k]).Err?
    ensures LevelIds(names) == LevelIds(names[..k])
    decreases |names| - k
  {
    if k < |names| {
      assert names[..k + 1][..k] == names[..k];
      LevelIdsStopAtError(names, k + 1);
    } else {
      assert names[..k] == names;
    }
  }

  /** Name `k` of the list is a level whose id is `id`. */
  predicate NamesLevel(names: seq<string>, k: int, id: int)
  {
    0 <= k < |names| && ValueOf(names[k]).Ok? && Id(ValueOf(names[k]).value) == id
  }

  /** The names are accepted exactly when each names a level; otherwise the exception is IllegalArgument. */
  lemma {:induction false} LevelIdsAccepted(names: seq<string>)
    ensures LevelIds(names).Ok? <==> forall k :: 0 <= k < |names| ==> ValueOf(names[k]).Ok?
    ensures LevelIds(names).Err? ==> LevelIds(names).fault == IllegalArgument
  {
    if names != [] {
      var init := names[..|names| - 1];
      LevelIdsAccepted(init);
      assert forall k :: 0 <= k < |init| ==> init[k] == names[k];
    }
  }

  /** An accepted list gives exactly the ids of the levels it names. */
  lemma {:induction false} LevelIdsMembers(names: seq<string>)
    requires LevelIds(names).Ok?
    ensures forall id :: id in LevelIds(names).value <==> exists k :: NamesLevel(names, k, id)
  {
    if names != [] {
      var init := names[..|names| - 1];
      var last := |names| - 1;
      LevelIdsMembers(init);
      var ids := LevelIds(init).value;
      var l := ValueOf(names[last]).value;
      assert LevelIds(names).value == ids + {Id(l)};
      forall id
        ensures id in LevelIds(names).value <==> exists k :: NamesLevel(names, k, id)
      {
        if exists k :: NamesLevel(names, k, id) {
          var k :| NamesLevel(names, k, id);
          if k < last {
            assert init[k] == names[k];
            assert NamesLevel(init, k, id);
          }
        }
        if id in ids {
          var k :| NamesLevel(init, k, id);
          assert init[k] == names[k];
          assert NamesLevel(names, k, id);
        }
        if id == Id(l) {
          assert NamesLevel(names, last, id);
        }
      }
    }
  }

  /**
   * The names are accepted exactly when each names a level, and the set is
   * then exactly the ids of the named levels: naming a level twice adds
   * it once.
   */
  lemma LevelIdsAreNamed(names: seq<string>)
    ensures LevelIds(names).Ok? <==> forall k :: 0 <= k < |names| ==> ValueOf(names[k]).Ok?
    ensures LevelIds(names).Err? ==> LevelIds(names).fault == IllegalArgument
    ensures LevelIds(names).Ok? ==> forall id :: id in LevelIds(names).value <==> exists k :: NamesLevel(names, k, id)
  {
    LevelIdsAccepted(names);
    if LevelIds(names).Ok? {
      LevelIdsMembers(names);
    }
  }

  /** Every id in a parsed filter is the id of a level, 1 .. 6. */
  lemma ParsedLevelsAreIds(d: FilterData)
    requires ParseFilterData(d).Ok?
    ensures forall id :: id in ParseFilterData(d).value.logLevels ==> 1 <= id <= 6
  {
    LevelIdsAreNamed(d.logLevels.value);
    forall id | id in ParseFilterData(d).value.logLevels
      ensures 1 <= id <= 6
    {
      var names := d.logLevels.value;
      var k :| NamesLevel(names, k, id);
      IdsDistinct(ValueOf(names[k]).value, ValueOf(names[k]).value);
    }
  }
}

=== FILE: index_creator.dfy ===
/**
 * `index/IndexCreator`: the bookkeeping around the Lucene index. For every
 * log file it keeps the file's id, how many bytes of it were indexed, the
 * dates of its first and last entry and the levels it contains; for every
 * entry it hands out ids for its class, module and exception and adds one
 * document to the Lucene index writer.
 */
module IndexCreation {
  import opened Wrappers
  import opened LogLevels
  import opened TimeRanges
  import opened LogEntries
  import opened ExceptionNames
  import opened LogsReader

  // ----- the id managers -----

  /** A `SerializableBiMap` from ids to names: `byId` and its inverse `byName`. */
  datatype IdTable = IdTable(byId: map<int, string>, byName: map<string, int>)

  function EmptyTable(): IdTable { IdTable(map[], map[]) }

  /** The ids are 0 .. size-1 and the two maps pair each id with one name. */
  ghost predicate Dense(t: IdTable)
  {
    && (forall id :: id in t.byId <==> 0 <= id < |t.byId|)
    && (forall id :: id in t.byId ==> t.byId[id] in t.byName && t.byName[t.byId[id]] == id)
    && (forall name :: name in t.byName ==> t.byName[name] in t.byId && t.byId[t.byName[name]] == name)
  }

  /**
   * `addIfAbsent(size(), name)`: a name seen for the first time gets the
   * current size as its id; a known name keeps its id and nothing changes.
   */
  function AddIfAbsent(t: IdTable, name: string): (r: IdTable)
    ensures name in r.byName
    ensures name in t.byName ==> r == t
    ensures name !in t.byName ==> r.byName[name] == |t.byId|
    ensures forall n :: n in t.byName ==> n in r.byName && r.byName[n] == t.byName[n]
  {
    if name in t.byName then t
    else IdTable(t.byId[|t.byId| := name], t.byName[name := |t.byId|])
  }

  /** Adding a name keeps the ids dense; the name and its id look each other up. */
  lemma AddIfAbsentKeepsDense(t: IdTable, name: string)
    requires Dense(t)
    ensures Dense(AddIfAbsent(t, name))
    ensures var r := AddIfAbsent(t, name); r.byName[name] in r.byId && r.byId[r.byName[name]] == name
    ensures name !in t.byName ==> |AddIfAbsent(t, name).byId| == |t.byId| + 1
    ensures forall id :: id in t.byId ==> id in AddIfAbsent(t, name).byId && AddIfAbsent(t, name).byId[id] == t.byId[id]
  {
    if name !in t.byName {
      var r := AddIfAbsent(t, name);
      var n := |t.byId|;
      assert n !in t.byId;
      assert r.byId.Keys == t.byId.Keys + {n};
      assert |r.byId| == n + 1;
      assert forall id :: id in r.byId <==> id in t.byId || id == n;
      forall id | id in r.byId
        ensures r.byId[id] in r.byName && r.byName[r.byId[id]] == id
      {
        if id != n {
          assert t.byId[id] in t.byName && t.byId[id] != name;
        }
      }
    }
  }

  // ----- what the index holds -----

  /** The fields of the Lucene document `indexLogEntry` writes (the message is indexed, not stored). */
  datatype Document = Document(
    date: int,
    logEntryID: int,
    logLevel: int,
    message: string,
    classID: int,
    moduleID: int,
    fileIndex: int,
    exceptionID: Option<int>)

  /** The managers of `Index` that `IndexCreator` updates, and the documents written so far. */
  datatype Snapshot = Snapshot(
    files: IdTable,
    modules: IdTable,
    classes: IdTable,
    exceptions: IdTable,
    levels: map<int, set<int>>,
    dates: map<int, TimeRange>,
    bytesRead: map<int, int>,
    documents: seq<Document>)

  /** What `indexLogEntry(e, fileID)` does to the index. */
  function IndexEntry(s: Snapshot, e: LogEntry, fileID: int): Snapshot
  {
    var levels := if fileID in s.levels then s.levels[fileID] else {};
    var classes := AddIfAbsent(s.classes, e.className);
    var modules := AddIfAbsent(s.modules, e.moduleName);
    var exception := FindException(e.message);
    var exceptions := if exception.Some? then AddIfAbsent(s.exceptions, exception.value) else s.exceptions;
    var exceptionID := if exception.Some? then Some(exceptions.byName[exception.value]) else None;
    var doc := Document(e.time, e.entryID, Id(e.level), e.message,
      classes.byName[e.className], modules.byName[e.moduleName], fileID, exceptionID);
    s.(levels := s.levels[fileID := levels + {Id(e.level)}],
       classes := classes, modules := modules, exceptions := exceptions,
       documents := s.documents + [doc])
  }

  /** The entries indexed one after another. */
  function IndexEntries(s: Snapshot, entries: seq<LogEntry>, fileID: int): Snapshot
  {
    if entries == [] then s
    else IndexEntry(IndexEntries(s, entries[..|entries| - 1], fileID), entries[|entries| - 1], fileID)
  }

  lemma IndexEntriesSnoc(s: Snapshot, entries: seq<LogEntry>, i: nat, fileID: int)
    requires i < |entries|
    ensures IndexEntries(s, entries[..i + 1], fileID) == IndexEntry(IndexEntries(s, entries[..i], fileID), entries[i], fileID)
  {
    assert entries[..i + 1][..i] == entries[..i];
  }

  /** The index after a call, and the exception the call ended with, if any. */
  datatype Outcome = Outcome(state: Snapshot, thrown: Option<Fault>)

  /** The index after the file was registered, and the file's id. */
  datatype Registration = Registration(state: Snapshot, fileID: int)

  /** `addIfAbsent((short) size(), filename)`, `getKey(filename)`, then `bytesRead.putIfAbsent(fileID, 0)`. */
  function RegisterFile(s: Snapshot, filename: string): (r: Registration)
    ensures r.fileID in r.state.bytesRead
  {
    var files := AddIfAbsent(s.files, filename);
    var fileID := files.byName[filename];
    var bytes := if fileID in s.bytesRead then s.bytesRead else s.bytesRead[fileID := 0];
    Registration(s.(files := files, bytesRead := bytes), fileID)
  }

  /** The counter advanced by the bytes read, the range ending at the last entry and beginning, for a new range, at the first. */
  function AfterRead(s: Snapshot, fileID: int, data: LogFileData): Snapshot
    requires fileID in s.bytesRead && data.entries != []
  {
    var first := data.entries[0].time;
    var last := data.entries[|data.entries| - 1].time;
    var range := if fileID in s.dates then s.dates[fileID].(endDate := last) else TimeRange(first, last);
    s.(bytesRead := s.bytesRead[fileID := s.bytesRead[fileID] + data.count], dates := s.dates[fileID := range])
  }

  /**
   * What `indexSingleLogFile(filename)` does, where `read(offset)` stands for
   * `LogReader.readSingleFile` on the file from that offset.
   */
  function IndexFile(s: Snapshot, filename: string, read: int -> Result<LogFileData>): Outcome
  {
    var r := RegisterFile(s, filename);
    match read(r.state.bytesRead[r.fileID])
    case Err(f) => Outcome(r.state, Some(f))
    case Ok(data) =>
      if |data.entries| == 0 then Outcome(r.state, None)
      else Outcome(IndexEntries(AfterRead(r.state, r.fileID, data), data.entries, r.fileID), None)
  }

  // ----- the classes -----

  /** The managers of `index/Index` that `IndexCreator` touches. */
  class Index {
    var fileIDManager: IdTable
    var moduleIDManager: IdTable
    var classIDManager: IdTable
    var exceptionIDManager: IdTable
    var logLevelIndexManager: map<int, set<int>>
    var logDateManager: map<int, TimeRange>
    var bytesRead: map<int, int>

    /** A new index: every manager empty. */
    constructor ()
      ensures fileIDManager == EmptyTable() && moduleIDManager == EmptyTable()
      ensures classIDManager == EmptyTable() && exceptionIDManager == EmptyTable()
      ensures logLevelIndexManager == map[] && logDateManager == map[] && bytesRead == map[]
    {
      fileIDManager := EmptyTable();
      moduleIDManager := EmptyTable();
      classIDManager := EmptyTable();
      exceptionIDManager := EmptyTable();
      logLevelIndexManager := map[];
      logDateManager := map[];
      bytesRead := map[];
    }
  }

  /** An `IndexCreator`: the index it fills and the documents its `IndexWriter` received. */
  class IndexCreator {
    const index: Index
    var documents: seq<Document>

    constructor (index: Index)
      ensures this.index == index && documents == []
    {
      this.index := index;
      documents := [];
    }

    function State(): Snapshot
      reads this, index
    {
      Snapshot(index.fileIDManager, index.moduleIDManager, index.classIDManager, index.exceptionIDManager,
        index.logLevelIndexManager, index.logDateManager, index.bytesRead, documents)
    }

    /** `indexLogEntry`: the level into the file's set, ids for class, module and exception, one document. */
    method IndexLogEntry(e: LogEntry, fileID: int)
      modifies this, index
      ensures State() == IndexEntry(old(State()), e, fileID)
    {
      var levels := if fileID in index.logLevelIndexManager then index.logLevelIndexManager[fileID] else {};
      index.logLevelIndexManager := index.logLevelIndexManager[fileID := levels + {Id(e.level)}];

      index.classIDManager := AddIfAbsent(index.classIDManager, e.className);
      var classID := index.classIDManager.byName[e.className];

      index.moduleIDManager := AddIfAbsent(index.moduleIDManager, e.moduleName);
      var moduleID := index.moduleIDManager.byName[e.moduleName];

      var exception := FindException(e.message);
      var exceptionID := None;
      if exception.Some? {
        index.exceptionIDManager := AddIfAbsent(index.exceptionIDManager, exception.value);
        exceptionID := Some(index.exceptionIDManager.byName[exception.value]);
      }

      documents := documents + [Document(e.time, e.entryID, Id(e.level), e.message, classID, moduleID, fileID, exceptionID)];
    }

    /** `indexSingleLogFile`: register the file, read from where the last read stopped, index what was read. */
    method IndexSingleLogFile(filename: string, read: int -> Result<LogFileData>) returns (thrown: Option<Fault>)
      modifies this, index
      ensures State() == IndexFile(old(State()), filename, read).state
      ensures thrown == IndexFile(old(State()), filename, read).thrown
    {
      index.fileIDManager := AddIfAbsent(index.fileIDManager, filename);
      var fileID := index.fileIDManager.byName[filename];

      if fileID !in index.bytesRead {
        index.bytesRead := index.bytesRead[fileID := 0];
      }
      assert State() == RegisterFile(old(State()), filename).state;
      var bytesIndexed := index.bytesRead[fileID];

      var fileData := read(bytesIndexed);
      if fileData.Err? {
        return Some(fileData.fault);
      }
      var entries := fileData.value.entries;
      if |entries| <= 0 {
        return None;
      }
      RecordRead(fileID, fileData.value);
      IndexAll(entries, fileID);
      thrown := None;
    }

    /** Advance the file's counter and set its range: the `bytesRead.put` and `logDateManager` steps. */
    method RecordRead(fileID: int, data: LogFileData)
      requires fileID in index.bytesRead && data.entries != []
      modifies index
      ensures State() == AfterRead(old(State()), fileID, data)
    {
      var entries := data.entries;
      index.bytesRead := index.bytesRead[fileID := index.bytesRead[fileID] + data.count];

      var previousTimeRange;
      if fileID in index.logDateManager {
        previousTimeRange := index.logDateManager[fileID];
      } else {
        previousTimeRange := Default().(beginDate := entries[0].time);
      }
      previousTimeRange := previousTimeRange.(endDate := entries[|entries| - 1].time);
      index.logDateManager := index.logDateManager[fileID := previousTimeRange];
    }

    /** The loop `for (LogEntry logEntry : fileData.getEntries()) indexLogEntry(logEntry, fileID)`. */
    method IndexAll(entries: seq<LogEntry>, fileID: int)
      modifies this, index
      ensures State() == IndexEntries(old(State()), entries, fileID)
    {
      ghost var start := State();
      var i := 0;
      while i < |entries|
        invariant i <= |entries|
        invariant State() == IndexEntries(start, entries[..i], fileID)
      {
        IndexEntriesSnoc(start, entries, i, fileID);
        IndexLogEntry(entries[i], fileID);
        i := i + 1;
      }
      assert entries[..i] == entries;
    }

    /**
     * `repeatablyTryAndUpdateFile`: up to 100 attempts; stop when the file
     * is gone or an attempt succeeds, retry after a `FileSystemException`,
     * let any other exception through. `present(i)` and `read(i)` stand for
     * the file system as attempt `i` finds it.
     */
    method RepeatablyTryAndUpdateFile(filename: string, present: nat -> bool, read: nat -> (int -> Result<LogFileData>))
      returns (thrown: Option<Fault>)
      modifies this, index
      ensures State() == Attempts(old(State()), filename, present, read, 0).state
      ensures thrown == Attempts(old(State()), filename, present, read, 0).thrown
    {
      var i := 0;
      while i < MAX_NUMBER_OF_RETRIES
        invariant i <= MAX_NUMBER_OF_RETRIES
        invariant Attempts(State(), filename, present, read, i) == Attempts(old(State()), filename, present, read, 0)
      {
        if !present(i) {
          return None;
        }
        ghost var before := State();
        var t := IndexSingleLogFile(filename, read(i));
        AttemptStep(before, filename, present, read, i);
        if t != Some(FileSystem) {
          return t;
        }
        i := i + 1;
      }
      return None;
    }
  }

  const MAX_NUMBER_OF_RETRIES: nat := 100

  /** The attempts from the `i`-th on, and how they end. */
  function Attempts(s: Snapshot, filename: string, present: nat -> bool, read: nat -> (int -> Result<LogFileData>), i: nat): Outcome
    decreases MAX_NUMBER_OF_RETRIES - i
  {
    if i >= MAX_NUMBER_OF_RETRIES || !present(i) then Outcome(s, None)
    else
      var o := IndexFile(s, filename, read(i));
      if o.thrown == Some(FileSystem) then Attempts(o.state, filename, present, read, i + 1) else o
  }

  /** One attempt: after a `FileSystemException` the attempts go on, otherwise this one is the last. */
  lemma AttemptStep(s: Snapshot, filename: string, present: nat -> bool, read: nat -> (int -> Result<LogFileData>), i: nat)
    requires i < MAX_NUMBER_OF_RETRIES && present(i)
    ensures var o := IndexFile(s, filename, read(i));
      Attempts(s, filename, present, read, i) ==
        if o.thrown == Some(FileSystem) then Attempts(o.state, filename, present, read, i + 1) else o
  {
  }

  /** How many times the attempts from the `i`-th on call `indexSingleLogFile`. */
  function AttemptCount(s: Snapshot, filename: string, present: nat -> bool, read: nat -> (int -> Result<LogFileData>), i: nat): nat
    decreases MAX_NUMBER_OF_RETRIES - i
  {
    if i >= MAX_NUMBER_OF_RETRIES || !present(i) then 0
    else
      var o := IndexFile(s, filename, read(i));
      if o.thrown == Some(FileSystem) then 1 + AttemptCount(o.state, filename, present, read, i + 1) else 1
  }

  /**
   * At most 100 attempts are made, and a `FileSystemException` never
   * escapes: the last one is swallowed when the attempts run out.
   */
  lemma {:induction false} RetryBound(s: Snapshot, filename: string, present: nat -> bool, read: nat -> (int -> Result<LogFileData>), i: nat)
    requires i <= MAX_NUMBER_OF_RETRIES
    ensures AttemptCount(s, filename, present, read, i) <= MAX_NUMBER_OF_RETRIES - i
    ensures Attempts(s, filename, present, read, i).thrown != Some(FileSystem)
    decreases MAX_NUMBER_OF_RETRIES - i
  {
    if i < MAX_NUMBER_OF_RETRIES && present(i) {
      var o := IndexFile(s, filename, read(i));
      if o.thrown == Some(FileSystem) {
        RetryBound(o.state, filename, present, read, i + 1);
      }
    }
  }

  // ----- what the bookkeeping guarantees -----

  /**
   * The id managers hand out dense ids, every per-file record belongs to a
   * registered file, and every document refers to registered ids.
   */
  ghost predicate Consistent(s: Snapshot)
  {
    && Dense(s.files) && Dense(s.modules) && Dense(s.classes) && Dense(s.exceptions)
    && s.levels.Keys <= s.files.byId.Keys
    && s.dates.Keys <= s.files.byId.Keys
    && s.bytesRead.Keys <= s.files.byId.Keys
    && (forall d :: d in s.documents ==> Registered(s, d))
  }

  ghost predicate Registered(s: Snapshot, d: Document)
  {
    && d.fileIndex in s.files.byId
    && d.classID in s.classes.byId
    && d.moduleID in s.modules.byId
    && (d.exceptionID.Some? ==> d.exceptionID.value in s.exceptions.byId)
  }

  /** Ids only accumulate: what was registered stays registered under the same id. */
  ghost predicate Grows(s: Snapshot, r: Snapshot)
  {
    && (forall id :: id in s.files.byId ==> id in r.files.byId && r.files.byId[id] == s.files.byId[id])
    && (forall id :: id in s.classes.byId ==> id in r.classes.byId && r.classes.byId[id] == s.classes.byId[id])
    && (forall id :: id in s.modules.byId ==> id in r.modules.byId && r.modules.byId[id] == s.modules.byId[id])
    && (forall id :: id in s.exceptions.byId ==> id in r.exceptions.byId && r.exceptions.byId[id] == s.exceptions.byId[id])
  }

  lemma GrowsTransitive(s: Snapshot, m: Snapshot, r: Snapshot)
    requires Grows(s, m) && Grows(m, r)
    ensures Grows(s, r)
  {
  }

  /**
   * `indexLogEntry` for a registered file keeps the index consistent, and
   * the ids of the document it adds name the entry's class, module and
   * exception (present exactly when `findException` finds one).
   */
  lemma IndexEntryKeeps(s: Snapshot, e: LogEntry, fileID: int)
    requires Consistent(s) && fileID in s.files.byId
    ensures var r := IndexEntry(s, e, fileID);
      var d := r.documents[|r.documents| - 1];
      && Consistent(r) && Grows(s, r)
      && r.classes.byId[d.classID] == e.className
      && r.modules.byId[d.moduleID] == e.moduleName
      && (d.exceptionID.Some? <==> FindException(e.message).Some?)
      && (d.exceptionID.Some? ==> r.exceptions.byId[d.exceptionID.value] == FindException(e.message).value)
      && r.files == s.files && r.dates == s.dates && r.bytesRead == s.bytesRead
  {
    var r := IndexEntry(s, e, fileID);
    AddIfAbsentKeepsDense(s.classes, e.className);
    AddIfAbsentKeepsDense(s.modules, e.moduleName);
    var exception := FindException(e.message);
    if exception.Some? {
      AddIfAbsentKeepsDense(s.exceptions, exception.value);
    }
    forall d | d in r.documents
      ensures Registered(r, d)
    {
      if d in s.documents {
        assert Registered(s, d);
      } else {
        assert d == r.documents[|r.documents| - 1];
      }
    }
  }

  /** Indexing a batch for a registered file keeps the index consistent and changes no file record but the level sets. */
  lemma {:induction false} IndexEntriesKeep(s: Snapshot, entries: seq<LogEntry>, fileID: int)
    requires Consistent(s) && fileID in s.files.byId
    ensures var r := IndexEntries(s, entries, fileID);
      && Consistent(r) && Grows(s, r)
      && r.files == s.files && r.dates == s.dates && r.bytesRead == s.bytesRead
    decreases |entries|
  {
    if entries != [] {
      var n := |entries| - 1;
      var mid := IndexEntries(s, entries[..n], fileID);
      IndexEntriesKeep(s, entries[..n], fileID);
      IndexEntryKeeps(mid, entries[n], fileID);
      GrowsTransitive(s, mid, IndexEntries(s, entries, fileID));
    }
  }

  /** `indexLogEntry` appends one document for the entry and adds its level to the file's set. */
  lemma IndexEntryAppends(s: Snapshot, e: LogEntry, fileID: int)
    ensures var r := IndexEntry(s, e, fileID);
      && |r.documents| == |s.documents| + 1
      && r.documents[..|s.documents|] == s.documents
      && DocumentOf(r.documents[|s.documents|], e, fileID)
      && fileID in r.levels
      && (forall l :: l in r.levels[fileID] <==> l == Id(e.level) || (fileID in s.levels && l in s.levels[fileID]))
      && (forall f :: f in s.levels && f != fileID ==> f in r.levels && r.levels[f] == s.levels[f])
  {
    var r := IndexEntry(s, e, fileID);
    assert r.documents[..|s.documents|] == s.documents;
  }

  /**
   * Indexing a batch appends one document per entry, in order, each
   * carrying its entry's id, date and level and the file's id.
   */
  lemma {:induction false} IndexEntriesDocuments(s: Snapshot, entries: seq<LogEntry>, fileID: int)
    ensures var r := IndexEntries(s, entries, fileID);
      && |r.documents| == |s.documents| + |entries|
      && r.documents[..|s.documents|] == s.documents
      && (forall k :: 0 <= k < |entries| ==> DocumentOf(r.documents[|s.documents| + k], entries[k], fileID))
    decreases |entries|
  {
    if entries != [] {
      var n := |entries| - 1;
      var mid := IndexEntries(s, entries[..n], fileID);
      IndexEntriesDocuments(s, entries[..n], fileID);
      IndexEntryAppends(mid, entries[n], fileID);
      var r := IndexEntries(s, entries, fileID);
      forall k | 0 <= k < |entries|
        ensures DocumentOf(r.documents[|s.documents| + k], entries[k], fileID)
      {
        if k < n {
          assert entries[..n][k] == entries[k];
          assert r.documents[|s.documents| + k] == mid.documents[|s.documents| + k];
        }
      }
      assert r.documents[..|s.documents|] == mid.documents[..|s.documents|];
    }
  }

  /** The file's level set gains exactly the levels of the batch; no other file's set changes. */
  lemma {:induction false} IndexEntriesLevels(s: Snapshot, entries: seq<LogEntry>, fileID: int)
    ensures var r := IndexEntries(s, entries, fileID);
      && (forall f :: f in s.levels && f != fileID ==> f in r.levels && r.levels[f] == s.levels[f])
      && (entries != [] ==> fileID in r.levels && forall l :: l in r.levels[fileID] <==>
            (fileID in s.levels && l in s.levels[fileID]) || LevelIn(l, entries))
    decreases |entries|
  {
    if entries != [] {
      var n := |entries| - 1;
      var mid := IndexEntries(s, entries[..n], fileID);
      IndexEntriesLevels(s, entries[..n], fileID);
      IndexEntryAppends(mid, entries[n], fileID);
      var r := IndexEntries(s, entries, fileID);
      forall l
        ensures l in r.levels[fileID] <==> (fileID in s.levels && l in s.levels[fileID]) || LevelIn(l, entries)
      {
        LevelInSnoc(entries, l);
      }
    }
  }

  lemma LevelInSnoc(entries: seq<LogEntry>, l: int)
    requires entries != []
    ensures LevelIn(l, entries) <==> LevelIn(l, entries[..|entries| - 1]) || l == Id(entries[|entries| - 1].level)
  {
    var n := |entries| - 1;
    if LevelIn(l, entries) {
      var k :| 0 <= k < |entries| && Id(entries[k].level) == l;
      if k < n {
        assert entries[..n][k] == entries[k];
      }
    }
    if LevelIn(l, entries[..n]) {
      var k :| 0 <= k < n && Id(entries[..n][k].level) == l;
      assert entries[k] == entries[..n][k];
    }
  }

  /** Some entry of the batch has the level with id `l`. */
  ghost predicate LevelIn(l: int, entries: seq<LogEntry>)
  {
    exists k :: 0 <= k < |entries| && Id(entries[k].level) == l
  }

  /** The document was written for the entry in file `fileID`. */
  ghost predicate DocumentOf(d: Document, e: LogEntry, fileID: int)
  {
    d.fileIndex == fileID && d.logEntryID == e.entryID && d.date == e.time && d.logLevel == Id(e.level)
  }

  /**
   * Registering keeps the index consistent. The file keeps the id it got on
   * first sight, and a new file gets the next id; its byte counter exists
   * afterwards, starting at 0, and no other record changes.
   */
  lemma RegisterFileIds(s: Snapshot, filename: string)
    requires Consistent(s)
    ensures var r := RegisterFile(s, filename);
      && Consistent(r.state) && Grows(s, r.state)
      && r.fileID in r.state.files.byId && r.state.files.byId[r.fileID] == filename
      && (filename in s.files.byName ==> r.fileID == s.files.byName[filename])
      && (filename !in s.files.byName ==> r.fileID == |s.files.byId| && r.fileID !in s.bytesRead && r.fileID !in s.dates)
      && r.state.bytesRead[r.fileID] == (if r.fileID in s.bytesRead then s.bytesRead[r.fileID] else 0)
      && (forall f :: f in s.bytesRead ==> f in r.state.bytesRead && r.state.bytesRead[f] == s.bytesRead[f])
      && r.state.dates == s.dates && r.state.levels == s.levels && r.state.documents == s.documents
      && r.state.classes == s.classes && r.state.modules == s.modules && r.state.exceptions == s.exceptions
  {
    AddIfAbsentKeepsDense(s.files, filename);
    var r := RegisterFile(s, filename);
    forall d | d in r.state.documents
      ensures Registered(r.state, d)
    {
      assert Registered(s, d);
    }
  }

  /** Recording a read with entries keeps the index consistent and touches only the file's counter and range. */
  lemma AfterReadKeeps(s: Snapshot, fileID: int, data: LogFileData)
    requires Consistent(s) && fileID in s.files.byId && fileID in s.bytesRead && data.entries != []
    ensures var r := AfterRead(s, fileID, data);
      && Consistent(r) && Grows(s, r)
      && r.bytesRead[fileID] == s.bytesRead[fileID] + data.count
      && (forall f :: f in s.bytesRead && f != fileID ==> f in r.bytesRead && r.bytesRead[f] == s.bytesRead[f])
      && fileID in r.dates
      && r.dates[fileID].endDate == data.entries[|data.entries| - 1].time
      && r.dates[fileID].beginDate == (if fileID in s.dates then s.dates[fileID].beginDate else data.entries[0].time)
      && (forall f :: f in s.dates && f != fileID ==> f in r.dates && r.dates[f] == s.dates[f])
  {
    var r := AfterRead(s, fileID, data);
    forall d | d in r.documents
      ensures Registered(r, d)
    {
      assert Registered(s, d);
    }
  }

  /**
   * `indexSingleLogFile` keeps the index consistent; the file's id is the
   * one registering gives it.
   */
  lemma IndexFileConsistent(s: Snapshot, filename: string, read: int -> Result<LogFileData>)
    requires Consistent(s)
    ensures Consistent(IndexFile(s, filename, read).state) && Grows(s, IndexFile(s, filename, read).state)
    ensures var id := RegisterFile(s, filename).fileID;
      id in IndexFile(s, filename, read).state.files.byId && IndexFile(s, filename, read).state.files.byId[id] == filename
  {
    var r := RegisterFile(s, filename);
    RegisterFileIds(s, filename);
    var start := r.state.bytesRead[r.fileID];
    if read(start).Ok? && read(start).value.entries != [] {
      var data := read(start).value;
      AfterReadKeeps(r.state, r.fileID, data);
      IndexEntriesKeep(AfterRead(r.state, r.fileID, data), data.entries, r.fileID);
    }
  }

  /**
   * The file's counter advances by exactly the bytes read when the read
   * returned entries, and its range then ends at the last entry's date and
   * begins at the first entry's date unless the file already had a range.
   * A failed or empty read changes nothing but the file id and the 0
   * counter.
   */
  lemma IndexFileBookkeeping(s: Snapshot, filename: string, read: int -> Result<LogFileData>)
    requires Consistent(s)
    ensures var o := IndexFile(s, filename, read);
      var id := RegisterFile(s, filename).fileID;
      var start := if id in s.bytesRead then s.bytesRead[id] else 0;
      && id in o.state.bytesRead
      && (forall f :: f in s.bytesRead && f != id ==> f in o.state.bytesRead && o.state.bytesRead[f] == s.bytesRead[f])
      && (read(start).Err? ==> o.thrown == Some(read(start).fault))
      && (read(start).Ok? && read(start).value.entries != [] ==>
            && o.thrown.None? && o.state.bytesRead[id] == start + read(start).value.count
            && id in o.state.dates
            && o.state.dates[id].endDate == read(start).value.entries[|read(start).value.entries| - 1].time
            && o.state.dates[id].beginDate == (if id in s.dates then s.dates[id].beginDate else read(start).value.entries[0].time))
      && (read(start).Err? || read(start).value.entries == [] ==>
            && o.state.bytesRead[id] == start
            && o.state.levels == s.levels && o.state.dates == s.dates && o.state.documents == s.documents
            && o.state.classes == s.classes && o.state.modules == s.modules && o.state.exceptions == s.exceptions)
  {
    var r := RegisterFile(s, filename);
    RegisterFileIds(s, filename);
    var start := r.state.bytesRead[r.fileID];
    if read(start).Ok? && read(start).value.entries != [] {
      var data := read(start).value;
      AfterReadKeeps(r.state, r.fileID, data);
      IndexEntriesKeep(AfterRead(r.state, r.fileID, data), data.entries, r.fileID);
    }
  }
}

=== FILE: index_records.dfy ===
/**
 * The file layout shared by `SerializableMap`, `SerializableBiMap` and the
 * two `IndexManager` classes: an 8-byte big-endian total, then one record per
 * key of the map, the key's bytes followed by its value's bytes. `writeIndex`
 * stores as the total the sum of the counts its converters' `write` calls
 * returned; `readIndex` reads records until the counts its converters'
 * `read` calls report have used the total up.
 */
module IndexRecords {
  import opened Wrappers
  import opened JavaNum
  import opened RandomAccess
  import opened Sequences
  import opened TypeConverters
  import opened LegacyConverters
  import opened Maps

  /** The converter an index was built with for its keys or its values. */
  datatype Codec =
    | Std(c: Converter)            // index/data/I_TypeConverter and log/IndexManager.I_TypeConverter
    | Legacy(l: LegacyConverter)   // bl/IndexManager.I_TypeConverter

  predicate FitsCodec(k: Codec, v: Value)
  {
    match k
    case Std(c) => Fits(c, v)
    case Legacy(l) => FitsScalar(WriterOf(l), v)
  }

  function EncodeWith(k: Codec, v: Value): seq<Octet>
    requires FitsCodec(k, v)
  {
    match k
    case Std(c) => Encode(c, v)
    case Legacy(l) => EncodeScalar(WriterOf(l), v)
  }

  function WriteCountWith(k: Codec, v: Value): int
    requires FitsCodec(k, v)
  {
    match k
    case Std(c) => WriteCount(c, v)
    case Legacy(l) => ScalarWriteCount(WriterOf(l), v)
  }

  function DecodeWith(k: Codec, stream: seq<Octet>): Result<Decoded>
  {
    match k
    case Std(c) => Decode(c, stream)
    case Legacy(l) => DecodeLegacy(l, stream)
  }

  method WriteWith(f: RandomAccessFile, k: Codec, v: Value) returns (count: int)
    requires FitsCodec(k, v)
    modifies f
    ensures f.data == Overwrite(old(f.data), old(f.pointer), FormatOf(k).bytes(v))
    ensures f.pointer == old(f.pointer) + |FormatOf(k).bytes(v)|
    ensures count == FormatOf(k).count(v)
  {
    match k
    case Std(c) => count := Write(f, c, v);
    case Legacy(l) => count := WriteScalar(f, WriterOf(l), v);
  }

  method ReadWith(f: RandomAccessFile, k: Codec) returns (r: Result<Decoded>)
    modifies f
    ensures f.data == old(f.data)
    ensures r == DecodeWith(k, Remaining(old(f.data), old(f.pointer)))
    ensures r.Ok? ==> f.pointer + |r.value.rest| == |f.data| && Remaining(f.data, f.pointer) == r.value.rest
  {
    match k
    case Std(c) => r := Read(f, c);
    case Legacy(l) => r := ReadLegacy(f, l);
  }

  /** Every converter writes at least one byte. */
  lemma EncodeNonEmpty(k: Codec, v: Value)
    requires FitsCodec(k, v)
    ensures |EncodeWith(k, v)| >= 1 && |FormatOf(k).bytes(v)| >= 1
  {
  }

  /** Every successful read consumes at least one byte. */
  lemma DecodeWithShrinks(k: Codec, stream: seq<Octet>)
    ensures DecodeWith(k, stream).Ok? ==> |DecodeWith(k, stream).value.rest| < |stream|
  {
    if k.Std? {
      DecodeShrinks(k.c, stream);
    }
  }

  // ----- what the index code uses of a converter -----

  /**
   * A converter as the index code sees it: the bytes its `write` puts into
   * the file for a value, the count that `write` returns, and its `read`.
   */
  datatype Format = Format(bytes: Value -> seq<Octet>, count: Value -> int, read: Reader)

  /** The format of a converter; values a converter cannot write are never handed to it. */
  function FormatOf(k: Codec): Format
  {
    Format(v => if FitsCodec(k, v) then EncodeWith(k, v) else [],
           v => if FitsCodec(k, v) then WriteCountWith(k, v) else 0,
           s => DecodeWith(k, s))
  }

  /** `read` gives back `v`, with its byte count, from bytes that start with what `write` wrote for it. */
  ghost predicate ReadsBack(f: Format, v: Value)
  {
    |f.bytes(v)| >= 1 && forall t :: f.read(f.bytes(v) + t) == Ok(Decoded(v, |f.bytes(v)|, t))
  }

  /** `write` returns the number of bytes it wrote. */
  ghost predicate CountsBytes(f: Format, v: Value)
  {
    f.count(v) == |f.bytes(v)|
  }

  /** Every standard converter reads back what it wrote. */
  lemma StdReadsBack(k: Codec, v: Value)
    requires k.Std? && FitsCodec(k, v)
    ensures ReadsBack(FormatOf(k), v)
  {
    var f := FormatOf(k);
    assert f.bytes(v) == Encode(k.c, v);
    EncodeNonEmpty(k, v);
    forall t
      ensures f.read(f.bytes(v) + t) == Ok(Decoded(v, |f.bytes(v)|, t))
    {
      DecodeEncode(k.c, v, t);
    }
  }

  /** A value written without a LONG in it (see `TypeConverters.LongWriteUnderReports`). */
  predicate LongFree(k: Codec, v: Value)
    requires FitsCodec(k, v)
  {
    k.Std? ==> LongCount(k.c, v) == 0
  }

  /** Without a LONG, every converter's `write` returns the number of bytes it wrote. */
  lemma LongFreeCounts(k: Codec, v: Value)
    requires FitsCodec(k, v) && LongFree(k, v)
    ensures CountsBytes(FormatOf(k), v)
  {
    if k.Std? {
      WriteCountShortfall(k.c, v);
    }
  }

  // ----- the records of a map -----

  type Pair = (Value, Value)

  predicate PairsFit(kc: Codec, vc: Codec, pairs: seq<Pair>)
  {
    forall i :: 0 <= i < |pairs| ==> FitsCodec(kc, pairs[i].0) && FitsCodec(vc, pairs[i].1)
  }

  /** `order` lists each key of the map exactly once: how a `keySet` iterates. */
  ghost predicate IsKeyOrder(order: seq<Value>, keys: set<Value>)
  {
    Distinct(order) && (forall k :: k in order <==> k in keys)
  }

  /** The (key, value) pairs a loop over `order` visits. */
  function Pairs(order: seq<Value>, m: map<Value, Value>): (r: seq<Pair>)
    requires forall k :: k in order ==> k in m
    ensures |r| == |order|
    ensures forall i :: 0 <= i < |order| ==> r[i] == (order[i], m[order[i]])
  {
    seq(|order|, i requires 0 <= i < |order| => (order[i], m[order[i]]))
  }

  /** The bytes after the 8-byte total. */
  function RecordBytes(kf: Format, vf: Format, pairs: seq<Pair>): seq<Octet>
  {
    if pairs == [] then [] else kf.bytes(pairs[0].0) + vf.bytes(pairs[0].1) + RecordBytes(kf, vf, pairs[1..])
  }

  /** The total `writeIndex` stores: the sum of the counts `write` returned. */
  function RecordCount(kf: Format, vf: Format, pairs: seq<Pair>): int
  {
    if pairs == [] then 0 else kf.count(pairs[0].0) + vf.count(pairs[0].1) + RecordCount(kf, vf, pairs[1..])
  }

  lemma {:induction false} RecordsSnoc(kf: Format, vf: Format, pairs: seq<Pair>, p: Pair)
    ensures RecordBytes(kf, vf, pairs + [p]) == RecordBytes(kf, vf, pairs) + (kf.bytes(p.0) + vf.bytes(p.1))
    ensures RecordCount(kf, vf, pairs + [p]) == RecordCount(kf, vf, pairs) + kf.count(p.0) + vf.count(p.1)
  {
    var q := pairs + [p];
    if pairs == [] {
      assert q == [p];
      assert q[1..] == [];
    } else {
      assert q[1..] == pairs[1..] + [p];
      RecordsSnoc(kf, vf, pairs[1..], p);
      var a, b := kf.bytes(pairs[0].0) + vf.bytes(pairs[0].1), RecordBytes(kf, vf, pairs[1..]);
      assert a + (b + (kf.bytes(p.0) + vf.bytes(p.1))) == (a + b) + (kf.bytes(p.0) + vf.bytes(p.1));
    }
  }

  ghost predicate AllReadBack(kf: Format, vf: Format, pairs: seq<Pair>)
  {
    forall i :: 0 <= i < |pairs| ==> ReadsBack(kf, pairs[i].0) && ReadsBack(vf, pairs[i].1)
  }

  ghost predicate AllCountBytes(kf: Format, vf: Format, pairs: seq<Pair>)
  {
    forall i :: 0 <= i < |pairs| ==> CountsBytes(kf, pairs[i].0) && CountsBytes(vf, pairs[i].1)
  }

  predicate AllLongFree(kc: Codec, vc: Codec, pairs: seq<Pair>)
    requires PairsFit(kc, vc, pairs)
  {
    forall i :: 0 <= i < |pairs| ==> LongFree(kc, pairs[i].0) && LongFree(vc, pairs[i].1)
  }

  /** The standard converters read back every pair they can write. */
  lemma StdAllReadBack(kc: Codec, vc: Codec, pairs: seq<Pair>)
    requires kc.Std? && vc.Std? && PairsFit(kc, vc, pairs)
    ensures AllReadBack(FormatOf(kc), FormatOf(vc), pairs)
  {
    forall i | 0 <= i < |pairs|
      ensures ReadsBack(FormatOf(kc), pairs[i].0) && ReadsBack(FormatOf(vc), pairs[i].1)
    {
      StdReadsBack(kc, pairs[i].0);
      StdReadsBack(vc, pairs[i].1);
    }
  }

  lemma LongFreeAllCount(kc: Codec, vc: Codec, pairs: seq<Pair>)
    requires PairsFit(kc, vc, pairs) && AllLongFree(kc, vc, pairs)
    ensures AllCountBytes(FormatOf(kc), FormatOf(vc), pairs)
  {
    forall i | 0 <= i < |pairs|
      ensures CountsBytes(FormatOf(kc), pairs[i].0) && CountsBytes(FormatOf(vc), pairs[i].1)
    {
      LongFreeCounts(kc, pairs[i].0);
      LongFreeCounts(vc, pairs[i].1);
    }
  }

  /** When every `write` returns its byte count, the stored total is exactly the number of record bytes. */
  lemma {:induction false} RecordCountExact(kf: Format, vf: Format, pairs: seq<Pair>)
    requires AllCountBytes(kf, vf, pairs)
    ensures RecordCount(kf, vf, pairs) == |RecordBytes(kf, vf, pairs)|
  {
    if pairs != [] {
      assert CountsBytes(kf, pairs[0].0) && CountsBytes(vf, pairs[0].1);
      assert AllCountBytes(kf, vf, pairs[1..]) by {
        forall i | 0 <= i < |pairs[1..]|
          ensures pairs[1..][i] == pairs[i + 1]
        {
        }
      }
      RecordCountExact(kf, vf, pairs[1..]);
    }
  }

  /** Each record has at least two bytes. */
  lemma {:induction false} RecordBytesLength(kf: Format, vf: Format, pairs: seq<Pair>)
    requires AllReadBack(kf, vf, pairs)
    ensures |RecordBytes(kf, vf, pairs)| >= 2 * |pairs|
  {
    if pairs != [] {
      assert ReadsBack(kf, pairs[0].0) && ReadsBack(vf, pairs[0].1);
      assert AllReadBack(kf, vf, pairs[1..]) by {
        forall i | 0 <= i < |pairs[1..]|
          ensures pairs[1..][i] == pairs[i + 1]
        {
        }
      }
      RecordBytesLength(kf, vf, pairs[1..]);
    }
  }

  // ----- reading the records -----

  /**
   * The state of the `readIndex` loop: the pairs read, the exception that
   * ended it (if any), the bytes after the file pointer and the part of the
   * stored total not yet accounted for.
   */
  datatype ScanState = ScanState(pairs: seq<Pair>, fault: Option<Fault>, rest: seq<Octet>, budget: int)

  /** The loop has ended: an exception, or the total is used up. */
  predicate Done(s: ScanState)
  {
    s.fault.Some? || s.budget <= 0
  }

  function Push(p: Pair, s: ScanState): ScanState
  {
    s.(pairs := [p] + s.pairs)
  }

  /** At most `n` iterations of `while (indexSize > 0) { key = read; value = read; indexSize -= ...; }`. */
  function ScanN(kf: Format, vf: Format, stream: seq<Octet>, budget: int, n: nat): ScanState
    decreases n
  {
    if n == 0 || budget <= 0 then ScanState([], None, stream, budget)
    else match kf.read(stream)
      case Err(f) => ScanState([], Some(f), stream, budget)
      case Ok(k) =>
        match vf.read(k.rest)
        case Err(f) => ScanState([], Some(f), k.rest, budget)
        case Ok(v) => Push((k.value, v.value), ScanN(kf, vf, v.rest, budget - k.count - v.count, n - 1))
  }

  /** One more iteration of the loop. */
  function Step(kf: Format, vf: Format, s: ScanState): ScanState
  {
    match kf.read(s.rest)
    case Err(f) => s.(fault := Some(f))
    case Ok(k) =>
      match vf.read(k.rest)
      case Err(f) => s.(fault := Some(f), rest := k.rest)
      case Ok(v) => ScanState(s.pairs + [(k.value, v.value)], None, v.rest, s.budget - k.count - v.count)
  }

  /**
   * The whole loop. Every successful read of the converters here consumes a
   * byte, so the loop cannot run more than `|stream|` times.
   */
  function Scan(kf: Format, vf: Format, stream: seq<Octet>, budget: int): ScanState
  {
    ScanN(kf, vf, stream, budget, |stream| + 1)
  }

  /** `readIndex` on a file positioned at `p`: nothing when fewer than 9 bytes remain. */
  function ReadIndexScan(kf: Format, vf: Format, data: seq<Octet>, p: nat): Option<ScanState>
  {
    if p + 8 >= |data| then None
    else Some(Scan(kf, vf, data[p + 8..], Signed(data[p..p + 8])))
  }

  /** The total `readIndex` reads with `readLong`, when it gets that far. */
  function StoredTotal(data: seq<Octet>, p: nat): Option<int>
  {
    if p + 8 >= |data| then None else Some(Signed(data[p..p + 8]))
  }

  /** Reading the total back after `writeIndex` gives the total it wrote. */
  lemma WrittenStoredTotal(kf: Format, vf: Format, data: seq<Octet>, p: nat, pairs: seq<Pair>)
    ensures var t := StoredTotal(WriteIndexBytes(kf, vf, data, p, pairs), p);
      t.Some? ==> t.value == Signed(BigEndian(RecordCount(kf, vf, pairs), 8))
  {
    var header := BigEndian(RecordCount(kf, vf, pairs), 8);
    var records := RecordBytes(kf, vf, pairs);
    OverwriteContents(data, p, header + records);
    var w := Overwrite(data, p, header + records);
    assert w[p..p + 8] == w[p..p + 8 + |records|][..8] == header;
  }

  /** `writeIndex` on a file positioned at `p`: the total, then the records. */
  function WriteIndexBytes(kf: Format, vf: Format, data: seq<Octet>, p: nat, pairs: seq<Pair>): seq<Octet>
  {
    Overwrite(data, p, BigEndian(RecordCount(kf, vf, pairs), 8) + RecordBytes(kf, vf, pairs))
  }

  /** Once the loop has ended, more iterations change nothing. */
  lemma {:induction false} ScanNDone(kf: Format, vf: Format, stream: seq<Octet>, budget: int, i: nat, j: nat)
    requires i <= j && Done(ScanN(kf, vf, stream, budget, i))
    ensures ScanN(kf, vf, stream, budget, j) == ScanN(kf, vf, stream, budget, i)
    decreases i
  {
    if i > 0 && budget > 0 && kf.read(stream).Ok? {
      var k := kf.read(stream).value;
      if vf.read(k.rest).Ok? {
        var v := vf.read(k.rest).value;
        ScanNDone(kf, vf, v.rest, budget - k.count - v.count, i - 1, j - 1);
      }
    }
  }

  /** While the loop runs, iteration `i + 1` is one `Step` after iteration `i`. */
  lemma {:induction false} ScanNStep(kf: Format, vf: Format, stream: seq<Octet>, budget: int, i: nat)
    requires !Done(ScanN(kf, vf, stream, budget, i))
    ensures ScanN(kf, vf, stream, budget, i + 1) == Step(kf, vf, ScanN(kf, vf, stream, budget, i))
    decreases i
  {
    if i == 0 {
      match kf.read(stream)
      case Err(f) =>
      case Ok(k) =>
        match vf.read(k.rest)
        case Err(f) =>
        case Ok(v) => assert [] + [(k.value, v.value)] == [(k.value, v.value)];
    } else {
      var k := kf.read(stream).value;
      var v := vf.read(k.rest).value;
      var inner := ScanN(kf, vf, v.rest, budget - k.count - v.count, i - 1);
      ScanNStep(kf, vf, v.rest, budget - k.count - v.count, i - 1);
      var p := (k.value, v.value);
      match kf.read(inner.rest)
      case Err(f) =>
      case Ok(k') =>
        match vf.read(k'.rest)
        case Err(f) =>
        case Ok(v') => assert [p] + (inner.pairs + [(k'.value, v'.value)]) == ([p] + inner.pairs) + [(k'.value, v'.value)];
    }
  }

  /** The first record reads back as the first pair, whatever the budget. */
  lemma ScanFirst(kf: Format, vf: Format, pairs: seq<Pair>, tail: seq<Octet>, budget: int, n: nat)
    requires pairs != [] && ReadsBack(kf, pairs[0].0) && ReadsBack(vf, pairs[0].1) && n > 0 && budget > 0
    ensures ScanN(kf, vf, RecordBytes(kf, vf, pairs) + tail, budget, n)
         == Push(pairs[0], ScanN(kf, vf, RecordBytes(kf, vf, pairs[1..]) + tail,
                                 budget - |kf.bytes(pairs[0].0)| - |vf.bytes(pairs[0].1)|, n - 1))
  {
    var kb, vb, later := kf.bytes(pairs[0].0), vf.bytes(pairs[0].1), RecordBytes(kf, vf, pairs[1..]) + tail;
    assert RecordBytes(kf, vf, pairs) + tail == kb + (vb + later);
    assert kf.read(kb + (vb + later)) == Ok(Decoded(pairs[0].0, |kb|, vb + later));
    assert vf.read(vb + later) == Ok(Decoded(pairs[0].1, |vb|, later));
  }

  /** Reading the records `writeIndex` wrote, with the byte total as the budget, gives back every pair. */
  lemma {:induction false} ScanRecords(kf: Format, vf: Format, pairs: seq<Pair>, tail: seq<Octet>, n: nat)
    requires AllReadBack(kf, vf, pairs) && n >= |pairs|
    ensures ScanN(kf, vf, RecordBytes(kf, vf, pairs) + tail, |RecordBytes(kf, vf, pairs)|, n)
         == ScanState(pairs, None, tail, 0)
  {
    if pairs == [] {
      assert RecordBytes(kf, vf, pairs) + tail == tail;
    } else {
      assert ReadsBack(kf, pairs[0].0) && ReadsBack(vf, pairs[0].1);
      assert AllReadBack(kf, vf, pairs[1..]) by {
        forall i | 0 <= i < |pairs[1..]|
          ensures pairs[1..][i] == pairs[i + 1]
        {
        }
      }
      ScanFirst(kf, vf, pairs, tail, |RecordBytes(kf, vf, pairs)|, n);
      ScanRecords(kf, vf, pairs[1..], tail, n - 1);
      assert [pairs[0]] + pairs[1..] == pairs;
    }
  }

  /**
   * After writing an 8-byte total and then `records` at `p`, reading the index
   * from `p` scans the records and what followed them, with the stored total
   * as the budget; it reads nothing only when there are no records.
   */
  lemma ReadWrittenIndex(kf: Format, vf: Format, data: seq<Octet>, p: nat, header: seq<Octet>, records: seq<Octet>)
    requires |header| == 8
    ensures var r := ReadIndexScan(kf, vf, Overwrite(data, p, header + records), p);
      && (records != [] ==> r.Some?)
      && (r.Some? ==> r.value == Scan(kf, vf, records + Remaining(data, p + 8 + |records|), Signed(header)))
  {
    var out := Overwrite(data, p, header + records);
    RemainingAfterWrite(data, p, header + records);
    assert Remaining(out, p) == header + (records + Remaining(data, p + 8 + |records|));
    if p + 8 < |out| {
      assert out[p..p + 8] == Remaining(out, p)[..8];
      assert out[p + 8..] == Remaining(out, p)[8..];
    }
  }

  /** What `readIndex` scans after `writeIndex`: the records, with the stored total as the budget. */
  lemma WrittenIndexScan(kf: Format, vf: Format, data: seq<Octet>, p: nat, pairs: seq<Pair>, header: seq<Octet>, records: seq<Octet>)
    requires header == BigEndian(RecordCount(kf, vf, pairs), 8) && records == RecordBytes(kf, vf, pairs)
    ensures var r := ReadIndexScan(kf, vf, WriteIndexBytes(kf, vf, data, p, pairs), p);
      && (records != [] ==> r.Some?)
      && (r.Some? ==> r.value == Scan(kf, vf, records + Remaining(data, p + 8 + |records|), Signed(header)))
  {
    assert WriteIndexBytes(kf, vf, data, p, pairs) == Overwrite(data, p, header + records);
    ReadWrittenIndex(kf, vf, data, p, header, records);
  }

  /** The total `writeLong` stored reads back with `readLong`. */
  lemma TotalReadsBack(total: int)
    requires IsLong(total)
    ensures Signed(BigEndian(total, 8)) == total
  {
    Pow256Values();
    SignedOfBigEndian(total, 8);
  }

  /**
   * Write, then read from the same position: every pair comes back, in the
   * order written, without an exception, whenever every converter reads back
   * what it wrote, every `write` returns its byte count, and the total fits
   * a long.
   */
  lemma IndexRoundTrip(kf: Format, vf: Format, data: seq<Octet>, p: nat, pairs: seq<Pair>)
    requires AllReadBack(kf, vf, pairs) && AllCountBytes(kf, vf, pairs)
    requires IsLong(|RecordBytes(kf, vf, pairs)|)
    ensures var r := ReadIndexScan(kf, vf, WriteIndexBytes(kf, vf, data, p, pairs), p);
      && (pairs != [] ==> r.Some?)
      && (r.Some? ==> r.value.pairs == pairs && r.value.fault == None)
  {
    var records := RecordBytes(kf, vf, pairs);
    var header := BigEndian(RecordCount(kf, vf, pairs), 8);
    StoredTotalExact(kf, vf, pairs);
    RecordBytesLength(kf, vf, pairs);
    WrittenIndexScan(kf, vf, data, p, pairs, header, records);
    ScanAllRecords(kf, vf, pairs, Remaining(data, p + 8 + |records|));
  }

  /** When every `write` returns its byte count, the stored total reads back as the number of record bytes. */
  lemma StoredTotalExact(kf: Format, vf: Format, pairs: seq<Pair>)
    requires AllCountBytes(kf, vf, pairs) && IsLong(|RecordBytes(kf, vf, pairs)|)
    ensures Signed(BigEndian(RecordCount(kf, vf, pairs), 8)) == |RecordBytes(kf, vf, pairs)|
  {
    RecordCountExact(kf, vf, pairs);
    TotalReadsBack(|RecordBytes(kf, vf, pairs)|);
  }

  /** The whole `readIndex` loop over records that read back, budgeted by their byte count. */
  lemma ScanAllRecords(kf: Format, vf: Format, pairs: seq<Pair>, tail: seq<Octet>)
    requires AllReadBack(kf, vf, pairs)
    ensures Scan(kf, vf, RecordBytes(kf, vf, pairs) + tail, |RecordBytes(kf, vf, pairs)|) == ScanState(pairs, None, tail, 0)
  {
    RecordBytesLength(kf, vf, pairs);
    ScanRecords(kf, vf, pairs, tail, |RecordBytes(kf, vf, pairs) + tail| + 1);
  }

  /** The round trip for maps between standard converters, provided no LONG is written. */
  lemma StdIndexRoundTrip(kc: Codec, vc: Codec, data: seq<Octet>, p: nat, pairs: seq<Pair>)
    requires kc.Std? && vc.Std? && PairsFit(kc, vc, pairs) && AllLongFree(kc, vc, pairs)
    requires IsLong(|RecordBytes(FormatOf(kc), FormatOf(vc), pairs)|)
    ensures var r := ReadIndexScan(FormatOf(kc), FormatOf(vc), WriteIndexBytes(FormatOf(kc), FormatOf(vc), data, p, pairs), p);
      && (pairs != [] ==> r.Some?)
      && (r.Some? ==> r.value.pairs == pairs && r.value.fault == None)
  {
    StdAllReadBack(kc, vc, pairs);
    LongFreeAllCount(kc, vc, pairs);
    IndexRoundTrip(FormatOf(kc), FormatOf(vc), data, p, pairs);
  }

  /**
   * When the stored total is positive but no larger than the first record,
   * `readIndex` returns after that record, whatever records follow it.
   */
  lemma ReadStopsAfterFirst(kf: Format, vf: Format, data: seq<Octet>, p: nat, pairs: seq<Pair>)
    requires pairs != [] && ReadsBack(kf, pairs[0].0) && ReadsBack(vf, pairs[0].1)
    requires var first := |kf.bytes(pairs[0].0)| + |vf.bytes(pairs[0].1)|;
      0 < Signed(BigEndian(RecordCount(kf, vf, pairs), 8)) <= first
    ensures ReadIndexScan(kf, vf, WriteIndexBytes(kf, vf, data, p, pairs), p)
         == Some(ScanState([pairs[0]], None,
                           RecordBytes(kf, vf, pairs[1..]) + Remaining(data, p + 8 + |RecordBytes(kf, vf, pairs)|),
                           Signed(BigEndian(RecordCount(kf, vf, pairs), 8)) - |kf.bytes(pairs[0].0)| - |vf.bytes(pairs[0].1)|))
  {
    var records := RecordBytes(kf, vf, pairs);
    var header := BigEndian(RecordCount(kf, vf, pairs), 8);
    var tail := Remaining(data, p + 8 + |records|);
    assert records != [] by {
      assert |records| >= |kf.bytes(pairs[0].0)| >= 1;
    }
    WrittenIndexScan(kf, vf, data, p, pairs, header, records);
    ScanFirst(kf, vf, pairs, tail, Signed(header), |records + tail| + 1);
    var later := RecordBytes(kf, vf, pairs[1..]) + tail;
    var left := Signed(header) - |kf.bytes(pairs[0].0)| - |vf.bytes(pairs[0].1)|;
    assert ScanN(kf, vf, later, left, |records + tail|) == ScanState([], None, later, left);
    assert [pairs[0]] + [] == [pairs[0]];
  }

  /**
   * The LONG defect seen from an index: a map from SHORT to LONG with two
   * entries stores the total 8 for 20 bytes of records, so `readIndex` stops
   * after the first record and the second entry is lost.
   */
  lemma LongValuesLoseRecords(data: seq<Octet>, p: nat)
    ensures var kf, vf := FormatOf(Std(Plain(ShortConv))), FormatOf(Std(Plain(LongConv)));
      var pairs := [(Number(1), Number(10)), (Number(2), Number(20))];
      ReadIndexScan(kf, vf, WriteIndexBytes(kf, vf, data, p, pairs), p)
        == Some(ScanState([pairs[0]], None, RecordBytes(kf, vf, pairs[1..]) + Remaining(data, p + 28), -2))
  {
    var kc, vc := Std(Plain(ShortConv)), Std(Plain(LongConv));
    var kf, vf := FormatOf(kc), FormatOf(vc);
    var pairs := [(Number(1), Number(10)), (Number(2), Number(20))];
    ShortLongSizes(pairs);
    StdReadsBack(kc, Number(1));
    StdReadsBack(vc, Number(10));
    TotalReadsBack(8);
    ReadStopsAfterFirst(kf, vf, data, p, pairs);
  }

  /** Two SHORT to LONG records: 20 bytes, for which the `write` calls return 8. */
  lemma ShortLongSizes(pairs: seq<Pair>)
    requires pairs == [(Number(1), Number(10)), (Number(2), Number(20))]
    ensures var kf, vf := FormatOf(Std(Plain(ShortConv))), FormatOf(Std(Plain(LongConv)));
      && |kf.bytes(Number(1))| == 2 && |vf.bytes(Number(10))| == 8
      && RecordCount(kf, vf, pairs) == 8 && |RecordBytes(kf, vf, pairs)| == 20
  {
    var kf, vf := FormatOf(Std(Plain(ShortConv))), FormatOf(Std(Plain(LongConv)));
    assert kf.bytes(Number(1)) == BigEndian(1, 2) && kf.count(Number(1)) == 2;
    assert vf.bytes(Number(10)) == BigEndian(10, 8) && vf.count(Number(10)) == 2;
    assert kf.bytes(Number(2)) == BigEndian(2, 2) && kf.count(Number(2)) == 2;
    assert vf.bytes(Number(20)) == BigEndian(20, 8) && vf.count(Number(20)) == 2;
    assert pairs[1..][1..] == [];
    assert RecordCount(kf, vf, pairs[1..]) == 4 + RecordCount(kf, vf, []);
    assert RecordCount(kf, vf, pairs) == 4 + RecordCount(kf, vf, pairs[1..]);
    assert |RecordBytes(kf, vf, pairs[1..])| == 10 + |RecordBytes(kf, vf, [])|;
    assert |RecordBytes(kf, vf, pairs)| == 10 + |RecordBytes(kf, vf, pairs[1..])|;
  }

  // ----- the loops of `writeIndex` and `readIndex` -----

  /**
   * The file after writes whose bytes, in order, are `bs`, starting at `q`:
   * no write at all leaves the file as it was, even when `q` is past its end.
   */
  function Written(data: seq<Octet>, q: nat, bs: seq<Octet>): seq<Octet>
  {
    if bs == [] then data else Overwrite(data, q, bs)
  }

  /** Two more writes after the ones recorded by `Written`. */
  lemma WrittenAppend(d0: seq<Octet>, q0: nat, r: seq<Octet>, a: seq<Octet>, b: seq<Octet>, before: seq<Octet>, after: seq<Octet>)
    requires |a| >= 1
    requires before == Written(d0, q0, r)
    requires after == Overwrite(Overwrite(before, q0 + |r|, a), q0 + |r| + |a|, b)
    ensures after == Written(d0, q0, r + (a + b))
  {
    OverwriteTwice(before, q0 + |r|, a, b);
    if r == [] {
      assert r + (a + b) == a + b;
    } else {
      OverwriteTwice(d0, q0, r, a + b);
    }
  }

  /** Writing the total in front of the records gives the index `WriteIndexBytes` describes. */
  lemma HeaderOverRecords(data: seq<Octet>, p: nat, header: seq<Octet>, records: seq<Octet>)
    requires |header| == 8
    ensures Overwrite(Written(data, p + 8, records), p, header) == Overwrite(data, p, header + records)
  {
    var lhs := Overwrite(Written(data, p + 8, records), p, header);
    var rhs := Overwrite(data, p, header + records);
    if records == [] {
      assert header + records == header;
    } else {
      var mid := Overwrite(data, p + 8, records);
      OverwriteContents(data, p + 8, records);
      OverwriteContents(mid, p, header);
      OverwriteContents(data, p, header + records);
      assert |lhs| == |rhs|;
      forall i | 0 <= i < |lhs|
        ensures lhs[i] == rhs[i]
      {
        if p <= i < p + 8 {
          assert lhs[i] == header[i - p] == (header + records)[i - p];
        } else if p + 8 <= i < p + 8 + |records| {
          assert lhs[i] == mid[i] == records[i - p - 8] == (header + records)[i - p];
        }
      }
    }
  }

  // The index classes call their converters through the `I_TypeConverter`
  // interface; the methods below do the same through a `Format`.

  /** `converter.write(file, v)`. */
  method WriteField(f: RandomAccessFile, fmt: Format, v: Value) returns (count: int)
    modifies f
    ensures f.data == Overwrite(old(f.data), old(f.pointer), fmt.bytes(v))
    ensures f.pointer == old(f.pointer) + |fmt.bytes(v)|
    ensures count == fmt.count(v)
  {
    f.Write(fmt.bytes(v));
    count := fmt.count(v);
  }

  /** Every successful `read` consumes at least one byte and moves the file pointer past it. */
  ghost predicate Consumes(fmt: Format)
  {
    forall s :: fmt.read(s).Ok? ==> |fmt.read(s).value.rest| < |s| && SuffixOf(fmt.read(s).value.rest, s)
  }

  lemma CodecConsumes(k: Codec)
    ensures Consumes(FormatOf(k))
  {
    forall s | FormatOf(k).read(s).Ok?
      ensures |FormatOf(k).read(s).value.rest| < |s| && SuffixOf(FormatOf(k).read(s).value.rest, s)
    {
      DecodeWithShrinks(k, s);
      if k.Std? {
        DecodeSuffix(k.c, s);
      }
    }
  }

  /** `converter.read(file)`: the file pointer ends up before the bytes the read left. */
  method ReadField(f: RandomAccessFile, fmt: Format) returns (r: Result<Decoded>)
    requires Consumes(fmt)
    modifies f
    ensures f.data == old(f.data)
    ensures r == fmt.read(Remaining(old(f.data), old(f.pointer)))
    ensures r.Ok? ==> Remaining(f.data, f.pointer) == r.value.rest
  {
    ghost var stream := Remaining(f.data, f.pointer);
    r := fmt.read(Remaining(f.data, f.pointer));
    if r.Ok? {
      f.Seek(|f.data| - |r.value.rest|);
      assert f.data[|f.data| - |stream|..][|stream| - |r.value.rest|..] == f.data[|f.data| - |r.value.rest|..];
    }
  }

  /**
   * The `for (K key : keySet())` loop of `writeIndex`: both converters' `write`
   * for each pair, the counts summed.
   */
  method WriteRecords(f: RandomAccessFile, kf: Format, vf: Format, pairs: seq<Pair>) returns (total: int)
    requires forall i :: 0 <= i < |pairs| ==> |kf.bytes(pairs[i].0)| >= 1
    modifies f
    ensures f.data == Written(old(f.data), old(f.pointer), RecordBytes(kf, vf, pairs))
    ensures f.pointer == old(f.pointer) + |RecordBytes(kf, vf, pairs)|
    ensures total == RecordCount(kf, vf, pairs)
  {
    ghost var d0, q0 := f.data, f.pointer;
    total := 0;
    var i := 0;
    while i < |pairs|
      invariant 0 <= i <= |pairs|
      invariant f.data == Written(d0, q0, RecordBytes(kf, vf, pairs[..i]))
      invariant f.pointer == q0 + |RecordBytes(kf, vf, pairs[..i])|
      invariant total == RecordCount(kf, vf, pairs[..i])
    {
      ghost var before := f.data;
      var a := WriteField(f, kf, pairs[i].0);
      var b := WriteField(f, vf, pairs[i].1);
      RecordStep(kf, vf, pairs, i, d0, q0, before, f.data);
      total := total + a + b;
      i := i + 1;
    }
    assert pairs[..|pairs|] == pairs;
  }

  /**
   * The body every `writeIndex` shares: skip the 8 header bytes, write the
   * records, go back and `writeLong` the total. The file pointer is left
   * after the header.
   */
  method WriteIndexFile(f: RandomAccessFile, kf: Format, vf: Format, pairs: seq<Pair>) returns (total: int)
    requires forall i :: 0 <= i < |pairs| ==> |kf.bytes(pairs[i].0)| >= 1
    modifies f
    ensures f.data == WriteIndexBytes(kf, vf, old(f.data), old(f.pointer), pairs)
    ensures f.pointer == old(f.pointer) + 8
    ensures total == RecordCount(kf, vf, pairs)
  {
    var start := f.pointer;
    ghost var d0 := f.data;
    f.Seek(start + 8);
    total := WriteRecords(f, kf, vf, pairs);
    f.Seek(start);
    f.Write(BigEndian(total, 8));
    HeaderOverRecords(d0, start, BigEndian(total, 8), RecordBytes(kf, vf, pairs));
  }

  /** The bytes and counts of one more record, appended to those before it. */
  lemma RecordStep(kf: Format, vf: Format, pairs: seq<Pair>, i: nat, d0: seq<Octet>, q0: nat, before: seq<Octet>, after: seq<Octet>)
    requires i < |pairs| && |kf.bytes(pairs[i].0)| >= 1
    requires var r := RecordBytes(kf, vf, pairs[..i]);
      var a := kf.bytes(pairs[i].0);
      && before == Written(d0, q0, r)
      && after == Overwrite(Overwrite(before, q0 + |r|, a), q0 + |r| + |a|, vf.bytes(pairs[i].1))
    ensures after == Written(d0, q0, RecordBytes(kf, vf, pairs[..i + 1]))
    ensures |RecordBytes(kf, vf, pairs[..i + 1])| == |RecordBytes(kf, vf, pairs[..i])| + |kf.bytes(pairs[i].0)| + |vf.bytes(pairs[i].1)|
    ensures RecordCount(kf, vf, pairs[..i + 1]) == RecordCount(kf, vf, pairs[..i]) + kf.count(pairs[i].0) + vf.count(pairs[i].1)
  {
    var p := pairs[i];
    assert pairs[..i + 1] == pairs[..i] + [p];
    RecordsSnoc(kf, vf, pairs[..i], p);
    WrittenAppend(d0, q0, RecordBytes(kf, vf, pairs[..i]), kf.bytes(p.0), vf.bytes(p.1), before, after);
  }

  /** One iteration of the `readIndex` loop: read a key, read a value, subtract their counts. */
  method ReadRecord(f: RandomAccessFile, kf: Format, vf: Format, st: ScanState) returns (next: ScanState)
    requires Consumes(kf) && Consumes(vf)
    requires st.fault.None? && st.rest == Remaining(f.data, f.pointer)
    modifies f
    ensures f.data == old(f.data)
    ensures next == Step(kf, vf, st)
    ensures next.fault.None? ==> next.rest == Remaining(f.data, f.pointer) && |next.rest| < |st.rest|
  {
    var key := ReadField(f, kf);
    if key.Err? {
      return st.(fault := Some(key.fault));
    }
    var value := ReadField(f, vf);
    if value.Err? {
      return st.(fault := Some(value.fault), rest := key.value.rest);
    }
    next := ScanState(st.pairs + [(key.value.value, value.value.value)], None, value.value.rest,
                      st.budget - key.value.count - value.value.count);
  }

  /**
   * `readIndex` up to the `put` calls: the length check, `readLong`, and the
   * loop, giving the pairs in the order read and the exception, if any, that
   * ended the loop.
   */
  method ReadRecords(f: RandomAccessFile, kf: Format, vf: Format) returns (r: Option<ScanState>, stored: Option<int>)
    requires Consumes(kf) && Consumes(vf)
    modifies f
    ensures f.data == old(f.data)
    ensures r == ReadIndexScan(kf, vf, old(f.data), old(f.pointer))
    ensures stored == StoredTotal(old(f.data), old(f.pointer))
  {
    if f.pointer + 8 >= f.Length() {
      return None, None;
    }
    var header := f.ReadFully(8);
    stored := Some(Signed(header.value));
    var stream := f.data[f.pointer..];
    ghost var s0, b0 := stream, Signed(header.value);
    var st := ScanState([], None, stream, Signed(header.value));
    ghost var i: nat := 0;
    while st.fault.None? && st.budget > 0
      invariant f.data == old(f.data)
      invariant ScanN(kf, vf, s0, b0, i) == st
      invariant st.fault.None? ==> st.rest == Remaining(f.data, f.pointer) && i + |st.rest| <= |s0|
      invariant i <= |s0| + 1
      decreases if st.fault.None? then |st.rest| + 1 else 0
    {
      ScanNStep(kf, vf, s0, b0, i);
      st := ReadRecord(f, kf, vf, st);
      i := i + 1;
    }
    ScanNDone(kf, vf, s0, b0, i, |s0| + 1);
    r := Some(st);
  }

  // ----- `put` applied for each pair -----

  /** Putting the pairs of a map, each key once, into an empty map rebuilds the map. */
  lemma {:induction false} PutAllRestores(order: seq<Value>, m: map<Value, Value>)
    requires IsKeyOrder(order, m.Keys)
    ensures PutAll(map[], Pairs(order, m)) == m
  {
    var pairs := Pairs(order, m);
    forall k | k in m
      ensures k in PutAll(map[], pairs) && PutAll(map[], pairs)[k] == m[k]
    {
      var i :| 0 <= i < |order| && order[i] == k;
      PutAllLookup(map[], pairs, k);
      assert pairs[i].0 == k;
    }
    forall k | k in PutAll(map[], pairs)
      ensures k in m
    {
      PutAllLookup(map[], pairs, k);
    }
  }
}

=== FILE: java_num.dfy ===
/**
 * Java's fixed-width integers on top of Dafny's unbounded `int`:
 * value ranges, the two's-complement casts, big-endian byte encodings
 * (as written by `DataOutput.writeLong/writeInt/writeShort/writeByte`)
 * and decimal text (`Long.toString`, `Long.parseLong`).
 */
module JavaNum {
  import opened Wrappers

  const LONG_MIN: int := -0x8000_0000_0000_0000
  const LONG_MAX: int := 0x7FFF_FFFF_FFFF_FFFF
  const INT_MIN: int := -0x8000_0000
  const INT_MAX: int := 0x7FFF_FFFF
  const SHORT_MIN: int := -0x8000
  const SHORT_MAX: int := 0x7FFF
  const BYTE_MIN: int := -0x80
  const BYTE_MAX: int := 0x7F

  /** One byte of a file, as an unsigned bit pattern. */
  type Octet = b: int | 0 <= b < 256

  predicate IsLong(n: int) { LONG_MIN <= n <= LONG_MAX }
  predicate IsInt(n: int) { INT_MIN <= n <= INT_MAX }
  predicate IsShort(n: int) { SHORT_MIN <= n <= SHORT_MAX }
  predicate IsByte(n: int) { BYTE_MIN <= n <= BYTE_MAX }

  function Pow256(w: nat): (r: nat)
    ensures r >= 1
  {
    if w == 0 then 1 else 256 * Pow256(w - 1)
  }

  /** Half the range of a `w`-byte integer: the signed values are -Half(w) .. Half(w)-1. */
  function Half(w: nat): int
    requires w >= 1
  {
    128 * Pow256(w - 1)
  }

  lemma {:induction false} MulAtLeast(m: int, k: int)
    requires m > 0 && k >= 1
    ensures m * k >= m
    decreases k
  {
    if k > 1 {
      MulAtLeast(m, k - 1);
      assert m * k == m * (k - 1) + m;
    }
  }

  /** Quotient and remainder are unique: Euclidean division of `n` by `m`. */
  lemma ModUnique(n: int, m: int, q: int, r: int)
    requires m > 0 && n == m * q + r && 0 <= r < m
    ensures n % m == r && n / m == q
  {
    var k := q - n / m;
    assert m * k == n % m - r;
    if k > 0 {
      MulAtLeast(m, k);
    } else if k < 0 {
      MulAtLeast(m, -k);
    }
  }

  /** The `w` low-order bytes of `n`, most significant first (two's complement for negative `n`). */
  function BigEndian(n: int, w: nat): (r: seq<Octet>)
    ensures |r| == w
    decreases w
  {
    if w == 0 then [] else BigEndian(n / 256, w - 1) + [n % 256]
  }

  /** The unsigned number whose big-endian bytes are `bs`. */
  function Unsigned(bs: seq<Octet>): nat
  {
    if bs == [] then 0 else Unsigned(bs[..|bs| - 1]) * 256 + bs[|bs| - 1]
  }

  /** The two's-complement number whose big-endian bytes are `bs` (`DataInput.readLong` etc.). */
  function Signed(bs: seq<Octet>): int
    requires |bs| >= 1
  {
    var u := Unsigned(bs);
    if u < Half(|bs|) then u else u - Pow256(|bs|)
  }

  lemma {:induction false} UnsignedBound(bs: seq<Octet>)
    ensures Unsigned(bs) < Pow256(|bs|)
  {
    if bs != [] {
      UnsignedBound(bs[..|bs| - 1]);
    }
  }

  /** A decoded `w`-byte number lies in the range of the `w`-byte Java type. */
  lemma SignedRange(bs: seq<Octet>)
    requires |bs| >= 1
    ensures -Half(|bs|) <= Signed(bs) < Half(|bs|)
  {
    UnsignedBound(bs);
  }

  /** A Java narrowing cast to a `w`-byte integer type: keep the low `w` bytes, reinterpret them as signed. */
  function Narrow(n: int, w: nat): int
    requires w >= 1
  {
    Signed(BigEndian(n, w))
  }

  /** Taking the low byte off and then the remaining bytes modulo p is taking the whole modulo 256p. */
  lemma SplitMod(n: int, p: int)
    requires p > 0
    ensures ((n / 256) % p) * 256 + n % 256 == n % (256 * p)
  {
    var q := n / 256;
    var lo := n % 256;
    var a := q / p;
    var b := q % p;
    assert q == p * a + b;
    calc {
      n;
      256 * q + lo;
      256 * (p * a + b) + lo;
      { assert 256 * (p * a) == (256 * p) * a; }
      (256 * p) * a + (256 * b + lo);
    }
    ModUnique(n, 256 * p, a, 256 * b + lo);
  }

  lemma {:induction false} UnsignedOfBigEndian(n: int, w: nat)
    ensures Unsigned(BigEndian(n, w)) == n % Pow256(w)
    decreases w
  {
    if w == 0 {
      ModUnique(n, 1, n, 0);
    } else {
      var bs := BigEndian(n, w);
      assert bs[..w - 1] == BigEndian(n / 256, w - 1);
      UnsignedOfBigEndian(n / 256, w - 1);
      SplitMod(n, Pow256(w - 1));
    }
  }

  lemma {:induction false} BigEndianOfUnsigned(bs: seq<Octet>)
    ensures BigEndian(Unsigned(bs), |bs|) == bs
  {
    if bs != [] {
      var init := bs[..|bs| - 1];
      var u := Unsigned(bs);
      ModUnique(u, 256, Unsigned(init), bs[|bs| - 1]);
      BigEndianOfUnsigned(init);
    }
  }

  /** Decoding the big-endian bytes of an in-range value gives the value back. */
  lemma SignedOfBigEndian(v: int, w: nat)
    requires w >= 1 && -Half(w) <= v < Half(w)
    ensures Signed(BigEndian(v, w)) == v
  {
    UnsignedOfBigEndian(v, w);
    if v >= 0 {
      ModUnique(v, Pow256(w), 0, v);
    } else {
      ModUnique(v, Pow256(w), -1, v + Pow256(w));
    }
  }

  /** Encoding the value that a byte pattern decodes to reproduces the pattern. */
  lemma BigEndianOfSigned(bs: seq<Octet>)
    requires |bs| >= 1
    ensures BigEndian(Signed(bs), |bs|) == bs
  {
    var u := Unsigned(bs);
    var w := |bs|;
    BigEndianOfUnsigned(bs);
    if u >= Half(w) {
      var a := u - Pow256(w);
      assert Signed(bs) == a;
      BigEndianCongruent(a, u, w);
    }
  }

  /** Numbers that differ by a multiple of 256^w have the same `w` low bytes. */
  lemma {:induction false} BigEndianCongruent(a: int, b: int, w: nat)
    requires b == a + Pow256(w)
    ensures BigEndian(a, w) == BigEndian(b, w)
    decreases w
  {
    if w > 0 {
      var p := Pow256(w - 1);
      ModUnique(b, 256, a / 256 + p, a % 256);
      BigEndianCongruent(a / 256, b / 256, w - 1);
    }
  }

  /** The `w` low bytes of a number depend only on its residue modulo 256^w. */
  lemma BigEndianMod(a: int, w: nat)
    ensures BigEndian(a, w) == BigEndian(a % Pow256(w), w)
  {
    var bs := BigEndian(a, w);
    BigEndianOfUnsigned(bs);
    UnsignedOfBigEndian(a, w);
  }

  /** A narrowing cast keeps the residue modulo 256^w ... */
  lemma NarrowMod(n: int, w: nat)
    requires w >= 1
    ensures Narrow(n, w) % Pow256(w) == n % Pow256(w)
  {
    var bs := BigEndian(n, w);
    BigEndianOfSigned(bs);
    UnsignedOfBigEndian(Narrow(n, w), w);
    UnsignedOfBigEndian(n, w);
  }

  /** ... depends on nothing else ... */
  lemma NarrowCongruent(a: int, b: int, w: nat)
    requires w >= 1 && a % Pow256(w) == b % Pow256(w)
    ensures Narrow(a, w) == Narrow(b, w)
  {
    BigEndianMod(a, w);
    BigEndianMod(b, w);
  }

  /** ... and leaves in-range values alone. */
  lemma NarrowId(v: int, w: nat)
    requires w >= 1 && -Half(w) <= v < Half(w)
    ensures Narrow(v, w) == v
  {
    SignedOfBigEndian(v, w);
  }

  // ----- decimal text -----

  predicate IsDigit(c: char) { '0' <= c <= '9' }

  function DigitChar(d: nat): char
    requires d < 10
  {
    "0123456789"[d]
  }

  function DigitValue(c: char): nat
    requires IsDigit(c)
  {
    (c as int) - ('0' as int)
  }

  /** The decimal digits of `n` without leading zeros (`Long.toString` of a non-negative value). */
  function NatToDecimal(n: nat): (s: string)
    ensures |s| >= 1 && forall i :: 0 <= i < |s| ==> IsDigit(s[i])
  {
    if n < 10 then [DigitChar(n)] else NatToDecimal(n / 10) + [DigitChar(n % 10)]
  }

  /** `Long.toString(n)` and JavaScript's `String(n)` for an integer. */
  function IntToDecimal(n: int): string
  {
    if n < 0 then "-" + NatToDecimal(-n) else NatToDecimal(n)
  }

  /** The number a non-empty run of decimal digits denotes. */
  function DigitsValue(s: string): nat
    requires forall i :: 0 <= i < |s| ==> IsDigit(s[i])
  {
    if s == [] then 0 else DigitsValue(s[..|s| - 1]) * 10 + DigitValue(s[|s| - 1])
  }

  predicate AllDigits(s: string)
  {
    forall i :: 0 <= i < |s| ==> IsDigit(s[i])
  }

  /**
   * The first code point of the block of ten decimal digits (Unicode
   * category Nd) that holds `cp`, or -1. The blocks are those of the Basic
   * Multilingual Plane, as of Unicode 7.0 and later.
   */
  function DigitBlock(cp: int): (zero: int)
    ensures zero == -1 || zero <= cp < zero + 10
  {
    if 0x0030 <= cp <= 0x0039 then 0x0030  // ASCII
    else if 0x0660 <= cp <= 0x0669 then 0x0660  // Arabic-Indic
    else if 0x06F0 <= cp <= 0x06F9 then 0x06F0  // Extended Arabic-Indic
    else if 0x07C0 <= cp <= 0x07C9 then 0x07C0  // NKo
    else if 0x0966 <= cp <= 0x096F then 0x0966  // Devanagari
    else if 0x09E6 <= cp <= 0x09EF then 0x09E6  // Bengali
    else if 0x0A66 <= cp <= 0x0A6F then 0x0A66  // Gurmukhi
    else if 0x0AE6 <= cp <= 0x0AEF then 0x0AE6  // Gujarati
    else if 0x0B66 <= cp <= 0x0B6F then 0x0B66  // Oriya
    else if 0x0BE6 <= cp <= 0x0BEF then 0x0BE6  // Tamil
    else if 0x0C66 <= cp <= 0x0C6F then 0x0C66  // Telugu
    else if 0x0CE6 <= cp <= 0x0CEF then 0x0CE6  // Kannada
    else if 0x0D66 <= cp <= 0x0D6F then 0x0D66  // Malayalam
    else if 0x0DE6 <= cp <= 0x0DEF then 0x0DE6  // Sinhala Lith
    else if 0x0E50 <= cp <= 0x0E59 then 0x0E50  // Thai
    else if 0x0ED0 <= cp <= 0x0ED9 then 0x0ED0  // Lao
    else if 0x0F20 <= cp <= 0x0F29 then 0x0F20  // Tibetan
    else if 0x1040 <= cp <= 0x1049 then 0x1040  // Myanmar
    else if 0x1090 <= cp <= 0x1099 then 0x1090  // Myanmar Shan
    else if 0x17E0 <= cp <= 0x17E9 then 0x17E0  // Khmer
    else if 0x1810 <= cp <= 0x1819 then 0x1810  // Mongolian
    else if 0x1946 <= cp <= 0x194F then 0x1946  // Limbu
    else if 0x19D0 <= cp <= 0x19D9 then 0x19D0  // New Tai Lue
    else if 0x1A80 <= cp <= 0x1A89 then 0x1A80  // Tai Tham Hora
    else if 0x1A90 <= cp <= 0x1A99 then 0x1A90  // Tai Tham
    else if 0x1B50 <= cp <= 0x1B59 then 0x1B50  // Balinese
    else if 0x1BB0 <= cp <= 0x1BB9 then 0x1BB0  // Sundanese
    else if 0x1C40 <= cp <= 0x1C49 then 0x1C40  // Lepcha
    else if 0x1C50 <= cp <= 0x1C59 then 0x1C50  // Ol Chiki
    else if 0xA620 <= cp <= 0xA629 then 0xA620  // Vai
    else if 0xA8D0 <= cp <= 0xA8D9 then 0xA8D0  // Saurashtra
    else if 0xA900 <= cp <= 0xA909 then 0xA900  // Kayah Li
    else if 0xA9D0 <= cp <= 0xA9D9 then 0xA9D0  // Javanese
    else if 0xA9F0 <= cp <= 0xA9F9 then 0xA9F0  // Myanmar Tai Laing
    else if 0xAA50 <= cp <= 0xAA59 then 0xAA50  // Cham
    else if 0xABF0 <= cp <= 0xABF9 then 0xABF0  // Meetei Mayek
    else if 0xFF10 <= cp <= 0xFF19 then 0xFF10  // fullwidth
    else -1
  }

  /**
   * `Character.digit(c, 10)`: the value of a decimal digit of any script,
   * or nothing (Java's -1). A Java `char` is a UTF-16 unit, so digits
   * outside the Basic Multilingual Plane arrive as two surrogates, neither
   * of them a digit; here they are one character outside every block.
   */
  function JavaDigit(c: char): (r: Option<nat>)
    ensures r.Some? ==> r.value < 10
    ensures IsDigit(c) ==> r == Some(DigitValue(c))
  {
    var zero := DigitBlock(c as int);
    if zero == -1 then None else Some((c as int) - zero)
  }

  predicate JavaDigits(s: string)
  {
    forall i :: 0 <= i < |s| ==> JavaDigit(s[i]).Some?
  }

  /** The number a run of `Character.digit` digits denotes, accumulated as `parseLong` does. */
  function JavaDigitsValue(s: string): nat
    requires JavaDigits(s)
  {
    if s == [] then 0 else JavaDigitsValue(s[..|s| - 1]) * 10 + JavaDigit(s[|s| - 1]).value
  }

  /**
   * `Long.parseLong(s)`: an optional '+' or '-' and at least one digit, each
   * read by `Character.digit(c, 10)`, so a decimal digit of any script counts
   * with its value; anything else, or a value outside the long range, is a
   * NumberFormatException.
   */
  function ParseLong(s: string): (r: Result<int>)
    ensures r.Ok? ==> IsLong(r.value)
    ensures r.Ok? ==> |s| >= 1
  {
    if |s| >= 2 && (s[0] == '-' || s[0] == '+') && JavaDigits(s[1..]) then
      var mag := JavaDigitsValue(s[1..]);
      var v: int := if s[0] == '-' then -(mag as int) else mag;
      if IsLong(v) then Ok(v) else Err(NumberFormat)
    else if |s| >= 1 && JavaDigits(s) then
      var v := JavaDigitsValue(s);
      if IsLong(v) then Ok(v) else Err(NumberFormat)
    else Err(NumberFormat)
  }

  /** On ASCII digits, `Character.digit` reads the same number as the ASCII rule. */
  lemma {:induction false} AsciiDigitsAgree(s: string)
    requires AllDigits(s)
    ensures JavaDigits(s) && JavaDigitsValue(s) == DigitsValue(s)
  {
    if s != [] {
      AsciiDigitsAgree(s[..|s| - 1]);
    }
  }

  /** Digit runs whose digits have the same values, in whatever scripts, denote the same number. */
  lemma {:induction false} SameDigitValues(s: string, t: string)
    requires JavaDigits(s) && JavaDigits(t) && |s| == |t|
    requires forall i :: 0 <= i < |s| ==> JavaDigit(s[i]) == JavaDigit(t[i])
    ensures JavaDigitsValue(s) == JavaDigitsValue(t)
  {
    if s != [] {
      SameDigitValues(s[..|s| - 1], t[..|t| - 1]);
    }
  }

  /**
   * A number written with the digits of any script parses as the same
   * number written with ASCII digits.
   */
  lemma ScriptDigitsParse(s: string, ascii: string)
    requires JavaDigits(s) && AllDigits(ascii) && |s| == |ascii|
    requires forall i :: 0 <= i < |s| ==> JavaDigit(s[i]) == JavaDigit(ascii[i])
    ensures ParseLong(s) == ParseLong(ascii)
  {
    AsciiDigitsAgree(ascii);
    SameDigitValues(s, ascii);
  }

  /** `parseLong` reads Arabic-Indic digits: "\U{0661}\U{0662}" is 12. */
  lemma ParseArabicIndic()
    ensures ParseLong("\U{0661}\U{0662}") == Ok(12)
  {
    var s := "\U{0661}\U{0662}";
    assert JavaDigit(s[0]) == Some(1) && JavaDigit(s[1]) == Some(2);
    assert JavaDigits(s) && JavaDigits(s[..1]);
    assert s[..1][..0] == [];
    assert JavaDigitsValue(s[..1]) == 1;
    assert JavaDigitsValue(s) == 12;
  }

  /** `parseLong` reads fullwidth digits: "-\U{FF11}\U{FF12}" is -12. */
  lemma ParseFullwidth()
    ensures ParseLong("-\U{FF11}\U{FF12}") == Ok(-12)
  {
    var s := "-\U{FF11}\U{FF12}";
    var d := s[1..];
    assert d == "\U{FF11}\U{FF12}";
    assert JavaDigit(d[0]) == Some(1) && JavaDigit(d[1]) == Some(2);
    assert JavaDigits(d) && JavaDigits(d[..1]);
    assert d[..1][..0] == [];
    assert JavaDigitsValue(d[..1]) == 1;
    assert JavaDigitsValue(d) == 12;
  }

  /** A character in no digit block, such as the superscript two, is a NumberFormatException. */
  lemma ParseSuperscript()
    ensures ParseLong("\U{00B2}") == Err(NumberFormat)
  {
    var s := "\U{00B2}";
    assert JavaDigit(s[0]).None?;
  }

  lemma {:induction false} DigitsOfDecimal(n: nat)
    ensures DigitsValue(NatToDecimal(n)) == n
  {
    if n >= 10 {
      var s := NatToDecimal(n);
      assert s[..|s| - 1] == NatToDecimal(n / 10);
      DigitsOfDecimal(n / 10);
    }
  }

  /** A non-negative long printed in decimal parses back. */
  lemma UnsignedRoundTrip(n: nat)
    requires IsLong(n)
    ensures ParseLong(NatToDecimal(n)) == Ok(n)
  {
    var d := NatToDecimal(n);
    DigitsOfDecimal(n);
    AsciiDigitsAgree(d);
    assert IsDigit(d[0]) && !(d[0] == '-' || d[0] == '+');
    assert JavaDigitsValue(d) == n;
  }

  /** A negative long printed in decimal, after its minus, parses back. */
  lemma NegativeRoundTrip(m: nat)
    requires IsLong(-(m as int))
    ensures ParseLong("-" + NatToDecimal(m)) == Ok(-(m as int))
  {
    var d := NatToDecimal(m);
    var s := "-" + d;
    DigitsOfDecimal(m);
    AsciiDigitsAgree(d);
    assert s[1..] == d && |s| >= 2 && s[0] == '-';
    assert JavaDigitsValue(s[1..]) == m;
  }

  /** Printing a long in decimal and parsing it back gives the same long. */
  lemma DecimalRoundTrip(n: int)
    requires IsLong(n)
    ensures ParseLong(IntToDecimal(n)) == Ok(n)
  {
    if n < 0 {
      NegativeRoundTrip(-n);
      assert IntToDecimal(n) == "-" + NatToDecimal(-n);
    } else {
      UnsignedRoundTrip(n);
      assert IntToDecimal(n) == NatToDecimal(n);
    }
  }
}

=== FILE: js_number.dfy ===
/**
 * JavaScript's `Number(text)` (StringToNumber, section 7.1.4.1.1 of
 * ECMA-262), as far as the date and time fields of the search form need it:
 * the value goes on into `new Date(...)`, which truncates it toward zero and
 * turns NaN and the infinities into an invalid date. So a text maps to the
 * truncated integer, or to `None` for NaN and the infinities.
 */
module JsNumbers {
  import opened Wrappers
  import opened JavaNum

  /** StrWhiteSpaceChar: the white space and line terminators `Number` ignores around the literal. */
  predicate JsSpace(c: char)
  {
    || c == '\t' || c == '\U{000B}' || c == '\U{000C}' || c == ' ' || c == '\U{00A0}' || c == '\U{FEFF}'
    || c == '\U{1680}' || ('\U{2000}' <= c <= '\U{200A}') || c == '\U{202F}' || c == '\U{205F}' || c == '\U{3000}'
    || c == '\n' || c == '\r' || c == '\U{2028}' || c == '\U{2029}'
  }

  function TrimLeadingSpaces(t: string): string
  {
    if t != [] && JsSpace(t[0]) then TrimLeadingSpaces(t[1..]) else t
  }

  function TrimTrailingSpaces(t: string): string
  {
    if t != [] && JsSpace(t[|t| - 1]) then TrimTrailingSpaces(t[..|t| - 1]) else t
  }

  function Pow10(n: nat): (r: nat)
    ensures r >= 1
  {
    if n == 0 then 1 else 10 * Pow10(n - 1)
  }

  /** A value `m` times ten to the `k`, truncated toward zero. */
  function Scale(m: nat, k: int): int
  {
    if k >= 0 then m * Pow10(k) else m / Pow10(-k)
  }

  /** The first `e` or `E` at or after `i`, or the length. */
  function ExponentMark(v: string, i: nat): (r: nat)
    requires i <= |v|
    ensures i <= r <= |v| && (r < |v| ==> v[r] == 'e' || v[r] == 'E')
    ensures forall k :: i <= k < r ==> v[k] != 'e' && v[k] != 'E'
    decreases |v| - i
  {
    if i == |v| || v[i] == 'e' || v[i] == 'E' then i else ExponentMark(v, i + 1)
  }

  /** The first `.` at or after `i`, or the length. */
  function DotAt(v: string, i: nat): (r: nat)
    requires i <= |v|
    ensures i <= r <= |v| && (r < |v| ==> v[r] == '.')
    ensures forall k :: i <= k < r ==> v[k] != '.'
    decreases |v| - i
  {
    if i == |v| || v[i] == '.' then i else DotAt(v, i + 1)
  }

  /** A mantissa `digits`, `digits.digits?` or `.digits`: the value of all its digits and how many follow the dot. */
  datatype Mantissa = Mantissa(digits: nat, fraction: nat)

  function MantissaOf(m: string): Option<Mantissa>
  {
    var dot := DotAt(m, 0);
    var whole := m[..dot];
    var fraction := if dot < |m| then m[dot + 1..] else "";
    if AllDigits(whole) && AllDigits(fraction) && (whole != "" || fraction != "") then
      Some(Mantissa(DigitsValue(whole + fraction), |fraction|))
    else None
  }

  /** ExponentPart without its `e`: an optional sign and at least one digit. */
  function ExponentOf(x: string): Option<int>
  {
    if x != [] && (x[0] == '+' || x[0] == '-') then
      var d := x[1..];
      if d != [] && AllDigits(d) then Some(if x[0] == '-' then -(DigitsValue(d) as int) else DigitsValue(d)) else None
    else if x != [] && AllDigits(x) then Some(DigitsValue(x))
    else None
  }

  /** StrUnsignedDecimalLiteral: `Infinity`, or a mantissa and an optional exponent. */
  function UnsignedDecimal(v: string): Option<int>
  {
    if v == "Infinity" then None
    else
      var e := ExponentMark(v, 0);
      var exponent := if e < |v| then ExponentOf(v[e + 1..]) else Some(0);
      match MantissaOf(v[..e])
      case Some(m) =>
        if exponent.Some? then Some(Scale(m.digits, exponent.value - m.fraction)) else None
      case None => None
  }

  /** The value of a digit of base 2, 8 or 16, upper- or lower-case. */
  function RadixDigit(c: char): nat
  {
    if '0' <= c <= '9' then c as int - '0' as int
    else if 'a' <= c <= 'f' then c as int - 'a' as int + 10
    else if 'A' <= c <= 'F' then c as int - 'A' as int + 10
    else 16
  }

  predicate RadixDigits(d: string, base: nat)
  {
    forall k :: 0 <= k < |d| ==> RadixDigit(d[k]) < base
  }

  function RadixValue(d: string, base: nat): nat
  {
    if d == [] then 0 else RadixValue(d[..|d| - 1], base) * base + RadixDigit(d[|d| - 1])
  }

  /** NonDecimalIntegerLiteral after its `0x`, `0o` or `0b`: at least one digit of the base. */
  function RadixNumber(d: string, base: nat): Option<int>
  {
    if d != [] && RadixDigits(d, base) then Some(RadixValue(d, base)) else None
  }

  function Negated(n: Option<int>): Option<int>
  {
    if n.Some? then Some(-n.value) else None
  }

  /** StrNumericLiteral: a prefixed integer, or a decimal with an optional sign. */
  function NumericLiteral(u: string): Option<int>
    requires u != []
  {
    if |u| >= 2 && u[0] == '0' && (u[1] == 'x' || u[1] == 'X') then RadixNumber(u[2..], 16)
    else if |u| >= 2 && u[0] == '0' && (u[1] == 'o' || u[1] == 'O') then RadixNumber(u[2..], 8)
    else if |u| >= 2 && u[0] == '0' && (u[1] == 'b' || u[1] == 'B') then RadixNumber(u[2..], 2)
    else if u[0] == '+' then UnsignedDecimal(u[1..])
    else if u[0] == '-' then Negated(UnsignedDecimal(u[1..]))
    else UnsignedDecimal(u)
  }

  /**
   * `Number(t)` as `new Date(...)` goes on to use it: a text of white space
   * only is 0, a numeric literal between white space its value truncated
   * toward zero, anything else (and the infinities) `None`.
   */
  function JsNumber(t: string): Option<int>
  {
    var u := TrimTrailingSpaces(TrimLeadingSpaces(t));
    if u == [] then Some(0) else NumericLiteral(u)
  }

  /** A run of digits, the empty one included, is read as its value. */
  lemma DigitsNumber(d: string)
    requires AllDigits(d)
    ensures JsNumber(d) == Some(DigitsValue(d))
  {
    if d != [] {
      assert IsDigit(d[0]) && IsDigit(d[|d| - 1]);
      Untrimmed(d);
      DigitsAreDecimal(d);
    }
  }

  /** A text that neither starts nor ends with white space is read as a literal as it is. */
  lemma Untrimmed(t: string)
    requires t != [] && !JsSpace(t[0]) && !JsSpace(t[|t| - 1])
    ensures JsNumber(t) == NumericLiteral(t)
  {
    LeadingSpacesDropped([], t);
    TrailingSpacesDropped(t, []);
    assert [] + t == t && t + [] == t;
  }

  /** Without an exponent mark, the decimal literal is its mantissa. */
  lemma NoExponent(v: string)
    requires forall k :: 0 <= k < |v| ==> v[k] != 'e' && v[k] != 'E'
    requires v != "Infinity"
    ensures UnsignedDecimal(v) == match MantissaOf(v) case Some(m) => Some(Scale(m.digits, 0 - m.fraction)) case None => None
  {
    assert ExponentMark(v, 0) == |v|;
    assert v[..|v|] == v;
  }

  /** A run of digits is a decimal literal of its value. */
  lemma DigitsDecimal(d: string)
    requires AllDigits(d) && d != []
    ensures UnsignedDecimal(d) == Some(DigitsValue(d))
  {
    assert forall k :: 0 <= k < |d| ==> d[k] != 'e' && d[k] != 'E' && d[k] != '.' by {
      forall k | 0 <= k < |d|
        ensures d[k] != 'e' && d[k] != 'E' && d[k] != '.'
      {
        assert IsDigit(d[k]);
      }
    }
    assert d != "Infinity" by {
      assert IsDigit(d[0]);
    }
    NoExponent(d);
    assert DotAt(d, 0) == |d|;
    assert d[..|d|] == d && d + "" == d;
  }

  /** A run of digits is read by the decimal branch as its value. */
  lemma DigitsAreDecimal(d: string)
    requires AllDigits(d) && d != []
    ensures NumericLiteral(d) == Some(DigitsValue(d))
  {
    assert IsDigit(d[0]) && (|d| >= 2 ==> IsDigit(d[1]));
    DigitsDecimal(d);
  }

  /** White space around a literal does not change it. */
  lemma {:induction false} LeadingSpacesDropped(w: string, t: string)
    requires forall k :: 0 <= k < |w| ==> JsSpace(w[k])
    requires t == [] || !JsSpace(t[0])
    ensures TrimLeadingSpaces(w + t) == t
  {
    if w != [] {
      assert (w + t)[1..] == w[1..] + t;
      LeadingSpacesDropped(w[1..], t);
    }
  }

  lemma {:induction false} TrailingSpacesDropped(t: string, w: string)
    requires forall k :: 0 <= k < |w| ==> JsSpace(w[k])
    requires t == [] || !JsSpace(t[|t| - 1])
    ensures TrimTrailingSpaces(t + w) == t
  {
    if w != [] {
      assert (t + w)[..|t + w| - 1] == t + w[..|w| - 1];
      TrailingSpacesDropped(t, w[..|w| - 1]);
    }
  }

  /** `Number` ignores white space before and after a literal that neither starts nor ends with white space. */
  lemma PaddedNumber(w1: string, t: string, w2: string)
    requires forall k :: 0 <= k < |w1| ==> JsSpace(w1[k])
    requires forall k :: 0 <= k < |w2| ==> JsSpace(w2[k])
    requires t != [] && !JsSpace(t[0]) && !JsSpace(t[|t| - 1])
    ensures JsNumber(w1 + t + w2) == JsNumber(t)
  {
    assert w1 + t + w2 == w1 + (t + w2);
    LeadingSpacesDropped(w1, t + w2);
    TrailingSpacesDropped(t, w2);
    Untrimmed(t);
  }

  /** Digits with white space around them are read as their value. */
  lemma PaddedDigits(w1: string, d: string, w2: string)
    requires forall k :: 0 <= k < |w1| ==> JsSpace(w1[k])
    requires forall k :: 0 <= k < |w2| ==> JsSpace(w2[k])
    requires AllDigits(d) && d != []
    ensures JsNumber(w1 + d + w2) == Some(DigitsValue(d))
  {
    assert IsDigit(d[0]) && IsDigit(d[|d| - 1]);
    PaddedNumber(w1, d, w2);
    DigitsNumber(d);
  }

  /** A literal that starts with a digit and no radix prefix is a decimal one. */
  lemma DecimalBranch(u: string)
    requires u != [] && IsDigit(u[0])
    requires |u| >= 2 ==> IsDigit(u[1]) || u[1] == '.'
    ensures NumericLiteral(u) == UnsignedDecimal(u)
  {
  }

  /** A literal that starts with a sign is the unsigned literal after it, negated for `-`. */
  lemma SignBranches(u: string)
    requires u != [] && (u[0] == '+' || u[0] == '-')
    ensures u[0] == '+' ==> NumericLiteral(u) == UnsignedDecimal(u[1..])
    ensures u[0] == '-' ==> NumericLiteral(u) == Negated(UnsignedDecimal(u[1..]))
  {
  }

  /** A `+` before digits keeps their value. */
  lemma PlusDigits(d: string)
    requires AllDigits(d) && d != []
    ensures JsNumber("+" + d) == JsNumber(d)
  {
    var t := "+" + d;
    assert t[0] == '+' && t[1..] == d && t[|t| - 1] == d[|d| - 1] && IsDigit(d[|d| - 1]);
    Untrimmed(t);
    DigitsDecimal(d);
    DigitsNumber(d);
    SignBranches(t);
  }

  /** A `-` before digits negates their value. */
  lemma MinusDigits(d: string)
    requires AllDigits(d) && d != []
    ensures JsNumber("-" + d) == Negated(JsNumber(d))
  {
    var t := "-" + d;
    assert t[0] == '-' && t[1..] == d && t[|t| - 1] == d[|d| - 1] && IsDigit(d[|d| - 1]);
    Untrimmed(t);
    DigitsDecimal(d);
    SignBranches(t);
    DigitsNumber(d);
    assert UnsignedDecimal(t[1..]) == JsNumber(d);
  }

  /** The digits of `a + b` are those of `a` shifted past those of `b`. */
  lemma {:induction false} DigitsAppend(a: string, b: string)
    requires AllDigits(a) && AllDigits(b)
    ensures DigitsValue(a + b) == Pow10(|b|) * DigitsValue(a) + DigitsValue(b)
  {
    if b != [] {
      var init := b[..|b| - 1];
      assert (a + b)[..|a + b| - 1] == a + init && (a + b)[|a + b| - 1] == b[|b| - 1];
      DigitsAppend(a, init);
      ShiftStep(DigitsValue(a + b), Pow10(|init|), DigitsValue(a), DigitsValue(init), DigitValue(b[|b| - 1]));
    } else {
      assert a + b == a;
    }
  }

  lemma ShiftStep(x: int, p: int, da: int, di: int, c: int)
    requires x == (p * da + di) * 10 + c
    ensures x == (10 * p) * da + (di * 10 + c)
  {
  }

  lemma {:induction false} DigitsBelow(b: string)
    requires AllDigits(b)
    ensures DigitsValue(b) < Pow10(|b|)
  {
    if b != [] {
      DigitsBelow(b[..|b| - 1]);
    }
  }

  /** Cutting off `|b|` digits leaves `a`. */
  lemma CutFraction(a: string, b: string)
    requires AllDigits(a) && AllDigits(b)
    ensures Scale(DigitsValue(a + b), 0 - |b|) == DigitsValue(a)
  {
    var p := Pow10(|b|);
    var x := DigitsValue(a + b);
    DigitsAppend(a, b);
    DigitsBelow(b);
    ModUnique(x, p, DigitsValue(a), DigitsValue(b));
    assert Scale(x, 0 - |b|) == x / p;
  }

  /** The mantissa `a.b` holds the digits of `a` and `b`, `|b|` of them after the dot. */
  lemma FractionMantissa(a: string, b: string)
    requires AllDigits(a) && AllDigits(b) && a != []
    ensures MantissaOf(a + "." + b) == Some(Mantissa(DigitsValue(a + b), |b|))
  {
    var t := a + "." + b;
    assert DotAt(t, 0) == |a| by {
      forall k | 0 <= k < |a|
        ensures t[k] != '.'
      {
        assert t[k] == a[k] && IsDigit(a[k]);
      }
    }
    assert t[..|a|] == a && t[|a| + 1..] == b;
  }

  /** `a.b` starts with a digit, has no exponent mark and does not end in white space. */
  lemma FractionShape(a: string, b: string)
    requires AllDigits(a) && AllDigits(b) && a != []
    ensures var t := a + "." + b;
      && IsDigit(t[0]) && !JsSpace(t[|t| - 1]) && (|a| >= 2 ==> IsDigit(t[1])) && (|a| == 1 ==> t[1] == '.')
      && forall k :: 0 <= k < |t| ==> t[k] != 'e' && t[k] != 'E'
  {
    var t := a + "." + b;
    assert t[0] == a[0] && IsDigit(a[0]) && (|a| >= 2 ==> t[1] == a[1] && IsDigit(a[1]));
    if b != [] {
      assert t[|t| - 1] == b[|b| - 1] && IsDigit(b[|b| - 1]);
    }
    forall k | 0 <= k < |t|
      ensures t[k] != 'e' && t[k] != 'E'
    {
      if k < |a| {
        assert t[k] == a[k] && IsDigit(a[k]);
      } else if k > |a| {
        assert t[k] == b[k - |a| - 1] && IsDigit(b[k - |a| - 1]);
      }
    }
  }

  /** A fraction is cut off: `a.b` is read as `a`. */
  lemma FractionTruncated(a: string, b: string)
    requires AllDigits(a) && AllDigits(b) && a != []
    ensures JsNumber(a + "." + b) == Some(DigitsValue(a))
  {
    var t := a + "." + b;
    FractionShape(a, b);
    assert t != "Infinity" by {
      assert t[0] != 'I';
    }
    NoExponent(t);
    FractionMantissa(a, b);
    CutFraction(a, b);
    assert UnsignedDecimal(t) == Some(DigitsValue(a));
    DecimalBranch(t);
    Untrimmed(t);
  }

  /** A run of digits followed by a character no literal can continue with is not a number. */
  lemma TrailingLetter(d: string, c: char)
    requires AllDigits(d) && d != []
    requires !IsDigit(c) && !JsSpace(c) && c != '.' && c != 'e' && c != 'E'
    requires d == "0" ==> c != 'x' && c != 'X' && c != 'o' && c != 'O' && c != 'b' && c != 'B'
    ensures JsNumber(d + [c]) == None
  {
    var t := d + [c];
    assert t[0] == d[0] && IsDigit(d[0]) && t[|t| - 1] == c;
    assert |d| >= 2 ==> t[1] == d[1] && IsDigit(d[1]);
    assert |d| == 1 ==> d == [d[0]];
    Untrimmed(t);
    assert forall k :: 0 <= k < |t| ==> t[k] != 'e' && t[k] != 'E' && t[k] != '.' by {
      forall k | 0 <= k < |t|
        ensures t[k] != 'e' && t[k] != 'E' && t[k] != '.'
      {
        if k < |d| {
          assert t[k] == d[k] && IsDigit(d[k]);
        }
      }
    }
    assert t != "Infinity" by {
      assert t[0] != 'I';
    }
    NoExponent(t);
    assert DotAt(t, 0) == |t|;
    assert t[..|t|] == t && !IsDigit(t[|t| - 1]);
  }

  /** `Infinity` is a numeric literal, but no date can be made from it. */
  lemma InfinityIsNoDate(t: string)
    requires t == "Infinity"
    ensures JsNumber(t) == None
  {
    assert t[0] == 'I' && t[|t| - 1] == 'y';
    Untrimmed(t);
  }
}

=== FILE: legacy_converters.dfy ===
/**
 * The converters nested in `bl/IndexManager`. They write like the INTEGER
 * and STRING converters of `index/data/I_TypeConverter`, but their `read`
 * returns a `Tuple<T, Integer>` whose first component is meant to be the
 * datum and whose second is meant to be the byte count.
 */
module LegacyConverters {
  import opened Wrappers
  import opened JavaNum
  import opened RandomAccess
  import opened TypeConverters

  /** The two converters `bl/IndexManager.I_TypeConverter` predefines. */
  datatype LegacyConverter = LegacyInteger | LegacyString

  /**
   * INTEGER `read`, as written: it returns `Tuple(4, readInt())`, so the
   * datum the index takes is the constant 4 and the count is the number read.
   */
  function DecodeLegacyInteger(stream: seq<Octet>): (r: Result<Decoded>)
    ensures r.Ok? <==> |stream| >= 4
    ensures r.Ok? ==> r.value.value == Number(4) && r.value.count == Signed(stream[..4]) && r.value.rest == stream[4..]
  {
    if |stream| < 4 then Err(EndOfFile)
    else Ok(Decoded(Number(4), Signed(stream[..4]), stream[4..]))
  }

  /**
   * STRING `read`, as written: it reads the size and allocates the array, but
   * never reads into it; the file pointer stays before the payload.
   */
  function DecodeLegacyString(stream: seq<Octet>): (r: Result<Decoded>)
    ensures |stream| < 4 ==> r == Err(EndOfFile)
    ensures r.Ok? ==> var size := Signed(stream[..4]);
      size >= 0 && r.value.value == Text(Zeros(size)) && r.value.count == size + 4 && r.value.rest == stream[4..]
  {
    if |stream| < 4 then Err(EndOfFile)
    else
      var size := Signed(stream[..4]);
      if size < 0 then Err(NegativeArraySize)
      else Ok(Decoded(Text(Zeros(size)), size + 4, stream[4..]))
  }

  function DecodeLegacy(l: LegacyConverter, stream: seq<Octet>): Result<Decoded>
  {
    match l
    case LegacyInteger => DecodeLegacyInteger(stream)
    case LegacyString => DecodeLegacyString(stream)
  }

  /** The standard converter whose `write` the legacy one shares. */
  function WriterOf(l: LegacyConverter): Scalar
  {
    match l
    case LegacyInteger => IntegerConv
    case LegacyString => StringConv
  }

  method ReadLegacy(f: RandomAccessFile, l: LegacyConverter) returns (r: Result<Decoded>)
    modifies f
    ensures f.data == old(f.data)
    ensures r == DecodeLegacy(l, Remaining(old(f.data), old(f.pointer)))
    ensures r.Ok? ==> f.pointer + |r.value.rest| == |f.data| && Remaining(f.data, f.pointer) == r.value.rest
  {
    ghost var stream := Remaining(f.data, f.pointer);
    var header := f.ReadFully(4);
    if header.Err? {
      return Err(header.fault);
    }
    assert header.value == stream[..4];
    var n := Signed(header.value);
    match l
    case LegacyInteger =>
      r := Ok(Decoded(Number(4), n, f.data[f.pointer..]));
    case LegacyString =>
      if n < 0 {
        return Err(NegativeArraySize);
      }
      r := Ok(Decoded(Text(Zeros(n)), n + 4, f.data[f.pointer..]));
  }

  // ----- what the legacy reads do to a value the legacy writes wrote -----

  /** Finding: an INTEGER written as 7 reads back as the datum 4 with count 7. */
  lemma LegacyIntegerSwapsRoles(tail: seq<Octet>)
    ensures DecodeLegacyInteger(EncodeScalar(IntegerConv, Number(7)) + tail) == Ok(Decoded(Number(4), 7, tail))
  {
    var e := EncodeScalar(IntegerConv, Number(7));
    SignedOfBigEndian(7, 4);
    assert (e + tail)[..4] == e;
    assert (e + tail)[4..] == tail;
  }

  /**
   * Finding: a STRING "ab" reads back as two zero bytes, and the file pointer
   * is left on the payload, which the next read then takes as its own data.
   */
  lemma LegacyStringSkipsPayload(tail: seq<Octet>)
    ensures DecodeLegacyString(EncodeScalar(StringConv, Text([97, 98])) + tail) == Ok(Decoded(Text([0, 0]), 6, [97, 98] + tail))
  {
    var e := EncodeScalar(StringConv, Text([97, 98]));
    SignedOfBigEndian(2, 4);
    assert (e + tail)[..4] == BigEndian(2, 4);
    assert (e + tail)[4..] == [97, 98] + tail;
    assert Zeros(2) == [0, 0];
  }

  /**
   * The evidently intended reads are those of the standard INTEGER and STRING
   * converters: they return what the shared `write` wrote, with its byte count.
   */
  function CorrectedLegacyDecode(l: LegacyConverter, stream: seq<Octet>): (r: Result<Decoded>)
    ensures forall v, tail :: FitsScalar(WriterOf(l), v) && stream == EncodeScalar(WriterOf(l), v) + tail ==>
      r == Ok(Decoded(v, |EncodeScalar(WriterOf(l), v)|, tail))
  {
    CorrectedDecodesWrites(l, stream);
    DecodeScalar(WriterOf(l), stream)
  }

  lemma CorrectedDecodesWrites(l: LegacyConverter, stream: seq<Octet>)
    ensures forall v, tail :: FitsScalar(WriterOf(l), v) && stream == EncodeScalar(WriterOf(l), v) + tail ==>
      DecodeScalar(WriterOf(l), stream) == Ok(Decoded(v, |EncodeScalar(WriterOf(l), v)|, tail))
  {
    forall v, tail | FitsScalar(WriterOf(l), v) && stream == EncodeScalar(WriterOf(l), v) + tail
      ensures DecodeScalar(WriterOf(l), stream) == Ok(Decoded(v, |EncodeScalar(WriterOf(l), v)|, tail))
    {
      DecodeEncodeScalar(WriterOf(l), v, tail);
    }
  }
}

=== FILE: level_ids.dfy ===
/**
 * `log/LogLevelIDManager`: an `IndexManager` from BYTE ids to STRING level
 * names whose `createIndex` numbers the level names in list order, each id
 * being the size of the map so far, cast to a byte.
 */
module LogLevelIds {
  import opened Wrappers
  import opened JavaNum
  import opened Sequences
  import opened TypeConverters
  import opened IndexRecords
  import opened BiMaps
  import opened NameIdManagers
  import LogIndexManagers

  /**
   * The two maps after `putValue((byte) values.size(), s)` for each name `s`
   * in turn, with the last id given out.
   */
  function NumberLevels(levels: seq<Value>): Added
  {
    if levels == [] then Added(Number(-1), map[], map[])
    else
      var r := NumberLevels(levels[..|levels| - 1]);
      var id := Number(Narrow(|r.forward|, 1));
      Added(id, r.forward[id := levels[|levels| - 1]], r.backward[levels[|levels| - 1] := id])
  }

  /** Up to 128 names, every name gets a new id: the ids are 0 .. n-1. */
  lemma {:induction false} NumberLevelsSize(levels: seq<Value>)
    requires |levels| <= 128
    ensures var forward := NumberLevels(levels).forward;
      |forward| == |levels| && forall k :: k in forward <==> k.Number? && 0 <= k.n < |levels|
  {
    if levels != [] {
      var init := levels[..|levels| - 1];
      NumberLevelsSize(init);
      var forward := NumberLevels(init).forward;
      NarrowId(|forward|, 1);
      var id := Number(|init|);
      assert id !in forward;
      var next := forward[id := levels[|levels| - 1]];
      assert NumberLevels(levels).forward == next;
      assert |next| == |forward| + 1;
      forall k
        ensures k in next <==> k.Number? && 0 <= k.n < |levels|
      {
        assert k in next <==> k == id || k in forward;
      }
    }
  }

  /** Up to 128 names, the `i`-th name is stored under the id `i`. */
  lemma {:induction false} NumberLevelsAt(levels: seq<Value>, i: nat)
    requires i < |levels| <= 128
    ensures var forward := NumberLevels(levels).forward;
      Number(i) in forward && forward[Number(i)] == levels[i]
  {
    var init := levels[..|levels| - 1];
    NumberLevelsSize(init);
    NarrowId(|NumberLevels(init).forward|, 1);
    if i < |levels| - 1 {
      NumberLevelsAt(init, i);
    }
  }

  /**
   * For at most 128 distinct names, `createIndex` numbers them exactly as
   * `addIfAbsent` would, so the ids are dense and the maps inverse
   * (`NameIdManagers.AddAllDense`).
   */
  lemma {:induction false} NumberLevelsAsAdded(levels: seq<Value>)
    requires Distinct(levels) && |levels| <= 128
    ensures NumberLevels(levels) == AddAll(map[], map[], levels)
  {
    if levels != [] {
      var init, last := levels[..|levels| - 1], levels[|levels| - 1];
      assert Distinct(init);
      NumberLevelsAsAdded(init);
      NumberLevelsSize(init);
      AddAllDense(init);
      NarrowId(|init|, 1);
      assert last !in NumberLevels(init).backward by {
        assert forall j :: 0 <= j < |init| ==> init[j] != last;
      }
    }
  }

  /** The text of an ASCII string, one byte per character. */
  function Ascii(s: string): seq<Octet>
    requires forall i :: 0 <= i < |s| ==> s[i] as int < 256
  {
    seq(|s|, i requires 0 <= i < |s| => s[i] as int)
  }

  /** The level names in the order `log/Search` lists them. */
  function SearchLevels(): seq<Value>
  {
    [Text(Ascii("INFO")), Text(Ascii("DEBUG")), Text(Ascii("WARN")),
     Text(Ascii("ERROR")), Text(Ascii("TRACE")), Text(Ascii("FATAL"))]
  }

  /** With the six levels, `get((byte) 2)` is "WARN" and `get("WARN")` is 2. */
  lemma SearchLevelIds()
    ensures var forward, backward := NumberLevels(SearchLevels()).forward, NumberLevels(SearchLevels()).backward;
      && |forward| == 6
      && Lookup(forward, Number(2)) == Some(Text(Ascii("WARN")))
      && Lookup(backward, Text(Ascii("WARN"))) == Some(Number(2))
  {
    var levels := SearchLevels();
    assert Ascii("INFO")[0] != Ascii("DEBUG")[0];
    assert Distinct(levels) by {
      forall i, j | 0 <= i < j < 6
        ensures levels[i] != levels[j]
      {
        assert levels[i].bytes[1] != levels[j].bytes[1] || levels[i].bytes[0] != levels[j].bytes[0];
      }
    }
    NumberLevelsSize(levels);
    NumberLevelsAt(levels, 2);
    NumberLevelsAsAdded(levels);
    AddAllDense(levels);
  }

  function ByteFormat(): Format { FormatOf(Std(Plain(ByteConv))) }

  class LevelIds {
    const index: LogIndexManagers.IndexManager

    /** The constructor runs the overridden `createIndex`. */
    constructor (levels: seq<Value>)
      ensures fresh(index) && fresh(index.values)
      ensures index.keyConverter == ByteFormat() && index.valueConverter == StringFormat()
      ensures index.values.map1 == NumberLevels(levels).forward && index.values.map2 == NumberLevels(levels).backward
    {
      index := new LogIndexManagers.IndexManager(ByteFormat(), StringFormat());
      new;
      CreateIndex(levels);
    }

    /** `createIndex`: a new BiMap, then the names of `levels` numbered in order. */
    method CreateIndex(levels: seq<Value>)
      modifies index
      ensures fresh(index.values)
      ensures index.values.map1 == NumberLevels(levels).forward && index.values.map2 == NumberLevels(levels).backward
    {
      index.CreateIndex();
      var i := 0;
      while i < |levels|
        invariant 0 <= i <= |levels|
        invariant fresh(index.values)
        invariant index.values.map1 == NumberLevels(levels[..i]).forward && index.values.map2 == NumberLevels(levels[..i]).backward
      {
        assert levels[..i + 1][..i] == levels[..i];
        var n := index.values.Size();
        index.values.PutValue(Number(Narrow(n, 1)), levels[i]);
        i := i + 1;
      }
      assert levels[..i] == levels;
    }

    /** `get(Byte)`: the level name of an id, or null. */
    method Get(id: Value) returns (r: Option<Value>)
      ensures r == Lookup(index.values.map1, id)
    {
      r := index.values.GetValue(id);
    }

    /** `get(String)`: the id of a level name, or null. */
    method GetId(name: Value) returns (r: Option<Value>)
      ensures r == Lookup(index.values.map2, name)
    {
      r := index.values.GetKey(name);
    }
  }
}

=== FILE: level_index.dfy ===
/**
 * `log/LogLevelIndexManager`: an `IndexManager` from SHORT file ids to the
 * bytes of the level ids that occur in that file, kept as a STRING.
 */
module LogLevelIndexes {
  import opened Wrappers
  import opened JavaNum
  import opened Sequences
  import opened Maps
  import opened TypeConverters
  import opened IndexRecords
  import opened BiMaps
  import opened NameIdManagers
  import LogIndexManagers

  function ShortFormat(): Format { FormatOf(Std(Plain(ShortConv))) }

  /** The pairs `createIndex` puts: file `i` with the level bytes the search found for it. */
  function FilePairs(files: seq<seq<Octet>>): (r: seq<Pair>)
    ensures |r| == |files| && forall i :: 0 <= i < |files| ==> r[i] == (Number(i), Text(files[i]))
  {
    seq(|files|, i requires 0 <= i < |files| => (Number(i), Text(files[i])))
  }

  /** After `createIndex`, file `i` maps to the `i`-th level list, and no other key is stored. */
  lemma FilePairsLookup(files: seq<seq<Octet>>)
    ensures var forward := PutAll(map[], FilePairs(files));
      && (forall i :: 0 <= i < |files| ==> Number(i) in forward && forward[Number(i)] == Text(files[i]))
      && (forall k :: k in forward ==> k.Number? && 0 <= k.n < |files|)
  {
    var pairs := FilePairs(files);
    forall i | 0 <= i < |files|
      ensures Number(i) in PutAll(map[], pairs) && PutAll(map[], pairs)[Number(i)] == Text(files[i])
    {
      PutAllLookup(map[], pairs, Number(i));
    }
    forall k: Value | k in PutAll(map[], pairs)
      ensures k.Number? && 0 <= k.n < |files|
    {
      PutAllLookup(map[], pairs, k);
    }
  }

  /** Every value of the index is a level string (the value type of the index). */
  ghost predicate TextValues(forward: map<Value, Value>)
  {
    forall k :: k in forward ==> forward[k].Text?
  }

  /** The file ids of `order` whose level bytes contain `level`, in the order of `order`. */
  function FilesWith(order: seq<Value>, forward: map<Value, Value>, level: Octet): seq<Value>
    requires forall k :: k in order ==> k in forward
    requires TextValues(forward)
  {
    if order == [] then []
    else
      var init, last := order[..|order| - 1], order[|order| - 1];
      var r := FilesWith(init, forward, level);
      if level in forward[last].bytes then r + [last] else r
  }

  /**
   * `get(byte)` answers exactly the files whose stored level bytes contain
   * the level, each at most once when the keys are visited once each.
   */
  lemma {:induction false} FilesWithMembers(order: seq<Value>, forward: map<Value, Value>, level: Octet)
    requires forall k :: k in order ==> k in forward
    requires TextValues(forward)
    ensures var r := FilesWith(order, forward, level);
      && (forall k :: k in r <==> k in order && level in forward[k].bytes)
      && (Distinct(order) ==> Distinct(r))
  {
    if order != [] {
      var init, last := order[..|order| - 1], order[|order| - 1];
      assert forall k :: k in init ==> k in order;
      FilesWithMembers(init, forward, level);
      assert order == init + [last];
      if Distinct(order) {
        assert Distinct(init);
        assert last !in init by {
          assert forall j :: 0 <= j < |init| ==> init[j] == order[j];
        }
      }
    }
  }

  /**
   * The files `createIndex` gets through: the short loop counter stores files
   * 0..SHORT_MAX, and `++i` past SHORT_MAX wraps to SHORT_MIN.
   */
  function StoredFiles(files: seq<seq<Octet>>): (r: seq<seq<Octet>>)
    ensures |r| <= SHORT_MAX + 1 && |r| <= |files| && r == files[..|r|]
    ensures |files| <= SHORT_MAX + 1 ==> r == files
  {
    if |files| <= SHORT_MAX + 1 then files else files[..SHORT_MAX + 1]
  }

  /**
   * What `createIndex` ends with: nothing for at most SHORT_MAX files; with
   * more, the counter wraps to SHORT_MIN, still below `files.size()`, and
   * `files.get(SHORT_MIN)` throws.
   */
  function CreateFault(files: seq<seq<Octet>>): Option<Fault>
  {
    if |files| <= SHORT_MAX then None else Some(IndexOutOfBounds)
  }

  class LevelIndex {
    const index: LogIndexManagers.IndexManager
    /** The exception the constructor ends with, if any. */
    var creationFault: Option<Fault>

    /**
     * The constructor: the `IndexManager` constructor runs the overridden
     * `createIndex`, and the constructor body runs it again unless the first
     * run threw; `files` is what the search for the level bytes of each file
     * returns.
     */
    constructor (files: seq<seq<Octet>>)
      ensures fresh(index) && fresh(index.values)
      ensures index.keyConverter == ShortFormat() && index.valueConverter == StringFormat()
      ensures index.values.map1 == PutAll(map[], FilePairs(StoredFiles(files)))
      ensures index.values.map2 == PutAll(map[], Swapped(FilePairs(StoredFiles(files))))
      ensures creationFault == CreateFault(files)
    {
      index := new LogIndexManagers.IndexManager(ShortFormat(), StringFormat());
      creationFault := None;
      new;
      var thrown := CreateIndex(files);
      if thrown.None? {
        thrown := CreateIndex(files);
      }
      creationFault := thrown;
    }

    /**
     * `createIndex`: a new BiMap, then `putValue(i, new String(files.get(i)))`
     * for each file, `i` a short.
     */
    method CreateIndex(files: seq<seq<Octet>>) returns (thrown: Option<Fault>)
      modifies index
      ensures fresh(index.values)
      ensures index.values.map1 == PutAll(map[], FilePairs(StoredFiles(files)))
      ensures index.values.map2 == PutAll(map[], Swapped(FilePairs(StoredFiles(files))))
      ensures thrown == CreateFault(files)
    {
      index.CreateIndex();
      ghost var pairs := FilePairs(StoredFiles(files));
      var i := 0;
      while i < |files|
        invariant IsShort(i) && fresh(index.values)
        invariant i >= 0 ==>
          (i <= |pairs|
           && index.values.map1 == PutAll(map[], pairs[..i])
           && index.values.map2 == PutAll(map[], Swapped(pairs)[..i]))
        invariant i < 0 ==>
          (i == SHORT_MIN && |files| > SHORT_MAX
           && index.values.map1 == PutAll(map[], pairs)
           && index.values.map2 == PutAll(map[], Swapped(pairs)))
        decreases if i < 0 then 0 else SHORT_MAX + 2 - i
      {
        if i < 0 {
          // files.get of the wrapped, negative counter
          return Some(IndexOutOfBounds);
        }
        PutAllSnoc(map[], pairs[..i], pairs[i]);
        PutAllSnoc(map[], Swapped(pairs)[..i], Swapped(pairs)[i]);
        assert pairs[..i + 1] == pairs[..i] + [pairs[i]];
        assert Swapped(pairs)[..i + 1] == Swapped(pairs)[..i] + [Swapped(pairs)[i]];
        index.values.PutValue(Number(i), Text(files[i]));
        if i == SHORT_MAX {
          assert pairs[..i + 1] == pairs && Swapped(pairs)[..i + 1] == Swapped(pairs);
          i := SHORT_MIN;
        } else {
          i := i + 1;
        }
      }
      assert pairs[..i] == pairs;
      assert Swapped(pairs)[..i] == Swapped(pairs);
      return None;
    }

    /** `get(short)`: the level bytes of a file; a file without an entry is a NullPointerException. */
    method GetLevels(fileId: Value) returns (r: Result<seq<Octet>>)
      requires TextValues(index.values.map1)
      ensures fileId !in index.values.map1 ==> r == Err(NullPointer)
      ensures fileId in index.values.map1 ==> r == Ok(index.values.map1[fileId].bytes)
    {
      var v := index.values.GetValue(fileId);
      if v.None? {
        return Err(NullPointer);
      }
      r := Ok(v.value.bytes);
    }

    /** `get(byte)`, the keys visited in the order `order`. */
    method FilesWithLevel(order: seq<Value>, level: Octet) returns (ids: array<Value>)
      requires IsKeyOrder(order, index.values.KeySet())
      requires TextValues(index.values.map1)
      ensures fresh(ids)
      ensures ids[..] == FilesWith(order, index.values.map1, level)
    {
      var found: seq<Value> := [];
      var i := 0;
      while i < |order|
        invariant 0 <= i <= |order|
        invariant found == FilesWith(order[..i], index.values.map1, level)
      {
        assert order[..i + 1][..i] == order[..i];
        var v := index.values.GetValue(order[i]);
        var bytes := v.value.bytes;
        var j := 0;
        while j < |bytes|
          invariant 0 <= j <= |bytes|
          invariant level !in bytes[..j]
        {
          if bytes[j] == level {
            break;
          }
          assert bytes[..j + 1] == bytes[..j] + [bytes[j]];
          j := j + 1;
        }
        if j < |bytes| {
          found := found + [order[i]];
        } else {
          assert bytes[..j] == bytes;
        }
        i := i + 1;
      }
      assert order[..i] == order;
      ids := new Value[|found|];
      var k := 0;
      while k < |found|
        invariant 0 <= k <= |found|
        invariant ids[..k] == found[..k]
      {
        ids[k] := found[k];
        assert ids[..k + 1] == found[..k + 1];
        k := k + 1;
      }
    }
  }
}

=== FILE: log_dates.dfy ===
/**
 * `log/LogDateManager`: an `IndexManager` from SHORT file ids to the range
 * of dates of each log file, written as two longs (begin, then end).
 */
module LogDates {
  import opened Wrappers
  import opened JavaNum
  import opened RandomAccess
  import opened TypeConverters
  import opened IndexRecords
  import opened BiMaps
  import opened SerializableMaps
  import opened SerializableBiMaps
  import opened LogLevelIndexes
  import LogIndexManagers

  /** `new TimeRange()`: the whole of time, from 0 to `Long.MAX_VALUE`. */
  function DefaultRange(): Value { Range(0, LONG_MAX) }

  /** The nested converter writes and reads `beginDate` then `endDate`, 16 bytes, as TIME_RANGE does. */
  function RangeFormat(): Format { FormatOf(Std(Plain(TimeRangeConv))) }

  /** Every value of the index is a time range (the value type of the index). */
  ghost predicate RangesOnly(forward: map<Value, Value>)
  {
    forall k :: k in forward ==> forward[k].Range?
  }

  /** `get(short)`: the stored range, or a default one when the file has none. */
  function RangeAt(forward: map<Value, Value>, fileId: Value): (r: Value)
    requires RangesOnly(forward)
    ensures r.Range?
  {
    if fileId in forward then forward[fileId] else DefaultRange()
  }

  /** The ranges after `setBeginDate(fileId, date)`. */
  function SetBegin(forward: map<Value, Value>, fileId: Value, date: int): map<Value, Value>
    requires RangesOnly(forward)
  {
    forward[fileId := Range(date, RangeAt(forward, fileId).end)]
  }

  /** The ranges after `setEndDate(fileId, date)`. */
  function SetEnd(forward: map<Value, Value>, fileId: Value, date: int): map<Value, Value>
    requires RangesOnly(forward)
  {
    forward[fileId := Range(RangeAt(forward, fileId).begin, date)]
  }

  /**
   * `setBeginDate` changes the begin of that one file and keeps its end (the
   * default end for a file seen for the first time); `setEndDate` the other
   * way round; neither touches another file.
   */
  lemma SettersChangeOneDate(forward: map<Value, Value>, fileId: Value, other: Value, date: int)
    requires RangesOnly(forward) && other != fileId
    ensures RangesOnly(SetBegin(forward, fileId, date)) && RangesOnly(SetEnd(forward, fileId, date))
    ensures RangeAt(SetBegin(forward, fileId, date), fileId) == Range(date, RangeAt(forward, fileId).end)
    ensures RangeAt(SetEnd(forward, fileId, date), fileId) == Range(RangeAt(forward, fileId).begin, date)
    ensures RangeAt(SetBegin(forward, fileId, date), other) == RangeAt(forward, other)
    ensures RangeAt(SetEnd(forward, fileId, date), other) == RangeAt(forward, other)
  {
  }

  /** Setting the begin and then the end of a file is `setDateRange` for that file. */
  lemma BeginThenEnd(forward: map<Value, Value>, fileId: Value, begin: int, end: int)
    requires RangesOnly(forward)
    ensures RangesOnly(SetBegin(forward, fileId, begin))
    ensures SetEnd(SetBegin(forward, fileId, begin), fileId, end) == forward[fileId := Range(begin, end)]
  {
  }

  class DateRanges {
    const index: LogIndexManagers.IndexManager

    /** The constructor runs the overridden `createIndex`. */
    constructor (stored: Option<seq<Octet>>)
      ensures fresh(index) && fresh(index.values)
      ensures index.keyConverter == ShortFormat() && index.valueConverter == RangeFormat()
      ensures stored.None? ==> index.values.map1 == map[] && index.values.map2 == map[]
      ensures stored.Some? ==>
        var scan := ReadIndexScan(ShortFormat(), RangeFormat(), stored.value, 0);
        index.values.map1 == MapAfterRead(map[], scan) && index.values.map2 == BackwardAfterRead(map[], scan)
    {
      index := new LogIndexManagers.IndexManager(ShortFormat(), RangeFormat());
      new;
      CreateIndex(stored);
    }

    /**
     * `createIndex`: a new BiMap, then, when the index file exists (`stored`
     * holds its content), what `readIndex` reads from it; an IOException is
     * swallowed.
     */
    method CreateIndex(stored: Option<seq<Octet>>)
      requires index.keyConverter == ShortFormat() && index.valueConverter == RangeFormat()
      modifies index
      ensures fresh(index.values)
      ensures stored.None? ==> index.values.map1 == map[] && index.values.map2 == map[]
      ensures stored.Some? ==>
        var scan := ReadIndexScan(index.keyConverter, index.valueConverter, stored.value, 0);
        index.values.map1 == MapAfterRead(map[], scan) && index.values.map2 == BackwardAfterRead(map[], scan)
    {
      index.CreateIndex();
      if stored.Some? {
        var file := new RandomAccessFile(stored.value);
        CodecConsumes(Std(Plain(ShortConv)));
        CodecConsumes(Std(Plain(TimeRangeConv)));
        var _ := index.ReadIndex(file);
      }
    }

    method Get(fileId: Value) returns (r: Value)
      requires RangesOnly(index.values.map1)
      ensures r == RangeAt(index.values.map1, fileId)
    {
      var has := index.HasKey(fileId);
      if !has {
        return DefaultRange();
      }
      var v := index.values.GetValue(fileId);
      r := v.value;
    }

    /**
     * `setBeginDate`: a default range is put for a file without one, then the
     * begin of the range object is changed in place. Both maps hold that same
     * object, which hashes by identity, so the reverse map keeps its entry
     * under the object and the model leaves it as the `putValue` left it.
     */
    method SetBeginDate(fileId: Value, date: int)
      requires RangesOnly(index.values.map1)
      modifies index.values
      ensures index.values.map1 == SetBegin(old(index.values.map1), fileId, date)
      ensures fileId in old(index.values.map1) ==> index.values.map2 == old(index.values.map2)
      ensures fileId !in old(index.values.map1) ==> index.values.map2 == old(index.values.map2)[DefaultRange() := fileId]
    {
      var has := index.HasKey(fileId);
      if !has {
        index.PutValue(fileId, DefaultRange());
      }
      var range := Get(fileId);
      index.values.map1 := index.values.map1[fileId := Range(date, range.end)];
    }

    /** `setEndDate`, the same for the end of the range. */
    method SetEndDate(fileId: Value, date: int)
      requires RangesOnly(index.values.map1)
      modifies index.values
      ensures index.values.map1 == SetEnd(old(index.values.map1), fileId, date)
      ensures fileId in old(index.values.map1) ==> index.values.map2 == old(index.values.map2)
      ensures fileId !in old(index.values.map1) ==> index.values.map2 == old(index.values.map2)[DefaultRange() := fileId]
    {
      var has := index.HasKey(fileId);
      if !has {
        index.PutValue(fileId, DefaultRange());
      }
      var range := Get(fileId);
      index.values.map1 := index.values.map1[fileId := Range(range.begin, date)];
    }

    /** `setDateRange`: `putValue(fileID, new TimeRange(beginDate, endDate))`. */
    method SetDateRange(fileId: Value, begin: int, end: int)
      modifies index.values
      ensures index.values.map1 == old(index.values.map1)[fileId := Range(begin, end)]
      ensures index.values.map2 == old(index.values.map2)[Range(begin, end) := fileId]
    {
      index.PutValue(fileId, Range(begin, end));
    }
  }
}

=== FILE: log_entry.dfy ===
/**
 * The log line parsers of `logs/data/LogEntry` (level checked against
 * `LogLevel`) and `data/LogEntry` (level kept as text), and the exception
 * name search of the former. A line looks like
 * `05 Jul 2022 12:53:59,257  INFO [module] ClassName:? - message`:
 * 24 characters of date, the level in characters 24 to 30, the module from
 * character 32 up to `]`, the class name after `] ` up to `:`, and the
 * message after the next ` - `. The date text is turned into milliseconds
 * by a parser given as a parameter.
 */
module LogEntries {
  import opened Wrappers
  import opened Text
  import opened LogLevels

  datatype LogEntry = LogEntry(time: int, level: LogLevel, moduleName: string, className: string, message: string, entryID: int)

  datatype TextEntry = TextEntry(time: int, level: string, moduleName: string, className: string, message: string)

  datatype Fields = Fields(moduleName: string, className: string, message: string)

  /** The module, class name and message, located as both `LogEntry(String)` constructors do. */
  function ParseFields(s: string): Result<Fields>
  {
    var close := IndexOf(s, "]", 32);
    match Substring(s, 32, close)
    case Err(f) => Err(f)
    case Ok(moduleName) =>
      var colon := IndexOf(s, ":", close + 2);
      match Substring(s, close + 2, colon)
      case Err(f) => Err(f)
      case Ok(className) =>
        match SubstringFrom(s, IndexOf(s, " - ", colon) + 3)
        case Err(f) => Err(f)
        case Ok(message) => Ok(Fields(moduleName, className, message))
  }

  /** Where a single character first occurs at or after `from`, or that it does not. */
  lemma CharIndex(s: string, c: char, from: int)
    requires from >= 0
    ensures var r := IndexOf(s, [c], from);
      && (r == -1 <==> forall j :: from <= j < |s| ==> s[j] != c)
      && (r != -1 ==> from <= r < |s| && s[r] == c && forall j :: from <= j < r ==> s[j] != c)
  {
    var r := IndexOf(s, [c], from);
    forall j | from <= j < |s|
      ensures OccursAt(s, [c], j) <==> s[j] == c
    {
      if s[j] == c {
        assert s[j..j + 1] == [c];
      }
    }
  }

  /** The first `c` after `body`, which has none, ends `body`. */
  lemma CharAfter(s: string, c: char, from: int, body: string)
    requires 0 <= from && from + |body| < |s|
    requires s[from..from + |body|] == body && c !in body && s[from + |body|] == c
    ensures IndexOf(s, [c], from) == from + |body|
  {
    CharIndex(s, c, from);
    forall j | from <= j < from + |body|
      ensures s[j] != c
    {
      assert s[j] == body[j - from];
    }
  }

  /**
   * The module is the text from 32 up to the first `]`, the class name the
   * text from two past it up to the next `:`; without such a `]` and `:`
   * the parse fails with an index error.
   */
  lemma FieldsLocated(s: string)
    ensures var r := ParseFields(s);
      && (r.Ok? <==> exists i, j :: 32 <= i && i + 2 <= j < |s| && s[i] == ']' && s[j] == ':')
      && (r.Err? ==> r.fault == IndexOutOfBounds)
      && (r.Ok? ==>
            var m, c := r.value.moduleName, r.value.className;
            && 32 + |m| + 2 + |c| < |s|
            && s[32..32 + |m|] == m && ']' !in m && s[32 + |m|] == ']'
            && s[32 + |m| + 2..32 + |m| + 2 + |c|] == c && ':' !in c && s[32 + |m| + 2 + |c|] == ':')
  {
    var close := IndexOf(s, "]", 32);
    CharIndex(s, ']', 32);
    if close == -1 {
      NoFields(s);
    } else {
      var colon := IndexOf(s, ":", close + 2);
      CharIndex(s, ':', close + 2);
      if colon == -1 {
        NoFields(s);
      } else {
        FieldsBetween(s, close, colon);
      }
    }
  }

  /** Without a `]` at or after 32 followed two or more characters later by a `:`, the parse fails. */
  lemma NoFields(s: string)
    requires var close := IndexOf(s, "]", 32); close == -1 || IndexOf(s, ":", close + 2) == -1
    ensures ParseFields(s) == Err(IndexOutOfBounds)
    ensures !exists i, j :: 32 <= i && i + 2 <= j < |s| && s[i] == ']' && s[j] == ':'
  {
    var close := IndexOf(s, "]", 32);
    CharIndex(s, ']', 32);
    if close == -1 {
      forall i, j | 32 <= i && i + 2 <= j < |s| && s[j] == ':'
        ensures s[i] != ']'
      {
      }
    } else {
      CharIndex(s, ':', close + 2);
      forall i, j | 32 <= i && i + 2 <= j < |s| && s[i] == ']'
        ensures s[j] != ':'
      {
        assert close <= i;
      }
    }
  }

  /** With the first `]` at `close` and the first `:` after it at `colon`, the parse gives the text between. */
  lemma FieldsBetween(s: string, close: int, colon: int)
    requires close == IndexOf(s, "]", 32) && close != -1
    requires colon == IndexOf(s, ":", close + 2) && colon != -1
    ensures var r := ParseFields(s);
      var m, c := s[32..close], s[close + 2..colon];
      && r.Ok? && r.value.moduleName == m && r.value.className == c
      && 32 + |m| + 2 + |c| < |s|
      && ']' !in m && s[close] == ']' && ':' !in c && s[colon] == ':'
  {
    CharIndex(s, ']', 32);
    CharIndex(s, ':', close + 2);
    var m, c := s[32..close], s[close + 2..colon];
    forall k | 0 <= k < |m|
      ensures m[k] != ']'
    {
      assert m[k] == s[32 + k];
    }
    forall k | 0 <= k < |c|
      ensures c[k] != ':'
    {
      assert c[k] == s[close + 2 + k];
    }
    FieldsFound(s, close, colon);
  }

  /**
   * Conversely, a line with a `]`-free module at 32, then `] `, then a
   * `:`-free class name and a `:` parses into that module and class name;
   * the message follows the first ` - ` after the colon, or is the line from
   * character 2 when there is none.
   */
  lemma FieldsFound(s: string, close: int, colon: int)
    requires 32 <= close && close + 2 <= colon < |s|
    requires ']' !in s[32..close] && s[close] == ']'
    requires ':' !in s[close + 2..colon] && s[colon] == ':'
    ensures ParseFields(s) == Ok(Fields(s[32..close], s[close + 2..colon], s[IndexOf(s, " - ", colon) + 3..]))
  {
    CharAfter(s, ']', 32, s[32..close]);
    CharAfter(s, ':', close + 2, s[close + 2..colon]);
    ParseFieldsAt(s, close, colon);
  }

  /** `ParseFields` once the `]` and the `:` are found. */
  lemma ParseFieldsAt(s: string, close: int, colon: int)
    requires close == IndexOf(s, "]", 32) && colon == IndexOf(s, ":", close + 2)
    requires 32 <= close && close + 2 <= colon < |s|
    ensures ParseFields(s) == Ok(Fields(s[32..close], s[close + 2..colon], s[IndexOf(s, " - ", colon) + 3..]))
  {
    var dash := IndexOf(s, " - ", colon);
    assert 0 <= dash + 3 <= |s|;
    assert s[dash + 3..|s|] == s[dash + 3..];
  }

  /** `LogEntry(String)` of `logs/data`: date, level (`LogLevel.valueOf` of the trimmed text), then the fields; `entryID` stays 0. */
  function ParseLogEntry(s: string, parseTime: string -> Option<int>): Result<LogEntry>
  {
    match Substring(s, 0, 24)
    case Err(f) => Err(f)
    case Ok(timeText) =>
      match parseTime(timeText)
      case None => Err(ParseFailure)
      case Some(time) =>
        match Substring(s, 24, 31)
        case Err(f) => Err(f)
        case Ok(levelText) =>
          match ValueOf(Trim(levelText))
          case Err(f) => Err(f)
          case Ok(level) =>
            match ParseFields(s)
            case Err(f) => Err(f)
            case Ok(fs) => Ok(LogEntry(time, level, fs.moduleName, fs.className, fs.message, 0))
  }

  /** `LogEntry(String, long)`: the same parse, then `entryID` set. */
  function ParseLogEntryWithId(s: string, id: int, parseTime: string -> Option<int>): (r: Result<LogEntry>)
    ensures r.Ok? <==> ParseLogEntry(s, parseTime).Ok?
    ensures r.Ok? ==> r.value == ParseLogEntry(s, parseTime).value.(entryID := id) && r.value.entryID == id
  {
    match ParseLogEntry(s, parseTime)
    case Err(f) => Err(f)
    case Ok(e) => Ok(e.(entryID := id))
  }

  /** `LogEntry(String)` of `data`: the same layout, the level kept as trimmed text. */
  function ParseTextEntry(s: string, parseTime: string -> Option<int>): Result<TextEntry>
  {
    match Substring(s, 0, 24)
    case Err(f) => Err(f)
    case Ok(timeText) =>
      match parseTime(timeText)
      case None => Err(ParseFailure)
      case Some(time) =>
        match Substring(s, 24, 31)
        case Err(f) => Err(f)
        case Ok(levelText) =>
          match ParseFields(s)
          case Err(f) => Err(f)
          case Ok(fs) => Ok(TextEntry(time, Trim(levelText), fs.moduleName, fs.className, fs.message))
  }

  /**
   * Both parsers succeed exactly when the date parses, the fields are found
   * and, for `logs/data`, the trimmed level text names a level; they then
   * agree on everything but the level's type.
   */
  lemma ParsersAgree(s: string, parseTime: string -> Option<int>)
    ensures var r, t := ParseLogEntry(s, parseTime), ParseTextEntry(s, parseTime);
      && (r.Ok? <==> |s| >= 31 && parseTime(s[..24]).Some? && ParseFields(s).Ok? && ValueOf(Trim(s[24..31])).Ok?)
      && (t.Ok? <==> |s| >= 31 && parseTime(s[..24]).Some? && ParseFields(s).Ok?)
      && (r.Ok? ==> t.Ok? && Name(r.value.level) == t.value.level && r.value.entryID == 0
                    && r.value.time == t.value.time == parseTime(s[..24]).value
                    && r.value.moduleName == t.value.moduleName == ParseFields(s).value.moduleName
                    && r.value.className == t.value.className == ParseFields(s).value.className
                    && r.value.message == t.value.message == ParseFields(s).value.message)
  {
  }

  /** The five-argument constructor of `data/LogEntry`: the date is parsed, the rest stored as given. */
  function MakeTextEntry(timeText: string, level: string, moduleName: string, className: string, message: string,
                         parseTime: string -> Option<int>): (r: Result<TextEntry>)
    ensures r.Ok? <==> parseTime(timeText).Some?
    ensures r.Ok? ==> r.value == TextEntry(parseTime(timeText).value, level, moduleName, className, message)
  {
    match parseTime(timeText)
    case None => Err(ParseFailure)
    case Some(time) => Ok(TextEntry(time, level, moduleName, className, message))
  }

  // ----- the layout of a log line -----

  function Spaces(n: nat): (r: string)
    ensures |r| == n && forall i :: 0 <= i < n ==> r[i] == ' '
  {
    if n == 0 then "" else Spaces(n - 1) + " "
  }

  /** The first 32 characters of a line: the date, the level right-aligned in five characters, and ` [`. */
  function Head(timeText: string, level: string): string
    requires |level| <= 5
  {
    timeText + " " + Spaces(5 - |level|) + level + " ["
  }

  /**
   * A log line as the logger writes it: the head, the module closed by `]`,
   * the class name, `:? - ` and the message.
   */
  function Line(timeText: string, level: string, moduleName: string, className: string, message: string): string
    requires |level| <= 5
  {
    Head(timeText, level) + moduleName + "] " + className + ":? - " + message
  }

  lemma HeadParts(timeText: string, level: string)
    requires |timeText| == 24 && |level| <= 5
    ensures var h := Head(timeText, level);
      |h| == 32 && h[..24] == timeText && h[24..31] == " " + Spaces(5 - |level|) + level + " "
  {
    var h := Head(timeText, level);
    assert h == timeText + (" " + Spaces(5 - |level|) + level + " ") + "[";
  }

  /** Characters 24 to 30 of a line, trimmed, are the level name. */
  lemma TrimLevelField(l: LogLevel)
    ensures |Name(l)| <= 5
    ensures Trim(" " + Spaces(5 - |Name(l)|) + Name(l) + " ") == Name(l)
  {
    var n := Name(l);
    var field := " " + Spaces(5 - |n|) + n + " ";
    TrimPadded(Spaces(5 - |n|), n);
  }

  lemma TrimPadded(pad: string, n: string)
    requires n != [] && !IsTrimmed(n[0]) && !IsTrimmed(n[|n| - 1])
    requires forall i :: 0 <= i < |pad| ==> pad[i] == ' '
    ensures Trim(" " + pad + n + " ") == n
  {
    var lead := " " + pad;
    var start := n + " ";
    assert " " + pad + n + " " == lead + start;
    forall i | 0 <= i < |lead|
      ensures lead[i] == ' '
    {
      if i > 0 {
        assert lead[i] == pad[i - 1];
      }
    }
    TrimStartSpaces(lead, start);
    assert start[..|start| - 1] == n;
    assert TrimEnd(start) == TrimEnd(n);
  }

  lemma {:induction false} TrimStartSpaces(pad: string, rest: string)
    requires forall i :: 0 <= i < |pad| ==> pad[i] == ' '
    requires rest != [] && !IsTrimmed(rest[0])
    ensures TrimStart(pad + rest) == rest
  {
    if pad != [] {
      assert (pad + rest)[1..] == pad[1..] + rest;
      TrimStartSpaces(pad[1..], rest);
    }
  }

  /** A line is its head, the module, `] `, the class name and the rest from `:?`. */
  lemma LineParts(timeText: string, level: string, moduleName: string, className: string, message: string)
    requires |level| <= 5
    ensures Line(timeText, level, moduleName, className, message)
         == Head(timeText, level) + moduleName + "] " + className + (":? - " + message)
  {
  }

  /** Where the parts of a line built from a 32-character head lie. */
  lemma LineShape(h: string, m: string, c: string, rest: string)
    requires |h| == 32 && rest != [] && rest[0] == ':'
    ensures var s := h + m + "] " + c + rest;
      var close := 32 + |m|;
      var colon := close + 2 + |c|;
      && |s| == colon + |rest|
      && s[..24] == h[..24] && s[24..31] == h[24..31]
      && s[32..close] == m && s[close] == ']'
      && s[close + 2..colon] == c && s[colon..] == rest
  {
    var s := h + m + "] " + c + rest;
    var close := 32 + |m|;
    var u := c + rest;
    var v := "] " + u;
    assert s == h + (m + v);
    assert s[32..] == m + v;
    assert s[close..] == v;
    assert s[close + 2..] == u;
  }

  /** The level field of a head parses back into the level. */
  lemma LevelField(timeText: string, l: LogLevel)
    requires |timeText| == 24
    ensures |Name(l)| <= 5
    ensures var h := Head(timeText, Name(l));
      |h| == 32 && h[..24] == timeText && Trim(h[24..31]) == Name(l) && ValueOf(Trim(h[24..31])) == Ok(l)
  {
    var n := Name(l);
    TrimLevelField(l);
    HeadParts(timeText, n);
    var field := Head(timeText, n)[24..31];
    assert field == " " + Spaces(5 - |n|) + n + " ";
    assert Trim(field) == n;
    NameParses(l);
  }

  lemma NameParses(l: LogLevel)
    ensures ValueOf(Name(l)) == Ok(l)
  {
    match l
    case INFO =>
    case DEBUG =>
    case WARN =>
    case ERROR =>
    case TRACE =>
    case FATAL =>
  }

  /** The module, class name and message of a line in that layout are found again. */
  lemma LineFields(timeText: string, level: string, moduleName: string, className: string, message: string)
    requires |timeText| == 24 && |level| <= 5
    requires ']' !in moduleName && ':' !in className
    ensures ParseFields(Line(timeText, level, moduleName, className, message)) == Ok(Fields(moduleName, className, message))
  {
    var h := Head(timeText, level);
    HeadParts(timeText, level);
    var s := h + moduleName + "] " + className + (":? - " + message);
    LineParts(timeText, level, moduleName, className, message);
    LineShape(h, moduleName, className, ":? - " + message);
    var colon := 32 + |moduleName| + 2 + |className|;
    assert !OccursAt(s, " - ", colon) && !OccursAt(s, " - ", colon + 1);
    assert OccursAt(s, " - ", colon + 2);
    IndexOfFirst(s, " - ", colon, colon + 2);
    FieldsFound(s, 32 + |moduleName|, colon);
    assert s[colon + 5..] == message;
  }

  /**
   * Parsing a line in that layout gives back its date, level, module, class
   * name and message, as long as the module has no `]` and the class name
   * no `:`; both parsers agree on it.
   */
  lemma LineRoundTrip(timeText: string, l: LogLevel, moduleName: string, className: string, message: string,
                      parseTime: string -> Option<int>)
    requires |timeText| == 24 && parseTime(timeText).Some?
    requires ']' !in moduleName && ':' !in className
    ensures |Name(l)| <= 5
    ensures var s := Line(timeText, Name(l), moduleName, className, message);
      && ParseLogEntry(s, parseTime) == Ok(LogEntry(parseTime(timeText).value, l, moduleName, className, message, 0))
      && ParseTextEntry(s, parseTime) == Ok(TextEntry(parseTime(timeText).value, Name(l), moduleName, className, message))
  {
    LevelField(timeText, l);
    var h := Head(timeText, Name(l));
    LineFields(timeText, Name(l), moduleName, className, message);
    var s := h + moduleName + "] " + className + (":? - " + message);
    LineParts(timeText, Name(l), moduleName, className, message);
    LineShape(h, moduleName, className, ":? - " + message);
    ParsersAgree(s, parseTime);
  }

  /** The example line of `data/LogEntry.main` (its message left open). */
  lemma SampleLine(message: string, parseTime: string -> Option<int>)
    requires parseTime("05 Jul 2022 12:53:59,257").Some?
    ensures var s := Line("05 Jul 2022 12:53:59,257", "INFO", "NGKP-RCV Chl: 1, Port: 2012", "DefaultSocTelegramHandler", message);
      var r := ParseTextEntry(s, parseTime);
      && r.Ok? && r.value.level == "INFO" && r.value.moduleName == "NGKP-RCV Chl: 1, Port: 2012"
      && r.value.className == "DefaultSocTelegramHandler" && r.value.message == message
  {
    LineRoundTrip("05 Jul 2022 12:53:59,257", INFO, "NGKP-RCV Chl: 1, Port: 2012", "DefaultSocTelegramHandler", message, parseTime);
  }

  /** Without a ` - ` after the class name, `indexOf` gives -1 and the message is the line from character 2. */
  lemma MissingSeparator(timeText: string, l: LogLevel, moduleName: string, className: string, parseTime: string -> Option<int>)
    requires |timeText| == 24 && parseTime(timeText).Some?
    requires ']' !in moduleName && ':' !in className
    ensures |Name(l)| <= 5
    ensures var s := Head(timeText, Name(l)) + moduleName + "] " + className + ":?";
      ParseLogEntry(s, parseTime) == Ok(LogEntry(parseTime(timeText).value, l, moduleName, className, s[2..], 0))
  {
    LevelField(timeText, l);
    var h := Head(timeText, Name(l));
    var s := h + moduleName + "] " + className + ":?";
    LineShape(h, moduleName, className, ":?");
    var colon := 32 + |moduleName| + 2 + |className|;
    assert IndexOf(s, " - ", colon) == -1;
    FieldsFound(s, 32 + |moduleName|, colon);
    assert ParseFields(s) == Ok(Fields(moduleName, className, s[2..]));
    ParsersAgree(s, parseTime);
  }
}

/**
 * `LogEntry.findException`: the first match of `(\w+Exception\w*)` in the
 * message, after a plain `contains("Exception")` test. A match starts at a
 * word character, runs over at least one word character up to an
 * `Exception`, and the trailing `\w*` takes the rest of the word, so the
 * match is the whole run of word characters from its start.
 */
module ExceptionNames {
  import opened Wrappers
  import opened Text

  /** Are all of `s[p..q]` word characters? */
  ghost predicate WordRun(s: string, p: int, q: int)
    requires 0 <= p <= q <= |s|
  {
    forall k :: p <= k < q ==> IsWordChar(s[k])
  }

  /** Where the run of word characters starting at `p` ends. */
  function RunEnd(s: string, p: int): (r: int)
    requires 0 <= p <= |s|
    ensures p <= r <= |s| && WordRun(s, p, r)
    ensures r == |s| || !IsWordChar(s[r])
    decreases |s| - p
  {
    if p < |s| && IsWordChar(s[p]) then RunEnd(s, p + 1) else p
  }

  /** The regular expression matches at `p`: word characters from `p` up to an `Exception` that is not at `p` itself. */
  ghost predicate MatchAt(s: string, p: int)
  {
    0 <= p <= |s| && exists q :: p < q <= |s| && WordRun(s, p, q) && OccursAt(s, "Exception", q)
  }

  /** The matcher's test at `p`: the next `Exception` after `p` lies inside the run from `p`. */
  function HasMatchAt(s: string, p: int): (b: bool)
    requires 0 <= p <= |s|
    ensures b <==> MatchAt(s, p)
  {
    MatchAtFound(s, p);
    var q := IndexOf(s, "Exception", p + 1);
    q != -1 && q < RunEnd(s, p)
  }

  lemma MatchAtFound(s: string, p: int)
    requires 0 <= p <= |s|
    ensures var q := IndexOf(s, "Exception", p + 1);
      MatchAt(s, p) <==> q != -1 && q < RunEnd(s, p)
  {
    var q := IndexOf(s, "Exception", p + 1);
    var e := RunEnd(s, p);
    if q != -1 && q < e {
      assert WordRun(s, p, q);
    }
    if MatchAt(s, p) {
      var q' :| p < q' <= |s| && WordRun(s, p, q') && OccursAt(s, "Exception", q');
      assert s[q'] == s[q'..q' + 9][0] == 'E';
      assert q != -1 && q <= q';
      if e <= q' {
        assert IsWordChar(s[e]);
      }
    }
  }

  /** The first match at or after `p`: the run of word characters it starts. */
  function FindFrom(s: string, p: int): Option<string>
    requires 0 <= p <= |s|
    decreases |s| - p
  {
    if p == |s| then None
    else if HasMatchAt(s, p) then Some(s[p..RunEnd(s, p)])
    else FindFrom(s, p + 1)
  }

  /** `findException()`. */
  function FindException(message: string): Option<string>
  {
    if !Contains(message, "Exception") then None else FindFrom(message, 0)
  }

  lemma {:induction false} FindFromLeftmost(s: string, p: int)
    requires 0 <= p <= |s|
    ensures var r := FindFrom(s, p);
      && (r == None <==> forall j :: p <= j < |s| ==> !MatchAt(s, j))
      && (r.Some? ==> exists j :: p <= j < |s| && MatchAt(s, j) && r.value == s[j..RunEnd(s, j)]
                                  && forall i :: p <= i < j ==> !MatchAt(s, i))
    decreases |s| - p
  {
    if p < |s| && !HasMatchAt(s, p) {
      FindFromLeftmost(s, p + 1);
      var r := FindFrom(s, p);
      if r.Some? {
        var j :| p + 1 <= j < |s| && MatchAt(s, j) && r.value == s[j..RunEnd(s, j)]
                 && forall i :: p + 1 <= i < j ==> !MatchAt(s, i);
        assert forall i :: p <= i < j ==> !MatchAt(s, i);
      }
    }
  }

  /** Without `Exception` in the message there is no match anywhere. */
  lemma NoNameNoMatch(s: string)
    requires !Contains(s, "Exception")
    ensures forall j :: 0 <= j < |s| ==> !MatchAt(s, j)
  {
  }

  /** The word a match starts holds the `Exception` of the match. */
  lemma MatchHoldsName(s: string, j: int)
    requires 0 <= j < |s| && MatchAt(s, j)
    ensures Contains(s[j..RunEnd(s, j)], "Exception")
  {
    var q :| j < q <= |s| && WordRun(s, j, q) && OccursAt(s, "Exception", q);
    var e := RunEnd(s, j);
    assert q + 9 <= e;
    var w := s[j..e];
    forall k | q <= k < q + 9
      ensures s[k] == w[k - j]
    {
    }
    assert w[q - j..q - j + 9] == s[q..q + 9];
    assert OccursAt(w, "Exception", q - j);
  }

  /** No match starts at `p` when the run from `p` ends at `b` before any `E`. */
  lemma NoMatchWithin(s: string, p: int, b: int)
    requires 0 <= p <= b < |s| && !IsWordChar(s[b])
    requires forall k :: p < k <= b ==> s[k] != 'E'
    ensures !MatchAt(s, p)
  {
    forall q | p < q <= |s| && WordRun(s, p, q)
      ensures !OccursAt(s, "Exception", q)
    {
      assert q <= b;
      assert s[q] != 'E';
    }
  }

  /**
   * `findException()` finds the leftmost match and returns the whole word
   * it starts; it finds nothing exactly when the message has no match.
   */
  lemma FindExceptionLeftmost(message: string)
    ensures var r := FindException(message);
      && (r == None <==> forall j :: 0 <= j < |message| ==> !MatchAt(message, j))
      && (r.Some? ==> exists j :: 0 <= j < |message| && MatchAt(message, j)
                                  && r.value == message[j..RunEnd(message, j)]
                                  && Contains(r.value, "Exception")
                                  && forall i :: 0 <= i < j ==> !MatchAt(message, i))
  {
    FindFromLeftmost(message, 0);
    if !Contains(message, "Exception") {
      NoNameNoMatch(message);
    } else {
      var r := FindFrom(message, 0);
      if r.Some? {
        var j :| 0 <= j < |message| && MatchAt(message, j) && r.value == message[j..RunEnd(message, j)]
                 && forall i :: 0 <= i < j ==> !MatchAt(message, i);
        MatchHoldsName(message, j);
      }
    }
  }

  /** The leftmost match decides the result. */
  lemma FoundAt(s: string, j: int)
    requires 0 <= j < |s| && MatchAt(s, j)
    requires forall i :: 0 <= i < j ==> !MatchAt(s, i)
    ensures FindException(s) == Some(s[j..RunEnd(s, j)])
  {
    FindExceptionLeftmost(s);
    var r := FindException(s);
    var j' :| 0 <= j' < |s| && MatchAt(s, j') && r.value == s[j'..RunEnd(s, j')]
              && forall i :: 0 <= i < j' ==> !MatchAt(s, i);
    assert j' == j;
  }

  /** A simple name is found as the word that holds it. */
  lemma SimpleNameFound(s: string)
    requires s == "a FooException b"
    ensures FindException(s) == Some("FooException")
  {
    assert !MatchAt(s, 0) by {
      assert !IsWordChar(s[1]) && s[1] != 'E';
    }
    assert !MatchAt(s, 1) by {
      assert !IsWordChar(s[1]);
    }
    assert MatchAt(s, 2) by {
      assert s[5..14] == "Exception";
      assert WordRun(s, 2, 5);
    }
    assert RunEnd(s, 2) == 14 by {
      assert !IsWordChar(s[14]);
      assert WordRun(s, 2, 14);
    }
    assert s[2..14] == "FooException";
    FoundAt(s, 2);
  }

  /**
   * The package is not part of the name found: `.` is not a word character,
   * although the comment of `findException` promises the full name.
   */
  lemma PackageDropped(s: string)
    requires s == "java.io.IOException: x"
    ensures FindException(s) == Some("IOException")
  {
    assert !IsWordChar(s[4]) && !IsWordChar(s[7]);
    assert s[1] != 'E' && s[2] != 'E' && s[3] != 'E' && s[5] != 'E' && s[6] != 'E';
    forall i | 0 <= i < 8
      ensures !MatchAt(s, i)
    {
      if i <= 4 {
        NoMatchWithin(s, i, 4);
      } else {
        NoMatchWithin(s, i, 7);
      }
    }
    assert MatchAt(s, 8) by {
      assert s[10..19] == "Exception";
      assert WordRun(s, 8, 10);
    }
    assert RunEnd(s, 8) == 19 by {
      assert !IsWordChar(s[19]);
      assert WordRun(s, 8, 19);
    }
    assert s[8..19] == "IOException";
    FoundAt(s, 8);
  }

  /** A bare `Exception` is not found: `\w+` needs a character before it. */
  lemma BareNameNotFound()
    ensures FindException("Exception") == None
  {
    var s := "Exception";
    FindFromLeftmost(s, 0);
  }
}

=== FILE: log_index_manager.dfy ===
/**
 * `log/IndexManager`: a `BiMap` of keys and values, its two converters and
 * the `indexLength` total, with the same file layout as `SerializableMap`.
 */
module LogIndexManagers {
  import opened Wrappers
  import opened RandomAccess
  import opened TypeConverters
  import opened IndexRecords
  import opened BiMaps
  import opened SerializableMaps
  import opened SerializableBiMaps

  class IndexManager {
    var values: BiMap<Value, Value>
    var indexLength: int
    const keyConverter: Format
    const valueConverter: Format

    /** The constructor stores the converters and calls `createIndex`. */
    constructor (keyConverter: Format, valueConverter: Format)
      ensures fresh(values) && values.map1 == map[] && values.map2 == map[] && indexLength == 0
      ensures this.keyConverter == keyConverter && this.valueConverter == valueConverter
    {
      this.keyConverter := keyConverter;
      this.valueConverter := valueConverter;
      indexLength := 0;
      values := new BiMap();
    }

    /** `createIndex`: a new, empty BiMap replaces the old one. */
    method CreateIndex()
      modifies this
      ensures fresh(values) && values.map1 == map[] && values.map2 == map[]
      ensures indexLength == old(indexLength)
    {
      values := new BiMap();
    }

    /** `readIndex(RandomAccessFile)`; the result is the IOException it throws, if any. */
    method ReadIndex(f: RandomAccessFile) returns (thrown: Option<Fault>)
      requires Consumes(keyConverter) && Consumes(valueConverter)
      modifies this, values, f
      ensures values == old(values) && f.data == old(f.data)
      ensures var scan := ReadIndexScan(keyConverter, valueConverter, old(f.data), old(f.pointer));
        && values.map1 == MapAfterRead(old(values.map1), scan)
        && values.map2 == BackwardAfterRead(old(values.map2), scan)
        && thrown == ReadFault(scan)
      ensures indexLength == LengthAfterRead(old(indexLength), StoredTotal(old(f.data), old(f.pointer)))
    {
      var scan, stored := ReadRecords(f, keyConverter, valueConverter);
      if stored.Some? {
        indexLength := stored.value;
      }
      if scan.Some? {
        PutValues(values, scan.value.pairs);
      }
      thrown := ReadFault(scan);
    }

    /**
     * `writeIndex(RandomAccessFile)`, the keys taken in the order `order`.
     * `indexLength` is assigned only when the total differs from it; the
     * result tells whether "Index Length changed!" went to the error stream.
     */
    method WriteIndex(f: RandomAccessFile, order: seq<Value>) returns (reported: bool)
      requires IsKeyOrder(order, values.KeySet())
      requires forall k :: k in values.map1 ==> |keyConverter.bytes(k)| >= 1
      modifies this, f
      ensures values == old(values)
      ensures f.data == WriteIndexBytes(keyConverter, valueConverter, old(f.data), old(f.pointer), Pairs(order, values.map1))
      ensures f.pointer == old(f.pointer) + 8
      ensures indexLength == RecordCount(keyConverter, valueConverter, Pairs(order, values.map1))
      ensures reported <==> indexLength != old(indexLength)
    {
      var pairs := Pairs(order, values.map1);
      var total := WriteIndexFile(f, keyConverter, valueConverter, pairs);
      reported := false;
      if total != indexLength {
        indexLength := total;
        reported := true;
      }
    }

    method GetSize() returns (n: nat)
      ensures n == |values.map1|
    {
      n := values.Size();
    }

    /** `hasKey`: whether the BiMap holds `key` as a key. */
    method HasKey(key: Value) returns (b: bool)
      ensures b <==> key in values.map1
    {
      b := key in values.KeySet();
    }

    method PutValue(key: Value, value: Value)
      modifies values
      ensures values.map1 == old(values.map1)[key := value] && values.map2 == old(values.map2)[value := key]
    {
      values.PutValue(key, value);
    }

    method PutKey(value: Value, key: Value)
      modifies values
      ensures values.map1 == old(values.map1)[key := value] && values.map2 == old(values.map2)[value := key]
    {
      values.PutKey(value, key);
    }
  }
}

=== FILE: log_level.dfy ===
/** `logs/data/LogLevel`: the six log levels and their byte ids. */
module LogLevels {
  import opened Wrappers
  import opened Maps
  import opened BiMaps

  datatype LogLevel = INFO | DEBUG | WARN | ERROR | TRACE | FATAL

  /** `values()`, in declaration order. */
  function AllLevels(): seq<LogLevel>
  {
    [INFO, DEBUG, WARN, ERROR, TRACE, FATAL]
  }

  function Id(l: LogLevel): int
  {
    match l
    case INFO => 1
    case DEBUG => 2
    case WARN => 3
    case ERROR => 4
    case TRACE => 5
    case FATAL => 6
  }

  /** The ids are 1 .. 6, one per level. */
  lemma IdsDistinct(a: LogLevel, b: LogLevel)
    ensures 1 <= Id(a) <= 6
    ensures Id(a) == Id(b) ==> a == b
  {
  }

  /** `LogLevel.valueOf(name)`: the level of that name; any other name is an IllegalArgumentException. */
  function ValueOf(name: string): (r: Result<LogLevel>)
    ensures r.Ok? ==> Name(r.value) == name
    ensures r.Err? ==> r.fault == IllegalArgument && forall l :: Name(l) != name
  {
    match name
    case "INFO" => Ok(INFO)
    case "DEBUG" => Ok(DEBUG)
    case "WARN" => Ok(WARN)
    case "ERROR" => Ok(ERROR)
    case "TRACE" => Ok(TRACE)
    case "FATAL" => Ok(FATAL)
    case _ => Err(IllegalArgument)
  }

  /** `name()`. */
  function Name(l: LogLevel): string
  {
    match l
    case INFO => "INFO"
    case DEBUG => "DEBUG"
    case WARN => "WARN"
    case ERROR => "ERROR"
    case TRACE => "TRACE"
    case FATAL => "FATAL"
  }

  /** The static `levels` map: `levels.put(value.id, value)` for each level in turn. */
  function LevelTable(): map<int, LogLevel>
  {
    PutAll(map[], seq(6, i requires 0 <= i < 6 => (Id(AllLevels()[i]), AllLevels()[i])))
  }

  /** `fromID(id)`: `levels.getOrDefault(id, null)`. */
  function FromId(id: int): Option<LogLevel>
  {
    Lookup(LevelTable(), id)
  }

  /** `fromID` inverts the id of every level, and is null for every id outside 1 .. 6. */
  lemma FromIdInvertsId(l: LogLevel, id: int)
    ensures FromId(Id(l)) == Some(l)
    ensures !(1 <= id <= 6) ==> FromId(id) == None
  {
    var pairs := seq(6, i requires 0 <= i < 6 => (Id(AllLevels()[i]), AllLevels()[i]));
    assert pairs == [(1, INFO), (2, DEBUG), (3, WARN), (4, ERROR), (5, TRACE), (6, FATAL)];
    PutAllLookup(map[], pairs, Id(l));
    PutAllLookup(map[], pairs, id);
    var i := Id(l) - 1;
    assert pairs[i] == (Id(l), l);
    assert forall j :: i < j < 6 ==> pairs[j].0 != Id(l);
  }

  /** `getSlow(id)`: the first level in declaration order whose id is `id`, or null. */
  method GetSlow(id: int) returns (r: Option<LogLevel>)
    ensures r == FromId(id)
  {
    var levels := AllLevels();
    var i := 0;
    while i < |levels|
      invariant 0 <= i <= |levels|
      invariant forall j :: 0 <= j < i ==> Id(levels[j]) != id
    {
      if Id(levels[i]) == id {
        FromIdInvertsId(levels[i], id);
        return Some(levels[i]);
      }
      i := i + 1;
    }
    assert id != Id(levels[0]) && id != Id(levels[1]) && id != Id(levels[2]);
    assert id != Id(levels[3]) && id != Id(levels[4]) && id != Id(levels[5]);
    FromIdInvertsId(INFO, id);
    r := None;
  }
}

=== FILE: log_lines.dfy ===
/**
 * The lines of a log file and the way every reader groups them into
 * entries: the first line opens an entry, and every later line that begins
 * with a date (`dd Mon yyyy`) opens the next one; any other line continues
 * the open entry.
 */
module LogLines {
  import opened Sequences
  import opened JavaNum
  import opened Text

  /** `\d{2} \w{3} \d{4}` at the start of `s`. */
  predicate DatePrefix(s: string)
  {
    && |s| >= 11
    && IsDigit(s[0]) && IsDigit(s[1]) && s[2] == ' '
    && IsWordChar(s[3]) && IsWordChar(s[4]) && IsWordChar(s[5]) && s[6] == ' '
    && IsDigit(s[7]) && IsDigit(s[8]) && IsDigit(s[9]) && IsDigit(s[10])
  }

  /** `^\d{2} \w{3} \d{4}[\s\S]*` matched against all of `s`: anything may follow the date. */
  predicate StartsEntry(s: string)
  {
    DatePrefix(s)
  }

  /** The characters Java's `.` does not match. */
  predicate IsLineTerminator(c: char)
  {
    c == '\n' || c == '\r' || c == '\U{85}' || c == '\U{2028}' || c == '\U{2029}'
  }

  /** `^?\d{2} \w{3} \d{4}.*` matched against all of `s`: no line terminator may follow the date. */
  predicate StartsEntryLine(s: string)
  {
    DatePrefix(s) && forall i :: 11 <= i < |s| ==> !IsLineTerminator(s[i])
  }

  /** The lines with a `\n` after each, as they lie in a file. */
  function Joined(lines: seq<string>): (r: string)
  {
    if lines == [] then [] else Joined(lines[..|lines| - 1]) + lines[|lines| - 1] + "\n"
  }

  lemma {:induction false} JoinedAppend(a: seq<string>, b: seq<string>)
    ensures Joined(a + b) == Joined(a) + Joined(b)
    decreases |b|
  {
    if b == [] {
      assert a + b == a;
    } else {
      assert (a + b)[..|a + b| - 1] == a + b[..|b| - 1];
      JoinedAppend(a, b[..|b| - 1]);
    }
  }

  /** Where the entry opened at line `j` ends: the next line that opens one, or the end. */
  function NextStart(lines: seq<string>, starts: string -> bool, j: nat): (k: nat)
    requires j < |lines|
    ensures j < k <= |lines|
    ensures forall i :: j < i < k ==> !starts(lines[i])
    ensures k < |lines| ==> starts(lines[k])
    decreases |lines| - j
  {
    if j + 1 == |lines| || starts(lines[j + 1]) then j + 1 else NextStart(lines, starts, j + 1)
  }

  /** The entries from line `j` on, each as its run of lines. */
  function GroupsFrom(lines: seq<string>, starts: string -> bool, j: nat): seq<seq<string>>
    requires j <= |lines|
    decreases |lines| - j
  {
    if j == |lines| then []
    else
      var k := NextStart(lines, starts, j);
      [lines[j..k]] + GroupsFrom(lines, starts, k)
  }

  function Groups(lines: seq<string>, starts: string -> bool): seq<seq<string>>
  {
    GroupsFrom(lines, starts, 0)
  }

  /** Grouping loses no line and keeps their order. */
  lemma {:induction false} GroupsFromFlatten(lines: seq<string>, starts: string -> bool, j: nat)
    requires j <= |lines|
    ensures Flatten(GroupsFrom(lines, starts, j)) == lines[j..]
    decreases |lines| - j
  {
    if j < |lines| {
      var k := NextStart(lines, starts, j);
      GroupsFromFlatten(lines, starts, k);
      FlattenCons(lines[j..k], GroupsFrom(lines, starts, k));
      assert lines[j..k] + lines[k..] == lines[j..];
    }
  }

  /**
   * Every entry has at least one line, and only its first line may open an
   * entry; every entry but the first (or, when `afterStart`, every entry) opens
   * with such a line.
   */
  ghost predicate WellGrouped(gs: seq<seq<string>>, starts: string -> bool, afterStart: bool)
  {
    && (forall g :: 0 <= g < |gs| ==> gs[g] != [] && forall i :: 0 < i < |gs[g]| ==> !starts(gs[g][i]))
    && (forall g :: 0 <= g < |gs| && (g > 0 || afterStart) ==> starts(gs[g][0]))
  }

  lemma {:induction false} GroupsFromShape(lines: seq<string>, starts: string -> bool, j: nat)
    requires j <= |lines|
    requires j > 0 && j < |lines| ==> starts(lines[j])
    ensures WellGrouped(GroupsFrom(lines, starts, j), starts, j > 0)
    decreases |lines| - j
  {
    if j < |lines| {
      var k := NextStart(lines, starts, j);
      GroupsFromShape(lines, starts, k);
      var gs := GroupsFrom(lines, starts, j);
      var rest := GroupsFrom(lines, starts, k);
      assert gs == [lines[j..k]] + rest;
      forall g | 0 <= g < |gs|
        ensures gs[g] != [] && forall i :: 0 < i < |gs[g]| ==> !starts(gs[g][i])
        ensures (g > 0 || j > 0) ==> starts(gs[g][0])
      {
        if g == 0 {
          assert gs[0] == lines[j..k];
          forall i | 0 < i < |gs[0]|
            ensures !starts(gs[0][i])
          {
            assert gs[0][i] == lines[j + i];
          }
          assert gs[0][0] == lines[j];
        } else {
          assert gs[g] == rest[g - 1];
        }
      }
    }
  }

  /** A line that opens an entry closes the open one: the open entry's lines are one group. */
  lemma GroupsFromStep(lines: seq<string>, starts: string -> bool, g: nat, i: nat)
    requires g < i <= |lines|
    requires forall k :: g < k < i ==> !starts(lines[k])
    requires i < |lines| ==> starts(lines[i])
    ensures GroupsFrom(lines, starts, g) == [lines[g..i]] + GroupsFrom(lines, starts, i)
  {
    NextStartIs(lines, starts, g, i);
  }

  /** The end of the entry opened at `g` is the first later line that opens one. */
  lemma NextStartIs(lines: seq<string>, starts: string -> bool, g: nat, i: nat)
    requires g < i <= |lines|
    requires forall k :: g < k < i ==> !starts(lines[k])
    requires i < |lines| ==> starts(lines[i])
    ensures NextStart(lines, starts, g) == i
  {
  }
}

=== FILE: log_reader.dfy ===
/**
 * `log/LogReader.readAllLogFiles`: each file is read with
 * `BufferedReader.readLine` (lines without their `\n`), the lines are grouped
 * into entries, each entry is parsed by `data/LogEntry(String)` and paired
 * with the byte offset the reader counts for it. A file is single-byte text
 * whose lines end in `\n`, so a string's length is its byte count.
 */
module LogPackageReader {
  import opened Wrappers
  import opened JavaNum
  import opened Sequences
  import opened LogLines
  import opened LogLevels
  import opened LogEntries
  import opened EntryScanners

  /** A parsed entry and the offset it was given. */
  datatype Located = Located(entry: TextEntry, id: int)

  /** A log file as `readLine` returns it, and the entries read from it. */
  datatype LogFileText = LogFileText(name: string, lines: seq<string>)
  datatype LogFile = LogFile(name: string, entries: seq<Located>)

  /** `new LogEntry(String)` of `data`, with the date format as a parameter. */
  function EntryParser(parseTime: string -> Option<int>): string -> Result<TextEntry>
  {
    s => ParseTextEntry(s, parseTime)
  }

  /** The bytes of `lines` once each is followed by `\n`. */
  function Bytes(lines: seq<string>): nat
  {
    if lines == [] then 0 else Bytes(lines[..|lines| - 1]) + |lines[|lines| - 1]| + 1
  }

  /** The bytes of every line of every group. */
  function GroupBytes(gs: seq<seq<string>>): nat
  {
    if gs == [] then 0 else GroupBytes(gs[..|gs| - 1]) + Bytes(gs[|gs| - 1])
  }

  /**
   * The text the reader hands to the parser for an entry: the first entry's
   * lines each followed by `\n`; a later entry's first line without its `\n`
   * (the reader adds it only to the byte count), then its other lines each
   * followed by `\n`.
   */
  function PendingText(group: seq<string>, first: bool): string
  {
    if first then Joined(group)
    else if group == [] then ""
    else group[0] + Joined(group[1..])
  }

  /** Where entry `k` starts in the file: the bytes of every line before it. */
  function Offset(gs: seq<seq<string>>, k: nat): nat
    requires k <= |gs|
  {
    GroupBytes(gs[..k])
  }

  /** Entry `k` parsed, at `Offset + extra` unless it is the first entry. */
  function ParseAt(gs: seq<seq<string>>, k: nat, extra: int, parse: string -> Result<TextEntry>): Result<Located>
    requires k < |gs|
  {
    match parse(PendingText(gs[k], k == 0))
    case Err(f) => Err(f)
    case Ok(e) => Ok(Located(e, if k == 0 then 0 else Offset(gs, k) + extra))
  }

  /** Parse the first `n` entries in order; the first failure ends the read. */
  function ParseAll(gs: seq<seq<string>>, n: nat, extra: int, parse: string -> Result<TextEntry>): Result<seq<Located>>
    requires n <= |gs|
  {
    if n == 0 then Ok([])
    else
      match ParseAll(gs, n - 1, extra, parse)
      case Err(f) => Err(f)
      case Ok(es) =>
        match ParseAt(gs, n - 1, extra, parse)
        case Err(f) => Err(f)
        case Ok(e) => Ok(es + [e])
  }

  /**
   * What `readAllLogFiles` makes of one file: every entry, the pending one
   * included, at its offset; an empty file is one empty entry.
   */
  function ReadSpec(lines: seq<string>, starts: string -> bool, parse: string -> Result<TextEntry>): Result<seq<Located>>
  {
    var gs := Groups(lines, starts);
    if gs == [] then
      match parse("")
      case Err(f) => Err(f)
      case Ok(e) => Ok([Located(e, 0)])
    else ParseAll(gs, |gs|, 0, parse)
  }

  // ----- the steps of the loop -----

  /** Entries before `n` do not depend on the entries after. */
  lemma {:induction false} ParseAllPrefix(a: seq<seq<string>>, b: seq<seq<string>>, n: nat, extra: int, parse: string -> Result<TextEntry>)
    requires n <= |a|
    ensures ParseAll(a + b, n, extra, parse) == ParseAll(a, n, extra, parse)
  {
    if n > 0 {
      ParseAllPrefix(a, b, n - 1, extra, parse);
      ParseAtPrefix(a, b, n - 1, extra, parse);
    }
  }

  lemma ParseAtPrefix(a: seq<seq<string>>, b: seq<seq<string>>, k: nat, extra: int, parse: string -> Result<TextEntry>)
    requires k < |a|
    ensures ParseAt(a + b, k, extra, parse) == ParseAt(a, k, extra, parse)
  {
    assert (a + b)[k] == a[k];
    assert (a + b)[..k] == a[..k];
  }

  /** The pending text after one more line joins the entry. */
  lemma ExtendPending(group: seq<string>, first: bool, x: string)
    requires group == [] ==> first
    ensures PendingText(group + [x], first) == PendingText(group, first) + x + "\n"
  {
    if first {
      JoinedSnoc(group, x);
    } else {
      var tail := group[1..];
      assert (group + [x])[1..] == tail + [x];
      JoinedSnoc(tail, x);
      var h := group[0];
      calc {
        PendingText(group + [x], first);
        h + Joined(tail + [x]);
        h + (Joined(tail) + x + "\n");
        { AppendAssoc(h, Joined(tail), x + "\n"); }
        (h + Joined(tail)) + x + "\n";
      }
    }
  }

  lemma JoinedSnoc(lines: seq<string>, x: string)
    ensures Joined(lines + [x]) == Joined(lines) + x + "\n"
  {
    assert (lines + [x])[..|lines + [x]| - 1] == lines;
  }

  lemma AppendAssoc(a: string, b: string, c: string)
    ensures a + (b + c) == (a + b) + c
  {
  }

  /** The pending text, with the `\n` the reader adds, counts the entry's bytes. */
  lemma PendingBytes(group: seq<string>, first: bool)
    requires group != []
    ensures |PendingText(group, first)| + 1 == Bytes(group) + (if first then 1 else 0)
  {
    JoinedBytes(group);
    if !first {
      JoinedBytes(group[1..]);
      BytesCons(group[0], group[1..]);
      assert [group[0]] + group[1..] == group;
    }
  }

  lemma {:induction false} JoinedBytes(lines: seq<string>)
    ensures |Joined(lines)| == Bytes(lines)
  {
    if lines != [] {
      JoinedBytes(lines[..|lines| - 1]);
    }
  }

  lemma {:induction false} BytesCons(x: string, lines: seq<string>)
    ensures Bytes([x] + lines) == |x| + 1 + Bytes(lines)
    decreases |lines|
  {
    if lines == [] {
      assert [x] + lines == [x];
      assert [x][..0] == [];
    } else {
      var init := lines[..|lines| - 1];
      BytesCons(x, init);
      assert ([x] + lines)[..|[x] + lines| - 1] == [x] + init;
    }
  }

  /** The pending entry closes: the groups found so far gain it. */
  lemma CloseGroup(lines: seq<string>, starts: string -> bool, closed: seq<seq<string>>, g: nat, i: nat)
    requires g < i <= |lines|
    requires forall k :: g < k < i ==> !starts(lines[k])
    requires i < |lines| ==> starts(lines[i])
    requires Groups(lines, starts) == closed + GroupsFrom(lines, starts, g)
    ensures Groups(lines, starts) == (closed + [lines[g..i]]) + GroupsFrom(lines, starts, i)
    ensures i == |lines| ==> Groups(lines, starts) == closed + [lines[g..i]]
  {
    GroupsFromStep(lines, starts, g, i);
    assert closed + ([lines[g..i]] + GroupsFrom(lines, starts, i)) == (closed + [lines[g..i]]) + GroupsFrom(lines, starts, i);
  }

  /**
   * The pending entry, parsed, closes: it is placed at the bytes counted so
   * far (0 for the first), and the count grows by its bytes.
   */
  lemma CloseEntry(closed: seq<seq<string>>, group: seq<string>, es: seq<Located>, extra: int, parse: string -> Result<TextEntry>)
    requires ParseAll(closed, |closed|, extra, parse) == Ok(es)
    ensures var gs := closed + [group];
      var e := parse(PendingText(group, closed == []));
      ParseAll(gs, |gs|, extra, parse)
        == (if e.Err? then Err(e.fault) else Ok(es + [Located(e.value, if closed == [] then 0 else GroupBytes(closed) + extra)]))
    ensures GroupBytes(closed + [group]) == GroupBytes(closed) + Bytes(group)
  {
    var gs := closed + [group];
    ParseAllPrefix(closed, [group], |closed|, extra, parse);
    assert gs[..|closed|] == closed;
    assert gs[|closed|] == group;
  }

  /**
   * Where the loop stands after `i` lines: `closed` are the entries done, of
   * which `entries` is the parse; `lines[g..i]` is the pending entry, whose
   * text is `line`; `count` is the byte count, which starts at
   * `extra - 1` and exceeds the bytes of the closed entries by `extra`.
   */
  ghost predicate Scanned(lines: seq<string>, starts: string -> bool, parse: string -> Result<TextEntry>, extra: int, i: nat, g: nat,
    closed: seq<seq<string>>, line: string, count: int, entries: seq<Located>)
  {
    && g <= i <= |lines|
    && (i == 0 ==> line == "" && g == 0 && closed == [] && count == extra - 1 && entries == [])
    && (i > 0 ==> g < i && line != "" && line == PendingText(lines[g..i], closed == []))
    && (forall k :: g < k < i ==> !starts(lines[k]))
    && Groups(lines, starts) == closed + GroupsFrom(lines, starts, g)
    && (g == 0) == (closed == [])
    && ParseAll(closed, |closed|, extra, parse) == Ok(entries)
    && count == if closed == [] then extra - 1 else GroupBytes(closed) + extra
  }

  /** A line that does not start an entry (or the very first line) joins the pending one. */
  lemma JoinLine(lines: seq<string>, starts: string -> bool, parse: string -> Result<TextEntry>, extra: int, i: nat, g: nat,
    closed: seq<seq<string>>, line: string, count: int, entries: seq<Located>)
    requires Scanned(lines, starts, parse, extra, i, g, closed, line, count, entries)
    requires i < |lines| && (line == "" || !starts(lines[i]))
    ensures Scanned(lines, starts, parse, extra, i + 1, g, closed, line + lines[i] + "\n", count, entries)
  {
    var group := lines[g..i];
    var joined := line + lines[i] + "\n";
    if i == 0 {
      assert group == [] && closed == [];
      assert Joined(group) == "";
    }
    ExtendPending(group, closed == [], lines[i]);
    assert lines[g..i + 1] == group + [lines[i]];
    assert joined == PendingText(lines[g..i + 1], closed == []);
    forall k | g < k < i + 1
      ensures !starts(lines[k])
    {
      if k == i {
        assert line != "";
      }
    }
    assert |joined| > 0;
  }

  /**
   * A line that starts an entry while one is pending: the pending entry is
   * parsed at `count` (0 while that is -1), and the line is the new pending
   * entry.
   */
  lemma CloseLine(lines: seq<string>, starts: string -> bool, parse: string -> Result<TextEntry>, extra: int, i: nat, g: nat,
    closed: seq<seq<string>>, line: string, count: int, entries: seq<Located>)
    requires Scanned(lines, starts, parse, extra, i, g, closed, line, count, entries)
    requires i < |lines| && line != "" && starts(lines[i]) && !starts("") && 0 <= extra <= 1
    requires parse(line).Ok?
    ensures count >= extra - 1
    ensures Scanned(lines, starts, parse, extra, i + 1, i, closed + [lines[g..i]], lines[i], count + |line| + 1,
      entries + [Located(parse(line).value, if count == -1 then 0 else count)])
  {
    var group := lines[g..i];
    CloseGroup(lines, starts, closed, g, i);
    CloseEntry(closed, group, entries, extra, parse);
    PendingBytes(group, closed == []);
    OpenGroup(lines, starts, parse, extra, i, closed + [group], count + |line| + 1,
      entries + [Located(parse(line).value, if count == -1 then 0 else count)]);
  }

  /** The line at `i` opens a new pending entry after the groups `closed`. */
  lemma OpenGroup(lines: seq<string>, starts: string -> bool, parse: string -> Result<TextEntry>, extra: int, i: nat,
    closed: seq<seq<string>>, count: int, entries: seq<Located>)
    requires 0 < i < |lines| && closed != [] && lines[i] != ""
    requires Groups(lines, starts) == closed + GroupsFrom(lines, starts, i)
    requires ParseAll(closed, |closed|, extra, parse) == Ok(entries)
    requires count == GroupBytes(closed) + extra
    ensures Scanned(lines, starts, parse, extra, i + 1, i, closed, lines[i], count, entries)
  {
    var group := lines[i..i + 1];
    assert group == [lines[i]] && group[1..] == [];
    assert Joined([]) == "";
    assert PendingText(group, false) == lines[i];
  }

  /**
   * The same, when the pending entry does not parse: the read of the groups
   * fails there, and a group follows it (the one the line opens).
   */
  lemma FailLine(lines: seq<string>, starts: string -> bool, parse: string -> Result<TextEntry>, extra: int, i: nat, g: nat,
    closed: seq<seq<string>>, line: string, count: int, entries: seq<Located>)
    requires Scanned(lines, starts, parse, extra, i, g, closed, line, count, entries)
    requires i < |lines| && line != "" && starts(lines[i])
    requires parse(line).Err?
    ensures var gs := Groups(lines, starts);
      |closed| + 2 <= |gs| && ParseAll(gs, |closed| + 1, extra, parse) == Err(parse(line).fault)
  {
    var group := lines[g..i];
    CloseGroup(lines, starts, closed, g, i);
    CloseEntry(closed, group, entries, extra, parse);
    var rest := GroupsFrom(lines, starts, i);
    assert rest != [] by {
      GroupsFromFlatten(lines, starts, i);
    }
    ParseAllPrefix(closed + [group], rest, |closed| + 1, extra, parse);
  }

  /** A failure among the first `n` entries is the failure of the first `m`. */
  lemma {:induction false} FailStops(gs: seq<seq<string>>, n: nat, m: nat, extra: int, parse: string -> Result<TextEntry>)
    requires n <= m <= |gs| && ParseAll(gs, n, extra, parse).Err?
    ensures ParseAll(gs, m, extra, parse) == ParseAll(gs, n, extra, parse)
    decreases m - n
  {
    if n < m {
      FailStops(gs, n, m - 1, extra, parse);
    }
  }

  /** After the last line the pending text is parsed, and that ends the file. */
  lemma FinishLines(lines: seq<string>, starts: string -> bool, parse: string -> Result<TextEntry>, g: nat,
    closed: seq<seq<string>>, line: string, count: int, entries: seq<Located>)
    requires Scanned(lines, starts, parse, 0, |lines|, g, closed, line, count, entries)
    ensures var e := parse(line);
      ReadSpec(lines, starts, parse) == if e.Err? then Err(e.fault) else Ok(entries + [Located(e.value, if count == -1 then 0 else count)])
  {
    if |lines| == 0 {
      assert Groups(lines, starts) == [];
      assert line == "" && entries == [] && count == -1;
      if parse(line).Ok? {
        assert entries + [Located(parse(line).value, 0)] == [Located(parse(line).value, 0)];
      }
    } else {
      var i := |lines|;
      CloseGroup(lines, starts, closed, g, i);
      FinishGroups(closed, lines[g..i], line, count, entries, parse);
    }
  }

  /** The last pending entry closes the list of groups. */
  lemma FinishGroups(closed: seq<seq<string>>, group: seq<string>, line: string, count: int,
    entries: seq<Located>, parse: string -> Result<TextEntry>)
    requires line == PendingText(group, closed == [])
    requires ParseAll(closed, |closed|, 0, parse) == Ok(entries)
    requires count == if closed == [] then -1 else GroupBytes(closed)
    ensures var e := parse(line); var gs := closed + [group];
      ParseAll(gs, |gs|, 0, parse) == if e.Err? then Err(e.fault) else Ok(entries + [Located(e.value, if count == -1 then 0 else count)])
  {
    CloseEntry(closed, group, entries, 0, parse);
    var at := if closed == [] then 0 else GroupBytes(closed) + 0;
    assert at == if count == -1 then 0 else count;
  }

  /**
   * The loop of `readAllLogFiles` over one file: a line joins the pending
   * text unless text is pending and the line starts with a date; then the
   * pending entry is parsed at `currentByteCount` (0 while that is still
   * the sentinel -1), its length plus one `\n` is counted, and the line
   * becomes the pending text. The pending text is parsed after the last line.
   */
  method ReadLogFile(lines: seq<string>, parse: string -> Result<TextEntry>) returns (r: Result<seq<Located>>)
    ensures r == ReadSpec(lines, StartsEntryLine, parse)
  {
    var line := "";
    var count := -1;
    var entries: seq<Located> := [];
    ghost var closed: seq<seq<string>> := [];
    ghost var g := 0;
    var i := 0;
    while i < |lines|
      invariant Scanned(lines, StartsEntryLine, parse, 0, i, g, closed, line, count, entries)
    {
      if line == "" || !StartsEntryLine(lines[i]) {
        JoinLine(lines, StartsEntryLine, parse, 0, i, g, closed, line, count, entries);
        line := line + lines[i] + "\n";
      } else {
        var e := parse(line);
        if e.Err? {
          FailLine(lines, StartsEntryLine, parse, 0, i, g, closed, line, count, entries);
          var gs := Groups(lines, StartsEntryLine);
          FailStops(gs, |closed| + 1, |gs|, 0, parse);
          return Err(e.fault);
        }
        CloseLine(lines, StartsEntryLine, parse, 0, i, g, closed, line, count, entries);
        entries := entries + [Located(e.value, if count == -1 then 0 else count)];
        line := line + "\n";
        count := count + |line|;
        closed := closed + [lines[g..i]];
        g := i;
        line := lines[i];
      }
      i := i + 1;
    }
    FinishLines(lines, StartsEntryLine, parse, g, closed, line, count, entries);
    var e := parse(line);
    if e.Err? {
      return Err(e.fault);
    }
    r := Ok(entries + [Located(e.value, if count == -1 then 0 else count)]);
  }

  // ----- what the read of one file promises -----

  /** Every entry parses exactly when the read succeeds, and then in order. */
  lemma {:induction false} ParseAllOk(gs: seq<seq<string>>, n: nat, extra: int, parse: string -> Result<TextEntry>)
    requires n <= |gs|
    ensures ParseAll(gs, n, extra, parse).Ok? <==> forall k :: 0 <= k < n ==> ParseAt(gs, k, extra, parse).Ok?
    ensures ParseAll(gs, n, extra, parse).Ok? ==>
      var es := ParseAll(gs, n, extra, parse).value;
      |es| == n && forall k :: 0 <= k < n ==> es[k] == ParseAt(gs, k, extra, parse).value
  {
    if n > 0 {
      ParseAllOk(gs, n - 1, extra, parse);
    }
  }

  lemma {:induction false} FlattenBytes(gs: seq<seq<string>>)
    ensures |Joined(Flatten(gs))| == GroupBytes(gs)
  {
    if gs != [] {
      var init := gs[..|gs| - 1];
      FlattenBytes(init);
      JoinedAppend(Flatten(init), gs[|gs| - 1]);
      JoinedBytes(gs[|gs| - 1]);
    }
  }

  lemma {:induction false} GroupBytesAppend(a: seq<seq<string>>, b: seq<seq<string>>)
    ensures GroupBytes(a + b) == GroupBytes(a) + GroupBytes(b)
    decreases |b|
  {
    if b == [] {
      assert a + b == a;
    } else {
      assert (a + b)[..|a + b| - 1] == a + b[..|b| - 1];
      GroupBytesAppend(a, b[..|b| - 1]);
    }
  }

  /**
   * The offsets are true: entry `k`'s lines lie in the bytes of all the
   * groups' lines at `Offset(gs, k)`, and each entry starts
   * where the one before it ends.
   */
  lemma OffsetsLocateEntries(gs: seq<seq<string>>)
    ensures forall k :: 0 <= k < |gs| ==>
      && Offset(gs, k) + Bytes(gs[k]) <= |Joined(Flatten(gs))|
      && Joined(Flatten(gs))[Offset(gs, k)..Offset(gs, k) + Bytes(gs[k])] == Joined(gs[k])
      && Offset(gs, k + 1) == Offset(gs, k) + Bytes(gs[k])
  {
    forall k | 0 <= k < |gs|
      ensures Offset(gs, k) + Bytes(gs[k]) <= |Joined(Flatten(gs))|
      ensures Joined(Flatten(gs))[Offset(gs, k)..Offset(gs, k) + Bytes(gs[k])] == Joined(gs[k])
      ensures Offset(gs, k + 1) == Offset(gs, k) + Bytes(gs[k])
    {
      EntryAt(gs, k);
    }
  }

  lemma EntryAt(gs: seq<seq<string>>, k: nat)
    requires k < |gs|
    ensures Offset(gs, k) + Bytes(gs[k]) <= |Joined(Flatten(gs))|
    ensures Joined(Flatten(gs))[Offset(gs, k)..Offset(gs, k) + Bytes(gs[k])] == Joined(gs[k])
    ensures Offset(gs, k + 1) == Offset(gs, k) + Bytes(gs[k])
  {
    var before, after := gs[..k], gs[k + 1..];
    assert gs == before + [gs[k]] + after;
    assert gs[..k + 1] == before + [gs[k]];
    FlattenAppend(before + [gs[k]], after);
    FlattenAppend(before, [gs[k]]);
    assert Flatten([gs[k]]) == gs[k] by {
      assert [gs[k]][..0] == [];
    }
    JoinedAppend(Flatten(before) + gs[k], Flatten(after));
    JoinedAppend(Flatten(before), gs[k]);
    FlattenBytes(before);
    JoinedBytes(gs[k]);
    GroupBytesAppend(before, [gs[k]]);
    assert GroupBytes([gs[k]]) == Bytes(gs[k]) by {
      assert [gs[k]][..0] == [];
    }
    var pre := Joined(Flatten(before));
    var mid := Joined(gs[k]);
    var post := Joined(Flatten(after));
    assert Joined(Flatten(gs)) == pre + mid + post;
    assert (pre + mid + post)[|pre|..|pre| + |mid|] == mid;
  }

  /** A non-empty group has at least one byte: its `\n`. */
  lemma BytesPositive(group: seq<string>)
    requires group != []
    ensures Bytes(group) > 0
  {
  }

  /**
   * Parsing non-empty groups succeeds exactly when every entry parses, and
   * then gives one entry per group, parsed from its pending text and placed
   * at its offset, so the offsets strictly increase.
   */
  lemma ParsedAtOffsets(gs: seq<seq<string>>, parse: string -> Result<TextEntry>)
    requires forall k :: 0 <= k < |gs| ==> gs[k] != []
    ensures var r := ParseAll(gs, |gs|, 0, parse);
      && (r.Ok? <==> forall k :: 0 <= k < |gs| ==> parse(PendingText(gs[k], k == 0)).Ok?)
      && (r.Ok? ==>
        && |r.value| == |gs|
        && (forall k :: 0 <= k < |gs| ==>
              r.value[k] == Located(parse(PendingText(gs[k], k == 0)).value, Offset(gs, k)))
        && (forall j, k :: 0 <= j < k < |gs| ==> r.value[j].id < r.value[k].id))
  {
    ParseAllOk(gs, |gs|, 0, parse);
    forall k | 0 <= k < |gs|
      ensures ParseAt(gs, k, 0, parse).Ok? == parse(PendingText(gs[k], k == 0)).Ok?
    {
    }
    assert Offset(gs, 0) == 0 by {
      assert gs[..0] == [];
    }
    forall k | 0 <= k < |gs|
      ensures Offset(gs, k) < Offset(gs, k + 1)
    {
      EntryAt(gs, k);
      BytesPositive(gs[k]);
    }
    forall j, k | 0 <= j < k < |gs|
      ensures Offset(gs, j) < Offset(gs, k)
    {
      OffsetsIncrease(gs, j, k);
    }
  }

  /**
   * A successful read of a non-empty file gives one entry per group of
   * lines, as `ParsedAtOffsets` describes.
   */
  lemma ReadEntriesAtOffsets(lines: seq<string>, starts: string -> bool, parse: string -> Result<TextEntry>)
    requires lines != []
    ensures var gs := Groups(lines, starts);
      && Flatten(gs) == lines
      && (forall k :: 0 <= k < |gs| ==> gs[k] != [])
      && ReadSpec(lines, starts, parse) == ParseAll(gs, |gs|, 0, parse)
  {
    var gs := Groups(lines, starts);
    GroupsFromShape(lines, starts, 0);
    GroupsFromFlatten(lines, starts, 0);
  }

  lemma {:induction false} OffsetsIncrease(gs: seq<seq<string>>, j: nat, k: nat)
    requires j < k <= |gs|
    requires forall i :: 0 <= i < |gs| ==> Offset(gs, i) < Offset(gs, i + 1)
    ensures Offset(gs, j) < Offset(gs, k)
    decreases k - j
  {
    if j + 1 < k {
      OffsetsIncrease(gs, j + 1, k);
    }
  }

  /** An empty file is one empty entry, which the parser rejects. */
  lemma EmptyFileFails(starts: string -> bool, parseTime: string -> Option<int>)
    ensures ReadSpec([], starts, EntryParser(parseTime)) == Err(IndexOutOfBounds)
  {
    assert Groups([], starts) == [];
  }

  // ----- the folder -----

  /** How one file's lines are read: grouped at date lines and parsed. */
  function FileReader(parse: string -> Result<TextEntry>): seq<string> -> Result<seq<Located>>
  {
    lines => ReadSpec(lines, StartsEntryLine, parse)
  }

  /**
   * `readAllLogFiles` over the folder's files in the order listed: each
   * read as above; the file index is a `short`, so the 32769th file indexes
   * the array at -32768, an ArrayIndexOutOfBoundsException.
   */
  function ReadFiles(files: seq<LogFileText>, n: nat, read: seq<string> -> Result<seq<Located>>): Result<seq<LogFile>>
    requires n <= |files|
  {
    if n == 0 then Ok([])
    else
      match ReadFiles(files, n - 1, read)
      case Err(f) => Err(f)
      case Ok(done) =>
        if n - 1 > SHORT_MAX then Err(IndexOutOfBounds)
        else
          match read(files[n - 1].lines)
          case Err(f) => Err(f)
          case Ok(es) => Ok(done + [LogFile(files[n - 1].name, es)])
  }

  method ReadAllLogFiles(files: seq<LogFileText>, parseTime: string -> Option<int>) returns (r: Result<seq<LogFile>>)
    ensures r == ReadFiles(files, |files|, FileReader(EntryParser(parseTime)))
  {
    var parse := EntryParser(parseTime);
    var read := FileReader(parse);
    var logFiles: seq<LogFile> := [];
    var index := 0;
    while index < |files|
      invariant index <= |files|
      invariant ReadFiles(files, index, read) == Ok(logFiles)
    {
      if index > SHORT_MAX {
        ErrStops(files, index + 1, |files|, read);
        return Err(IndexOutOfBounds);
      }
      var entries := ReadLogFile(files[index].lines, parse);
      if entries.Err? {
        ErrStops(files, index + 1, |files|, read);
        return Err(entries.fault);
      }
      logFiles := logFiles + [LogFile(files[index].name, entries.value)];
      index := index + 1;
    }
    r := Ok(logFiles);
  }

  /** Once a file fails, the whole read fails with its error. */
  lemma {:induction false} ErrStops(files: seq<LogFileText>, n: nat, m: nat, read: seq<string> -> Result<seq<Located>>)
    requires n <= m <= |files| && ReadFiles(files, n, read).Err?
    ensures ReadFiles(files, m, read) == ReadFiles(files, n, read)
    decreases m - n
  {
    if n < m {
      ErrStops(files, n, m - 1, read);
    }
  }

  /**
   * The folder reads exactly when it has at most 32768 files and each file
   * reads, and then file `i` holds the entries read from it.
   */
  lemma {:induction false} ReadFilesOk(files: seq<LogFileText>, n: nat, read: seq<string> -> Result<seq<Located>>)
    requires n <= |files|
    ensures ReadFiles(files, n, read).Ok? <==>
      n <= SHORT_MAX + 1 && forall i :: 0 <= i < n ==> read(files[i].lines).Ok?
    ensures ReadFiles(files, n, read).Ok? ==>
      var fs := ReadFiles(files, n, read).value;
      |fs| == n && forall i :: 0 <= i < n ==> fs[i] == LogFile(files[i].name, read(files[i].lines).value)
  {
    if n > 0 {
      ReadFilesOk(files, n - 1, read);
    }
  }

  // ----- reads at an offset -----

  /** `log/LogReader.readLogEntryWithoutMessage` as one expression; the message is left empty. */
  function EntryWithoutMessageAt(s: string, id: nat, parseTime: string -> Option<int>): Result<Located>
  {
    match parseTime(Window(s, id, 24))
    case None => Err(ParseFailure)
    case Some(time) =>
      match HeadAt(s, id)
      case Err(f) => Err(f)
      case Ok(h) => Ok(Located(TextEntry(time, h.levelText, h.moduleName, h.className, ""), id))
  }

  /**
   * Read the 24 date characters and convert them, then the level, module
   * and class as `ReadHead` does.
   */
  method ReadLogEntryWithoutMessage(s: string, id: nat, parseTime: string -> Option<int>) returns (r: Result<Located>)
    ensures r == EntryWithoutMessageAt(s, id, parseTime)
  {
    var time := parseTime(Window(s, id, 24));
    if time.None? {
      return Err(ParseFailure);
    }
    var head := ReadHead(s, id);
    if head.Err? {
      return Err(head.fault);
    }
    var h := head.value;
    r := Ok(Located(TextEntry(time.value, h.levelText, h.moduleName, h.className, ""), id));
  }

  /**
   * On an entry written in the logger's layout, the random-access reads at
   * its offset agree with the parse of its line: same date, level, module
   * and class, and `readLogLevelOfEntry` gives the same level.
   */
  lemma ReadsAgreeWithParse(prefix: string, timeText: string, l: LogLevel, moduleName: string, className: string,
                            message: string, parseTime: string -> Option<int>)
    requires |timeText| == 24 && parseTime(timeText).Some?
    requires ']' !in moduleName && ':' !in className
    ensures |Name(l)| <= 5
    ensures var line := Line(timeText, Name(l), moduleName, className, message);
      var s := prefix + line;
      var e := ParseTextEntry(line, parseTime);
      && e.Ok?
      && EntryWithoutMessageAt(s, |prefix|, parseTime) == Ok(Located(e.value.(message := ""), |prefix|))
      && LevelTextAt(s, |prefix|) == e.value.level
  {
    HeadOfLine(prefix, timeText, l, moduleName, className, message);
    LineRoundTrip(timeText, l, moduleName, className, message, parseTime);
  }
}

=== FILE: logs_reader.dfy ===
/**
 * `logs/LogReader`: the reader the search side uses. It reads a whole file
 * (or its tail from a byte offset) into entries whose IDs are byte offsets,
 * and reads single entries, levels and the last entry's position back from
 * those offsets. Files are single-byte text: a byte position is a character
 * index, and a line's byte count is its length.
 */
module LogsReader {
  import opened Wrappers
  import opened Text
  import opened LogLines
  import opened LogLevels
  import opened LogEntries
  import opened EntryScanners

  // ----- stringContainsOnly -----

  /** What `stringContainsOnly` decides: the string is empty or its first character is one of `values`. */
  predicate FirstIn(s: string, values: seq<char>)
  {
    s == [] || s[0] in values
  }

  /** What its name promises: every character is one of `values`. */
  predicate AllIn(s: string, values: seq<char>)
  {
    forall i :: 0 <= i < |s| ==> s[i] in values
  }

  /**
   * `stringContainsOnly` as written: the outer loop runs over every index,
   * but each round looks at `charAt(0)`.
   */
  method StringContainsOnly(s: string, values: seq<char>) returns (b: bool)
    ensures b <==> FirstIn(s, values)
  {
    var i := 0;
    while i < |s|
      invariant 0 <= i <= |s|
      invariant i > 0 ==> s[0] in values
    {
      var current := s[0];
      var present := false;
      var j := 0;
      while j < |values| && !present
        invariant 0 <= j <= |values|
        invariant present ==> current in values
        invariant !present ==> current !in values[..j]
      {
        if current == values[j] {
          present := true;
        } else {
          assert values[..j + 1] == values[..j] + [values[j]];
        }
        j := j + 1;
      }
      if !present {
        assert values[..j] == values;
        return false;
      }
      i := i + 1;
    }
    b := true;
  }

  /** The same loop looking at `charAt(i)`, as the name intends. */
  method ContainsOnly(s: string, values: seq<char>) returns (b: bool)
    ensures b <==> AllIn(s, values)
  {
    var i := 0;
    while i < |s|
      invariant 0 <= i <= |s|
      invariant forall k :: 0 <= k < i ==> s[k] in values
    {
      var current := s[i];
      var present := false;
      var j := 0;
      while j < |values| && !present
        invariant 0 <= j <= |values|
        invariant present ==> current in values
        invariant !present ==> current !in values[..j]
      {
        if current == values[j] {
          present := true;
        } else {
          assert values[..j + 1] == values[..j] + [values[j]];
        }
        j := j + 1;
      }
      if !present {
        assert values[..j] == values;
        return false;
      }
      i := i + 1;
    }
    b := true;
  }

  /** The characters `readSingleFile` treats as blank. */
  const Blanks: seq<char> := ['\r', ' ', '\n', '\t']

  /**
   * Finding: a line that merely begins with a space counts as blank, so
   * before the first entry the line " x" is skipped whole.
   */
  lemma IndentedLineCountsAsBlank(line: string)
    requires line == " x\n"
    ensures FirstIn(line, Blanks) && !AllIn(line, Blanks)
  {
    assert line[0] == ' ' && line[1] == 'x';
  }

  // ----- readSingleFile -----

  /** What `readSingleFile` returns: the entries and how many bytes from the offset they account for. */
  datatype LogFileData = LogFileData(entries: seq<LogEntry>, count: int)

  /**
   * Where the reading loop ended: the entries, `bytesRead`, the token at
   * which the entry that was not taken begins, and whether the loop ended
   * on an entry that failed to parse (otherwise it ran out of lines).
   */
  datatype Stop = Stop(entries: seq<LogEntry>, bytesRead: int, resumeAt: nat, failed: bool)

  /** The parse failures the loop catches to end the read: everything else escapes. */
  predicate Caught(f: Fault)
  {
    f == IndexOutOfBounds || f == ParseFailure || f == NumberFormat
  }

  /** The entries read before a stop come first. */
  function Prepend(es: seq<LogEntry>, r: Result<Stop>): Result<Stop>
  {
    match r
    case Err(f) => Err(f)
    case Ok(st) => Ok(st.(entries := es + st.entries))
  }

  /**
   * The reading loop from the state where `i` tokens were taken, the open
   * entry is the lines `g` to `i` (none open when `g == i`) and `read` bytes
   * are accounted for. Each token is a line without its `\n`; the loop adds
   * it back. A blank-looking line while no entry is open is counted and
   * dropped; a line joins the open entry unless an entry is open and the line
   * opens one with a date; otherwise the open entry is parsed at offset
   * `read`, and the line opens the next. After the last token the open entry
   * is parsed as well.
   */
  function Scan(tokens: seq<string>, i: nat, g: nat, read: int, parse: string -> Result<LogEntry>): Result<Stop>
    requires g <= i <= |tokens|
    decreases |tokens| - i
  {
    var current := Joined(tokens[g..i]);
    if i < |tokens| && g == i && FirstIn(tokens[i] + "\n", Blanks) then
      Scan(tokens, i + 1, i + 1, read + |tokens[i] + "\n"|, parse)
    else if i < |tokens| && (g == i || !StartsEntry(tokens[i] + "\n")) then
      Scan(tokens, i + 1, g, read, parse)
    else
      match parse(current)
      case Err(f) => if Caught(f) then Ok(Stop([], read, g, true)) else Err(f)
      case Ok(e) =>
        if i < |tokens| then Prepend([e.(entryID := read)], Scan(tokens, i + 1, i, read + |current|, parse))
        else Ok(Stop([e.(entryID := read)], read + |current|, |tokens|, false))
  }

  /** `bytesRead` capped at the file size, as the end of `readSingleFile` does. */
  function Clamp(bytesRead: int, size: int): int
  {
    if bytesRead > size then size else bytesRead
  }

  /**
   * `readSingleFile(path, offset)` over the tokens the scanner yields from
   * `offset` on, in a file of `size` bytes.
   */
  function SingleFile(tokens: seq<string>, offset: nat, size: nat, parse: string -> Result<LogEntry>): (r: Result<LogFileData>)
    ensures r.Ok? ==> offset + r.value.count <= size
    ensures r.Ok? <==> Scan(tokens, 0, 0, offset, parse).Ok?
    ensures r.Ok? ==> var st := Scan(tokens, 0, 0, offset, parse).value;
      && r.value.entries == st.entries
      && (st.bytesRead <= size ==> r.value.count == st.bytesRead - offset)
  {
    match Scan(tokens, 0, 0, offset, parse)
    case Err(f) => Err(f)
    case Ok(st) => Ok(LogFileData(st.entries, Clamp(st.bytesRead, size) - offset))
  }

  lemma PrependNothing(r: Result<Stop>)
    ensures Prepend([], r) == r
  {
    if r.Ok? {
      assert [] + r.value.entries == r.value.entries;
    }
  }

  lemma PrependTwice(a: seq<LogEntry>, b: seq<LogEntry>, r: Result<Stop>)
    ensures Prepend(a, Prepend(b, r)) == Prepend(a + b, r)
  {
    if r.Ok? {
      assert a + (b + r.value.entries) == (a + b) + r.value.entries;
    }
  }

  /** No lines join to nothing; any line adds at least its `\n`. */
  lemma JoinedEmpty(lines: seq<string>)
    ensures Joined(lines) == [] <==> lines == []
  {
  }

  /** One more line joins the text as it lies in the file. */
  lemma JoinedStep(tokens: seq<string>, g: nat, i: nat)
    requires g <= i < |tokens|
    ensures Joined(tokens[g..i + 1]) == Joined(tokens[g..i]) + (tokens[i] + "\n")
  {
    assert tokens[g..i + 1][..i - g] == tokens[g..i];
  }

  /**
   * The loop of `readSingleFile`: `currentEntry` holds the open entry's text
   * (empty while none is open), `bytesRead` the bytes accounted for. The
   * loop ends when the scanner has no line left after the last entry was
   * taken, or breaks on a caught parse failure; any other failure escapes.
   */
  method ReadSingleFile(tokens: seq<string>, offset: nat, size: nat, parse: string -> Result<LogEntry>) returns (r: Result<LogFileData>)
    ensures r == SingleFile(tokens, offset, size, parse)
  {
    var entries: seq<LogEntry> := [];
    var bytesRead: int := offset;
    var currentEntry: Option<string> := Some("");
    var i := 0;
    ghost var g := 0;
    ghost var resumeAt: nat := 0;
    ghost var failed := false;
    PrependNothing(Scan(tokens, 0, 0, offset, parse));
    while currentEntry.Some?
      invariant g <= i <= |tokens|
      invariant currentEntry.Some? ==> currentEntry.value == Joined(tokens[g..i])
      invariant currentEntry.Some? ==> Scan(tokens, 0, 0, offset, parse) == Prepend(entries, Scan(tokens, i, g, bytesRead, parse))
      invariant currentEntry.None? ==> Scan(tokens, 0, 0, offset, parse) == Ok(Stop(entries, bytesRead, resumeAt, failed))
      decreases |tokens| - i, currentEntry.Some?
    {
      var current := currentEntry.value;
      JoinedEmpty(tokens[g..i]);
      var line: Option<string> := None;
      if i < |tokens| {
        line := Some(tokens[i] + "\n");
      }
      if current == "" && line.Some? {
        var blank := StringContainsOnly(line.value, Blanks);
        if blank {
          bytesRead := bytesRead + |line.value|;
          i := i + 1;
          g := i;
          continue;
        }
      }
      if line.Some? && (current == "" || !StartsEntry(line.value)) {
        JoinedStep(tokens, g, i);
        currentEntry := Some(current + line.value);
        i := i + 1;
        continue;
      }
      var e := parse(current);
      if e.Err? {
        if !Caught(e.fault) {
          return Err(e.fault);
        }
        resumeAt, failed := g, true;
        assert Scan(tokens, i, g, bytesRead, parse) == Ok(Stop([], bytesRead, g, true));
        assert entries + [] == entries;
        break;
      }
      if line.Some? {
        PrependTwice(entries, [e.value.(entryID := bytesRead)], Scan(tokens, i + 1, i, bytesRead + |current|, parse));
      }
      entries := entries + [e.value.(entryID := bytesRead)];
      bytesRead := bytesRead + |current|;
      currentEntry := line;
      if line.Some? {
        g := i;
        i := i + 1;
      } else {
        resumeAt, failed := |tokens|, false;
      }
    }
    if bytesRead > size {
      bytesRead := size;
    }
    r := Ok(LogFileData(entries, bytesRead - offset));
  }

  // ----- what the reading loop guarantees -----

  /** The text of lines `a` to `c` is that of `a` to `b` followed by that of `b` to `c`. */
  lemma JoinedSplit(tokens: seq<string>, a: nat, b: nat, c: nat)
    requires a <= b <= c <= |tokens|
    ensures Joined(tokens[a..c]) == Joined(tokens[a..b]) + Joined(tokens[b..c])
  {
    assert tokens[a..b] + tokens[b..c] == tokens[a..c];
    JoinedAppend(tokens[a..b], tokens[b..c]);
  }

  /**
   * `bytesRead` accounts for exactly the lines before the entry that was not
   * taken (all lines when none failed), blank ones included.
   */
  lemma {:induction false} ScanAccounts(tokens: seq<string>, i: nat, g: nat, read: int, parse: string -> Result<LogEntry>)
    requires g <= i <= |tokens|
    ensures var r := Scan(tokens, i, g, read, parse);
      r.Ok? ==> && g <= r.value.resumeAt <= |tokens|
                && r.value.bytesRead == read + |Joined(tokens[g..r.value.resumeAt])|
                && (!r.value.failed ==> r.value.resumeAt == |tokens|)
    decreases |tokens| - i
  {
    var current := Joined(tokens[g..i]);
    if i < |tokens| && g == i && FirstIn(tokens[i] + "\n", Blanks) {
      ScanAccounts(tokens, i + 1, i + 1, read + |tokens[i] + "\n"|, parse);
      var r := Scan(tokens, i + 1, i + 1, read + |tokens[i] + "\n"|, parse);
      if r.Ok? {
        JoinedSplit(tokens, i, i + 1, r.value.resumeAt);
        JoinedStep(tokens, i, i);
      }
    } else if i < |tokens| && (g == i || !StartsEntry(tokens[i] + "\n")) {
      ScanAccounts(tokens, i + 1, g, read, parse);
    } else if parse(current).Ok? && i < |tokens| {
      ScanAccounts(tokens, i + 1, i, read + |current|, parse);
      var r := Scan(tokens, i + 1, i, read + |current|, parse);
      if r.Ok? {
        JoinedSplit(tokens, g, i, r.value.resumeAt);
      }
    }
  }

  /**
   * The entries come in file order: each ID is at least the `bytesRead` the
   * loop started from and at most the one it ended with, and the IDs
   * strictly increase.
   */
  lemma {:induction false} ScanIds(tokens: seq<string>, i: nat, g: nat, read: int, parse: string -> Result<LogEntry>)
    requires g <= i <= |tokens|
    ensures var r := Scan(tokens, i, g, read, parse);
      r.Ok? ==> var es := r.value.entries;
        && read <= r.value.bytesRead
        && (forall k :: 0 <= k < |es| ==> read <= es[k].entryID <= r.value.bytesRead)
        && (forall j, k :: 0 <= j < k < |es| ==> es[j].entryID < es[k].entryID)
    decreases |tokens| - i
  {
    var current := Joined(tokens[g..i]);
    if i < |tokens| && g == i && FirstIn(tokens[i] + "\n", Blanks) {
      ScanIds(tokens, i + 1, i + 1, read + |tokens[i] + "\n"|, parse);
    } else if i < |tokens| && (g == i || !StartsEntry(tokens[i] + "\n")) {
      ScanIds(tokens, i + 1, g, read, parse);
    } else if parse(current).Ok? && i < |tokens| {
      JoinedEmpty(tokens[g..i]);
      ScanIds(tokens, i + 1, i, read + |current|, parse);
      var r := Scan(tokens, i + 1, i, read + |current|, parse);
      if r.Ok? {
        var es := [parse(current).value.(entryID := read)] + r.value.entries;
        assert Scan(tokens, i, g, read, parse) == Ok(r.value.(entries := es));
        assert forall k :: 0 < k < |es| ==> es[k] == r.value.entries[k - 1];
      }
    }
  }

  /**
   * An open entry: its first line does not look blank and none of its later
   * lines opens an entry.
   */
  predicate Opened(tokens: seq<string>, g: nat, i: nat)
    requires g <= i <= |tokens|
  {
    g < i ==> !FirstIn(tokens[g] + "\n", Blanks) && forall j :: g < j < i ==> !StartsEntry(tokens[j] + "\n")
  }

  /** A line that opens an entry begins with a digit, so it never looks blank. */
  lemma StartNotBlank(line: string)
    requires StartsEntry(line)
    ensures !FirstIn(line, Blanks)
  {
  }

  /**
   * Lines `a` to `b` are a whole entry that parses: an open entry ended by a
   * line that opens the next one, or by the end of the file.
   */
  predicate WholeEntry(tokens: seq<string>, a: nat, b: nat, parse: string -> Result<LogEntry>)
    requires a <= b <= |tokens|
  {
    && Opened(tokens, a, b)
    && (b < |tokens| ==> StartsEntry(tokens[b] + "\n"))
    && parse(Joined(tokens[a..b])).Ok?
  }

  /**
   * `e` is the parse of a whole entry from line `g` on, with the ID the bytes
   * of the lines before it, counted from `read` at line `g`.
   */
  ghost predicate EntryFrom(tokens: seq<string>, g: nat, read: int, parse: string -> Result<LogEntry>, e: LogEntry)
  {
    exists a: nat, b: nat ::
      && g <= a <= b <= |tokens| && WholeEntry(tokens, a, b, parse)
      && e == parse(Joined(tokens[a..b])).value.(entryID := read + |Joined(tokens[g..a])|)
  }

  /** An entry found from line `i` on is found from an earlier line `g`, whose lines are counted. */
  lemma EntryFromEarlier(tokens: seq<string>, g: nat, i: nat, read: int, parse: string -> Result<LogEntry>, e: LogEntry)
    requires g <= i <= |tokens|
    requires EntryFrom(tokens, i, read + |Joined(tokens[g..i])|, parse, e)
    ensures EntryFrom(tokens, g, read, parse, e)
  {
    var a: nat, b: nat :| && i <= a <= b <= |tokens| && WholeEntry(tokens, a, b, parse)
      && e == parse(Joined(tokens[a..b])).value.(entryID := read + |Joined(tokens[g..i])| + |Joined(tokens[i..a])|);
    JoinedSplit(tokens, g, i, a);
  }

  /** Every entry of `r` is found from line `g` on, counted from `read`. */
  ghost predicate AllFrom(tokens: seq<string>, g: nat, read: int, parse: string -> Result<LogEntry>, r: Result<Stop>)
  {
    r.Ok? ==> forall k :: 0 <= k < |r.value.entries| ==> EntryFrom(tokens, g, read, parse, r.value.entries[k])
  }

  /** A blank-looking line before any entry: what is found after it is found from it. */
  lemma LocatedPastBlank(tokens: seq<string>, i: nat, read: int, parse: string -> Result<LogEntry>, r: Result<Stop>)
    requires i < |tokens|
    requires AllFrom(tokens, i + 1, read + |tokens[i] + "\n"|, parse, r)
    ensures AllFrom(tokens, i, read, parse, r)
  {
    if r.Ok? {
      JoinedStep(tokens, i, i);
      assert Joined(tokens[i..i]) == [];
      forall k | 0 <= k < |r.value.entries|
        ensures EntryFrom(tokens, i, read, parse, r.value.entries[k])
      {
        EntryFromEarlier(tokens, i, i + 1, read, parse, r.value.entries[k]);
      }
    }
  }

  /** A whole entry at line `g` is found from `g` on, at `read`. */
  lemma EntryAtStart(tokens: seq<string>, g: nat, i: nat, read: int, parse: string -> Result<LogEntry>)
    requires g <= i <= |tokens| && WholeEntry(tokens, g, i, parse)
    ensures EntryFrom(tokens, g, read, parse, parse(Joined(tokens[g..i])).value.(entryID := read))
  {
    assert Joined(tokens[g..g]) == [];
    assert read + |Joined(tokens[g..g])| == read;
  }

  /** A whole entry taken at `read`, then what is found after it. */
  lemma LocatedPastEntry(tokens: seq<string>, g: nat, i: nat, read: int, parse: string -> Result<LogEntry>, r: Result<Stop>)
    requires g <= i <= |tokens| && WholeEntry(tokens, g, i, parse)
    requires AllFrom(tokens, i, read + |Joined(tokens[g..i])|, parse, r)
    ensures AllFrom(tokens, g, read, parse, Prepend([parse(Joined(tokens[g..i])).value.(entryID := read)], r))
  {
    var e := parse(Joined(tokens[g..i])).value.(entryID := read);
    EntryAtStart(tokens, g, i, read, parse);
    if r.Ok? {
      var rest := r.value.entries;
      forall k | 0 <= k < |rest|
        ensures EntryFrom(tokens, g, read, parse, rest[k])
      {
        EntryFromEarlier(tokens, g, i, read, parse, rest[k]);
      }
      var es := [e] + rest;
      assert forall k :: 0 < k < |es| ==> es[k] == rest[k - 1];
    }
  }

  /**
   * Every entry is the text of a whole entry at its ID: IDs are the byte
   * offsets of the entries' first lines.
   */
  lemma {:induction false} ScanLocates(tokens: seq<string>, i: nat, g: nat, read: int, parse: string -> Result<LogEntry>)
    requires g <= i <= |tokens| && Opened(tokens, g, i)
    ensures AllFrom(tokens, g, read, parse, Scan(tokens, i, g, read, parse))
    decreases |tokens| - i
  {
    var current := Joined(tokens[g..i]);
    if i < |tokens| && g == i && FirstIn(tokens[i] + "\n", Blanks) {
      ScanLocates(tokens, i + 1, i + 1, read + |tokens[i] + "\n"|, parse);
      LocatedPastBlank(tokens, i, read, parse, Scan(tokens, i + 1, i + 1, read + |tokens[i] + "\n"|, parse));
    } else if i < |tokens| && (g == i || !StartsEntry(tokens[i] + "\n")) {
      ScanLocates(tokens, i + 1, g, read, parse);
    } else if parse(current).Ok? {
      if i < |tokens| {
        StartNotBlank(tokens[i] + "\n");
        ScanLocates(tokens, i + 1, i, read + |current|, parse);
        LocatedPastEntry(tokens, g, i, read, parse, Scan(tokens, i + 1, i, read + |current|, parse));
      } else {
        LocatedPastEntry(tokens, g, i, read, parse, Ok(Stop([], read + |current|, |tokens|, false)));
        assert [parse(current).value.(entryID := read)] + [] == [parse(current).value.(entryID := read)];
      }
    }
  }

  /** Read from its first line, an open entry is taken up again line by line. */
  lemma {:induction false} OpenAgain(t: seq<string>, k: nat, read: int, parse: string -> Result<LogEntry>)
    requires 0 < k <= |t| && Opened(t, 0, k)
    ensures Scan(t, 0, 0, read, parse) == Scan(t, k, 0, read, parse)
    decreases k
  {
    if k > 1 {
      assert Opened(t, 0, k - 1);
      OpenAgain(t, k - 1, read, parse);
    }
  }

  /** The open entry's lines, read again from its first line, are the same lines. */
  lemma ShiftedOpen(tokens: seq<string>, g: nat, i: nat)
    requires g < i <= |tokens| && Opened(tokens, g, i)
    ensures var t := tokens[g..]; Opened(t, 0, i - g) && t[0..i - g] == tokens[g..i]
  {
    var t := tokens[g..];
    forall j | 0 < j < i - g
      ensures !StartsEntry(t[j] + "\n")
    {
      assert t[j] == tokens[g + j];
    }
  }

  /**
   * When the loop stops on an entry that fails, reading again from that
   * entry's first line, with any count, stops at once on the same entry and
   * takes nothing.
   */
  lemma {:induction false} ScanResumes(tokens: seq<string>, i: nat, g: nat, read: int, again: int, parse: string -> Result<LogEntry>)
    requires g <= i <= |tokens| && Opened(tokens, g, i)
    ensures var r := Scan(tokens, i, g, read, parse);
      r.Ok? && r.value.failed ==>
        && r.value.resumeAt <= |tokens|
        && Scan(tokens[r.value.resumeAt..], 0, 0, again, parse) == Ok(Stop([], again, 0, true))
    decreases |tokens| - i
  {
    var current := Joined(tokens[g..i]);
    if i < |tokens| && g == i && FirstIn(tokens[i] + "\n", Blanks) {
      ScanResumes(tokens, i + 1, i + 1, read + |tokens[i] + "\n"|, again, parse);
    } else if i < |tokens| && (g == i || !StartsEntry(tokens[i] + "\n")) {
      ScanResumes(tokens, i + 1, g, read, again, parse);
    } else if parse(current).Ok? {
      if i < |tokens| {
        StartNotBlank(tokens[i] + "\n");
        ScanResumes(tokens, i + 1, i, read + |current|, again, parse);
      }
    } else if Caught(parse(current).fault) {
      var t := tokens[g..];
      if g < i {
        ShiftedOpen(tokens, g, i);
        OpenAgain(t, i - g, again, parse);
        if i < |tokens| {
          assert t[i - g] == tokens[i];
        }
      } else {
        assert t[0..0] == tokens[g..i];
      }
      assert Scan(t, i - g, 0, again, parse) == Ok(Stop([], again, 0, true));
    }
  }

  /** Lines that look blank before the first entry are counted and dropped. */
  lemma {:induction false} LeadingBlanksSkipped(tokens: seq<string>, k: nat, offset: int, parse: string -> Result<LogEntry>)
    requires k <= |tokens|
    requires forall j :: 0 <= j < k ==> FirstIn(tokens[j] + "\n", Blanks)
    ensures Scan(tokens, 0, 0, offset, parse) == Scan(tokens, k, k, offset + |Joined(tokens[..k])|, parse)
    decreases k
  {
    if k > 0 {
      LeadingBlanksSkipped(tokens, k - 1, offset, parse);
      JoinedStep(tokens, 0, k - 1);
      assert tokens[0..k] == tokens[..k] && tokens[0..k - 1] == tokens[..k - 1];
    } else {
      assert tokens[..0] == [];
    }
  }

  // ----- readSingleFile's promises -----

  /**
   * The entries of `readSingleFile` lie in the file in order: each is a whole
   * entry's text parsed at the byte offset of its first line (counted from
   * the start of the file), so the IDs are at least `offset` and strictly
   * increase.
   */
  lemma EntryIdsAreOffsets(tokens: seq<string>, offset: nat, size: nat, parse: string -> Result<LogEntry>)
    ensures var r := SingleFile(tokens, offset, size, parse);
      r.Ok? ==> var es := r.value.entries;
        && (forall k :: 0 <= k < |es| ==> offset <= es[k].entryID && EntryFrom(tokens, 0, offset, parse, es[k]))
        && (forall j, k :: 0 <= j < k < |es| ==> es[j].entryID < es[k].entryID)
  {
    ScanIds(tokens, 0, 0, offset, parse);
    ScanLocates(tokens, 0, 0, offset, parse);
  }

  /**
   * The count covers exactly the lines before the entry that failed (all of
   * them when none failed), capped at the file size; and reading again from
   * `offset + count` at that entry's first line stops there at once and takes
   * nothing, so an incremental re-read restarts at the failed entry.
   */
  lemma ResumeAtFailedEntry(tokens: seq<string>, offset: nat, size: nat, parse: string -> Result<LogEntry>)
    ensures var r := SingleFile(tokens, offset, size, parse);
      r.Ok? ==> var st := Scan(tokens, 0, 0, offset, parse).value;
        && st.resumeAt <= |tokens|
        && r.value.count == Clamp(offset + |Joined(tokens[..st.resumeAt])|, size) - offset
        && (!st.failed ==> st.resumeAt == |tokens|)
        && (st.failed ==> SingleFile(tokens[st.resumeAt..], offset + r.value.count, size, parse) == Ok(LogFileData([], 0)))
  {
    ScanAccounts(tokens, 0, 0, offset, parse);
    var r := Scan(tokens, 0, 0, offset, parse);
    if r.Ok? {
      assert tokens[0..r.value.resumeAt] == tokens[..r.value.resumeAt];
      if r.value.failed {
        var c := SingleFile(tokens, offset, size, parse).value.count;
        ScanResumes(tokens, 0, 0, offset, offset + c, parse);
      }
    }
  }

  /** How `readSingleFile` parses an entry: `new LogEntry(String, long)`, with the date format as a parameter. */
  function EntryParser(parseTime: string -> Option<int>): string -> Result<LogEntry>
  {
    text => ParseLogEntry(text, parseTime)
  }

  /**
   * A line in the logger's layout, with the `\n` the loop adds back, is not
   * taken for blank and parses to its fields; its message keeps the `\n`.
   */
  lemma LineWithNewline(timeText: string, l: LogLevel, moduleName: string, className: string, message: string,
                        parseTime: string -> Option<int>)
    requires |timeText| == 24 && StartsEntry(timeText) && parseTime(timeText).Some?
    requires ']' !in moduleName && ':' !in className
    ensures |Name(l)| <= 5
    ensures var line := Line(timeText, Name(l), moduleName, className, message);
      && !FirstIn(line + "\n", Blanks)
      && ParseLogEntry(line + "\n", parseTime) == Ok(LogEntry(parseTime(timeText).value, l, moduleName, className, message + "\n", 0))
  {
    LineRoundTrip(timeText, l, moduleName, className, message + "\n", parseTime);
    LineEnd(timeText, Name(l), moduleName, className, message, "\n");
  }

  /** Text added to a line's message is added to the line; the line begins with its date. */
  lemma LineEnd(timeText: string, level: string, moduleName: string, className: string, message: string, more: string)
    requires |level| <= 5 && |timeText| == 24
    ensures var line := Line(timeText, level, moduleName, className, message);
      && Line(timeText, level, moduleName, className, message + more) == line + more
      && (line + more)[0] == timeText[0]
  {
    var front := Head(timeText, level) + moduleName + "] " + className + ":? - ";
    assert Line(timeText, level, moduleName, className, message + more) == front + (message + more);
    assert front + (message + more) == (front + message) + more;
    assert (front + message + more)[0] == front[0] == Head(timeText, level)[0];
  }

  /** A file of one line that does not look blank and parses reads as that one entry at `offset`. */
  lemma OneEntryLine(line: string, offset: nat, parse: string -> Result<LogEntry>, e: LogEntry)
    requires !FirstIn(line + "\n", Blanks) && parse(line + "\n") == Ok(e)
    ensures Scan([line], 0, 0, offset, parse) == Ok(Stop([e.(entryID := offset)], offset + |line| + 1, 1, false))
  {
    OneLineScan(line, offset, parse);
  }

  /** A single line that does not look blank is the file's one entry. */
  lemma OneLineScan(line: string, offset: nat, parse: string -> Result<LogEntry>)
    requires !FirstIn(line + "\n", Blanks)
    ensures var p := parse(line + "\n");
      Scan([line], 0, 0, offset, parse) ==
        if p.Ok? then Ok(Stop([p.value.(entryID := offset)], offset + |line| + 1, 1, false))
        else if Caught(p.fault) then Ok(Stop([], offset, 0, true))
        else Err(p.fault)
  {
    var tokens := [line];
    assert Joined(tokens[0..1]) == line + "\n" by {
      JoinedStep(tokens, 0, 0);
      assert tokens[0..0] == [];
    }
    assert Scan(tokens, 0, 0, offset, parse) == Scan(tokens, 1, 0, offset, parse);
  }

  /** An empty file reads as nothing, and so does a file of blank lines, whose bytes are counted. */
  lemma BlankFile(tokens: seq<string>, offset: nat, size: nat, parseTime: string -> Option<int>)
    requires forall j :: 0 <= j < |tokens| ==> FirstIn(tokens[j] + "\n", Blanks)
    ensures SingleFile(tokens, offset, size, EntryParser(parseTime))
      == Ok(LogFileData([], Clamp(offset + |Joined(tokens)|, size) - offset))
  {
    LeadingBlanksSkipped(tokens, |tokens|, offset, EntryParser(parseTime));
    assert tokens[..|tokens|] == tokens;
    assert tokens[|tokens|..|tokens|] == [];
  }

  // ----- reads at an offset -----

  /**
   * `readLogEntryWithoutMessage` as one expression: the 24 characters of
   * date converted first, then 7 characters of level (an EOFException when
   * they are not all there) given to `LogLevel.valueOf`, then the module
   * and class name as the byte scanners find them. The message is left
   * empty and the ID is the offset read at.
   */
  function EntryWithoutMessageAt(s: string, id: nat, parseTime: string -> Option<int>): Result<LogEntry>
  {
    match parseTime(Window(s, id, 24))
    case None => Err(ParseFailure)
    case Some(time) =>
      if id + 31 > |s| then Err(EndOfFile)
      else
        match ValueOf(LevelTextAt(s, id))
        case Err(f) => Err(f)
        case Ok(level) =>
          match HeadAt(s, id)
          case Err(f) => Err(f)
          case Ok(h) => Ok(LogEntry(time, level, h.moduleName, h.className, "", id))
  }

  /** Read the date, the level, the module and the class from offset `id`, in that order. */
  method ReadLogEntryWithoutMessage(s: string, id: nat, parseTime: string -> Option<int>) returns (r: Result<LogEntry>)
    ensures r == EntryWithoutMessageAt(s, id, parseTime)
  {
    var time := parseTime(Window(s, id, 24));
    if time.None? {
      return Err(ParseFailure);
    }
    var p := Advance(s, id, 24);
    if p + 7 > |s| {
      return Err(EndOfFile);
    }
    assert p == id + 24;
    var level := ValueOf(Trim(s[p..p + 7]));
    if level.Err? {
      return Err(level.fault);
    }
    var mStart := if p + 8 <= |s| then p + 8 else |s|;
    var moduleName, q := ScanModule(s, mStart);
    q := if q + 1 <= |s| then q + 1 else |s|;
    assert q == ClassStart(s, mStart);
    var c := ScanClass(s, q);
    var className := DropLast(c);
    HeadAtSteps(s, id, mStart, moduleName, c);
    if className.Err? {
      return Err(className.fault);
    }
    r := Ok(LogEntry(time.value, level.value, moduleName, className.value, "", id));
  }

  /** `readLogLevelOfEntry`: `LogLevel.valueOf` of the 7 characters at `id + 24`, trimmed. */
  function LevelOfEntryAt(s: string, id: nat): Result<LogLevel>
  {
    ValueOf(LevelTextAt(s, id))
  }

  /**
   * Where `readLogEntryWithoutMessage` succeeds, `readLogLevelOfEntry` at
   * the same offset gives the same level.
   */
  lemma LevelReadsAgree(s: string, id: nat, parseTime: string -> Option<int>)
    ensures var e := EntryWithoutMessageAt(s, id, parseTime);
      e.Ok? ==> LevelOfEntryAt(s, id) == Ok(e.value.level) && e.value.entryID == id
  {
  }

  /**
   * On an entry written in the logger's layout at offset `|prefix|`, the
   * reads at its offset give what parsing its line gives, with no message
   * and the offset as ID; `readLogLevelOfEntry` gives its level.
   */
  lemma ReadsAgreeWithParse(prefix: string, timeText: string, l: LogLevel, moduleName: string, className: string,
                            message: string, parseTime: string -> Option<int>)
    requires |timeText| == 24 && parseTime(timeText).Some?
    requires ']' !in moduleName && ':' !in className
    ensures |Name(l)| <= 5
    ensures var line := Line(timeText, Name(l), moduleName, className, message);
      var s := prefix + line;
      var e := ParseLogEntry(line, parseTime);
      && e.Ok?
      && EntryWithoutMessageAt(s, |prefix|, parseTime) == Ok(e.value.(message := "", entryID := |prefix|))
      && LevelOfEntryAt(s, |prefix|) == Ok(l)
  {
    HeadOfLine(prefix, timeText, l, moduleName, className, message);
    LineRoundTrip(timeText, l, moduleName, className, message, parseTime);
    NameParses(l);
    var s := prefix + Line(timeText, Name(l), moduleName, className, message);
    assert s[|prefix|..|prefix| + 24] == timeText;
  }

  /** `getNearbyEntries` reads from `byteRange` before the entry, but not before the start of the file. */
  function NearbyStart(logEntryID: int, byteRange: int): (start: int)
    ensures start >= 0 && start >= logEntryID - byteRange
    ensures start == logEntryID - byteRange || start == 0
  {
    if logEntryID - byteRange < 0 then 0 else logEntryID - byteRange
  }

  // ----- getIDOfLastLogEntry -----

  /** A `\n` at `p` whose next 24 characters (padded with U+0000) begin with a date. */
  predicate EntryAfter(s: string, p: nat)
    requires p < |s|
  {
    s[p] == '\n' && StartsEntry(Window(s, p + 1, 24))
  }

  /** The search from position `p` down to 0: the position after the first match, or 0. */
  function LastEntryFrom(s: string, p: int): (id: nat)
    requires -1 <= p < |s|
    ensures id > 0 ==> id - 1 <= p && EntryAfter(s, id - 1) && forall q :: id - 1 < q <= p ==> !EntryAfter(s, q)
    ensures id == 0 ==> forall q :: 0 <= q <= p ==> !EntryAfter(s, q)
    decreases p + 1
  {
    if p < 0 then 0 else if EntryAfter(s, p) then p + 1 else LastEntryFrom(s, p - 1)
  }

  /**
   * The ID of the last entry: the position after the last `\n` that a date
   * follows, or 0 when there is none.
   */
  function LastEntryId(s: string): nat
  {
    LastEntryFrom(s, |s| - 1)
  }

  /** `getIDOfLastLogEntry`: walk back from the last byte and stop at the first match. */
  method GetIdOfLastLogEntry(s: string) returns (id: nat)
    ensures id == LastEntryId(s)
  {
    var position := |s| - 1;
    while position >= 0
      invariant -1 <= position < |s|
      invariant LastEntryFrom(s, position) == LastEntryId(s)
      decreases position + 1
    {
      var character := s[position];
      if character == '\n' {
        var startOfEntry := Window(s, position + 1, 24);
        if StartsEntry(startOfEntry) {
          return position + 1;
        }
      }
      position := position - 1;
    }
    return 0;
  }

  /** The 24-character window at `q` begins with a date exactly when the text from `q` does. */
  lemma WindowDate(s: string, q: nat)
    requires q <= |s|
    ensures StartsEntry(Window(s, q, 24)) <==> DatePrefix(s[q..])
  {
    var w := Window(s, q, 24);
    if |s| - q >= 11 {
      assert forall j :: 0 <= j < 11 ==> w[j] == s[q..][j];
    } else if q < |s| {
      assert w[|s| - q] == '\0';
    } else {
      assert w[0] == '\0';
    }
  }

  /**
   * When a file's last line begins with a date and follows a `\n`, the ID of
   * the last entry is where that line begins.
   */
  lemma LastLineIsLastEntry(body: string, line: string)
    requires DatePrefix(line) && '\n' !in line
    ensures LastEntryId(body + "\n" + line) == |body| + 1
  {
    var s := body + "\n" + line;
    var p := |body|;
    assert s[p + 1..] == line;
    WindowDate(s, p + 1);
    assert EntryAfter(s, p);
    forall q | p < q < |s|
      ensures !EntryAfter(s, q)
    {
      assert s[q] == line[q - p - 1];
    }
  }
}

=== FILE: maps.dfy ===
/** `HashMap.put` applied pair by pair. */
module Maps {

  /** A map after `put(k, v)` for each pair `(k, v)` in order. */
  function PutAll<K, V>(m: map<K, V>, pairs: seq<(K, V)>): map<K, V>
  {
    if pairs == [] then m else PutAll(m, pairs[..|pairs| - 1])[pairs[|pairs| - 1].0 := pairs[|pairs| - 1].1]
  }

  /** The last pair with key `k` decides its value; keys in no pair keep theirs. */
  lemma {:induction false} PutAllLookup<K, V>(m: map<K, V>, pairs: seq<(K, V)>, k: K)
    ensures (exists i :: 0 <= i < |pairs| && pairs[i].0 == k) ==> k in PutAll(m, pairs)
    ensures forall i :: 0 <= i < |pairs| && pairs[i].0 == k && (forall j :: i < j < |pairs| ==> pairs[j].0 != k) ==>
      PutAll(m, pairs)[k] == pairs[i].1
    ensures (forall i :: 0 <= i < |pairs| ==> pairs[i].0 != k) ==>
      (k in PutAll(m, pairs) <==> k in m) && (k in m ==> PutAll(m, pairs)[k] == m[k])
  {
    if pairs != [] {
      var init := pairs[..|pairs| - 1];
      PutAllLookup(m, init, k);
      forall i | 0 <= i < |init|
        ensures init[i] == pairs[i]
      {
      }
    }
  }

  /** Putting one more pair. */
  lemma PutAllSnoc<K, V>(m: map<K, V>, pairs: seq<(K, V)>, p: (K, V))
    ensures PutAll(m, pairs + [p]) == PutAll(m, pairs)[p.0 := p.1]
  {
    assert (pairs + [p])[..|pairs|] == pairs;
  }

  /** The pairs with key and value exchanged. */
  function Swapped<K, V>(pairs: seq<(K, V)>): (r: seq<(V, K)>)
    ensures |r| == |pairs| && forall i :: 0 <= i < |pairs| ==> r[i] == (pairs[i].1, pairs[i].0)
  {
    seq(|pairs|, i requires 0 <= i < |pairs| => (pairs[i].1, pairs[i].0))
  }
}

=== FILE: name_ids.dfy ===
/**
 * `log/ModuleIDManager` and `log/ClassIDManager`, whose code is the same
 * apart from the file name: an `IndexManager` from INTEGER ids to STRING
 * names that hands out dense ids, the next id being the current size.
 */
module NameIdManagers {
  import opened Wrappers
  import opened JavaNum
  import opened RandomAccess
  import opened TypeConverters
  import opened IndexRecords
  import opened BiMaps
  import opened SerializableMaps
  import opened SerializableBiMaps
  import LogIndexManagers

  /** The ids are exactly 0 .. size-1, and the two maps pair each id with one name. */
  ghost predicate DenseIds(forward: map<Value, Value>, backward: map<Value, Value>)
  {
    && Inverse(forward, backward)
    && (forall k :: k in forward <==> k.Number? && 0 <= k.n < |forward|)
  }

  datatype Added = Added(id: Value, forward: map<Value, Value>, backward: map<Value, Value>)

  /** `addIfAbsent(name)`: the id the call returns and the two maps afterwards. */
  function AddName(forward: map<Value, Value>, backward: map<Value, Value>, name: Value): Added
  {
    if name in backward then Added(backward[name], forward, backward)
    else
      var id := Number(|forward|);
      Added(id, forward[id := name], backward[name := id])
  }

  /**
   * Adding a name keeps the ids dense; afterwards the returned id and the
   * name look each other up, and a new name makes the map one larger.
   */
  lemma AddNameKeepsDense(forward: map<Value, Value>, backward: map<Value, Value>, name: Value)
    requires DenseIds(forward, backward)
    ensures var r := AddName(forward, backward, name);
      && DenseIds(r.forward, r.backward)
      && r.id in r.forward && r.forward[r.id] == name && name in r.backward && r.backward[name] == r.id
      && (name in backward ==> r.forward == forward && r.backward == backward)
      && (name !in backward ==> |r.forward| == |forward| + 1)
  {
    if name !in backward {
      var id := Number(|forward|);
      assert id !in forward;
      PutKeepsInverse(forward, backward, id, name);
      var f := forward[id := name];
      assert |f| == |forward| + 1;
      forall k
        ensures k in f <==> k.Number? && 0 <= k.n < |f|
      {
        if k.Number? && 0 <= k.n < |f| && k.n != |forward| {
          assert k in forward;
        }
      }
    }
  }

  /** A second `addIfAbsent` of the same name returns the same id and changes nothing. */
  lemma AddNameIdempotent(forward: map<Value, Value>, backward: map<Value, Value>, name: Value)
    ensures var r := AddName(forward, backward, name);
      AddName(r.forward, r.backward, name) == r
  {
  }

  /** The maps after `addIfAbsent` for each name in turn. */
  function AddAll(forward: map<Value, Value>, backward: map<Value, Value>, names: seq<Value>): Added
  {
    if names == [] then Added(Number(-1), forward, backward)
    else
      var r := AddAll(forward, backward, names[..|names| - 1]);
      AddName(r.forward, r.backward, names[|names| - 1])
  }

  /**
   * When names enter only through `addIfAbsent`, starting from an empty index,
   * the ids are dense and the stored names are exactly the names added.
   */
  lemma {:induction false} AddAllDense(names: seq<Value>)
    ensures var r := AddAll(map[], map[], names);
      DenseIds(r.forward, r.backward) && r.backward.Keys == set n | n in names
  {
    if names != [] {
      var init := names[..|names| - 1];
      AddAllDense(init);
      var last := names[|names| - 1];
      var r := AddAll(map[], map[], init);
      AddNameKeepsDense(r.forward, r.backward, last);
      var r2 := AddName(r.forward, r.backward, last);
      assert AddAll(map[], map[], names) == r2;
      assert r2.backward.Keys == r.backward.Keys + {last} by {
        if last !in r.backward {
          assert r2.backward == r.backward[last := r2.id];
        }
      }
      assert names == init + [last];
      forall x
        ensures x in names <==> x in init || x == last
      {
      }
      assert (set n | n in names) == (set n | n in init) + {last};
    }
  }

  /** The names (`getValueSet`) are exactly the values stored under the ids. */
  lemma NamesAreValues(forward: map<Value, Value>, backward: map<Value, Value>)
    requires Inverse(forward, backward)
    ensures backward.Keys == forward.Values
  {
    forall v | v in backward.Keys
      ensures v in forward.Values
    {
      assert forward[backward[v]] == v;
    }
  }

  function IntegerFormat(): Format { FormatOf(Std(Plain(IntegerConv))) }
  function StringFormat(): Format { FormatOf(Std(Plain(StringConv))) }

  /**
   * Whether `catch (IOException e)` in `createIndex` catches the exception:
   * an EOFException or another file-system failure is only reported, while
   * an unchecked exception, such as the NegativeArraySizeException of
   * `new byte[size]` in the STRING read, escapes.
   */
  predicate IsIOException(f: Fault)
  {
    f.EndOfFile? || f.FileSystem?
  }

  /**
   * The exception the constructor (and so `getInstance`) ends with: the one
   * `readIndex` throws on the stored index, unless it is an IOException.
   */
  function CreationFault(stored: Option<seq<Octet>>): (r: Option<Fault>)
    ensures r.Some? ==> stored.Some? && !IsIOException(r.value)
    ensures stored.Some? ==>
      var thrown := ReadFault(ReadIndexScan(IntegerFormat(), StringFormat(), stored.value, 0));
      (r.None? <==> thrown.None? || IsIOException(thrown.value)) && (r.Some? ==> r == thrown)
  {
    if stored.None? then None
    else
      var thrown := ReadFault(ReadIndexScan(IntegerFormat(), StringFormat(), stored.value, 0));
      if thrown.Some? && !IsIOException(thrown.value) then thrown else None
  }

  /**
   * A stored index whose first name has the size -1 makes the constructor
   * throw a NegativeArraySizeException, after reading nothing into the maps.
   */
  lemma NegativeNameSizeThrows()
    ensures var data := BigEndian(100, 8) + BigEndian(0, 4) + BigEndian(-1, 4);
      && CreationFault(Some(data)) == Some(NegativeArraySize)
      && MapAfterRead(map[], ReadIndexScan(IntegerFormat(), StringFormat(), data, 0)) == map[]
  {
    var header, id, size := BigEndian(100, 8), BigEndian(0, 4), BigEndian(-1, 4);
    var data := header + id + size;
    assert Pow256(3) == 16777216;
    assert Pow256(7) == 72057594037927936;
    SignedOfBigEndian(100, 8);
    SignedOfBigEndian(0, 4);
    SignedOfBigEndian(-1, 4);
    assert data[..8] == header && data[8..] == id + size;
    assert (id + size)[..4] == id && (id + size)[4..] == size;
    assert size[..4] == size;
    assert IntegerFormat().read(id + size) == Ok(Decoded(Number(0), 4, size));
    assert StringFormat().read(size) == Err(NegativeArraySize);
  }

  /** A stored index cut off in the middle of a name only reports its EOFException. */
  lemma TruncatedIndexReported()
    ensures var data := BigEndian(100, 8) + BigEndian(0, 4) + BigEndian(1, 4)[..2];
      && ReadFault(ReadIndexScan(IntegerFormat(), StringFormat(), data, 0)) == Some(EndOfFile)
      && CreationFault(Some(data)) == None
  {
    var header, id, cut := BigEndian(100, 8), BigEndian(0, 4), BigEndian(1, 4)[..2];
    var data := header + id + cut;
    assert Pow256(7) == 72057594037927936;
    SignedOfBigEndian(100, 8);
    SignedOfBigEndian(0, 4);
    assert data[..8] == header && data[8..] == id + cut;
    assert (id + cut)[..4] == id && (id + cut)[4..] == cut;
    assert IntegerFormat().read(id + cut) == Ok(Decoded(Number(0), 4, cut));
    assert StringFormat().read(cut) == Err(EndOfFile);
  }

  class NameIds {
    const index: LogIndexManagers.IndexManager
    /**
     * The exception the constructor ends with, if any; when there is one,
     * no manager is made and `getInstance` throws it.
     */
    var creationFault: Option<Fault>

    /**
     * The constructor, with the overridden `createIndex` it runs: an empty
     * index, then, when the index file exists (`stored` holds its content),
     * what `readIndex` reads from it. An IOException that `readIndex`
     * throws is caught and only reported; any other exception escapes.
     */
    constructor (stored: Option<seq<Octet>>)
      ensures fresh(index) && fresh(index.values)
      ensures index.keyConverter == IntegerFormat() && index.valueConverter == StringFormat()
      ensures stored.None? ==> index.values.map1 == map[] && index.values.map2 == map[]
      ensures stored.Some? ==>
        var scan := ReadIndexScan(IntegerFormat(), StringFormat(), stored.value, 0);
        index.values.map1 == MapAfterRead(map[], scan) && index.values.map2 == BackwardAfterRead(map[], scan)
      ensures creationFault == CreationFault(stored)
    {
      var manager := new LogIndexManagers.IndexManager(IntegerFormat(), StringFormat());
      var fault := None;
      if stored.Some? {
        var file := new RandomAccessFile(stored.value);
        CodecConsumes(Std(Plain(IntegerConv)));
        CodecConsumes(Std(Plain(StringConv)));
        var thrown := manager.ReadIndex(file);
        if thrown.Some? && !IsIOException(thrown.value) {
          fault := thrown;
        }
      }
      index := manager;
      creationFault := fault;
    }

    /** `get(Integer)`: the name of an id, or null. */
    method Get(id: Value) returns (r: Option<Value>)
      ensures r == Lookup(index.values.map1, id)
    {
      r := index.values.GetValue(id);
    }

    /** `get(String)`: the id of a name, or null. */
    method GetId(name: Value) returns (r: Option<Value>)
      ensures r == Lookup(index.values.map2, name)
    {
      r := index.values.GetKey(name);
    }

    /** `getModuleNames` / `getClassNames`. */
    method Names() returns (s: set<Value>)
      ensures s == index.values.map2.Keys
    {
      s := index.values.map2.Keys;
    }

    method AddIfAbsent(name: Value) returns (id: Value)
      modifies index.values
      ensures Added(id, index.values.map1, index.values.map2) == AddName(old(index.values.map1), old(index.values.map2), name)
    {
      if name in index.values.map2 {
        var r := index.values.GetKey(name);
        return r.value;
      }
      var n := index.values.Size();
      id := Number(n);
      index.values.PutValue(id, name);
    }
  }
}

=== FILE: pagination.dfy ===
/**
 * `SimplePagination.js`: the search results are shown five rows at a time,
 * with Previous and Next buttons. The module-level variables `current_page`
 * and `elements` and the page's DOM nodes are the fields of `Paginator`.
 */
module Pagination {
  import opened Wrappers

  /** `records_per_page`. */
  const RECORDS_PER_PAGE: int := 5

  /** `{"element": html}`: one row of the result table. */
  datatype Item = Item(element: string)

  /** `numPages()`: `Math.ceil(n / 5)`, the fewest pages of five that hold `n` rows. */
  function PageCount(n: nat): (r: nat)
    ensures n <= r * RECORDS_PER_PAGE
    ensures r == 0 || (r - 1) * RECORDS_PER_PAGE < n
  {
    (n + RECORDS_PER_PAGE - 1) / RECORDS_PER_PAGE
  }

  /**
   * The two clamps of `changePage`, the upper one second: a page in
   * 1..pages is kept, anything else moves to the nearer end, and with no
   * pages at all the result is 0.
   */
  function ClampPage(page: int, pages: nat): (r: int)
    ensures pages >= 1 ==> 1 <= r <= pages
    ensures pages == 0 ==> r == 0
    ensures 1 <= page <= pages ==> r == page
    ensures pages >= 1 && page < 1 ==> r == 1
    ensures page > pages ==> r == pages
  {
    var p := if page < 1 then 1 else page;
    if p > pages then pages else p
  }

  function Min(a: int, b: int): int
  {
    if a < b then a else b
  }

  /** The rows page `p` shows: from `(p - 1) * 5` up to `p * 5` or the end. */
  function PageItems(elements: seq<Item>, p: int): (r: seq<Item>)
    requires 1 <= p <= PageCount(|elements|)
    ensures |r| == Min(p * RECORDS_PER_PAGE, |elements|) - (p - 1) * RECORDS_PER_PAGE
    ensures 1 <= |r| <= RECORDS_PER_PAGE
    ensures forall k :: 0 <= k < |r| ==> r[k] == elements[(p - 1) * RECORDS_PER_PAGE + k]
  {
    elements[(p - 1) * RECORDS_PER_PAGE .. Min(p * RECORDS_PER_PAGE, |elements|)]
  }

  /** The rows' HTML appended in order, as `table.innerHTML += ...` builds it. */
  function Render(items: seq<Item>): string
  {
    if items == [] then "" else Render(items[..|items| - 1]) + items[|items| - 1].element
  }

  /**
   * Every row is shown on exactly one page, `i / 5 + 1`, at position
   * `i % 5`: the pages split the rows without gaps or overlaps.
   */
  lemma RowOnOnePage(n: nat, i: nat, p: int)
    requires i < n
    ensures var q := i / RECORDS_PER_PAGE + 1;
      1 <= q <= PageCount(n) && (q - 1) * RECORDS_PER_PAGE + i % RECORDS_PER_PAGE == i
    ensures (p - 1) * RECORDS_PER_PAGE <= i < Min(p * RECORDS_PER_PAGE, n) <==> p == i / RECORDS_PER_PAGE + 1
  {
    var q := i / RECORDS_PER_PAGE + 1;
    assert (q - 1) * RECORDS_PER_PAGE + i % RECORDS_PER_PAGE == i;
    if (p - 1) * RECORDS_PER_PAGE <= i < p * RECORDS_PER_PAGE {
      assert p - 1 <= i / RECORDS_PER_PAGE;
      assert i / RECORDS_PER_PAGE < p;
    }
  }

  class Paginator {
    /** `current_page`. */
    var currentPage: int
    /** `elements`. */
    var elements: seq<Item>
    /** The table's `innerHTML`. */
    var shown: string
    /** The `innerHTML` of the page number. */
    var pageLabel: int
    /** Whether the Previous and the Next button are marked `disabled`. */
    var prevDisabled: bool
    var nextDisabled: bool
    /** Whether the paginator is no longer `visually-hidden`. */
    var visible: bool

    function NumPages(): nat
      reads this
    {
      PageCount(|elements|)
    }

    /** The state as the script is loaded: page 1, no rows yet, nothing shown. */
    constructor ()
      ensures currentPage == 1 && elements == [] && shown == ""
      ensures !visible && !prevDisabled && !nextDisabled
    {
      currentPage := 1;
      elements := [];
      shown := "";
      pageLabel := 0;
      prevDisabled := false;
      nextDisabled := false;
      visible := false;
    }

    /** `fillElementArray`: the new rows, in the order given; nothing else changes. */
    method FillElementArray(elementArray: seq<string>)
      modifies this
      ensures |elements| == |elementArray|
      ensures forall i :: 0 <= i < |elementArray| ==> elements[i] == Item(elementArray[i])
      ensures currentPage == old(currentPage) && shown == old(shown) && pageLabel == old(pageLabel)
      ensures prevDisabled == old(prevDisabled) && nextDisabled == old(nextDisabled) && visible == old(visible)
    {
      elements := [];
      for i := 0 to |elementArray|
        invariant |elements| == i
        invariant forall k :: 0 <= k < i ==> elements[k] == Item(elementArray[k])
        invariant currentPage == old(currentPage) && shown == old(shown) && pageLabel == old(pageLabel)
        invariant prevDisabled == old(prevDisabled) && nextDisabled == old(nextDisabled) && visible == old(visible)
      {
        elements := elements + [Item(elementArray[i])];
      }
    }

    /**
     * `changePage`: clamps the page, shows its rows and updates the page
     * number and the buttons. With no rows the page is clamped to 0 and the
     * loop reads `elements[-5].element`, a `TypeError`, after the table was
     * emptied.
     */
    method ChangePage(page: int) returns (thrown: Option<Fault>)
      modifies this
      ensures elements == old(elements) && visible
      ensures thrown.Some? <==> elements == []
      ensures thrown.Some? ==>
        (thrown == Some(TypeError) && shown == ""
         && currentPage == old(currentPage) && pageLabel == old(pageLabel)
         && prevDisabled == old(prevDisabled) && nextDisabled == old(nextDisabled))
      ensures thrown.None? ==>
        (currentPage == ClampPage(page, NumPages()) && pageLabel == currentPage
         && shown == Render(PageItems(elements, currentPage))
         && prevDisabled == (currentPage == 1) && nextDisabled == (currentPage == NumPages()))
    {
      visible := true;
      var p := page;
      if p < 1 {
        p := 1;
      }
      if p > NumPages() {
        p := NumPages();
      }
      shown := "";
      if p < 1 {
        // the first index read is (0 - 1) * 5
        return Some(TypeError);
      }
      ShowRows(p);
      pageLabel := p;
      currentPage := p;
      prevDisabled := p == 1;
      nextDisabled := p == NumPages();
      thrown := None;
    }

    /** The loop of `changePage`: the rows of page `p` appended to the emptied table. */
    method ShowRows(p: int)
      requires 1 <= p <= NumPages() && shown == ""
      modifies this`shown
      ensures shown == Render(PageItems(elements, p))
    {
      var first := (p - 1) * RECORDS_PER_PAGE;
      var i := first;
      while i < p * RECORDS_PER_PAGE
        invariant first <= i <= Min(p * RECORDS_PER_PAGE, |elements|)
        invariant shown == Render(elements[first..i])
        decreases p * RECORDS_PER_PAGE - i
      {
        if i == |elements| {
          break;
        }
        assert elements[first..i + 1][..i - first] == elements[first..i];
        shown := shown + elements[i].element;
        i := i + 1;
      }
    }

    /** `prevPage`: one page back when there is one; otherwise nothing happens. */
    method PrevPage() returns (thrown: Option<Fault>)
      modifies this
      ensures elements == old(elements)
      ensures thrown.None? <==> old(currentPage) <= 1 || elements != []
      ensures old(currentPage) <= 1 ==> thrown.None? && currentPage == old(currentPage) && shown == old(shown)
      ensures old(currentPage) > 1 ==>
        currentPage == if elements == [] then old(currentPage) - 1 else ClampPage(old(currentPage) - 1, NumPages())
      ensures elements != [] && old(currentPage) >= 1 ==> 1 <= currentPage <= NumPages()
    {
      thrown := None;
      if currentPage > 1 {
        currentPage := currentPage - 1;
        thrown := ChangePage(currentPage);
      }
    }

    /** `nextPage`: one page on when there is one; otherwise nothing happens. */
    method NextPage() returns (thrown: Option<Fault>)
      modifies this
      ensures elements == old(elements)
      ensures thrown.None? <==> old(currentPage) >= NumPages() || elements != []
      ensures old(currentPage) >= NumPages() ==> currentPage == old(currentPage) && shown == old(shown)
      ensures old(currentPage) < NumPages() ==>
        currentPage == if elements == [] then old(currentPage) + 1 else ClampPage(old(currentPage) + 1, NumPages())
      ensures elements != [] && old(currentPage) <= NumPages() ==> 1 <= currentPage <= NumPages()
    {
      thrown := None;
      if currentPage < NumPages() {
        currentPage := currentPage + 1;
        thrown := ChangePage(currentPage);
      }
    }
  }
}

=== FILE: random_access.dfy ===
/**
 * A `java.io.RandomAccessFile` as the converters and indexes use it: a byte
 * array and a file pointer. Writing past the end extends the file; seeking
 * past the end and writing there leaves a gap that reads back as zero bytes.
 */
module RandomAccess {
  import opened Wrappers
  import opened JavaNum

  function Zeros(n: nat): (r: seq<Octet>)
    ensures |r| == n && forall i :: 0 <= i < n ==> r[i] == 0
  {
    if n == 0 then [] else Zeros(n - 1) + [0]
  }

  function Max(a: int, b: int): int { if a >= b then a else b }
  function Min(a: int, b: int): int { if a <= b then a else b }

  /** Byte `i` of the file after writing `bs` at position `p`. */
  function ByteAfterWrite(data: seq<Octet>, p: nat, bs: seq<Octet>, i: int): Octet
  {
    if p <= i < p + |bs| then bs[i - p] else if 0 <= i < |data| then data[i] else 0
  }

  /**
   * The file contents after writing `bs` at position `p`: `bs` there, the
   * old bytes elsewhere, zeros in a gap between the old end and `p`.
   */
  function Overwrite(data: seq<Octet>, p: nat, bs: seq<Octet>): (r: seq<Octet>)
    ensures |r| == Max(|data|, p + |bs|)
  {
    OverwriteFrom(data, p, bs, 0)
  }

  /** Bytes `k` onwards of `Overwrite(data, p, bs)`. */
  function OverwriteFrom(data: seq<Octet>, p: nat, bs: seq<Octet>, k: nat): (r: seq<Octet>)
    requires k <= Max(|data|, p + |bs|)
    ensures |r| == Max(|data|, p + |bs|) - k
    decreases Max(|data|, p + |bs|) - k
  {
    if k == Max(|data|, p + |bs|) then [] else [ByteAfterWrite(data, p, bs, k)] + OverwriteFrom(data, p, bs, k + 1)
  }

  lemma {:induction false} OverwriteFromAt(data: seq<Octet>, p: nat, bs: seq<Octet>, k: nat, j: nat)
    requires k + j < Max(|data|, p + |bs|)
    ensures OverwriteFrom(data, p, bs, k)[j] == ByteAfterWrite(data, p, bs, k + j)
    decreases j
  {
    if j > 0 {
      OverwriteFromAt(data, p, bs, k + 1, j - 1);
    }
  }

  /** Byte by byte, the file after a write is what `ByteAfterWrite` says. */
  lemma OverwriteAt(data: seq<Octet>, p: nat, bs: seq<Octet>)
    ensures forall i :: 0 <= i < Max(|data|, p + |bs|) ==> Overwrite(data, p, bs)[i] == ByteAfterWrite(data, p, bs, i)
  {
    forall i | 0 <= i < Max(|data|, p + |bs|)
      ensures Overwrite(data, p, bs)[i] == ByteAfterWrite(data, p, bs, i)
    {
      OverwriteFromAt(data, p, bs, 0, i);
    }
  }

  lemma OverwriteContents(data: seq<Octet>, p: nat, bs: seq<Octet>)
    ensures var r := Overwrite(data, p, bs);
      && r[p..p + |bs|] == bs
      && (forall i :: 0 <= i < |data| && !(p <= i < p + |bs|) ==> r[i] == data[i])
      && (forall i :: |data| <= i < p ==> r[i] == 0)
  {
    OverwriteAt(data, p, bs);
  }

  /** Two consecutive writes are one write of the concatenation. */
  lemma OverwriteTwice(data: seq<Octet>, p: nat, a: seq<Octet>, b: seq<Octet>)
    ensures Overwrite(Overwrite(data, p, a), p + |a|, b) == Overwrite(data, p, a + b)
  {
    var mid := Overwrite(data, p, a);
    var lhs := Overwrite(mid, p + |a|, b);
    var rhs := Overwrite(data, p, a + b);
    OverwriteContents(data, p, a);
    OverwriteContents(mid, p + |a|, b);
    OverwriteContents(data, p, a + b);
    assert |lhs| == |rhs|;
    forall i | 0 <= i < |lhs|
      ensures lhs[i] == rhs[i]
    {
      if p <= i < p + |a| {
        assert lhs[i] == a[i - p];
      } else if p + |a| <= i < p + |a| + |b| {
        assert lhs[i] == b[i - p - |a|];
      }
    }
  }

  /**
   * What `read(byte[n])` copies: the next `n` bytes, or as many as remain
   * (none at the end of the file).
   */
  function Available(data: seq<Octet>, p: nat, n: nat): (r: seq<Octet>)
    ensures |r| == Min(n, Max(|data| - p, 0))
  {
    if p >= |data| then [] else data[p..Min(p + n, |data|)]
  }

  /** The bytes from position `p` to the end of the file; none when `p` is past the end. */
  function Remaining(data: seq<Octet>, p: nat): (r: seq<Octet>)
    ensures |r| == Max(|data| - p, 0)
  {
    if p <= |data| then data[p..] else []
  }

  /** Reading from where `bs` was written gives `bs`, then what followed it before. */
  lemma RemainingAfterWrite(data: seq<Octet>, p: nat, bs: seq<Octet>)
    ensures Remaining(Overwrite(data, p, bs), p) == bs + Remaining(data, p + |bs|)
  {
    var r := Overwrite(data, p, bs);
    OverwriteContents(data, p, bs);
    var lhs := Remaining(r, p);
    var rhs := bs + Remaining(data, p + |bs|);
    assert |lhs| == |rhs|;
    forall i | 0 <= i < |lhs|
      ensures lhs[i] == rhs[i]
    {
      if i < |bs| {
        assert lhs[i] == r[p..p + |bs|][i];
      }
    }
  }

  class RandomAccessFile {
    var data: seq<Octet>
    var pointer: nat

    constructor (content: seq<Octet>)
      ensures data == content && pointer == 0
    {
      data := content;
      pointer := 0;
    }

    function Length(): nat
      reads this
    {
      |data|
    }

    method Seek(pos: nat)
      modifies this
      ensures pointer == pos && data == old(data)
    {
      pointer := pos;
    }

    /** `write(byte[])`, `writeLong`, `writeInt`, `writeShort`, `writeByte`. */
    method Write(bs: seq<Octet>)
      modifies this
      ensures data == Overwrite(old(data), old(pointer), bs)
      ensures pointer == old(pointer) + |bs|
    {
      data := Overwrite(data, pointer, bs);
      pointer := pointer + |bs|;
    }

    /** `readFully`, `readLong`, `readInt`, ...: exactly `n` bytes or an EOFException. */
    method ReadFully(n: nat) returns (r: Result<seq<Octet>>)
      modifies this
      ensures data == old(data)
      ensures old(pointer) + n <= |data| ==> r == Ok(data[old(pointer)..old(pointer) + n]) && pointer == old(pointer) + n
      ensures old(pointer) + n > |data| ==> r == Err(EndOfFile) && pointer == Max(old(pointer), |data|)
    {
      if pointer + n <= |data| {
        r := Ok(data[pointer..pointer + n]);
        pointer := pointer + n;
      } else {
        r := Err(EndOfFile);
        pointer := Max(pointer, |data|);
      }
    }

    /** `read(byte[n])`: up to `n` bytes, fewer at the end of the file, never an error. */
    method ReadAvailable(n: nat) returns (got: seq<Octet>)
      modifies this
      ensures data == old(data)
      ensures got == Available(data, old(pointer), n)
      ensures pointer == old(pointer) + |got|
    {
      got := Available(data, pointer, n);
      pointer := pointer + |got|;
    }
  }
}

=== FILE: read_file.dfy ===
/**
 * `test/ReadFile.readLine`: a hand-written replacement for
 * `BufferedReader.readLine` that reads one character at a time and keeps the
 * line terminator.
 */
module ReadFile {
  import opened Wrappers

  /** A character stream: the text of the file and how much of it was read. */
  class CharReader {
    var text: seq<char>
    var pos: nat

    constructor (content: seq<char>)
      ensures text == content && pos == 0
    {
      text := content;
      pos := 0;
    }

    predicate Valid()
      reads this
    {
      pos <= |text|
    }

    /** What is still to be read. */
    function Rest(): seq<char>
      reads this
      requires Valid()
    {
      text[pos..]
    }

    /** `read()`: the next character, or None where Java returns -1. */
    method Read() returns (c: Option<char>)
      requires Valid()
      modifies this
      ensures Valid() && text == old(text)
      ensures old(pos) == |text| ==> c == None && pos == old(pos)
      ensures old(pos) < |text| ==> c == Some(text[old(pos)]) && pos == old(pos) + 1
    {
      if pos == |text| {
        return None;
      }
      c := Some(text[pos]);
      pos := pos + 1;
    }
  }

  /** The characters up to and including the first '\n', or all of them. */
  function LineOf(s: seq<char>): seq<char>
  {
    if s == [] then []
    else if s[0] == '\n' then ['\n']
    else [s[0]] + LineOf(s[1..])
  }

  /** What `readLine` returns on the characters still to be read (None is null). */
  function NextLine(s: seq<char>): Option<seq<char>>
  {
    if s == [] then None else Some(LineOf(s))
  }

  /** `readLine`: append characters until a '\n' has been appended or the stream ends. */
  method ReadLine(br: CharReader) returns (line: Option<seq<char>>)
    requires br.Valid()
    modifies br
    ensures br.Valid() && br.text == old(br.text)
    ensures line == NextLine(old(br.Rest()))
    ensures br.pos == old(br.pos) + |LineOf(old(br.Rest()))|
  {
    ghost var start := br.Rest();
    var formatted: seq<char> := [];
    var c := br.Read();
    while c.Some?
      invariant br.Valid() && br.text == old(br.text)
      invariant br.pos == old(br.pos) + |formatted| + (if c.Some? then 1 else 0)
      invariant '\n' !in formatted
      invariant formatted + (if c.Some? then [c.value] else []) + br.Rest() == start
      invariant c.None? ==> br.Rest() == []
      invariant LineOf(start) == formatted + LineOf((if c.Some? then [c.value] else []) + br.Rest())
      decreases |br.text| - br.pos, c.Some?
    {
      var character := c.value;
      ghost var after := br.Rest();
      assert LineOf([character] + after) == if character == '\n' then ['\n'] else [character] + LineOf(after) by {
        assert ([character] + after)[1..] == after;
      }
      formatted := formatted + [character];
      if character == '\n' {
        return Some(formatted);
      }
      c := br.Read();
    }
    assert LineOf(start) == formatted;
    if formatted == [] {
      return None;
    }
    line := Some(formatted);
  }

  // ----- what a line is -----

  /** The line is the beginning of the text, and takes at least one character of a non-empty one. */
  lemma {:induction false} LineIsPrefix(s: seq<char>)
    ensures |LineOf(s)| <= |s| && LineOf(s) == s[..|LineOf(s)|]
    ensures s != [] ==> |LineOf(s)| >= 1
  {
    if s != [] && s[0] != '\n' {
      LineIsPrefix(s[1..]);
    }
  }

  /** A line holds '\n' only as its last character, and ends with one exactly when the text has one. */
  lemma {:induction false} NewlineOnlyAtEnd(s: seq<char>)
    ensures forall k :: 0 <= k < |LineOf(s)| - 1 ==> LineOf(s)[k] != '\n'
    ensures LineOf(s) != [] && LineOf(s)[|LineOf(s)| - 1] == '\n' <==> '\n' in s
  {
    if s != [] && s[0] != '\n' {
      NewlineOnlyAtEnd(s[1..]);
      assert '\n' in s <==> '\n' in s[1..] by {
        assert s == [s[0]] + s[1..];
      }
    }
  }

  /** Without a '\n' in the text, the line is all of it. */
  lemma {:induction false} LineWithoutNewline(s: seq<char>)
    requires '\n' !in s
    ensures LineOf(s) == s
  {
    if s != [] {
      assert s[1..] == s[|[s[0]]|..];
      LineWithoutNewline(s[1..]);
    }
  }

  /** With one, the line ends at the first. */
  lemma {:induction false} LineAtFirstNewline(s: seq<char>, k: nat)
    requires k < |s| && s[k] == '\n' && '\n' !in s[..k]
    ensures LineOf(s) == s[..k + 1]
  {
    if k > 0 {
      assert s[0] == s[..k][0];
      assert s[1..][..k - 1] == s[..k][1..];
      LineAtFirstNewline(s[1..], k - 1);
    }
  }

  // ----- reading a stream line by line -----

  /** The lines `readLine` returns one after another, until it returns null. */
  function Lines(s: seq<char>): seq<seq<char>>
    decreases |s|
  {
    if s == [] then []
    else
      LineIsPrefix(s);
      [LineOf(s)] + Lines(s[|LineOf(s)|..])
  }

  function Concat(ls: seq<seq<char>>): seq<char>
  {
    if ls == [] then [] else ls[0] + Concat(ls[1..])
  }

  /** Concatenating the successive lines gives the text back; none of them is empty. */
  lemma {:induction false} LinesReassemble(s: seq<char>)
    ensures Concat(Lines(s)) == s
    ensures forall k :: 0 <= k < |Lines(s)| ==> Lines(s)[k] != []
    decreases |s|
  {
    if s != [] {
      LineIsPrefix(s);
      var n := |LineOf(s)|;
      LinesReassemble(s[n..]);
      assert Lines(s)[1..] == Lines(s[n..]);
      assert s == s[..n] + s[n..];
    }
  }

  /**
   * The loop of `readBufferedReaderOwn`: `readLine` until it returns null.
   * Each call returns the next element of `Lines`; the lines, which the
   * loop drops, are collected here to state what the calls returned.
   */
  method ReadLines(br: CharReader) returns (lines: seq<seq<char>>)
    requires br.Valid()
    modifies br
    ensures br.Valid() && br.text == old(br.text) && br.pos == |br.text|
    ensures lines == Lines(old(br.Rest())) && Concat(lines) == old(br.Rest())
  {
    ghost var start := br.Rest();
    lines := [];
    var line := ReadLine(br);
    while line.Some?
      invariant br.Valid() && br.text == old(br.text)
      invariant line.Some? ==> Lines(start) == lines + [line.value] + Lines(br.Rest())
      invariant line.None? ==> br.Rest() == [] && Lines(start) == lines
      decreases |br.text| - br.pos, line.Some?
    {
      lines := lines + [line.value];
      line := ReadLine(br);
    }
    LinesReassemble(start);
  }
}

=== FILE: search.dfy ===
/**
 * The parts of `luceneSearch/Search` that decide something without Lucene:
 * which clauses `parseFilter` puts in the query, how `getResultsFromSearch`
 * groups the hits by file, and the cursor of the paginated search. Queries
 * and hits are plain values here; Lucene's evaluation of them is not part
 * of this model.
 */
module LuceneSearch {
  import opened Wrappers
  import opened LogLevels
  import opened Filters
  import opened SearchEntries

  /** The queries `parseFilter` builds, by field. */
  datatype Query =
    | DateRange(lower: int, upper: int)     // LongPoint.newRangeQuery("date", …)
    | LevelIs(id: int)                      // LongPoint.newExactQuery("logLevel", …)
    | ModuleIs(id: int)                     // IntPoint.newExactQuery("module", …)
    | ClassIs(id: int)                      // IntPoint.newExactQuery("classname", …)
    | FileIs(id: int)                       // IntPoint.newExactQuery("fileIndex", …)
    | ExceptionIs(id: int)                  // IntPoint.newExactQuery("exception", …)
    | MessagePhrase(text: string)           // the sloppy phrase query on "message"

  datatype Occur = Must | MustNot

  datatype Clause = Clause(query: Query, occur: Occur)

  /**
   * The index's name-to-id lookups `parseFilter` calls (`Index.getModuleID`
   * and the like): `BiMap.getKey`, `None` for a name the index does not hold.
   */
  datatype IdLookups = IdLookups(moduleId: string -> Option<int>, classId: string -> Option<int>, exceptionId: string -> Option<int>)

  /**
   * Every name the filter gives has an id. `getModuleID`, `getClassID` and
   * `getExceptionID` return `int`, so unboxing the null `getKey` gives for an
   * unknown name is a NullPointerException.
   */
  predicate Resolves(f: Filter, ids: IdLookups)
  {
    && (f.moduleName.Some? ==> ids.moduleId(f.moduleName.value).Some?)
    && (f.className.Some? ==> ids.classId(f.className.value).Some?)
    && (f.exception.Some? ==> ids.exceptionId(f.exception.value).Some?)
  }

  /** The MUST_NOT clauses for the levels of `from` that the set leaves out, in the order of `from`. */
  function LevelClauses(levels: set<int>, from: seq<LogLevel>): seq<Clause>
  {
    if from == [] then []
    else
      var l := from[|from| - 1];
      LevelClauses(levels, from[..|from| - 1]) + (if Id(l) in levels then [] else [Clause(LevelIs(Id(l)), MustNot)])
  }

  /** The clauses `parseFilter(f)` adds, in the order it adds them. */
  function FilterClauses(f: Filter, ids: IdLookups): seq<Clause>
    requires Resolves(f, ids)
  {
    Head(f) + ModulePart(f, ids) + ClassPart(f, ids) + FilePart(f) + ExceptionPart(f, ids) + MessagePart(f)
  }

  /** The date clause, then the level exclusions when levels were chosen. */
  function Head(f: Filter): seq<Clause>
  {
    [Clause(DateRange(f.beginDate, f.endDate), Must)]
    + (if f.logLevels != {} then LevelClauses(f.logLevels, AllLevels()) else [])
  }

  function ModulePart(f: Filter, ids: IdLookups): seq<Clause>
    requires Resolves(f, ids)
  {
    if f.moduleName.Some? then [Clause(ModuleIs(ids.moduleId(f.moduleName.value).value), Must)] else []
  }

  function ClassPart(f: Filter, ids: IdLookups): seq<Clause>
    requires Resolves(f, ids)
  {
    if f.className.Some? then [Clause(ClassIs(ids.classId(f.className.value).value), Must)] else []
  }

  function FilePart(f: Filter): seq<Clause>
  {
    if f.fileID != -1 then [Clause(FileIs(f.fileID), Must)] else []
  }

  function ExceptionPart(f: Filter, ids: IdLookups): seq<Clause>
    requires Resolves(f, ids)
  {
    if f.exception.Some? then [Clause(ExceptionIs(ids.exceptionId(f.exception.value).value), Must)] else []
  }

  function MessagePart(f: Filter): seq<Clause>
  {
    if f.message.Some? then [Clause(MessagePhrase(f.message.value), Must)] else []
  }

  /** The level loop of `parseFilter`: a MUST_NOT clause for each level, in `LogLevel.values()` order, whose id is not in the set. */
  method ExcludedLevels(levels: set<int>) returns (clauses: seq<Clause>)
    ensures clauses == LevelClauses(levels, AllLevels())
  {
    var all := AllLevels();
    clauses := [];
    var i := 0;
    while i < |all|
      invariant i <= |all|
      invariant clauses == LevelClauses(levels, all[..i])
    {
      assert all[..i + 1][..i] == all[..i];
      if Id(all[i]) !in levels {
        clauses := clauses + [Clause(LevelIs(Id(all[i])), MustNot)];
      }
      i := i + 1;
    }
    assert all[..i] == all;
  }

  /**
   * `parseFilter`: `queryBuilder.add` one clause after another. A module,
   * class or exception name the index does not know ends it with a
   * NullPointerException.
   */
  method ParseFilter(f: Filter, ids: IdLookups) returns (r: Result<seq<Clause>>)
    ensures r.Err? <==> !Resolves(f, ids)
    ensures r.Err? ==> r.fault == NullPointer
    ensures r.Ok? ==> r.value == FilterClauses(f, ids)
  {
    var clauses := [Clause(DateRange(f.beginDate, f.endDate), Must)];
    if f.logLevels != {} {
      var excluded := ExcludedLevels(f.logLevels);
      clauses := clauses + excluded;
    }
    assert clauses == Head(f);
    if f.moduleName.Some? {
      var moduleId := ids.moduleId(f.moduleName.value);
      if moduleId.None? {
        return Err(NullPointer);
      }
      clauses := clauses + [Clause(ModuleIs(moduleId.value), Must)];
    }
    if f.className.Some? {
      var classNameId := ids.classId(f.className.value);
      if classNameId.None? {
        return Err(NullPointer);
      }
      clauses := clauses + [Clause(ClassIs(classNameId.value), Must)];
    }
    if f.fileID != -1 {
      clauses := clauses + [Clause(FileIs(f.fileID), Must)];
    }
    if f.exception.Some? {
      var exceptionId := ids.exceptionId(f.exception.value);
      if exceptionId.None? {
        return Err(NullPointer);
      }
      clauses := clauses + [Clause(ExceptionIs(exceptionId.value), Must)];
    }
    assert clauses == Head(f) + ModulePart(f, ids) + ClassPart(f, ids) + FilePart(f) + ExceptionPart(f, ids);
    if f.message.Some? {
      clauses := clauses + [Clause(MessagePhrase(f.message.value), Must)];
    }
    return Ok(clauses);
  }

  /** A level clause is exactly a MUST_NOT for a level of `from` that is not in the set. */
  lemma {:induction false} LevelClausesExclude(levels: set<int>, from: seq<LogLevel>, c: Clause)
    ensures c in LevelClauses(levels, from) <==>
      exists l :: l in from && Id(l) !in levels && c == Clause(LevelIs(Id(l)), MustNot)
  {
    if from != [] {
      var init := from[..|from| - 1];
      LevelClausesExclude(levels, init, c);
      assert from == init + [from[|from| - 1]];
      assert forall l :: l in from <==> l in init || l == from[|from| - 1];
    }
  }

  /** Every level clause is a MUST_NOT on a level id. */
  lemma {:induction false} LevelClausesOnLevels(levels: set<int>, from: seq<LogLevel>)
    ensures forall c :: c in LevelClauses(levels, from) ==> c.query.LevelIs? && c.occur == MustNot
  {
    if from != [] {
      LevelClausesOnLevels(levels, from[..|from| - 1]);
    }
  }

  /**
   * The query opens with the date clause, a MUST over [beginDate, endDate],
   * and holds no other date clause.
   */
  lemma DateClause(f: Filter, ids: IdLookups)
    requires Resolves(f, ids)
    ensures FilterClauses(f, ids)[0] == Clause(DateRange(f.beginDate, f.endDate), Must)
    ensures forall c :: c in FilterClauses(f, ids) && c.query.DateRange? ==> c == FilterClauses(f, ids)[0]
  {
    LevelClausesOnLevels(f.logLevels, AllLevels());
  }

  /**
   * A non-empty level set excludes exactly the levels not in it, and an
   * empty one adds no level clause.
   */
  lemma LevelClausesOfFilter(f: Filter, ids: IdLookups, l: LogLevel)
    requires Resolves(f, ids)
    ensures Clause(LevelIs(Id(l)), MustNot) in FilterClauses(f, ids) <==> f.logLevels != {} && Id(l) !in f.logLevels
    ensures f.logLevels == {} ==> forall c :: c in FilterClauses(f, ids) ==> !c.query.LevelIs?
  {
    LevelClausesOnLevels(f.logLevels, AllLevels());
    if f.logLevels != {} {
      LevelClausesExclude(f.logLevels, AllLevels(), Clause(LevelIs(Id(l)), MustNot));
      assert l in AllLevels();
    }
  }

  /**
   * A module, class or exception name adds a MUST clause on its id exactly
   * when it is given, and so do a file id other than -1 and a message; no
   * other clause is on that field. Apart from the level exclusions every
   * clause is a MUST.
   */
  lemma OptionalClauses(f: Filter, ids: IdLookups, c: Clause)
    requires Resolves(f, ids)
    ensures c in FilterClauses(f, ids) && c.query.ModuleIs? <==>
      f.moduleName.Some? && c == Clause(ModuleIs(ids.moduleId(f.moduleName.value).value), Must)
    ensures c in FilterClauses(f, ids) && c.query.ClassIs? <==>
      f.className.Some? && c == Clause(ClassIs(ids.classId(f.className.value).value), Must)
    ensures c in FilterClauses(f, ids) && c.query.FileIs? <==>
      f.fileID != -1 && c == Clause(FileIs(f.fileID), Must)
    ensures c in FilterClauses(f, ids) && c.query.ExceptionIs? <==>
      f.exception.Some? && c == Clause(ExceptionIs(ids.exceptionId(f.exception.value).value), Must)
    ensures c in FilterClauses(f, ids) && c.query.MessagePhrase? <==>
      f.message.Some? && c == Clause(MessagePhrase(f.message.value), Must)
    ensures c in FilterClauses(f, ids) && !c.query.LevelIs? ==> c.occur == Must
  {
    LevelClausesOnLevels(f.logLevels, AllLevels());
  }

  // ----- grouping the hits by file -----

  /** A hit as the stored fields of its document give it. */
  datatype ScoreDoc = ScoreDoc(doc: int, fileIndex: int, logEntryID: int)

  /** What `getResultsFromSearch` reads from the log file for a hit: its level and date. */
  datatype EntryReads = EntryReads(fileName: int -> string, level: (string, int) -> LogLevel, date: (string, int) -> int)

  function HitOf(h: ScoreDoc, source: EntryReads): Hit<LogLevel>
  {
    var name := source.fileName(h.fileIndex);
    Hit(h.logEntryID, source.level(name, h.logEntryID), source.date(name, h.logEntryID))
  }

  /** The hits of file `file`, in the order of the search. */
  function HitsOfFile(hits: seq<ScoreDoc>, file: int, source: EntryReads): seq<Hit<LogLevel>>
  {
    if hits == [] then []
    else
      var before := HitsOfFile(hits[..|hits| - 1], file, source);
      var h := hits[|hits| - 1];
      if h.fileIndex == file then before + [HitOf(h, source)] else before
  }

  function FilesOf(hits: seq<ScoreDoc>): set<int>
  {
    set h | h in hits :: h.fileIndex
  }

  /**
   * The entries summarise the hits of `prefix`: one entry per file among
   * them, named after the file, holding that file's hits; no two files share
   * an entry.
   */
  ghost predicate Grouped(logFiles: map<int, SearchEntry<LogLevel>>, prefix: seq<ScoreDoc>, source: EntryReads)
    reads logFiles.Values
  {
    Keyed(logFiles, prefix) && Summarised(logFiles, prefix, source)
  }

  /** One entry per file among the hits, none shared by two files. */
  ghost predicate Keyed(logFiles: map<int, SearchEntry<LogLevel>>, prefix: seq<ScoreDoc>)
  {
    && logFiles.Keys == FilesOf(prefix)
    && (forall f, g :: f in logFiles && g in logFiles && f != g ==> logFiles[f] != logFiles[g])
  }

  /** Each entry is named after its file and holds that file's hits. */
  ghost predicate Summarised(logFiles: map<int, SearchEntry<LogLevel>>, prefix: seq<ScoreDoc>, source: EntryReads)
    reads logFiles.Values
  {
    forall f :: f in logFiles ==> Summarises(logFiles[f], f, prefix, source)
  }

  ghost predicate Summarises(e: SearchEntry<LogLevel>, f: int, prefix: seq<ScoreDoc>, source: EntryReads)
    reads e
  {
    e.Valid() && e.filename == source.fileName(f) && e.hits == HitsOfFile(prefix, f, source)
  }

  /**
   * `getResultsFromSearch`: one `SearchEntry` per file among the hits
   * (`putIfAbsent`), to which each hit is added in turn. The entries are
   * returned by file id; the order of `HashMap.values()` is not modelled.
   */
  method GetResultsFromSearch(hits: seq<ScoreDoc>, source: EntryReads) returns (logFiles: map<int, SearchEntry<LogLevel>>)
    ensures Grouped(logFiles, hits, source)
    ensures forall f :: f in logFiles ==> fresh(logFiles[f])
  {
    logFiles := map[];
    var i := 0;
    while i < |hits|
      invariant i <= |hits|
      invariant Grouped(logFiles, hits[..i], source)
      invariant forall e :: e in logFiles.Values ==> fresh(e)
    {
      logFiles := AddHit(logFiles, hits, i, source);
      i := i + 1;
    }
    assert hits[..i] == hits;
    forall f | f in logFiles
      ensures fresh(logFiles[f])
    {
      assert logFiles[f] in logFiles.Values;
    }
  }

  /** One turn of the loop of `getResultsFromSearch`: the hit at `i` goes to its file's entry. */
  method AddHit(logFiles: map<int, SearchEntry<LogLevel>>, hits: seq<ScoreDoc>, i: nat, source: EntryReads)
    returns (next: map<int, SearchEntry<LogLevel>>)
    requires i < |hits| && Grouped(logFiles, hits[..i], source)
    modifies logFiles.Values
    ensures Grouped(next, hits[..i + 1], source)
    ensures forall e :: e in next.Values ==> e in logFiles.Values || fresh(e)
  {
    var fileID := hits[i].fileIndex;
    FilesStep(hits, i);
    var entry;
    next, entry := EntryFor(logFiles, hits[..i], fileID, source);
    AddToEntry(next, entry, hits, i, source);
  }

  /** `logFiles.get(fileID).addLogEntry(…)` with the level and date read for the hit at `i`. */
  method AddToEntry(logFiles: map<int, SearchEntry<LogLevel>>, entry: SearchEntry<LogLevel>, hits: seq<ScoreDoc>, i: nat, source: EntryReads)
    requires i < |hits| && hits[i].fileIndex in logFiles && logFiles[hits[i].fileIndex] == entry
    requires forall f :: f in logFiles && f != hits[i].fileIndex ==> logFiles[f] != entry
    requires Summarised(logFiles, hits[..i], source)
    modifies entry
    ensures Summarised(logFiles, hits[..i + 1], source)
  {
    var hit := hits[i];
    var fileName := source.fileName(hit.fileIndex);
    var logEntryTime := source.date(fileName, hit.logEntryID);
    var logLevel := source.level(fileName, hit.logEntryID);
    assert Summarises(entry, hit.fileIndex, hits[..i], source);
    entry.AddLogEntry(hit.logEntryID, logLevel, logEntryTime);
    forall f | f in logFiles
      ensures Summarises(logFiles[f], f, hits[..i + 1], source)
    {
      HitsOfFileStep(hits, i, f, source);
    }
  }

  /** `logFiles.putIfAbsent(fileID, new SearchEntry(fileName))`, then `logFiles.get(fileID)`. */
  method EntryFor(logFiles: map<int, SearchEntry<LogLevel>>, prefix: seq<ScoreDoc>, fileID: int, source: EntryReads)
    returns (next: map<int, SearchEntry<LogLevel>>, entry: SearchEntry<LogLevel>)
    requires Grouped(logFiles, prefix, source)
    ensures next.Keys == logFiles.Keys + {fileID} && next[fileID] == entry
    ensures forall f, g :: f in next && g in next && f != g ==> next[f] != next[g]
    ensures Summarises(entry, fileID, prefix, source) && Summarised(next, prefix, source)
    ensures forall f :: f in next && f != fileID ==> f in logFiles && next[f] == logFiles[f] && next[f] != entry
    ensures fileID in logFiles ==> next == logFiles
    ensures fileID !in logFiles ==> fresh(entry)
    ensures forall e :: e in next.Values ==> e in logFiles.Values || fresh(e)
  {
    if fileID in logFiles {
      next, entry := logFiles, logFiles[fileID];
      assert entry in logFiles.Values;
    } else {
      entry := new SearchEntry(source.fileName(fileID));
      next := logFiles[fileID := entry];
      NoHitsOfOtherFile(prefix, fileID, source);
    }
  }

  lemma FilesStep(hits: seq<ScoreDoc>, i: nat)
    requires i < |hits|
    ensures FilesOf(hits[..i + 1]) == FilesOf(hits[..i]) + {hits[i].fileIndex}
  {
    assert hits[..i + 1] == hits[..i] + [hits[i]];
  }

  /** Adding the hit at `i` extends the hits of its own file and of no other. */
  lemma HitsOfFileStep(hits: seq<ScoreDoc>, i: nat, f: int, source: EntryReads)
    requires i < |hits|
    ensures HitsOfFile(hits[..i + 1], f, source) ==
      if f == hits[i].fileIndex then HitsOfFile(hits[..i], f, source) + [HitOf(hits[i], source)]
      else HitsOfFile(hits[..i], f, source)
  {
    assert hits[..i + 1][..i] == hits[..i];
  }

  /** A file with no hit among `hits` has no hits to show. */
  lemma {:induction false} NoHitsOfOtherFile(hits: seq<ScoreDoc>, file: int, source: EntryReads)
    requires file !in FilesOf(hits)
    ensures HitsOfFile(hits, file, source) == []
  {
    if hits != [] {
      var init := hits[..|hits| - 1];
      assert FilesOf(init) <= FilesOf(hits);
      NoHitsOfOtherFile(init, file, source);
    }
  }

  /** The positions in the search result of the hits of `file`. */
  function HitIndices(hits: seq<ScoreDoc>, file: int): set<int>
  {
    set k | 0 <= k < |hits| && hits[k].fileIndex == file
  }

  lemma HitIndicesStep(hits: seq<ScoreDoc>, file: int)
    requires hits != []
    ensures HitIndices(hits, file) == HitIndices(hits[..|hits| - 1], file)
      + (if hits[|hits| - 1].fileIndex == file then {|hits| - 1} else {})
  {
  }

  /**
   * A file's entry holds one hit for each position of the search result that
   * belongs to the file, and a file has an entry exactly when some hit
   * belongs to it.
   */
  lemma {:induction false} HitsPartitioned(hits: seq<ScoreDoc>, file: int, source: EntryReads)
    ensures |HitsOfFile(hits, file, source)| == |HitIndices(hits, file)|
    ensures file in FilesOf(hits) <==> HitsOfFile(hits, file, source) != []
  {
    if hits != [] {
      var n := |hits| - 1;
      HitsPartitioned(hits[..n], file, source);
      HitIndicesStep(hits, file);
      assert n !in HitIndices(hits[..n], file);
      FilesStep(hits, n);
      assert hits[..n + 1] == hits;
    }
  }

  // ----- the paginated search -----

  /** `getEntryIDsFromResult`: the stored `logEntryID` of each hit, in order. */
  method GetEntryIdsFromResult(hits: seq<ScoreDoc>) returns (ids: seq<int>)
    ensures |ids| == |hits|
    ensures forall k :: 0 <= k < |hits| ==> ids[k] == hits[k].logEntryID
  {
    ids := [];
    var i := 0;
    while i < |hits|
      invariant i <= |hits| && |ids| == i
      invariant forall k :: 0 <= k < i ==> ids[k] == hits[k].logEntryID
    {
      ids := ids + [hits[i].logEntryID];
      i := i + 1;
    }
  }

  /** The cursor for the next page: null for an empty page, else the page's last hit. */
  function LastHit(hits: seq<ScoreDoc>): Option<ScoreDoc>
  {
    if |hits| == 0 then None else Some(hits[|hits| - 1])
  }

  /**
   * What `searchForLogEntryIDsWithPagination` returns for the page of hits
   * Lucene found: the ids, and the cursor from which the next page starts.
   */
  method PageOf(hits: seq<ScoreDoc>) returns (ids: seq<int>, lastHit: Option<ScoreDoc>)
    ensures |ids| == |hits| && lastHit == LastHit(hits)
    ensures forall k :: 0 <= k < |hits| ==> ids[k] == hits[k].logEntryID
    ensures lastHit.None? <==> ids == []
    ensures lastHit.Some? ==> lastHit.value.logEntryID == ids[|ids| - 1]
  {
    ids := GetEntryIdsFromResult(hits);
    lastHit := if |hits| == 0 then None else Some(hits[|hits| - 1]);
  }
}

=== FILE: search_entry.dfy ===
/**
 * `SearchEntry`, the per-file summary of a search result, in its two
 * versions: `luceneSearch/data/SearchEntry` keeps `LogLevel`s and
 * `data/search/SearchEntry` keeps level strings. Both collect the ids of the
 * hits in order, the levels seen (each once, in first-seen order) and the
 * earliest and latest date.
 */
module SearchEntries {
  import opened JavaNum
  import opened Sequences
  import opened LogEntries
  import opened LogPackageReader

  /** One call of `addLogEntry`: the entry id, its level and its date. */
  datatype Hit<L> = Hit(entryID: int, level: L, date: int)

  function Ids<L>(hits: seq<Hit<L>>): seq<int>
  {
    seq(|hits|, k requires 0 <= k < |hits| => hits[k].entryID)
  }

  function LevelsSeen<L>(hits: seq<Hit<L>>): seq<L>
  {
    seq(|hits|, k requires 0 <= k < |hits| => hits[k].level)
  }

  /** `firstDate` after the hits were added: `Long.MAX_VALUE`, lowered by each smaller date. */
  function FirstDate<L>(hits: seq<Hit<L>>): int
  {
    if hits == [] then LONG_MAX
    else
      var f := FirstDate(hits[..|hits| - 1]);
      if hits[|hits| - 1].date < f then hits[|hits| - 1].date else f
  }

  /** `lastDate` after the hits were added: 0, raised by each larger date. */
  function LastDate<L>(hits: seq<Hit<L>>): int
  {
    if hits == [] then 0
    else
      var l := LastDate(hits[..|hits| - 1]);
      if hits[|hits| - 1].date > l then hits[|hits| - 1].date else l
  }

  class SearchEntry<L(==)> {
    var filename: string
    var firstDate: int
    var lastDate: int
    var logEntryIDs: seq<int>
    var logLevels: seq<L>
    /** The calls of `addLogEntry` so far. */
    ghost var hits: seq<Hit<L>>

    /** The fields summarise the hits added so far. */
    ghost predicate Valid()
      reads this
    {
      && logEntryIDs == Ids(hits)
      && logLevels == Dedup(LevelsSeen(hits))
      && firstDate == FirstDate(hits)
      && lastDate == LastDate(hits)
    }

    /** `new SearchEntry(filename)`: no hits, `firstDate = Long.MAX_VALUE`, `lastDate = 0`. */
    constructor (filename: string)
      ensures Valid() && hits == []
      ensures this.filename == filename && firstDate == LONG_MAX && lastDate == 0
      ensures logEntryIDs == [] && logLevels == []
    {
      this.filename := filename;
      firstDate := LONG_MAX;
      lastDate := 0;
      logEntryIDs := [];
      logLevels := [];
      hits := [];
    }

    method AddLogEntry(entryID: int, level: L, date: int)
      requires Valid()
      modifies this
      ensures Valid() && hits == old(hits) + [Hit(entryID, level, date)]
      ensures filename == old(filename)
      ensures logEntryIDs == old(logEntryIDs) + [entryID]
      ensures logLevels == if level in old(logLevels) then old(logLevels) else old(logLevels) + [level]
      ensures firstDate == (if date < old(firstDate) then date else old(firstDate))
      ensures lastDate == (if date > old(lastDate) then date else old(lastDate))
    {
      hits := hits + [Hit(entryID, level, date)];
      assert hits[..|hits| - 1] == old(hits);
      assert Ids(hits) == Ids(old(hits)) + [entryID];
      assert LevelsSeen(hits) == LevelsSeen(old(hits)) + [level];
      assert LevelsSeen(hits)[..|hits| - 1] == LevelsSeen(old(hits));
      logEntryIDs := logEntryIDs + [entryID];
      if level !in logLevels {
        logLevels := logLevels + [level];
      }
      if date < firstDate {
        firstDate := date;
      }
      if date > lastDate {
        lastDate := date;
      }
    }
  }

  /** `data/search/SearchEntry.addLogEntry`: the id, level string and time of a parsed entry. */
  method AddTextEntry(s: SearchEntry<string>, e: Located)
    requires s.Valid()
    modifies s
    ensures s.Valid() && s.hits == old(s.hits) + [Hit(e.id, e.entry.level, e.entry.time)]
    ensures s.filename == old(s.filename)
  {
    s.AddLogEntry(e.id, e.entry.level, e.entry.time);
  }

  // ----- what the summary states about the hits -----

  /** The levels are the levels of the hits, each once, in first-seen order. */
  lemma LevelsOnce<L>(hits: seq<Hit<L>>)
    ensures Distinct(Dedup(LevelsSeen(hits)))
    ensures forall x :: x in Dedup(LevelsSeen(hits)) <==> exists k :: 0 <= k < |hits| && hits[k].level == x
  {
    DedupDistinct(LevelsSeen(hits));
    DedupElements(LevelsSeen(hits));
    forall x
      ensures x in LevelsSeen(hits) <==> exists k :: 0 <= k < |hits| && hits[k].level == x
    {
      if x in LevelsSeen(hits) {
        var k :| 0 <= k < |hits| && LevelsSeen(hits)[k] == x;
        assert hits[k].level == x;
      }
      if exists k :: 0 <= k < |hits| && hits[k].level == x {
        var k :| 0 <= k < |hits| && hits[k].level == x;
        assert LevelsSeen(hits)[k] == x;
      }
    }
  }

  /** `firstDate` is the least of `Long.MAX_VALUE` and the dates. */
  lemma {:induction false} FirstDateIsMinimum<L>(hits: seq<Hit<L>>)
    ensures FirstDate(hits) <= LONG_MAX
    ensures forall k :: 0 <= k < |hits| ==> FirstDate(hits) <= hits[k].date
    ensures FirstDate(hits) == LONG_MAX || exists k :: 0 <= k < |hits| && hits[k].date == FirstDate(hits)
  {
    if hits != [] {
      var init := hits[..|hits| - 1];
      FirstDateIsMinimum(init);
      forall k | 0 <= k < |hits| - 1
        ensures FirstDate(hits) <= hits[k].date
      {
        assert hits[k] == init[k];
      }
      if FirstDate(hits) != LONG_MAX && FirstDate(hits) != hits[|hits| - 1].date {
        var k :| 0 <= k < |init| && init[k].date == FirstDate(init);
        assert hits[k] == init[k];
      }
    }
  }

  /** `lastDate` is the greatest of 0 and the dates. */
  lemma {:induction false} LastDateIsMaximum<L>(hits: seq<Hit<L>>)
    ensures LastDate(hits) >= 0
    ensures forall k :: 0 <= k < |hits| ==> LastDate(hits) >= hits[k].date
    ensures LastDate(hits) == 0 || exists k :: 0 <= k < |hits| && hits[k].date == LastDate(hits)
  {
    if hits != [] {
      var init := hits[..|hits| - 1];
      LastDateIsMaximum(init);
      forall k | 0 <= k < |hits| - 1
        ensures LastDate(hits) >= hits[k].date
      {
        assert hits[k] == init[k];
      }
      if LastDate(hits) != 0 && LastDate(hits) != hits[|hits| - 1].date {
        var k :| 0 <= k < |init| && init[k].date == LastDate(init);
        assert hits[k] == init[k];
      }
    }
  }

  /** Once a hit with a date in [0, Long.MAX_VALUE] was added, `firstDate <= lastDate`. */
  lemma DatesOrdered<L>(hits: seq<Hit<L>>)
    requires hits != []
    requires forall k :: 0 <= k < |hits| ==> 0 <= hits[k].date <= LONG_MAX
    ensures FirstDate(hits) <= LastDate(hits)
  {
    FirstDateIsMinimum(hits);
    LastDateIsMaximum(hits);
    assert FirstDate(hits) <= hits[0].date <= LastDate(hits);
  }
}

=== FILE: search_page.dfy ===
/**
 * The search page script: the filter object posted to the search endpoints,
 * the two date formats of the result lists, the level badges of a matching
 * log file and the rows of the entry table.  The fetches, jQuery and the
 * DataTables widget are not modelled; what they return is a parameter.
 */
module SearchPage {
  import opened Wrappers
  import opened JavaNum
  import opened DateValidation

  // ----- sequences built element by element -----

  /** `f` applied to each element of `data`. */
  function Mapped<T, U>(data: seq<T>, f: T -> U): (r: seq<U>)
    ensures |r| == |data|
  {
    seq(|data|, k requires 0 <= k < |data| => f(data[k]))
  }

  /** `f` applied to each element of `data` and its position. */
  function Numbered<T, U>(data: seq<T>, f: (nat, T) -> U): (r: seq<U>)
    ensures |r| == |data|
  {
    seq(|data|, k requires 0 <= k < |data| => f(k, data[k]))
  }

  /** One more element adds its image at the end. */
  lemma MappedSnoc<T, U>(data: seq<T>, f: T -> U, num: nat)
    requires num < |data|
    ensures Mapped(data[..num + 1], f) == Mapped(data[..num], f) + [f(data[num])]
  {
    var longer, shorter := Mapped(data[..num + 1], f), Mapped(data[..num], f);
    forall i | 0 <= i < num
      ensures longer[i] == shorter[i]
    {
      assert data[..num + 1][i] == data[..num][i];
    }
  }

  /** One more element adds its image at the end. */
  lemma NumberedSnoc<T, U>(data: seq<T>, f: (nat, T) -> U, num: nat)
    requires num < |data|
    ensures Numbered(data[..num + 1], f) == Numbered(data[..num], f) + [f(num, data[num])]
  {
    var longer, shorter := Numbered(data[..num + 1], f), Numbered(data[..num], f);
    forall i | 0 <= i < num
      ensures longer[i] == shorter[i]
    {
      assert data[..num + 1][i] == data[..num][i];
    }
  }

  // ----- the filter object -----

  /**
   * The body of a search request.  A date is the number `getTime()` gave
   * (`None` for the NaN of an invalid date); `None` elsewhere is `null`.
   */
  datatype FilterData = FilterData(
    beginDate: Option<int>,
    endDate: Option<int>,
    logLevels: seq<string>,
    moduleName: Option<string>,
    className: Option<string>,
    exception: Option<string>)

  /**
   * `createFilterData(startDate, endDate, logLevel, module, className, exception)`:
   * an omitted level list (`None`) defaults to the empty array, the other
   * omitted arguments to `null` (both `None` here).
   */
  function CreateFilterData(startDate: Option<int>, endDate: Option<int>, logLevel: Option<seq<string>>,
                            moduleName: Option<string>, className: Option<string>, exception: Option<string>): (r: FilterData)
    ensures r.beginDate == startDate && r.endDate == endDate
    ensures logLevel.Some? ==> r.logLevels == logLevel.value
    ensures logLevel.None? ==> r.logLevels == []
    ensures r.moduleName == moduleName && r.className == className && r.exception == exception
  {
    FilterData(startDate, endDate, if logLevel.Some? then logLevel.value else [], moduleName, className, exception)
  }

  /** `date.getTime()`: the time value, NaN (`None`) for an invalid date. */
  function GetTime(d: JsDate): Option<int>
  {
    match d
    case Invalid => None
    case Time(ms) => Some(ms)
  }

  /** One of the `.logLevelCheckbox` inputs: its `checked` state and its `value`. */
  datatype LevelBox = LevelBox(checked: bool, value: string)

  /** The values of the checked boxes, in document order. */
  function CheckedLevels(boxes: seq<LevelBox>): (r: seq<string>)
    ensures |r| <= |boxes|
  {
    if boxes == [] then []
    else
      var front := CheckedLevels(boxes[..|boxes| - 1]);
      if boxes[|boxes| - 1].checked then front + [boxes[|boxes| - 1].value] else front
  }

  /** A level is in the filter exactly when a checked box carries it. */
  lemma {:induction false} CheckedLevelsMembers(boxes: seq<LevelBox>, v: string)
    ensures v in CheckedLevels(boxes) <==> LevelBox(true, v) in boxes
  {
    if boxes != [] {
      var front := boxes[..|boxes| - 1];
      assert boxes == front + [boxes[|boxes| - 1]];
      CheckedLevelsMembers(front, v);
    }
  }

  /** The values of all the boxes, in document order. */
  function BoxValues(boxes: seq<LevelBox>): (r: seq<string>)
    ensures |r| == |boxes|
  {
    seq(|boxes|, i requires 0 <= i < |boxes| => boxes[i].value)
  }

  /** With every box checked the filter names every level, in order; with none checked, no level. */
  lemma {:induction false} CheckedLevelsExtremes(boxes: seq<LevelBox>)
    ensures (forall i :: 0 <= i < |boxes| ==> boxes[i].checked) ==> CheckedLevels(boxes) == BoxValues(boxes)
    ensures (forall i :: 0 <= i < |boxes| ==> !boxes[i].checked) ==> CheckedLevels(boxes) == []
  {
    if boxes != [] {
      var front := boxes[..|boxes| - 1];
      CheckedLevelsExtremes(front);
      assert BoxValues(boxes) == BoxValues(front) + [boxes[|boxes| - 1].value];
    }
  }

  // ----- date formatting -----

  /** `("0" + n).slice(-2)`: the last two characters of `n` written after a zero. */
  function PadTwo(n: int): (r: string)
    ensures |r| == 2
  {
    var s := "0" + IntToDecimal(n);
    s[|s| - 2..]
  }

  /** For 0..99 the padded text is exactly two digits that read back as `n`. */
  lemma PadTwoReadsBack(n: int)
    requires 0 <= n <= 99
    ensures AllDigits(PadTwo(n)) && DigitsValue(PadTwo(n)) == n
  {
    DigitsOfDecimal(n);
    var d := NatToDecimal(n);
    if n >= 10 {
      assert d == NatToDecimal(n / 10) + [DigitChar(n % 10)];
      assert PadTwo(n) == d;
    } else {
      assert PadTwo(n) == "0" + d;
      assert PadTwo(n)[..1] == "0";
    }
  }

  /** `w` digits at `i..i+w` of `r` that read as `v`. */
  predicate DigitsAt(r: string, i: nat, w: nat, v: int)
  {
    i + w <= |r| && AllDigits(r[i..i + w]) && DigitsValue(r[i..i + w]) == v
  }

  /** The fields of a date whose year has four digits. */
  predicate FourDigitYear(f: Fields)
  {
    1000 <= f.year <= 9999 && 0 <= f.month <= 11 && 1 <= f.day <= 31
    && 0 <= f.hours <= 23 && 0 <= f.minutes <= 59 && 0 <= f.seconds <= 59
  }

  /** A year of 1000..9999 is written with four digits that read back as the year. */
  lemma YearDigits(y: int)
    requires 1000 <= y <= 9999
    ensures |IntToDecimal(y)| == 4 && AllDigits(IntToDecimal(y)) && DigitsValue(IntToDecimal(y)) == y
  {
    DigitsOfDecimal(y);
    assert |NatToDecimal(y / 1000)| == 1;
    assert |NatToDecimal(y / 100)| == |NatToDecimal(y / 1000)| + 1 by {
      assert (y / 100) / 10 == y / 1000;
    }
    assert |NatToDecimal(y / 10)| == |NatToDecimal(y / 100)| + 1 by {
      assert (y / 10) / 10 == y / 100;
    }
  }

  /** The time part `HH:mm:ss` that both formats end with. */
  function Clock(f: Fields): string
  {
    PadTwo(f.hours) + ":" + PadTwo(f.minutes) + ":" + PadTwo(f.seconds)
  }

  /**
   * `formatDate(date)` over the UTC fields of the date:
   * `DD.MM.YYYY HH:mm:ss`, the month counted from 1.
   */
  function FormatDate(f: Fields): string
  {
    PadTwo(f.day) + "." + PadTwo(f.month + 1) + "." + IntToDecimal(f.year) + " " + Clock(f)
  }

  /**
   * `formatDate2(date)` over the local fields of the date:
   * `YYYY.MM.DD HH:mm:ss`, the month counted from 1.
   */
  function FormatDate2(f: Fields): string
  {
    IntToDecimal(f.year) + "." + PadTwo(f.month + 1) + "." + PadTwo(f.day) + " " + Clock(f)
  }

  /** Where the pieces of `dd.mm.yyyy hh:mm:ss` sit. */
  lemma DayFirstLayout(d: string, m: string, y: string, h: string, mi: string, s: string, r: string)
    requires |d| == 2 && |m| == 2 && |y| == 4 && |h| == 2 && |mi| == 2 && |s| == 2
    requires r == d + "." + m + "." + y + " " + (h + ":" + mi + ":" + s)
    ensures |r| == 19 && r[2] == '.' && r[5] == '.' && r[10] == ' ' && r[13] == ':' && r[16] == ':'
    ensures r[0..2] == d && r[3..5] == m && r[6..10] == y && r[11..13] == h && r[14..16] == mi && r[17..19] == s
  {
  }

  /** Where the pieces of `yyyy.mm.dd hh:mm:ss` sit. */
  lemma YearFirstLayout(y: string, m: string, d: string, h: string, mi: string, s: string, r: string)
    requires |y| == 4 && |m| == 2 && |d| == 2 && |h| == 2 && |mi| == 2 && |s| == 2
    requires r == y + "." + m + "." + d + " " + (h + ":" + mi + ":" + s)
    ensures |r| == 19 && r[4] == '.' && r[7] == '.' && r[10] == ' ' && r[13] == ':' && r[16] == ':'
    ensures r[0..4] == y && r[5..7] == m && r[8..10] == d && r[11..13] == h && r[14..16] == mi && r[17..19] == s
  {
  }

  /** The six fields of a date written with two digits each that read back, the year with four. */
  lemma FieldDigits(f: Fields)
    requires FourDigitYear(f)
    ensures |IntToDecimal(f.year)| == 4 && AllDigits(IntToDecimal(f.year)) && DigitsValue(IntToDecimal(f.year)) == f.year
    ensures AllDigits(PadTwo(f.month + 1)) && DigitsValue(PadTwo(f.month + 1)) == f.month + 1
    ensures AllDigits(PadTwo(f.day)) && DigitsValue(PadTwo(f.day)) == f.day
    ensures AllDigits(PadTwo(f.hours)) && DigitsValue(PadTwo(f.hours)) == f.hours
    ensures AllDigits(PadTwo(f.minutes)) && DigitsValue(PadTwo(f.minutes)) == f.minutes
    ensures AllDigits(PadTwo(f.seconds)) && DigitsValue(PadTwo(f.seconds)) == f.seconds
  {
    YearDigits(f.year);
    PadTwoReadsBack(f.month + 1);
    PadTwoReadsBack(f.day);
    PadTwoReadsBack(f.hours);
    PadTwoReadsBack(f.minutes);
    PadTwoReadsBack(f.seconds);
  }

  /**
   * For a four-digit year `formatDate` is 19 characters `DD.MM.YYYY HH:mm:ss`
   * whose fields read back as the date's day, month (from 1), year, hours,
   * minutes and seconds.
   */
  lemma FormatDateReadsBack(f: Fields)
    requires FourDigitYear(f)
    ensures var r := FormatDate(f);
      |r| == 19 && r[2] == '.' && r[5] == '.' && r[10] == ' ' && r[13] == ':' && r[16] == ':'
      && DigitsAt(r, 0, 2, f.day) && DigitsAt(r, 3, 2, f.month + 1) && DigitsAt(r, 6, 4, f.year)
      && DigitsAt(r, 11, 2, f.hours) && DigitsAt(r, 14, 2, f.minutes) && DigitsAt(r, 17, 2, f.seconds)
  {
    FieldDigits(f);
    DayFirstLayout(PadTwo(f.day), PadTwo(f.month + 1), IntToDecimal(f.year),
                   PadTwo(f.hours), PadTwo(f.minutes), PadTwo(f.seconds), FormatDate(f));
  }

  /**
   * For a four-digit year `formatDate2` is 19 characters `YYYY.MM.DD HH:mm:ss`
   * (the date part separated by '.', not ':' as its doc comment has it)
   * whose fields read back as the date's year, month (from 1), day, hours,
   * minutes and seconds.
   */
  lemma FormatDate2ReadsBack(f: Fields)
    requires FourDigitYear(f)
    ensures var r := FormatDate2(f);
      |r| == 19 && r[4] == '.' && r[7] == '.' && r[10] == ' ' && r[13] == ':' && r[16] == ':'
      && DigitsAt(r, 0, 4, f.year) && DigitsAt(r, 5, 2, f.month + 1) && DigitsAt(r, 8, 2, f.day)
      && DigitsAt(r, 11, 2, f.hours) && DigitsAt(r, 14, 2, f.minutes) && DigitsAt(r, 17, 2, f.seconds)
  {
    FieldDigits(f);
    YearFirstLayout(IntToDecimal(f.year), PadTwo(f.month + 1), PadTwo(f.day),
                    PadTwo(f.hours), PadTwo(f.minutes), PadTwo(f.seconds), FormatDate2(f));
  }

  // ----- level badges -----

  /** The order of `Array.prototype.sort()` without a comparator: strings compared character by character, a prefix first. */
  predicate StringLe(a: string, b: string)
  {
    a == [] || (b != [] && (a[0] < b[0] || (a[0] == b[0] && StringLe(a[1..], b[1..]))))
  }

  lemma {:induction false} StringLeTotal(a: string, b: string)
    ensures StringLe(a, b) || StringLe(b, a)
  {
    if a != [] && b != [] && a[0] == b[0] {
      StringLeTotal(a[1..], b[1..]);
    }
  }

  predicate SortedLevels(s: seq<string>)
  {
    forall i :: 0 < i < |s| ==> StringLe(s[i - 1], s[i])
  }

  /** `x` put into the sorted `s` before the first element it does not follow. */
  function InsertLevel(x: string, s: seq<string>): (r: seq<string>)
    requires SortedLevels(s)
    ensures SortedLevels(r) && multiset(r) == multiset(s) + multiset{x}
    ensures |r| == |s| + 1 && (r[0] == x || (s != [] && r[0] == s[0]))
  {
    if s == [] || StringLe(x, s[0]) then [x] + s
    else
      StringLeTotal(x, s[0]);
      assert s == [s[0]] + s[1..];
      [s[0]] + InsertLevel(x, s[1..])
  }

  /** `levels.sort()`: the levels in ascending string order. */
  function SortLevels(levels: seq<string>): (r: seq<string>)
    ensures SortedLevels(r) && multiset(r) == multiset(levels)
  {
    if levels == [] then []
    else
      assert levels == [levels[0]] + levels[1..];
      InsertLevel(levels[0], SortLevels(levels[1..]))
  }

  /** `levelColor[level]`: the colour of one of the six levels, `undefined` for any other text. */
  function LevelColor(level: string): Option<string>
  {
    if level == "INFO" then Some("#36c590")
    else if level == "DEBUG" then Some("#5188ca")
    else if level == "WARN" then Some("#fbf571")
    else if level == "ERROR" then Some("#ff7168")
    else if level == "TRACE" then Some("#ffa566")
    else if level == "FATAL" then Some("#c978b8")
    else None
  }

  /** `s.charAt(0)`: the first character, the empty text for the empty text. */
  function FirstLetter(s: string): string
  {
    if s == [] then [] else [s[0]]
  }

  /** A badge: its background colour and its letter. */
  datatype Badge = Badge(color: Option<string>, letter: string)

  function BadgeOf(level: string): Badge
  {
    Badge(LevelColor(level), FirstLetter(level))
  }

  lemma FirstLetterOrder(a: string, b: string)
    requires StringLe(a, b)
    ensures StringLe(FirstLetter(a), FirstLetter(b))
  {
    if a != [] {
      assert FirstLetter(a)[1..] == [];
    }
  }

  /** The badges of one log file: a badge per level, in the order of the sorted levels. */
  function Badges(levels: seq<string>): (r: seq<Badge>)
    ensures |r| == |levels|
  {
    var s := SortLevels(levels);
    assert |s| == |multiset(s)| == |levels|;
    Mapped(s, BadgeOf)
  }

  /**
   * A file gets exactly the badges of its levels: each badge is the colour
   * and first letter of one of the levels, each level has its badge, and the
   * letters ascend.
   */
  lemma BadgesOfLevels(levels: seq<string>)
    ensures var r := Badges(levels);
      (forall i :: 0 < i < |r| ==> StringLe(r[i - 1].letter, r[i].letter))
      && (forall i :: 0 <= i < |r| ==> exists j :: 0 <= j < |levels| && r[i] == BadgeOf(levels[j]))
      && (forall j :: 0 <= j < |levels| ==> BadgeOf(levels[j]) in r)
  {
    var s := SortLevels(levels);
    var r := Badges(levels);
    assert |s| == |multiset(s)| == |levels|;
    forall i | 0 < i < |r|
      ensures StringLe(r[i - 1].letter, r[i].letter)
    {
      assert r[i - 1] == BadgeOf(s[i - 1]) && r[i] == BadgeOf(s[i]);
      FirstLetterOrder(s[i - 1], s[i]);
    }
    forall i | 0 <= i < |r|
      ensures exists j :: 0 <= j < |levels| && r[i] == BadgeOf(levels[j])
    {
      assert r[i] == BadgeOf(s[i]);
      assert s[i] in multiset(levels);
      var j :| 0 <= j < |levels| && levels[j] == s[i];
      assert r[i] == BadgeOf(levels[j]);
    }
    forall j | 0 <= j < |levels|
      ensures BadgeOf(levels[j]) in r
    {
      assert levels[j] in multiset(s);
      var i :| 0 <= i < |s| && s[i] == levels[j];
      assert r[i] == BadgeOf(levels[j]);
    }
  }

  // ----- the page -----

  /** One file of `searchForFiles`: its name, first and last entry time and its levels. */
  datatype LogFile = LogFile(filename: string, firstDate: int, lastDate: int, logLevels: seq<string>)

  /** The element `createLogFileElements` writes for a file: the period line, the name and the badges. */
  datatype FileElement = FileElement(period: string, filename: string, badges: seq<Badge>)

  /** One entry of `searchInFile`. */
  datatype EntryData = EntryData(time: int, logLevel: string, moduleName: string, className: string, entryID: int)

  /** A row of the entry table: its element id and its four cells. */
  datatype EntryRow = EntryRow(id: string, time: string, logLevel: string, moduleName: string, className: string)

  /** The element `createLogFileElements` writes for `file`, its dates in UTC. */
  function ElementOf(file: LogFile, utcFields: int -> Fields): FileElement
  {
    FileElement(FormatDate(utcFields(file.firstDate)) + " - " + FormatDate(utcFields(file.lastDate)),
                file.filename, Badges(file.logLevels))
  }

  /** The `k`-th row of the entry table, for `entry`, its time in local time. */
  function RowOf(k: nat, entry: EntryData, localFields: int -> Fields): EntryRow
  {
    EntryRow(RowId(k), FormatDate2(localFields(entry.time)), entry.logLevel, entry.moduleName, entry.className)
  }

  /** What `createLogFileElements` writes for `data`: an element per file, in data order. */
  function FileElements(data: seq<LogFile>, utcFields: int -> Fields): (r: seq<FileElement>)
    ensures |r| == |data|
  {
    Mapped(data, (file: LogFile) => ElementOf(file, utcFields))
  }

  /** The entry table `displayFileLogEntriesFast` fills for `data`: a row per entry, in data order. */
  function EntryRows(data: seq<EntryData>, localFields: int -> Fields): (r: seq<EntryRow>)
    ensures |r| == |data|
  {
    Numbered(data, (k: nat, entry: EntryData) => RowOf(k, entry, localFields))
  }

  /** The element id of the `k`-th row. */
  function RowId(k: nat): (r: string)
    ensures |r| > 8
  {
    "logEntry" + NatToDecimal(k)
  }

  /** Different rows have different element ids. */
  lemma RowIdsDistinct(i: nat, j: nat)
    requires i != j
    ensures RowId(i) != RowId(j)
  {
    if RowId(i) == RowId(j) {
      assert NatToDecimal(i) == RowId(i)[8..];
      assert NatToDecimal(j) == RowId(j)[8..];
      DigitsOfDecimal(i);
      DigitsOfDecimal(j);
      assert false;
    }
  }

  /** The id of a row names the row's position in the data. */
  lemma RowIdNamesPosition(k: nat)
    ensures AllDigits(RowId(k)[8..]) && DigitsValue(RowId(k)[8..]) == k
  {
    assert RowId(k)[8..] == NatToDecimal(k);
    DigitsOfDecimal(k);
  }

  /** The rows of a table carry different ids, each naming the row's position. */
  lemma EntryRowIds(data: seq<EntryData>, localFields: int -> Fields, i: nat, j: nat)
    requires i < |data| && j < |data| && i != j
    ensures EntryRows(data, localFields)[i].id != EntryRows(data, localFields)[j].id
    ensures DigitsValue(EntryRows(data, localFields)[i].id[8..]) == i
  {
    RowIdsDistinct(i, j);
    RowIdNamesPosition(i);
  }

  /** The script's global state on the search page. */
  class SearchForm {
    /** The global `filter`: `undefined` (`None`) until the first search. */
    var filter: Option<FilterData>
    /** The elements of `#logFileElementHolder`. */
    var fileElements: seq<FileElement>
    /** The rows of `#logEntryTable`. */
    var rows: seq<EntryRow>
    /** The text of `#logFileTitle`. */
    var title: string
    /** The text of `#floatingTextarea`. */
    var message: string
    /** The UTC and the local calendar fields of a time value. */
    const utcFields: int -> Fields
    const localFields: int -> Fields

    constructor(utcFields: int -> Fields, localFields: int -> Fields)
      ensures this.utcFields == utcFields && this.localFields == localFields
      ensures filter.None? && fileElements == [] && rows == [] && title == "" && message == ""
    {
      this.utcFields := utcFields;
      this.localFields := localFields;
      filter := None;
      fileElements := [];
      rows := [];
      title := "";
      message := "";
    }

    /**
     * `readyForSearch()` up to the search: `getTime()` on a missing start or
     * end date is a TypeError; otherwise the filter holds both times and the
     * checked levels in document order, and no module, class or exception
     * although the three list inputs are read.
     */
    method ReadyForSearch(trueStart: Option<JsDate>, trueEnd: Option<JsDate>, boxes: seq<LevelBox>,
                          moduleValue: string, classValue: string, exceptionValue: string)
      returns (thrown: Option<Fault>)
      modifies this`filter
      ensures thrown.Some? <==> trueStart.None? || trueEnd.None?
      ensures thrown.Some? ==> thrown == Some(TypeError) && filter == old(filter)
      ensures thrown.None? ==>
        filter == Some(CreateFilterData(GetTime(trueStart.value), GetTime(trueEnd.value),
                                        Some(CheckedLevels(boxes)), None, None, None))
    {
      if trueStart.None? || trueEnd.None? {
        return Some(TypeError);
      }
      var startDate := GetTime(trueStart.value);
      var endDate := GetTime(trueEnd.value);
      var logLevel: seq<string> := [];
      for i := 0 to |boxes|
        invariant logLevel == CheckedLevels(boxes[..i])
      {
        assert boxes[..i + 1][..i] == boxes[..i];
        if boxes[i].checked {
          logLevel := logLevel + [boxes[i].value];
        }
      }
      assert boxes[..|boxes|] == boxes;
      filter := Some(CreateFilterData(startDate, endDate, Some(logLevel), None, None, None));
      return None;
    }

    /**
     * `createLogFileElements(data)`: one element per file, in data order,
     * with the UTC period `first - last` and the file's level badges.
     */
    method CreateLogFileElements(data: seq<LogFile>)
      modifies this`fileElements
      ensures fileElements == FileElements(data, utcFields)
    {
      var elementOf := (file: LogFile) => ElementOf(file, utcFields);
      var elements: seq<FileElement> := [];
      for k := 0 to |data|
        invariant elements == Mapped(data[..k], elementOf)
      {
        var file := data[k];
        var sorted := SortLevels(file.logLevels);
        var badges: seq<Badge> := [];
        for j := 0 to |sorted|
          invariant badges == Mapped(sorted[..j], BadgeOf)
        {
          MappedSnoc(sorted, BadgeOf, j);
          badges := badges + [BadgeOf(sorted[j])];
        }
        assert sorted[..|sorted|] == sorted;
        var period := FormatDate(utcFields(file.firstDate)) + " - " + FormatDate(utcFields(file.lastDate));
        MappedSnoc(data, elementOf, k);
        elements := elements + [FileElement(period, file.filename, badges)];
      }
      assert data[..|data|] == data;
      fileElements := elements;
    }

    /**
     * `displayFileLogEntriesFast(filename)` once the entries of the file have
     * arrived: the title names the file, the message is cleared and the table
     * holds one row per entry, in data order, the `k`-th with the id
     * `logEntry<k>`, the local time, level, module and class of the entry.
     */
    method DisplayFileLogEntriesFast(filename: string, data: seq<EntryData>)
      modifies this`rows, this`title, this`message
      ensures message == "" && title == "Log file name: " + filename
      ensures rows == EntryRows(data, localFields)
    {
      message := "";
      title := "Log file name: " + filename;
      var rowOf := (k: nat, entry: EntryData) => RowOf(k, entry, localFields);
      rows := [];
      var num := 0;
      while num < |data|
        invariant 0 <= num <= |data|
        invariant message == "" && title == "Log file name: " + filename
        invariant rows == Numbered(data[..num], rowOf)
      {
        NumberedSnoc(data, rowOf, num);
        rows := rows + [RowOf(num, data[num], localFields)];
        num := num + 1;
      }
      assert data[..num] == data;
    }
  }
}

=== FILE: sequence.dfy ===
/**
 * `data/Sequence`: a counter handing out the numbers 0, 1, 2, ... one after
 * another. The counter is a Java `int`, so after `Integer.MAX_VALUE` the
 * increment wraps around to `Integer.MIN_VALUE`.
 */
module IdSequences {
  import opened JavaNum

  const INT_RANGE: int := 0x1_0000_0000

  /** The `int` a Java increment produces: the value modulo 2^32, in -2^31 .. 2^31 - 1. */
  function Wrap32(n: int): (r: int)
    ensures INT_MIN <= r <= INT_MAX
    ensures (r - n) % INT_RANGE == 0
  {
    (n - INT_MIN) % INT_RANGE + INT_MIN
  }

  /** A value already in range is its own wrap: the first `nextValue` returns 0, and up to `Integer.MAX_VALUE` the `k`-th returns `k`. */
  lemma Wrap32Id(n: int)
    requires INT_MIN <= n <= INT_MAX
    ensures Wrap32(n) == n
  {
    ModUnique(n - INT_MIN, INT_RANGE, 0, n - INT_MIN);
  }

  class Sequence {
    var sequentialNumber: int
    /** The values `nextValue` returned so far, in order. */
    ghost var handedOut: seq<int>

    /** The `k`-th value handed out is `k` wrapped to an `int`, and the counter holds the last one (-1 before the first). */
    ghost predicate Valid()
      reads this
    {
      && sequentialNumber == Wrap32(|handedOut| - 1)
      && forall k :: 0 <= k < |handedOut| ==> handedOut[k] == Wrap32(k)
    }

    /** `new Sequence()`: nothing handed out, the counter at -1. */
    constructor ()
      ensures Valid() && handedOut == [] && sequentialNumber == -1
    {
      sequentialNumber := -1;
      handedOut := [];
      Wrap32Id(-1);
    }

    /** `nextValue`: `++sequentialNumber`. */
    method NextValue() returns (v: int)
      requires Valid()
      modifies this
      ensures Valid() && handedOut == old(handedOut) + [v]
      ensures v == Wrap32(old(sequentialNumber) + 1) && sequentialNumber == v
    {
      ghost var n := |handedOut|;
      sequentialNumber := Wrap32(sequentialNumber + 1);
      v := sequentialNumber;
      handedOut := handedOut + [v];
      SuccessorWraps(n - 1);
    }

    /** `currentValue`: the last value handed out, -1 before the first; nothing changes. */
    method CurrentValue() returns (v: int)
      requires Valid()
      ensures v == (if handedOut == [] then -1 else handedOut[|handedOut| - 1])
    {
      v := sequentialNumber;
      if handedOut == [] {
        Wrap32Id(-1);
      }
    }
  }

  /** Incrementing the wrapped counter is wrapping the incremented count. */
  lemma SuccessorWraps(k: int)
    ensures Wrap32(Wrap32(k) + 1) == Wrap32(k + 1)
  {
    var w := Wrap32(k);
    var q := (k - INT_MIN) / INT_RANGE;
    assert w + 1 - INT_MIN == (k + 1 - INT_MIN) - INT_RANGE * q;
    var r := (k + 1 - INT_MIN) % INT_RANGE;
    var q1 := (k + 1 - INT_MIN) / INT_RANGE;
    ModUnique(w + 1 - INT_MIN, INT_RANGE, q1 - q, r);
  }

  /** Wrapping a count below 2^32: itself up to `Integer.MAX_VALUE`, then 2^32 less. */
  lemma WrapOfCount(k: int)
    requires 0 <= k < INT_RANGE
    ensures Wrap32(k) == if k <= INT_MAX then k else k - INT_RANGE
  {
    if k <= INT_MAX {
      ModUnique(k - INT_MIN, INT_RANGE, 0, k - INT_MIN);
    } else {
      ModUnique(k - INT_MIN, INT_RANGE, 1, k - INT_MIN - INT_RANGE);
    }
  }

  /**
   * The values never repeat within 2^32 calls, as the class promises; the
   * call after that returns the first value again.
   */
  lemma NeverRepeats(i: int, j: int)
    requires 0 <= i < j < INT_RANGE
    ensures Wrap32(i) != Wrap32(j)
    ensures Wrap32(i + INT_RANGE) == Wrap32(i)
  {
    WrapOfCount(i);
    WrapOfCount(j);
    var a := i - INT_MIN;
    ModUnique(a + INT_RANGE, INT_RANGE, a / INT_RANGE + 1, a % INT_RANGE);
  }
}

=== FILE: sequences.dfy ===
/** Sequence helpers shared by the collections of the model. */
module Sequences {

  predicate Distinct<T(==)>(s: seq<T>)
  {
    forall i, j :: 0 <= i < j < |s| ==> s[i] != s[j]
  }

  /**
   * Adding the elements of `s` one by one to an insertion-ordered set
   * (`LinkedHashSet.add`, or "append unless already contained"):
   * the first occurrence of each element, in order.
   */
  function Dedup<T(==)>(s: seq<T>): (r: seq<T>)
    ensures |r| <= |s|
  {
    if s == [] then []
    else
      var d := Dedup(s[..|s| - 1]);
      if s[|s| - 1] in d then d else d + [s[|s| - 1]]
  }

  lemma {:induction false} DedupElements<T>(s: seq<T>)
    ensures forall x :: x in Dedup(s) <==> x in s
  {
    if s != [] {
      DedupElements(s[..|s| - 1]);
      forall x | x in s
        ensures x in Dedup(s)
      {
        var i :| 0 <= i < |s| && s[i] == x;
        if i < |s| - 1 {
          assert x in s[..|s| - 1];
        }
      }
    }
  }

  lemma {:induction false} DedupDistinct<T>(s: seq<T>)
    ensures Distinct(Dedup(s))
  {
    if s != [] {
      DedupDistinct(s[..|s| - 1]);
    }
  }

  /** Adding elements that are all different keeps every one of them, in order. */
  lemma {:induction false} DedupOfDistinct<T>(s: seq<T>)
    requires Distinct(s)
    ensures Dedup(s) == s
  {
    if s != [] {
      var init := s[..|s| - 1];
      DedupOfDistinct(init);
      assert s[|s| - 1] !in init;
      assert init + [s[|s| - 1]] == s;
    }
  }

  /** `r` is what is left of `s` after dropping some of its first elements. */
  predicate SuffixOf<T(==)>(r: seq<T>, s: seq<T>)
  {
    |r| <= |s| && r == s[|s| - |r|..]
  }

  lemma SuffixTransitive<T>(a: seq<T>, b: seq<T>, c: seq<T>)
    requires SuffixOf(a, b) && SuffixOf(b, c)
    ensures SuffixOf(a, c)
  {
    assert c[|c| - |a|..] == c[|c| - |b|..][|b| - |a|..];
  }

  /** The sequences of `ss` joined end to end (for strings: their concatenation). */
  function Flatten<T>(ss: seq<seq<T>>): seq<T>
  {
    if ss == [] then [] else Flatten(ss[..|ss| - 1]) + ss[|ss| - 1]
  }

  lemma {:induction false} FlattenAppend<T>(a: seq<seq<T>>, b: seq<seq<T>>)
    ensures Flatten(a + b) == Flatten(a) + Flatten(b)
    decreases |b|
  {
    if b != [] {
      assert (a + b)[..|a + b| - 1] == a + b[..|b| - 1];
      FlattenAppend(a, b[..|b| - 1]);
      assert (a + b)[|a + b| - 1] == b[|b| - 1];
    } else {
      assert a + b == a;
    }
  }

  lemma FlattenCons<T>(x: seq<T>, b: seq<seq<T>>)
    ensures Flatten([x] + b) == x + Flatten(b)
  {
    FlattenAppend([x], b);
    assert Flatten([x]) == Flatten([]) + x;
  }
}

=== FILE: serializable_bimap.dfy ===
/**
 * `data/SerializableBiMap`: a `BiMap` that can be written to and read from
 * a file, and that remembers in `indexLength` the total it last read or
 * wrote.
 */
module SerializableBiMaps {
  import opened Wrappers
  import opened JavaNum
  import opened RandomAccess
  import opened Sequences
  import opened TypeConverters
  import opened Maps
  import opened IndexRecords
  import opened BiMaps
  import opened SerializableMaps

  /** `map2` after `readIndex` calls `putValue` for each pair read. */
  function BackwardAfterRead(m: map<Value, Value>, scan: Option<ScanState>): map<Value, Value>
  {
    match scan
    case None => m
    case Some(s) => PutAll(m, Swapped(s.pairs))
  }

  /** `indexLength` after `readIndex`: the total read, if the file had room for one. */
  function LengthAfterRead(indexLength: int, stored: Option<int>): int
  {
    match stored
    case None => indexLength
    case Some(t) => t
  }

  class SerializableBiMap {
    /** The state inherited from `BiMap`. */
    const values: BiMap<Value, Value>
    var indexLength: int
    const keyConverter: Format
    const valueConverter: Format

    constructor (keyConverter: Format, valueConverter: Format)
      ensures fresh(values) && values.map1 == map[] && values.map2 == map[] && indexLength == 0
      ensures this.keyConverter == keyConverter && this.valueConverter == valueConverter
    {
      values := new BiMap();
      indexLength := 0;
      this.keyConverter := keyConverter;
      this.valueConverter := valueConverter;
    }

    /** `readIndex(RandomAccessFile)`; the result is the IOException it throws, if any. */
    method ReadIndex(f: RandomAccessFile) returns (thrown: Option<Fault>)
      requires Consumes(keyConverter) && Consumes(valueConverter)
      modifies this, values, f
      ensures f.data == old(f.data)
      ensures var scan := ReadIndexScan(keyConverter, valueConverter, old(f.data), old(f.pointer));
        && values.map1 == MapAfterRead(old(values.map1), scan)
        && values.map2 == BackwardAfterRead(old(values.map2), scan)
        && thrown == ReadFault(scan)
      ensures indexLength == LengthAfterRead(old(indexLength), StoredTotal(old(f.data), old(f.pointer)))
    {
      var scan, stored := ReadRecords(f, keyConverter, valueConverter);
      if stored.Some? {
        indexLength := stored.value;
      }
      if scan.Some? {
        PutValues(values, scan.value.pairs);
      }
      thrown := ReadFault(scan);
    }

    /** `writeIndex(RandomAccessFile)`, the keys taken in the order `order`. */
    method WriteIndex(f: RandomAccessFile, order: seq<Value>)
      requires IsKeyOrder(order, values.KeySet())
      requires forall k :: k in values.map1 ==> |keyConverter.bytes(k)| >= 1
      modifies this, f
      ensures f.data == WriteIndexBytes(keyConverter, valueConverter, old(f.data), old(f.pointer), Pairs(order, values.map1))
      ensures f.pointer == old(f.pointer) + 8
      ensures indexLength == RecordCount(keyConverter, valueConverter, Pairs(order, values.map1))
    {
      var pairs := Pairs(order, values.map1);
      indexLength := WriteIndexFile(f, keyConverter, valueConverter, pairs);
    }
  }

  /**
   * For a BiMap whose maps are each other's inverse, putting the swapped
   * pairs of `map1` into an empty map rebuilds `map2`.
   */
  lemma SwappedRestores(order: seq<Value>, forward: map<Value, Value>, backward: map<Value, Value>)
    requires Inverse(forward, backward) && IsKeyOrder(order, forward.Keys)
    ensures PutAll(map[], Swapped(Pairs(order, forward))) == backward
  {
    var sp := Swapped(Pairs(order, forward));
    var r := PutAll(map[], sp);
    forall v | v in backward
      ensures v in r && r[v] == backward[v]
    {
      var k := backward[v];
      var i :| 0 <= i < |order| && order[i] == k;
      assert sp[i] == (v, k);
      forall j | i < j < |sp|
        ensures sp[j].0 != v
      {
        assert sp[j].0 == forward[order[j]];
      }
      PutAllLookup(map[], sp, v);
    }
    forall v | v in r
      ensures v in backward
    {
      PutAllLookup(map[], sp, v);
      var i :| 0 <= i < |sp| && sp[i].0 == v;
      assert forward[order[i]] == v;
    }
  }

  /**
   * Write a consistent BiMap, then read from the same position into an empty
   * one: both lookup directions come back, provided each converter reads
   * back what it wrote, every `write` returns its byte count, and the total
   * fits a long.
   */
  lemma BiMapRoundTrip(kf: Format, vf: Format, data: seq<Octet>, p: nat, order: seq<Value>,
                       forward: map<Value, Value>, backward: map<Value, Value>)
    requires Inverse(forward, backward) && IsKeyOrder(order, forward.Keys)
    requires AllReadBack(kf, vf, Pairs(order, forward)) && AllCountBytes(kf, vf, Pairs(order, forward))
    requires IsLong(|RecordBytes(kf, vf, Pairs(order, forward))|)
    ensures var scan := ReadIndexScan(kf, vf, WriteIndexBytes(kf, vf, data, p, Pairs(order, forward)), p);
      && MapAfterRead(map[], scan) == forward
      && BackwardAfterRead(map[], scan) == backward
      && ReadFault(scan) == None
  {
    var pairs := Pairs(order, forward);
    MapRoundTrip(kf, vf, data, p, order, forward);
    IndexRoundTrip(kf, vf, data, p, pairs);
    var scan := ReadIndexScan(kf, vf, WriteIndexBytes(kf, vf, data, p, pairs), p);
    if scan.None? {
      assert forward == map[];
      assert backward.Keys == {};
    } else {
      SwappedRestores(order, forward, backward);
    }
  }

  /** After a round trip, `indexLength` is the number of record bytes, as `writeIndex` left it. */
  lemma LengthRoundTrip(kf: Format, vf: Format, data: seq<Octet>, p: nat, pairs: seq<Pair>, indexLength: int)
    requires AllCountBytes(kf, vf, pairs) && IsLong(|RecordBytes(kf, vf, pairs)|)
    ensures var stored := StoredTotal(WriteIndexBytes(kf, vf, data, p, pairs), p);
      stored.Some? ==> LengthAfterRead(indexLength, stored) == RecordCount(kf, vf, pairs) == |RecordBytes(kf, vf, pairs)|
  {
    WrittenStoredTotal(kf, vf, data, p, pairs);
    StoredTotalExact(kf, vf, pairs);
    RecordCountExact(kf, vf, pairs);
  }
}

=== FILE: serializable_map.dfy ===
/**
 * `index/data/SerializableMap`: a HashMap from keys to values that can be
 * written to and read from a file through a key converter and a value
 * converter.
 */
module SerializableMaps {
  import opened Wrappers
  import opened JavaNum
  import opened RandomAccess
  import opened TypeConverters
  import opened Maps
  import opened IndexRecords

  /**
   * The map `readIndex` leaves: nothing read when the file has no room for a
   * header after the pointer; otherwise every pair read before the loop
   * ended (normally or with an exception) is `put` in order.
   */
  function MapAfterRead(m: map<Value, Value>, scan: Option<ScanState>): map<Value, Value>
  {
    match scan
    case None => m
    case Some(s) => PutAll(m, s.pairs)
  }

  /** The exception `readIndex` throws, if any. */
  function ReadFault(scan: Option<ScanState>): Option<Fault>
  {
    match scan
    case None => None
    case Some(s) => s.fault
  }

  class SerializableMap {
    var entries: map<Value, Value>
    const keyConverter: Format
    const valueConverter: Format

    constructor (keyConverter: Format, valueConverter: Format)
      ensures entries == map[] && this.keyConverter == keyConverter && this.valueConverter == valueConverter
    {
      entries := map[];
      this.keyConverter := keyConverter;
      this.valueConverter := valueConverter;
    }

    /** `readIndex(RandomAccessFile)`; the result is the IOException it throws, if any. */
    method ReadIndex(f: RandomAccessFile) returns (thrown: Option<Fault>)
      requires Consumes(keyConverter) && Consumes(valueConverter)
      modifies this, f
      ensures f.data == old(f.data)
      ensures var scan := ReadIndexScan(keyConverter, valueConverter, old(f.data), old(f.pointer));
        entries == MapAfterRead(old(entries), scan) && thrown == ReadFault(scan)
    {
      var scan, _ := ReadRecords(f, keyConverter, valueConverter);
      if scan.Some? {
        entries := PutAll(entries, scan.value.pairs);
      }
      thrown := ReadFault(scan);
    }

    /**
     * `writeIndex(RandomAccessFile)`, with `order` the order in which
     * `keySet()` hands out the keys.
     */
    method WriteIndex(f: RandomAccessFile, order: seq<Value>)
      requires IsKeyOrder(order, entries.Keys)
      requires forall k :: k in entries ==> |keyConverter.bytes(k)| >= 1
      modifies f
      ensures f.data == WriteIndexBytes(keyConverter, valueConverter, old(f.data), old(f.pointer), Pairs(order, entries))
      ensures f.pointer == old(f.pointer) + 8
    {
      var pairs := Pairs(order, entries);
      var _ := WriteIndexFile(f, keyConverter, valueConverter, pairs);
    }
  }

  /**
   * Write a map, then read from the same position into an empty map: the
   * map comes back, whenever each converter reads back what it wrote,
   * every `write` returns its byte count, and the total fits a long.
   */
  lemma MapRoundTrip(kf: Format, vf: Format, data: seq<Octet>, p: nat, order: seq<Value>, m: map<Value, Value>)
    requires IsKeyOrder(order, m.Keys)
    requires AllReadBack(kf, vf, Pairs(order, m)) && AllCountBytes(kf, vf, Pairs(order, m))
    requires IsLong(|RecordBytes(kf, vf, Pairs(order, m))|)
    ensures var scan := ReadIndexScan(kf, vf, WriteIndexBytes(kf, vf, data, p, Pairs(order, m)), p);
      MapAfterRead(map[], scan) == m && ReadFault(scan) == None
  {
    var pairs := Pairs(order, m);
    IndexRoundTrip(kf, vf, data, p, pairs);
    var scan := ReadIndexScan(kf, vf, WriteIndexBytes(kf, vf, data, p, pairs), p);
    if scan.None? {
      assert order == [];
      assert m.Keys == {};
    } else {
      PutAllRestores(order, m);
    }
  }

  /** The same for the standard converters, provided no LONG is written. */
  lemma StdMapRoundTrip(kc: Codec, vc: Codec, data: seq<Octet>, p: nat, order: seq<Value>, m: map<Value, Value>)
    requires kc.Std? && vc.Std? && IsKeyOrder(order, m.Keys)
    requires PairsFit(kc, vc, Pairs(order, m)) && AllLongFree(kc, vc, Pairs(order, m))
    requires IsLong(|RecordBytes(FormatOf(kc), FormatOf(vc), Pairs(order, m))|)
    ensures var kf, vf := FormatOf(kc), FormatOf(vc);
      var scan := ReadIndexScan(kf, vf, WriteIndexBytes(kf, vf, data, p, Pairs(order, m)), p);
      MapAfterRead(map[], scan) == m && ReadFault(scan) == None
  {
    StdAllReadBack(kc, vc, Pairs(order, m));
    LongFreeAllCount(kc, vc, Pairs(order, m));
    MapRoundTrip(FormatOf(kc), FormatOf(vc), data, p, order, m);
  }

  /**
   * The LONG defect seen from a `SerializableMap<Short, Long>`: of the two
   * entries written, only the first is read back.
   */
  lemma LongValuesLoseEntry(data: seq<Octet>, p: nat)
    ensures var kf, vf := FormatOf(Std(Plain(ShortConv))), FormatOf(Std(Plain(LongConv)));
      var m := map[Number(1) := Number(10), Number(2) := Number(20)];
      var scan := ReadIndexScan(kf, vf, WriteIndexBytes(kf, vf, data, p, Pairs([Number(1), Number(2)], m)), p);
      MapAfterRead(map[], scan) == map[Number(1) := Number(10)]
  {
    var kf, vf := FormatOf(Std(Plain(ShortConv))), FormatOf(Std(Plain(LongConv)));
    var m := map[Number(1) := Number(10), Number(2) := Number(20)];
    var pairs := Pairs([Number(1), Number(2)], m);
    assert pairs == [(Number(1), Number(10)), (Number(2), Number(20))];
    LongValuesLoseRecords(data, p);
    var scan := ReadIndexScan(kf, vf, WriteIndexBytes(kf, vf, data, p, pairs), p);
    PutOne(map[], scan.value, (Number(1), Number(10)));
  }

  lemma PutOne(m: map<Value, Value>, s: ScanState, pair: Pair)
    requires s.pairs == [pair]
    ensures MapAfterRead(m, Some(s)) == m[pair.0 := pair.1]
  {
    PutAllSnoc(m, [], pair);
    assert [] + [pair] == s.pairs;
  }

  /**
   * `readIndex` into a map that already has entries: keys read from the file
   * take the value read last for them, the other keys keep theirs.
   */
  lemma ReadKeepsOtherEntries(m: map<Value, Value>, scan: Option<ScanState>, k: Value)
    requires k in m && (scan.Some? ==> forall i :: 0 <= i < |scan.value.pairs| ==> scan.value.pairs[i].0 != k)
    ensures k in MapAfterRead(m, scan) && MapAfterRead(m, scan)[k] == m[k]
  {
    if scan.Some? {
      PutAllLookup(m, scan.value.pairs, k);
    }
  }
}

=== FILE: settings.dfy ===
/**
 * `data/Settings`: the server's configuration (the log directory and the
 * largest size of the cache file), kept in the text file
 * `efficientLogFileAnalysis.conf` as `name=value` lines with `#` comments.
 *
 * The configuration file is the field `configFile`, holding its text; the
 * system properties `user.home` and `os.name` are constructor parameters.
 */
module ServerSettings {
  import opened Wrappers
  import opened JavaNum
  import opened Text

  const PATH_KEY: string := "path_to_log_files"
  const SIZE_KEY: string := "maxiumum_cache_file_size"
  // The comment lines of the file. Each is written as a few short pieces:
  // the lemmas that take the file's text apart look into these pieces one at
  // a time, which keeps each of their proofs small.
  const COMMENT_1: string := "# lines marked with " + "a # are comments"
  const COMMENT_2: string := "# Delete this file " + "to generate a default conf"
  const COMMENT_3: string := "# logFilePath is the" + " path to the folder " + "containing the logfiles"
  const COMMENT_4: string := "# The maximum size " + "of the created index" + " in bytes. 0 means " + "unlimited size."

  /** The two settings. */
  datatype Config = Config(logFilePath: string, maxSizeOfCacheFile: int)

  // ----- the defaults -----

  /** `setDefaultValues` as written: `"/"` when `os.name` contains `"win"`, `"\\"` otherwise. */
  function Defaults(home: string, osName: string): Config
  {
    Config(home + (if Contains(osName, "win") then "/" else "\\") + "logs", 0)
  }

  /**
   * As written, the test is case-sensitive and its branches are the wrong
   * way round: on Linux, whose `os.name` is `"Linux"`, the default log
   * directory is `home\logs`, a file name with a backslash in it.
   */
  lemma LinuxDefaultHasBackslash(home: string)
    ensures Defaults(home, "Linux").logFilePath == home + "\\logs"
  {
    var os := "Linux";
    forall i | 0 <= i <= |os| - 3
      ensures !OccursAt(os, "win", i)
    {
      assert os[i..i + 3][0] == os[i] != 'w';
    }
  }

  /** The evidently intended default: a backslash on Windows, a slash elsewhere. */
  function CorrectedDefaults(home: string, osName: string): (c: Config)
    ensures c.maxSizeOfCacheFile == 0
    ensures StartsWith(osName, "Windows") ==> c.logFilePath == home + "\\logs"
    ensures !StartsWith(osName, "Windows") ==> c.logFilePath == home + "/logs"
  {
    Config(home + (if StartsWith(osName, "Windows") then "\\" else "/") + "logs", 0)
  }

  // ----- the file's text -----

  /** The lines `writeConfigFile` writes: four comments, an empty line and the two settings. */
  function ConfigLines(c: Config): seq<string>
  {
    [COMMENT_1, COMMENT_2, "", COMMENT_3, PATH_KEY + "=" + c.logFilePath, COMMENT_4, SIZE_KEY + "=" + IntToDecimal(c.maxSizeOfCacheFile)]
  }

  /** Lines joined by `"\n"`, with none after the last. */
  function JoinLines(lines: seq<string>): string
  {
    if lines == [] then [] else if |lines| == 1 then lines[0] else lines[0] + "\n" + JoinLines(lines[1..])
  }

  /** What `writeConfigFile` writes. */
  function ConfigText(c: Config): string
  {
    JoinLines(ConfigLines(c))
  }

  predicate IsBreak(ch: char)
  {
    ch == '\n' || ch == '\r'
  }

  predicate NoBreak(s: string)
  {
    forall i :: 0 <= i < |s| ==> !IsBreak(s[i])
  }

  /** The first line break at or after `i`, or the length. */
  function BreakAt(s: string, i: nat): (r: nat)
    requires i <= |s|
    ensures i <= r <= |s| && (r < |s| ==> IsBreak(s[r]))
    ensures forall j :: i <= j < r ==> !IsBreak(s[j])
    decreases |s| - i
  {
    if i == |s| || IsBreak(s[i]) then i else BreakAt(s, i + 1)
  }

  /**
   * The lines `BufferedReader.readLine` returns one after another: a line
   * ends at `"\n"`, `"\r"` or `"\r\n"`, which is not part of it, and the text
   * after the last break is a line when it is not empty.
   */
  function ReadLines(s: string): seq<string>
    decreases |s|
  {
    if s == [] then []
    else
      var b := BreakAt(s, 0);
      var next := if b == |s| then |s| else if s[b] == '\r' && b + 1 < |s| && s[b + 1] == '\n' then b + 2 else b + 1;
      [s[..b]] + ReadLines(s[next..])
  }

  /** Two texts without breaks joined have none. */
  lemma NoBreakJoined(a: string, b: string)
    requires NoBreak(a) && NoBreak(b)
    ensures NoBreak(a + b)
  {
    forall i | |a| <= i < |a + b|
      ensures !IsBreak((a + b)[i])
    {
      assert (a + b)[i] == b[i - |a|];
    }
  }

  /** No comment line holds a break, and each starts with `#`. */
  lemma CommentLines()
    ensures NoBreak(COMMENT_1) && NoBreak(COMMENT_2) && NoBreak(COMMENT_3) && NoBreak(COMMENT_4)
    ensures StartsWith(COMMENT_1, "#") && StartsWith(COMMENT_2, "#") && StartsWith(COMMENT_3, "#") && StartsWith(COMMENT_4, "#")
  {
    FirstComments();
    LastComments();
  }

  lemma FirstComments()
    ensures NoBreak(COMMENT_1) && NoBreak(COMMENT_2)
  {
    assert NoBreak("# lines marked with ") && NoBreak("a # are comments");
    NoBreakJoined("# lines marked with ", "a # are comments");
    assert NoBreak("# Delete this file ") && NoBreak("to generate a default conf");
    NoBreakJoined("# Delete this file ", "to generate a default conf");
  }

  lemma LastComments()
    ensures NoBreak(COMMENT_3) && NoBreak(COMMENT_4)
  {
    assert NoBreak("# logFilePath is the") && NoBreak(" path to the folder ") && NoBreak("containing the logfiles");
    NoBreakJoined("# logFilePath is the", " path to the folder ");
    NoBreakJoined("# logFilePath is the" + " path to the folder ", "containing the logfiles");
    assert NoBreak("# The maximum size ") && NoBreak("of the created index") && NoBreak(" in bytes. 0 means ") && NoBreak("unlimited size.");
    NoBreakJoined("# The maximum size ", "of the created index");
    NoBreakJoined("# The maximum size " + "of the created index", " in bytes. 0 means ");
    NoBreakJoined("# The maximum size " + "of the created index" + " in bytes. 0 means ", "unlimited size.");
  }

  /** A line without breaks followed by `"\n"` is read as that line, then the rest. */
  lemma LineThenRest(a: string, rest: string)
    requires NoBreak(a)
    ensures ReadLines(a + "\n" + rest) == [a] + ReadLines(rest)
  {
    var s := a + "\n" + rest;
    assert IsBreak(s[|a|]);
    assert BreakAt(s, 0) == |a|;
    assert s[..|a|] == a;
    assert s[|a| + 1..] == rest;
  }

  /** A non-empty text without breaks is one line. */
  lemma LastLine(a: string)
    requires a != [] && NoBreak(a)
    ensures ReadLines(a) == [a]
  {
    assert BreakAt(a, 0) == |a|;
    assert a[..|a|] == a;
  }

  // ----- `String.split("=")` -----

  // `SplitAll` and `Join` are in `Text`.

  function DropTrailingEmpty(parts: seq<string>): seq<string>
  {
    if parts == [] then []
    else if parts[|parts| - 1] == "" then DropTrailingEmpty(parts[..|parts| - 1])
    else parts
  }

  /**
   * `line.split("=")` with its limit 0: without a `c` the text itself;
   * otherwise the pieces without the empty ones at the end.
   */
  function JavaSplit(s: string, c: char): seq<string>
  {
    if c !in s then [s] else DropTrailingEmpty(SplitAll(s, c))
  }

  /** A key and a value without `c`, joined by `c`, split into the key and the value. */
  lemma SplitKeyValue(key: string, v: string, c: char)
    requires c !in key && c !in v
    ensures SplitAll(key + [c] + v, c) == [key, v]
    ensures JavaSplit(key + [c] + v, c) == if v == "" then DropTrailingEmpty([key]) else [key, v]
  {
    SplitFirst(key, v, c);
    assert CharAt(v, c, 0) == |v|;
    assert (key + [c] + v)[|key|] == c;
  }

  // ----- reading the file -----

  /** One line of `readConfigFile`'s loop, or the exception it throws. */
  function ApplyLine(c: Config, line: string): Result<Config>
  {
    if StartsWith(line, "#") then Ok(c)
    else
      var kv := JavaSplit(line, '=');
      if |kv| == 0 then Err(IndexOutOfBounds)
      else if kv[0] == PATH_KEY then
        if |kv| < 2 then Err(IndexOutOfBounds) else Ok(c.(logFilePath := kv[1]))
      else if kv[0] == SIZE_KEY then
        if |kv| < 2 then Err(IndexOutOfBounds)
        else
          match ParseLong(kv[1])
          case Err(f) => Err(f)
          case Ok(n) => Ok(c.(maxSizeOfCacheFile := n))
      else Ok(c)
  }

  /** `readConfigFile`'s loop over the lines, from `c`, stopping at the first exception. */
  function ReadConfig(c: Config, lines: seq<string>): Result<Config>
  {
    if lines == [] then Ok(c)
    else
      match ReadConfig(c, lines[..|lines| - 1])
      case Err(f) => Err(f)
      case Ok(p) => ApplyLine(p, lines[|lines| - 1])
  }

  /** Comment lines are skipped, and a line whose name is neither setting changes nothing. */
  lemma IgnoredLines(c: Config, line: string)
    requires Ignored(line)
    ensures ApplyLine(c, line) == Ok(c)
  {
  }

  /**
   * `path_to_log_files=X` sets the path to `X`, the text between the first
   * and the second `=`, whatever follows; nothing else changes.
   */
  lemma PathLine(c: Config, v: string, rest: string)
    requires '=' !in v && v != ""
    requires rest == "" || rest[0] == '='
    ensures ApplyLine(c, PATH_KEY + "=" + v + rest) == Ok(c.(logFilePath := v))
  {
    var line := PATH_KEY + "=" + v + rest;
    KeyNames();
    SplitAppend(PATH_KEY + "=" + v, rest, PATH_KEY, v);
    assert line[0] == PATH_KEY[0];
  }

  /** `maxiumum_cache_file_size=N` sets the size to the long `N`, or throws `NumberFormatException`. */
  lemma SizeLine(c: Config, v: string)
    requires '=' !in v && v != ""
    ensures ApplyLine(c, SIZE_KEY + "=" + v) ==
      if ParseLong(v).Ok? then Ok(c.(maxSizeOfCacheFile := ParseLong(v).value)) else Err(NumberFormat)
  {
    var line := SIZE_KEY + "=" + v;
    KeyNames();
    SplitKeyValue(SIZE_KEY, v, '=');
    assert line[0] == SIZE_KEY[0];
  }

  /** The two names hold no `=`, differ, and neither starts with `#`. */
  lemma KeyNames()
    ensures '=' !in PATH_KEY && '=' !in SIZE_KEY && PATH_KEY != SIZE_KEY
    ensures PATH_KEY[0] != '#' && SIZE_KEY[0] != '#'
  {
    assert PATH_KEY[0] != SIZE_KEY[0];
  }

  /** `path_to_log_files=` with nothing after it throws: its split has one element. */
  lemma PathLineWithoutValue(c: Config)
    ensures ApplyLine(c, PATH_KEY + "=") == Err(IndexOutOfBounds)
  {
    var line := PATH_KEY + "=";
    KeyNames();
    SplitKeyValue(PATH_KEY, "", '=');
    assert line == PATH_KEY + "=" + "";
    assert line[0] == PATH_KEY[0];
  }

  /** A line `key=v=...` splits into `key`, `v` and whatever follows. */
  lemma SplitMore(key: string, v: string, tail: string)
    requires '=' !in key && '=' !in v && v != ""
    ensures |JavaSplit(key + "=" + v + "=" + tail, '=')| >= 2
    ensures JavaSplit(key + "=" + v + "=" + tail, '=')[..2] == [key, v]
  {
    var line := key + "=" + v + "=" + tail;
    assert line == key + "=" + (v + "=" + tail);
    SplitFirst(key, v + "=" + tail, '=');
    SplitFirst(v, tail, '=');
    var parts := SplitAll(line, '=');
    assert parts[..2] == [key, v];
    DropKeepsNonEmpty(parts, 1);
    assert line[|key|] == '=';
  }

  /** With `rest` empty or starting with `=`, the split of `key=v` + `rest` begins with `key` and `v`. */
  lemma SplitAppend(a: string, rest: string, key: string, v: string)
    requires '=' !in key && '=' !in v && v != "" && a == key + "=" + v
    requires rest == "" || rest[0] == '='
    ensures |JavaSplit(a + rest, '=')| >= 2
    ensures JavaSplit(a + rest, '=')[0] == key && JavaSplit(a + rest, '=')[1] == v
  {
    if rest != "" {
      assert a + rest == key + "=" + v + "=" + rest[1..];
      SplitMore(key, v, rest[1..]);
      var kept := JavaSplit(a + rest, '=');
      assert kept[0] == kept[..2][0] && kept[1] == kept[..2][1];
    } else {
      SplitKeyValue(key, v, '=');
      assert a + rest == a;
    }
  }

  /** Dropping the empty pieces at the end keeps every piece up to a non-empty one. */
  lemma {:induction false} DropKeepsNonEmpty(parts: seq<string>, i: nat)
    requires i < |parts| && parts[i] != ""
    ensures i < |DropTrailingEmpty(parts)| && DropTrailingEmpty(parts)[..i + 1] == parts[..i + 1]
    decreases |parts|
  {
    if parts[|parts| - 1] == "" {
      var init := parts[..|parts| - 1];
      assert i < |init| && init[i] == parts[i];
      DropKeepsNonEmpty(init, i);
      assert init[..i + 1] == parts[..i + 1];
    }
  }

  /** Later lines override earlier ones: a path line decides the path whatever came before it. */
  lemma LaterLineOverrides(c: Config, lines: seq<string>, v: string)
    requires ReadConfig(c, lines).Ok? && '=' !in v && v != ""
    ensures ReadConfig(c, lines + [PATH_KEY + "=" + v]) == Ok(ReadConfig(c, lines).value.(logFilePath := v))
  {
    var all := lines + [PATH_KEY + "=" + v];
    assert all[..|all| - 1] == lines;
    PathLine(ReadConfig(c, lines).value, v, "");
    assert PATH_KEY + "=" + v + "" == PATH_KEY + "=" + v;
  }

  /** Seven lines joined, as one text written out piece by piece. */
  lemma JoinSeven(l1: string, l2: string, l3: string, l4: string, l5: string, l6: string, l7: string)
    ensures JoinLines([l1, l2, l3, l4, l5, l6, l7])
      == l1 + "\n" + l2 + "\n" + l3 + "\n" + l4 + "\n" + l5 + "\n" + l6 + "\n" + l7
  {
    var lines := [l1, l2, l3, l4, l5, l6, l7];
    assert lines[6..] == [l7];
    assert lines[5..] == [l6] + lines[6..];
    assert lines[4..] == [l5] + lines[5..];
    assert lines[3..] == [l4] + lines[4..];
    assert lines[2..] == [l3] + lines[3..];
    assert lines[1..] == [l2] + lines[2..];
    var t6 := l6 + "\n" + l7;
    assert JoinLines(lines[5..]) == t6;
    var t5 := l5 + "\n" + t6;
    assert JoinLines(lines[4..]) == t5;
    var t4 := l4 + "\n" + t5;
    assert JoinLines(lines[3..]) == t4;
    var t3 := l3 + "\n" + t4;
    assert JoinLines(lines[2..]) == t3;
    var t2 := l2 + "\n" + t3;
    assert JoinLines(lines[1..]) == t2;
    assert JoinLines(lines) == l1 + "\n" + t2;
  }

  /** The file's text, in the pieces `writeConfigFile` writes. */
  lemma WrittenPieces(c: Config)
    ensures ConfigText(c) == COMMENT_1 + "\n" + COMMENT_2 + "\n\n" + COMMENT_3 + "\n"
      + (PATH_KEY + "=" + c.logFilePath) + "\n" + COMMENT_4 + "\n" + (SIZE_KEY + "=" + IntToDecimal(c.maxSizeOfCacheFile))
  {
    JoinSeven(COMMENT_1, COMMENT_2, "", COMMENT_3, PATH_KEY + "=" + c.logFilePath, COMMENT_4, SIZE_KEY + "=" + IntToDecimal(c.maxSizeOfCacheFile));
    assert COMMENT_1 + "\n" + COMMENT_2 + "\n" + "" + "\n" == COMMENT_1 + "\n" + COMMENT_2 + "\n\n";
  }

  /** A number written in decimal is not empty and holds neither `=` nor a break. */
  lemma DecimalText(n: int)
    ensures IntToDecimal(n) != "" && '=' !in IntToDecimal(n) && NoBreak(IntToDecimal(n))
  {
    var d := IntToDecimal(n);
    if n < 0 {
      assert d[1..] == NatToDecimal(-n);
      forall i | 1 <= i < |d|
        ensures IsDigit(d[i])
      {
        assert d[i] == d[1..][i - 1];
      }
    }
  }

  /** `readLine` gives back the lines that were joined, when none holds a break and the last is not empty. */
  lemma {:induction false} ReadJoinedLines(lines: seq<string>)
    requires lines != [] && lines[|lines| - 1] != ""
    requires forall k :: 0 <= k < |lines| ==> NoBreak(lines[k])
    ensures ReadLines(JoinLines(lines)) == lines
    decreases |lines|
  {
    if |lines| == 1 {
      LastLine(lines[0]);
    } else {
      ReadJoinedLines(lines[1..]);
      LineThenRest(lines[0], JoinLines(lines[1..]));
      assert [lines[0]] + lines[1..] == lines;
    }
  }

  /** The lines `writeConfigFile` writes, as `readLine` returns them, when the path holds no break. */
  lemma WrittenLines(c: Config)
    requires NoBreak(c.logFilePath)
    ensures ReadLines(ConfigText(c)) == ConfigLines(c)
  {
    CommentLines();
    assert NoBreak(PATH_KEY + "=");
    NoBreakJoined(PATH_KEY + "=", c.logFilePath);
    DecimalText(c.maxSizeOfCacheFile);
    assert NoBreak(SIZE_KEY + "=");
    NoBreakJoined(SIZE_KEY + "=", IntToDecimal(c.maxSizeOfCacheFile));
    var lines := ConfigLines(c);
    assert lines[6] != "";
    ReadJoinedLines(lines);
  }

  /** A line that changes nothing: a comment, or a line whose name is neither setting. */
  predicate Ignored(line: string)
  {
    StartsWith(line, "#") || (JavaSplit(line, '=') != [] && JavaSplit(line, '=')[0] != PATH_KEY && JavaSplit(line, '=')[0] != SIZE_KEY)
  }

  /** Reading the lines of `xs + ys` is reading `xs`, then `ys` from where that left off. */
  lemma {:induction false} ReadConfigAppend(c: Config, xs: seq<string>, ys: seq<string>)
    ensures ReadConfig(c, xs + ys) ==
      match ReadConfig(c, xs)
      case Err(f) => Err(f)
      case Ok(p) => ReadConfig(p, ys)
    decreases |ys|
  {
    if ys == [] {
      assert xs + ys == xs;
    } else {
      var init := ys[..|ys| - 1];
      ReadConfigAppend(c, xs, init);
      assert (xs + ys)[..|xs + ys| - 1] == xs + init;
    }
  }

  /** Lines that are all ignored leave the settings as they were. */
  lemma {:induction false} IgnoredLinesKeep(c: Config, lines: seq<string>)
    requires forall k :: 0 <= k < |lines| ==> Ignored(lines[k])
    ensures ReadConfig(c, lines) == Ok(c)
    decreases |lines|
  {
    if lines != [] {
      IgnoredLinesKeep(c, lines[..|lines| - 1]);
      IgnoredLines(c, lines[|lines| - 1]);
    }
  }

  /**
   * Writing and then reading the file gives both settings back, from any
   * starting values, when the path is not empty and holds no `=` and no
   * line break.
   */
  lemma WriteThenRead(start: Config, c: Config)
    requires c.logFilePath != "" && '=' !in c.logFilePath && NoBreak(c.logFilePath)
    requires IsLong(c.maxSizeOfCacheFile)
    ensures ReadConfig(start, ReadLines(ConfigText(c))) == Ok(c)
  {
    WrittenLines(c);
    var lines := ConfigLines(c);
    var size := IntToDecimal(c.maxSizeOfCacheFile);
    var head := WrittenHead();
    var path := PATH_KEY + "=" + c.logFilePath;
    assert lines == head + [path] + [COMMENT_4, SIZE_KEY + "=" + size];
    HeadSkipped(start);
    CommentLines();
    PathLine(start, c.logFilePath, "");
    assert path + "" == path;
    var mid := start.(logFilePath := c.logFilePath);
    ReadConfigAppend(start, head, [path]);
    DecimalText(c.maxSizeOfCacheFile);
    SizeLine(mid, size);
    DecimalRoundTrip(c.maxSizeOfCacheFile);
    assert ReadConfig(mid, [COMMENT_4, SIZE_KEY + "=" + size]) == Ok(c) by {
      IgnoredLinesKeep(mid, [COMMENT_4]);
      assert ApplyLine(mid, SIZE_KEY + "=" + size) == Ok(c);
      assert [COMMENT_4, SIZE_KEY + "=" + size][..1] == [COMMENT_4];
    }
    ReadConfigAppend(start, head + [path], [COMMENT_4, SIZE_KEY + "=" + size]);
  }

  /**
   * With an empty path the written line is `path_to_log_files=`, whose split
   * has no second element: reading the file back throws.
   */
  lemma EmptyPathCannotBeRead(start: Config, size: int)
    ensures ReadConfig(start, ReadLines(ConfigText(Config("", size)))) == Err(IndexOutOfBounds)
  {
    var c := Config("", size);
    WrittenLines(c);
    var lines := ConfigLines(c);
    var path := PATH_KEY + "=" + "";
    assert path == PATH_KEY + "=";
    assert lines == WrittenHead() + [path] + lines[5..];
    HeadSkipped(start);
    PathLineWithoutValue(start);
    ReadConfigAppend(start, WrittenHead(), [path]);
    ReadConfigAppend(start, WrittenHead() + [path], lines[5..]);
  }

  /** The four lines before the path setting. */
  function WrittenHead(): seq<string>
  {
    [COMMENT_1, COMMENT_2, "", COMMENT_3]
  }

  /** The lines before the path setting change nothing. */
  lemma HeadSkipped(start: Config)
    ensures ReadConfig(start, WrittenHead()) == Ok(start)
  {
    CommentLines();
    assert JavaSplit("", '=') == [""];
    KeyNames();
    IgnoredLinesKeep(start, WrittenHead());
  }

  /** Once a line throws, the later lines are never read. */
  lemma ReadConfigStopsAtError(c: Config, lines: seq<string>, k: nat)
    requires k <= |lines| && ReadConfig(c, lines[..k]).Err?
    ensures ReadConfig(c, lines) == ReadConfig(c, lines[..k])
  {
    ReadConfigAppend(c, lines[..k], lines[k..]);
    assert lines[..k] + lines[k..] == lines;
  }

  // ----- the settings object -----

  class Settings {
    /** `System.getProperty("user.home")`. */
    const home: string
    /** `System.getProperty("os.name")`. */
    const osName: string
    var logFilePath: string
    var maxSizeOfCacheFile: int
    /** The text of `efficientLogFileAnalysis.conf`. */
    var configFile: string

    function Current(): Config
      reads this
    {
      Config(logFilePath, maxSizeOfCacheFile)
    }

    constructor (home: string, osName: string, configFile: string)
      ensures this.home == home && this.osName == osName && this.configFile == configFile
      ensures logFilePath == "" && maxSizeOfCacheFile == 0
    {
      this.home := home;
      this.osName := osName;
      this.configFile := configFile;
      logFilePath := "";
      maxSizeOfCacheFile := 0;
    }

    /** `setDefaultValues`. */
    method SetDefaultValues()
      modifies this
      ensures Current() == Defaults(home, osName) && configFile == old(configFile)
    {
      logFilePath := home + (if Contains(osName, "win") then "/" else "\\") + "logs";
      maxSizeOfCacheFile := 0;
    }

    /** `writeConfigFile`: the file now holds the current settings. */
    method WriteConfigFile()
      modifies this
      ensures configFile == ConfigText(Current()) && Current() == old(Current())
    {
      var text := COMMENT_1;
      text := text + "\n";
      text := text + COMMENT_2;
      text := text + "\n\n";
      text := text + COMMENT_3;
      text := text + "\n";
      text := text + (PATH_KEY + "=" + logFilePath);
      text := text + "\n";
      text := text + COMMENT_4;
      text := text + "\n";
      text := text + (SIZE_KEY + "=" + IntToDecimal(maxSizeOfCacheFile));
      configFile := text;
      WrittenPieces(Current());
    }

    /** `readConfigFile`: the defaults, then each line of the file in turn, or the exception a line throws. */
    method ReadConfigFile() returns (thrown: Option<Fault>)
      modifies this
      ensures thrown.None? ==> ReadConfig(Defaults(home, osName), ReadLines(configFile)) == Ok(Current())
      ensures thrown.Some? ==> ReadConfig(Defaults(home, osName), ReadLines(configFile)) == Err(thrown.value)
      ensures configFile == old(configFile)
    {
      var lines := ReadLines(configFile);
      SetDefaultValues();
      ghost var start := Current();
      for i := 0 to |lines|
        invariant ReadConfig(start, lines[..i]) == Ok(Current())
        invariant configFile == old(configFile)
      {
        assert lines[..i + 1][..i] == lines[..i];
        thrown := ReadLine(lines[i]);
        if thrown.Some? {
          ReadConfigStopsAtError(start, lines, i + 1);
          return;
        }
      }
      assert lines[..|lines|] == lines;
      thrown := None;
    }

    /** One round of the loop in `readConfigFile`. */
    method ReadLine(line: string) returns (thrown: Option<Fault>)
      modifies this
      ensures thrown.None? ==> ApplyLine(old(Current()), line) == Ok(Current())
      ensures thrown.Some? ==> ApplyLine(old(Current()), line) == Err(thrown.value)
      ensures configFile == old(configFile)
    {
      thrown := None;
      if StartsWith(line, "#") {
        return;
      }
      var keyValuePair := JavaSplit(line, '=');
      if |keyValuePair| == 0 {
        return Some(IndexOutOfBounds);
      }
      if keyValuePair[0] == PATH_KEY {
        if |keyValuePair| < 2 {
          return Some(IndexOutOfBounds);
        }
        logFilePath := keyValuePair[1];
      } else if keyValuePair[0] == SIZE_KEY {
        if |keyValuePair| < 2 {
          return Some(IndexOutOfBounds);
        }
        var n := ParseLong(keyValuePair[1]);
        if n.Err? {
          return Some(n.fault);
        }
        maxSizeOfCacheFile := n.value;
      }
    }

    /** `setLogFilePath`: the new path, written to the file at once. */
    method SetLogFilePath(path: string)
      modifies this
      ensures Current() == old(Current()).(logFilePath := path)
      ensures configFile == ConfigText(Current())
    {
      logFilePath := path;
      WriteConfigFile();
    }

    /** `setMaxSizeOfCacheFile`: the new size, written to the file at once. */
    method SetMaxSizeOfCacheFile(size: int)
      modifies this
      ensures Current() == old(Current()).(maxSizeOfCacheFile := size)
      ensures configFile == ConfigText(Current())
    {
      maxSizeOfCacheFile := size;
      WriteConfigFile();
    }
  }

  /**
   * `new Settings()`: a missing file (`existing` is None) is created with
   * the defaults; an existing one is read, and an exception while reading
   * it escapes.
   */
  method Open(home: string, osName: string, existing: Option<string>) returns (r: Result<Settings>)
    ensures existing.None? ==>
      (r.Ok? && fresh(r.value) && r.value.Current() == Defaults(home, osName)
       && r.value.configFile == ConfigText(Defaults(home, osName)))
    ensures existing.Some? && ReadConfig(Defaults(home, osName), ReadLines(existing.value)).Err? ==>
      r == Err(ReadConfig(Defaults(home, osName), ReadLines(existing.value)).fault)
    ensures existing.Some? && ReadConfig(Defaults(home, osName), ReadLines(existing.value)).Ok? ==>
      (r.Ok? && fresh(r.value) && r.value.configFile == existing.value
       && r.value.Current() == ReadConfig(Defaults(home, osName), ReadLines(existing.value)).value)
  {
    var s := new Settings(home, osName, if existing.Some? then existing.value else "");
    if existing.None? {
      s.SetDefaultValues();
      s.WriteConfigFile();
      return Ok(s);
    }
    var thrown := s.ReadConfigFile();
    if thrown.Some? {
      return Err(thrown.value);
    }
    r := Ok(s);
  }
}

=== FILE: statistic_resource.dfy ===
/**
 * `rest/StatisticResource`: the `/statistic/sorted` endpoint. For the
 * entries a filtered search returns in time order, it counts the entries of
 * each level and spreads them over twelve equal time intervals between the
 * filter's begin and end date, labelling the end of each interval with its
 * local time of day.
 *
 * Dates are epoch milliseconds. `ZoneId.systemDefault()` is a fixed offset
 * from UTC in milliseconds (`zoneOffset`); daylight-saving changes are not
 * modelled, so local-time differences and comparisons are those of the
 * epoch values.
 */
module StatisticResources {
  import opened Wrappers
  import opened JavaNum
  import opened LogEntries

  /** The levels `initializeMaps` puts into both maps, in the order it puts them. */
  const LEVEL_NAMES: seq<string> := ["INFO", "DEBUG", "WARN", "ERROR", "TRACE", "FATAL"]

  /** The same six names, as a set. */
  const LEVELS: set<string> := {"INFO", "DEBUG", "WARN", "ERROR", "TRACE", "FATAL"}

  const MILLIS_PER_DAY: int := 86_400_000

  // ----- the time span -----

  /** Java's `long / long` for a positive divisor: the quotient truncated toward zero. */
  function JavaDivide(a: int, b: int): int
    requires b > 0
  {
    if a >= 0 then a / b else -((-a) / b)
  }

  /** `gapTime`: the span in milliseconds divided by 12, truncated toward zero. */
  function GapTime(start: int, end: int): int
  {
    JavaDivide(end - start, 12)
  }

  /**
   * Twelve gaps cover the span but for less than twelve milliseconds, on the
   * side of zero: the gap is the span's twelfth rounded toward zero.
   */
  lemma GapCoversSpan(start: int, end: int)
    ensures end - start >= 0 ==> 0 <= GapTime(start, end) && 0 <= (end - start) - 12 * GapTime(start, end) < 12
    ensures end - start < 0 ==> GapTime(start, end) <= 0 && -12 < (end - start) - 12 * GapTime(start, end) <= 0
  {
    var d := end - start;
    if d < 0 {
      assert -d == 12 * ((-d) / 12) + (-d) % 12;
    } else {
      assert d == 12 * (d / 12) + d % 12;
    }
  }

  /** The wall-clock fields of a `LocalDateTime`. */
  datatype TimeOfDay = TimeOfDay(hour: int, minute: int, second: int)

  /** The hour, minute and second of the local date-time at epoch millisecond `t`. */
  function LocalTimeOf(t: int, zoneOffset: int): (r: TimeOfDay)
    ensures 0 <= r.hour < 24 && 0 <= r.minute < 60 && 0 <= r.second < 60
  {
    var ms := (t + zoneOffset) % MILLIS_PER_DAY;
    TimeOfDay(ms / 3_600_000, ms / 60_000 % 60, ms / 1000 % 60)
  }

  /** The fields are the whole seconds elapsed since local midnight. */
  lemma LocalTimeIsSecondOfDay(t: int, zoneOffset: int)
    ensures var r := LocalTimeOf(t, zoneOffset);
      var ms := (t + zoneOffset) % MILLIS_PER_DAY;
      r.hour * 3_600_000 + r.minute * 60_000 + r.second * 1000 <= ms < r.hour * 3_600_000 + r.minute * 60_000 + r.second * 1000 + 1000
  {
    var ms := (t + zoneOffset) % MILLIS_PER_DAY;
    var s := ms / 1000;
    var m := ms / 60_000;
    assert ms == 1000 * s + ms % 1000;
    ModUnique(ms, 60_000, m, ms % 60_000);
    assert m == s / 60 by {
      ModUnique(s, 60, m, s - 60 * m);
    }
    assert ms / 3_600_000 == m / 60 by {
      ModUnique(ms, 3_600_000, m / 60, ms - 3_600_000 * (m / 60));
    }
  }

  /** `"" + n`, with a `"0"` in front when that is a single character. */
  function TwoDigits(n: nat): string
  {
    var s := NatToDecimal(n);
    if |s| < 2 then "0" + s else s
  }

  /** `hour + ":" + minute + ":" + second`, each padded to two digits. */
  function Label(t: int, zoneOffset: int): string
  {
    var r := LocalTimeOf(t, zoneOffset);
    TwoDigits(r.hour) + ":" + TwoDigits(r.minute) + ":" + TwoDigits(r.second)
  }

  /** A number below 100 is written with exactly two digits, which read back as it. */
  lemma TwoDigitsReadBack(n: nat)
    requires n < 100
    ensures |TwoDigits(n)| == 2 && AllDigits(TwoDigits(n)) && DigitsValue(TwoDigits(n)) == n
  {
    var s := NatToDecimal(n);
    DigitsOfDecimal(n);
    if n >= 10 {
      assert s == NatToDecimal(n / 10) + [DigitChar(n % 10)];
    } else {
      var p := "0" + s;
      assert p[..1] == "0";
    }
  }

  /** A label is `HH:mm:ss`, and its three fields read back as the local time of day. */
  lemma LabelReadsBack(t: int, zoneOffset: int)
    ensures var l := Label(t, zoneOffset);
      var r := LocalTimeOf(t, zoneOffset);
      && |l| == 8 && l[2] == ':' && l[5] == ':'
      && AllDigits(l[0..2]) && AllDigits(l[3..5]) && AllDigits(l[6..8])
      && DigitsValue(l[0..2]) == r.hour && DigitsValue(l[3..5]) == r.minute && DigitsValue(l[6..8]) == r.second
  {
    var r := LocalTimeOf(t, zoneOffset);
    TwoDigitsReadBack(r.hour);
    TwoDigitsReadBack(r.minute);
    TwoDigitsReadBack(r.second);
    var l := Label(t, zoneOffset);
    assert l[0..2] == TwoDigits(r.hour);
    assert l[3..5] == TwoDigits(r.minute);
    assert l[6..8] == TwoDigits(r.second);
  }

  /** The labels of intervals 1 .. n, put one after another. */
  function Tabulate(labelOf: int -> string, n: int): map<int, string>
    decreases n
  {
    if n <= 0 then map[] else Tabulate(labelOf, n - 1)[n := labelOf(n)]
  }

  /** After `n` puts the keys are 1 .. n, each with its label. */
  lemma {:induction false} TabulateAt(labelOf: int -> string, n: int, k: int)
    ensures k in Tabulate(labelOf, n) <==> 1 <= k <= n
    ensures 1 <= k <= n ==> Tabulate(labelOf, n)[k] == labelOf(k)
    decreases n
  {
    if n > 0 && k != n {
      TabulateAt(labelOf, n - 1, k);
    }
  }

  /** The label of the end of interval `k`. */
  function LabelOfInterval(start: int, gap: int, zoneOffset: int, k: int): string
  {
    Label(start + k * gap, zoneOffset)
  }

  /** `timeStampsMap` after the first `n` rounds of the loop in `setTimeSpan`. */
  function LabelsUpTo(start: int, gap: int, zoneOffset: int, n: int): map<int, string>
  {
    Tabulate(k => LabelOfInterval(start, gap, zoneOffset, k), n)
  }

  /** After `n` rounds the labels are those of intervals 1 .. n: label `k` is the local time `start + k * gap`. */
  lemma LabelsOfIntervals(start: int, gap: int, zoneOffset: int, n: int, k: int)
    ensures k in LabelsUpTo(start, gap, zoneOffset, n) <==> 1 <= k <= n
    ensures 1 <= k <= n ==> LabelsUpTo(start, gap, zoneOffset, n)[k] == Label(start + k * gap, zoneOffset)
  {
    TabulateAt(k => LabelOfInterval(start, gap, zoneOffset, k), n, k);
  }

  /** Putting into a merged map is putting into its right-hand side. */
  lemma MergePut<K, V>(m: map<K, V>, a: map<K, V>, k: K, v: V)
    ensures (m + a)[k := v] == m + a[k := v]
  {
  }

  lemma NextMultiple(g: int, j: int)
    ensures g + g * j == (j + 1) * g
  {
  }

  // ----- counting -----

  function Sum(s: seq<int>): int
  {
    if s == [] then 0 else s[0] + Sum(s[1..])
  }

  /** Incrementing one element raises the sum by one. */
  lemma {:induction false} SumBump(s: seq<int>, k: int)
    requires 0 <= k < |s|
    ensures Sum(s[k := s[k] + 1]) == Sum(s) + 1
  {
    if k > 0 {
      assert s[k := s[k] + 1][1..] == s[1..][k - 1 := s[k] + 1];
      SumBump(s[1..], k - 1);
    }
  }

  lemma {:induction false} SumZero(s: seq<int>)
    requires forall k :: 0 <= k < |s| ==> s[k] == 0
    ensures Sum(s) == 0
  {
    if s != [] {
      SumZero(s[1..]);
    }
  }

  /** `new int[]{0,0,0,0,0,0,0,0,0,0,0,0}`. */
  function Zeros(): seq<int>
  {
    seq(12, _ => 0)
  }

  /** `statisticsDataMap` after `initializeMaps`. */
  function InitialCounts(): map<string, int>
  {
    map["INFO" := 0, "DEBUG" := 0, "WARN" := 0, "ERROR" := 0, "TRACE" := 0, "FATAL" := 0]
  }

  /** `multiStatisticsDataMap` after `initializeMaps`. */
  function InitialBuckets(): map<string, seq<int>>
  {
    map["INFO" := Zeros(), "DEBUG" := Zeros(), "WARN" := Zeros(), "ERROR" := Zeros(), "TRACE" := Zeros(), "FATAL" := Zeros()]
  }

  /** The counting state: both maps, the interval counter, the current boundary and the gap. */
  datatype Tally = Tally(counts: map<string, int>, buckets: map<string, seq<int>>, counter: int, endOfInterval: int, gapTime: int)

  /** The state the entries are counted from, after `initializeMaps` and `setTimeSpan(start, end)`. */
  function Start(start: int, end: int): Tally
  {
    Tally(InitialCounts(), InitialBuckets(), 0, start + GapTime(start, end), GapTime(start, end))
  }

  /** `addLogLevelData`: unboxing the count of a level that is not in the map throws. */
  function CountLevel(t: Tally, level: string): Result<Tally>
  {
    if level in t.counts then Ok(t.(counts := t.counts[level := t.counts[level] + 1]))
    else Err(NullPointer)
  }

  /** `multiStatisticsDataMap.get(level)[k]++`. */
  function Bump(t: Tally, level: string, k: int): Result<Tally>
  {
    if level !in t.buckets then Err(NullPointer)
    else if !(0 <= k < |t.buckets[level]|) then Err(IndexOutOfBounds)
    else Ok(t.(buckets := t.buckets[level := t.buckets[level][k := t.buckets[level][k] + 1]]))
  }

  /**
   * `addLogLevelDataDependingOnTime` as written: an entry before the
   * boundary is counted in interval `counter`; otherwise the boundary moves
   * on by one gap, the counter by one, and the entry is counted in the new
   * interval if there is one. Once the counter passed 11 nothing is counted.
   */
  function PlaceByTime(t: Tally, time: int, level: string): Result<Tally>
  {
    if t.counter > 11 then Ok(t)
    else if time < t.endOfInterval then Bump(t, level, t.counter)
    else
      var moved := t.(endOfInterval := t.endOfInterval + t.gapTime, counter := t.counter + 1);
      if moved.counter <= 11 then Bump(moved, level, moved.counter) else Ok(moved)
  }

  /** One round of the loop in `sortedStatistics`. */
  function Record(t: Tally, e: TextEntry): Result<Tally>
  {
    match CountLevel(t, e.level)
    case Err(f) => Err(f)
    case Ok(c) => PlaceByTime(c, e.time, e.level)
  }

  /** The loop in `sortedStatistics` over the entries, stopping at the first exception. */
  function Process(t: Tally, entries: seq<TextEntry>): Result<Tally>
  {
    if entries == [] then Ok(t)
    else
      match Process(t, entries[..|entries| - 1])
      case Err(f) => Err(f)
      case Ok(p) => Record(p, entries[|entries| - 1])
  }

  /** What the endpoint counts for the span and the entries of the sorted search. */
  function Statistics(start: int, end: int, entries: seq<TextEntry>): Result<Tally>
  {
    Process(Start(start, end), entries)
  }

  /** How many of the entries have the level. */
  function Occurrences(entries: seq<TextEntry>, level: string): nat
  {
    if entries == [] then 0
    else Occurrences(entries[..|entries| - 1], level) + (if entries[|entries| - 1].level == level then 1 else 0)
  }

  /** The counts of the named levels, added up. */
  function SumOver(names: seq<string>, m: map<string, int>): int
  {
    if names == [] then 0 else (if names[0] in m then m[names[0]] else 0) + SumOver(names[1..], m)
  }

  predicate NoDuplicates(names: seq<string>)
  {
    names == [] || (names[0] !in names[1..] && NoDuplicates(names[1..]))
  }

  /** The six names differ in their first letter. */
  lemma LevelNamesDistinct()
    ensures NoDuplicates(LEVEL_NAMES)
  {
    assert forall i :: 0 <= i < 6 ==> |LEVEL_NAMES[i]| >= 1;
    assert LEVEL_NAMES[0][0] == 'I' && LEVEL_NAMES[1][0] == 'D' && LEVEL_NAMES[2][0] == 'W';
    assert LEVEL_NAMES[3][0] == 'E' && LEVEL_NAMES[4][0] == 'T' && LEVEL_NAMES[5][0] == 'F';
  }

  /** Raising one count raises the total over distinct names by one when the level is among them. */
  lemma {:induction false} SumOverBump(names: seq<string>, m: map<string, int>, level: string)
    requires NoDuplicates(names) && level in m
    ensures SumOver(names, m[level := m[level] + 1]) == SumOver(names, m) + (if level in names then 1 else 0)
  {
    if names != [] {
      SumOverBump(names[1..], m, level);
      assert level in names <==> level == names[0] || level in names[1..] by {
        assert names == [names[0]] + names[1..];
      }
    }
  }

  /**
   * The shape `initializeMaps` gives the state and every round keeps: both
   * maps have the same levels, twelve intervals per level, a counter in
   * 0 .. 12, and no level has more entries in its intervals than its count.
   */
  ghost predicate WellFormed(t: Tally)
  {
    && t.counts.Keys == t.buckets.Keys
    && (forall l :: l in t.buckets ==> |t.buckets[l]| == 12)
    && 0 <= t.counter <= 12
    && (forall l :: l in t.buckets ==> Sum(t.buckets[l]) <= t.counts[l])
  }

  /** `initializeMaps` puts exactly the six levels, each with count 0. */
  lemma InitialLevels()
    ensures forall l :: l in InitialCounts() <==> l in LEVELS
    ensures forall l :: l in LEVELS ==> InitialCounts()[l] == 0
  {
  }

  lemma StartWellFormed(start: int, end: int)
    ensures WellFormed(Start(start, end))
    ensures Start(start, end).endOfInterval == start + (Start(start, end).counter + 1) * Start(start, end).gapTime
  {
    SumZero(Zeros());
    forall l | l in InitialBuckets()
      ensures InitialBuckets()[l] == Zeros() && l in InitialCounts()
    {
    }
  }

  /**
   * One round succeeds exactly when the level is known; it then raises that
   * level's count by one and nothing else's, advances the counter by at most
   * one (moving the boundary by one gap when it does) and keeps the shape.
   */
  lemma RecordKeeps(t: Tally, e: TextEntry)
    requires WellFormed(t)
    ensures Record(t, e).Ok? <==> e.level in t.counts
    ensures Record(t, e).Err? ==> Record(t, e).fault == NullPointer
    ensures Record(t, e).Ok? ==>
      var r := Record(t, e).value;
      && WellFormed(r)
      && r.counts == t.counts[e.level := t.counts[e.level] + 1] && r.counts.Keys == t.counts.Keys
      && r.gapTime == t.gapTime
      && ((r.counter == t.counter && r.endOfInterval == t.endOfInterval)
          || (r.counter == t.counter + 1 && r.endOfInterval == t.endOfInterval + t.gapTime))
      && (forall l :: l in t.buckets && l != e.level ==> l in r.buckets && r.buckets[l] == t.buckets[l])
  {
    if e.level in t.counts {
      var c := CountLevel(t, e.level).value;
      var level := e.level;
      if c.counter <= 11 {
        var k := if e.time < c.endOfInterval then c.counter else c.counter + 1;
        if k <= 11 {
          SumBump(c.buckets[level], k);
        }
      }
    }
  }

  /** Once a round throws, the later entries are never looked at. */
  lemma {:induction false} ProcessStopsAtError(t: Tally, entries: seq<TextEntry>, k: nat)
    requires k <= |entries| && Process(t, entries[..k]).Err?
    ensures Process(t, entries) == Process(t, entries[..k])
    decreases |entries| - k
  {
    if k < |entries| {
      assert entries[..k + 1][..k] == entries[..k];
      ProcessStopsAtError(t, entries, k + 1);
    } else {
      assert entries[..k] == entries;
    }
  }

  /**
   * The state after counting from `Start(start, end)`, whatever the entries:
   * the shape, the six levels and no others, the gap, and the boundary at
   * the end of interval `counter`.
   */
  ghost predicate Shaped(start: int, end: int, r: Tally)
  {
    && WellFormed(r)
    && (forall l :: l in r.counts <==> l in LEVELS)
    && r.gapTime == GapTime(start, end)
    && r.endOfInterval == start + (r.counter + 1) * r.gapTime
  }

  /**
   * What the counts say about the entries: each level's count is its number
   * of entries, the counts add up to the number of entries, and the counter
   * is no larger than the number of entries.
   */
  ghost predicate Tallied(entries: seq<TextEntry>, r: Tally)
  {
    && (forall l :: l in LEVELS ==> l in r.counts && r.counts[l] == Occurrences(entries, l))
    && SumOver(LEVEL_NAMES, r.counts) == |entries|
    && r.counter <= |entries|
  }

  ghost predicate Counted(start: int, end: int, entries: seq<TextEntry>, r: Tally)
  {
    Shaped(start, end, r) && Tallied(entries, r)
  }

  lemma StartCounted(start: int, end: int)
    ensures Counted(start, end, [], Start(start, end))
  {
    StartWellFormed(start, end);
    InitialLevels();
    assert Shaped(start, end, Start(start, end));
    assert SumOver(LEVEL_NAMES, InitialCounts()) == 0;
  }

  /** One more entry keeps the shape. */
  lemma ShapedStep(start: int, end: int, t: Tally, r: Tally)
    requires Shaped(start, end, t) && WellFormed(r)
    requires r.counts.Keys == t.counts.Keys && r.gapTime == t.gapTime
    requires (r.counter == t.counter && r.endOfInterval == t.endOfInterval)
          || (r.counter == t.counter + 1 && r.endOfInterval == t.endOfInterval + t.gapTime)
    ensures Shaped(start, end, r)
  {
    if r.counter == t.counter + 1 {
      NextMultiple(t.gapTime, t.counter + 1);
    }
  }

  /** One more entry of a known level is counted once, under its level. */
  lemma TalliedStep(entries: seq<TextEntry>, t: Tally, r: Tally)
    requires entries != []
    requires var e := entries[|entries| - 1];
      && Tallied(entries[..|entries| - 1], t) && e.level in LEVELS && e.level in t.counts
      && r.counts == t.counts[e.level := t.counts[e.level] + 1] && r.counter <= t.counter + 1
    ensures Tallied(entries, r)
  {
    var e := entries[|entries| - 1];
    CountsStep(entries, t.counts, r.counts);
    SumStep(t.counts, r.counts, e.level);
  }

  lemma CountsStep(entries: seq<TextEntry>, before: map<string, int>, after: map<string, int>)
    requires entries != []
    requires forall l :: l in LEVELS ==> l in before && before[l] == Occurrences(entries[..|entries| - 1], l)
    requires var e := entries[|entries| - 1];
      e.level in before && after == before[e.level := before[e.level] + 1]
    ensures forall l :: l in LEVELS ==> l in after && after[l] == Occurrences(entries, l)
  {
  }

  lemma SumStep(before: map<string, int>, after: map<string, int>, level: string)
    requires level in LEVELS && level in before && after == before[level := before[level] + 1]
    ensures SumOver(LEVEL_NAMES, after) == SumOver(LEVEL_NAMES, before) + 1
  {
    LevelNamesDistinct();
    assert level in LEVEL_NAMES by {
      if level == "INFO" {
        assert LEVEL_NAMES[0] == level;
      } else if level == "DEBUG" {
        assert LEVEL_NAMES[1] == level;
      } else if level == "WARN" {
        assert LEVEL_NAMES[2] == level;
      } else if level == "ERROR" {
        assert LEVEL_NAMES[3] == level;
      } else if level == "TRACE" {
        assert LEVEL_NAMES[4] == level;
      } else {
        assert LEVEL_NAMES[5] == level;
      }
    }
    SumOverBump(LEVEL_NAMES, before, level);
  }

  /** Every entry's level is one of the six. */
  predicate KnownLevels(entries: seq<TextEntry>)
  {
    entries == [] || (KnownLevels(entries[..|entries| - 1]) && entries[|entries| - 1].level in LEVELS)
  }

  lemma {:induction false} KnownLevelsAll(entries: seq<TextEntry>)
    ensures KnownLevels(entries) <==> forall k :: 0 <= k < |entries| ==> entries[k].level in LEVELS
  {
    if entries != [] {
      var init := entries[..|entries| - 1];
      KnownLevelsAll(init);
      assert forall k :: 0 <= k < |init| ==> init[k] == entries[k];
    }
  }

  /**
   * Counting from a shaped state throws exactly when some entry's level is
   * not one of the six, and otherwise ends in a shaped state.
   */
  lemma {:induction false} ProcessShaped(start: int, end: int, t0: Tally, entries: seq<TextEntry>)
    requires Shaped(start, end, t0)
    ensures Process(t0, entries).Ok? <==> KnownLevels(entries)
    ensures Process(t0, entries).Err? ==> Process(t0, entries).fault == NullPointer
    ensures Process(t0, entries).Ok? ==> Shaped(start, end, Process(t0, entries).value)
  {
    if entries != [] {
      var init := entries[..|entries| - 1];
      ProcessShaped(start, end, t0, init);
      if Process(t0, init).Ok? {
        var t := Process(t0, init).value;
        RecordKeeps(t, entries[|entries| - 1]);
        if Record(t, entries[|entries| - 1]).Ok? {
          ShapedStep(start, end, t, Record(t, entries[|entries| - 1]).value);
        }
      }
    }
  }

  /** Counting from a state that holds for no entries tallies every entry. */
  lemma {:induction false} ProcessTallied(start: int, end: int, t0: Tally, entries: seq<TextEntry>)
    requires Counted(start, end, [], t0) && Process(t0, entries).Ok?
    ensures Tallied(entries, Process(t0, entries).value)
  {
    if entries != [] {
      var init := entries[..|entries| - 1];
      var e := entries[|entries| - 1];
      ProcessTallied(start, end, t0, init);
      ProcessShaped(start, end, t0, init);
      var t := Process(t0, init).value;
      assert Record(t, e).Ok?;
      RecordKeeps(t, e);
      assert e.level in LEVELS;
      TalliedStep(entries, t, Record(t, e).value);
    }
  }

  /**
   * What `sortedStatistics` computes from the entries: it throws exactly
   * when some entry's level is not one of the six; otherwise the state is
   * `Counted`.
   */
  lemma ProcessCounts(start: int, end: int, entries: seq<TextEntry>)
    ensures Process(Start(start, end), entries).Ok? <==> forall k :: 0 <= k < |entries| ==> entries[k].level in LEVELS
    ensures Process(Start(start, end), entries).Err? ==> Process(Start(start, end), entries).fault == NullPointer
    ensures Process(Start(start, end), entries).Ok? ==> Counted(start, end, entries, Process(Start(start, end), entries).value)
  {
    StartCounted(start, end);
    ProcessShaped(start, end, Start(start, end), entries);
    KnownLevelsAll(entries);
    if Process(Start(start, end), entries).Ok? {
      ProcessTallied(start, end, Start(start, end), entries);
    }
  }

  /** The counter never goes back: after a prefix of the entries it is at most what it is after all of them. */
  lemma {:induction false} CounterNeverDecreases(t: Tally, entries: seq<TextEntry>, i: nat)
    requires WellFormed(t) && i <= |entries| && Process(t, entries).Ok?
    ensures Process(t, entries[..i]).Ok?
    ensures Process(t, entries[..i]).value.counter <= Process(t, entries).value.counter
    ensures WellFormed(Process(t, entries).value)
  {
    if entries == [] {
      assert entries[..i] == entries;
    } else {
      var init := entries[..|entries| - 1];
      CounterNeverDecreases(t, init, if i < |entries| then i else |init|);
      RecordKeeps(Process(t, init).value, entries[|entries| - 1]);
      if i < |entries| {
        assert init[..i] == entries[..i];
      } else {
        assert entries[..i] == entries;
      }
    }
  }

  // ----- the endpoint -----

  /** The three maps `sortedStatistics` returns in its list. */
  datatype Payload =
    | LevelCounts(counts: map<string, int>)
    | LevelBuckets(buckets: map<string, seq<int>>)
    | TimeStamps(labels: map<int, string>)

  /** The HTTP outcome: 200 with the list, 500 after an `IOException`, or an exception that escapes. */
  datatype Response = Okay(body: seq<Payload>) | InternalServerError | Thrown(fault: Fault)

  /** The list `sortedStatistics` answers with: the counts, the intervals and the labels. */
  function Answer(t: Tally, labels: map<int, string>): Response
  {
    Okay([LevelCounts(t.counts), LevelBuckets(t.buckets), TimeStamps(labels)])
  }

  class StatisticResource {
    /** `ZoneId.systemDefault()` as an offset from UTC in milliseconds. */
    const zoneOffset: int
    var startDate: int
    var endDate: int
    var gapTime: int
    var endOfInterval: int
    var statisticsDataMap: map<string, int>
    /** Each level's `int[12]`, as a value: the arrays are never shared. */
    var multiStatisticsDataMap: map<string, seq<int>>
    var timeStampsMap: map<int, string>
    var list: seq<Payload>
    var counter: int

    /** The counting state. */
    function State(): Tally
      reads this
    {
      Tally(statisticsDataMap, multiStatisticsDataMap, counter, endOfInterval, gapTime)
    }

    /** A new resource: empty maps and list, counter 0. */
    constructor (zoneOffset: int)
      ensures this.zoneOffset == zoneOffset
      ensures statisticsDataMap == map[] && multiStatisticsDataMap == map[] && timeStampsMap == map[]
      ensures list == [] && counter == 0
    {
      this.zoneOffset := zoneOffset;
      startDate := 0;
      endDate := 0;
      gapTime := 0;
      endOfInterval := 0;
      statisticsDataMap := map[];
      multiStatisticsDataMap := map[];
      timeStampsMap := map[];
      list := [];
      counter := 0;
    }

    /** `initializeMaps`: every level at 0 with twelve empty intervals, counter 0, empty list. */
    method InitializeMaps()
      modifies this
      ensures statisticsDataMap == InitialCounts() && multiStatisticsDataMap == InitialBuckets()
      ensures list == [] && counter == 0
      ensures startDate == old(startDate) && endDate == old(endDate) && gapTime == old(gapTime)
      ensures endOfInterval == old(endOfInterval) && timeStampsMap == old(timeStampsMap)
    {
      statisticsDataMap := map[];
      multiStatisticsDataMap := map[];
      list := [];
      statisticsDataMap := statisticsDataMap["INFO" := 0];
      statisticsDataMap := statisticsDataMap["DEBUG" := 0];
      statisticsDataMap := statisticsDataMap["WARN" := 0];
      statisticsDataMap := statisticsDataMap["ERROR" := 0];
      statisticsDataMap := statisticsDataMap["TRACE" := 0];
      statisticsDataMap := statisticsDataMap["FATAL" := 0];
      multiStatisticsDataMap := multiStatisticsDataMap["INFO" := Zeros()];
      multiStatisticsDataMap := multiStatisticsDataMap["DEBUG" := Zeros()];
      multiStatisticsDataMap := multiStatisticsDataMap["WARN" := Zeros()];
      multiStatisticsDataMap := multiStatisticsDataMap["ERROR" := Zeros()];
      multiStatisticsDataMap := multiStatisticsDataMap["TRACE" := Zeros()];
      multiStatisticsDataMap := multiStatisticsDataMap["FATAL" := Zeros()];
      counter := 0;
    }

    /**
     * `setTimeSpan`: the gap is the span's twelfth, the first boundary one
     * gap after the start, and label `k` (1 .. 12) the local time of the
     * end of interval `k`.
     */
    method SetTimeSpan(start: int, end: int)
      modifies this
      ensures startDate == start && endDate == end
      ensures gapTime == GapTime(start, end) && endOfInterval == start + gapTime
      ensures timeStampsMap == old(timeStampsMap) + LabelsUpTo(start, gapTime, zoneOffset, 12)
      ensures statisticsDataMap == old(statisticsDataMap) && multiStatisticsDataMap == old(multiStatisticsDataMap)
      ensures counter == old(counter) && list == old(list)
    {
      startDate := start;
      endDate := end;
      gapTime := end - start;
      gapTime := JavaDivide(gapTime, 12);
      endOfInterval := startDate;
      endOfInterval := endOfInterval + gapTime;
      for j := 0 to 12
        invariant startDate == start && endDate == end && gapTime == GapTime(start, end) && endOfInterval == start + gapTime
        invariant timeStampsMap == old(timeStampsMap) + LabelsUpTo(start, gapTime, zoneOffset, j)
        invariant statisticsDataMap == old(statisticsDataMap) && multiStatisticsDataMap == old(multiStatisticsDataMap)
        invariant counter == old(counter) && list == old(list)
      {
        PutLabel(j);
        MergePut(old(timeStampsMap), LabelsUpTo(start, gapTime, zoneOffset, j), j + 1, LabelOfInterval(start, gapTime, zoneOffset, j + 1));
      }
    }

    /** Round `j` of the loop in `setTimeSpan`: label `j + 1` is the local time one gap after `start + j * gap`. */
    method PutLabel(j: int)
      modifies this
      ensures timeStampsMap == old(timeStampsMap)[j + 1 := LabelOfInterval(startDate, gapTime, zoneOffset, j + 1)]
      ensures startDate == old(startDate) && endDate == old(endDate) && gapTime == old(gapTime) && endOfInterval == old(endOfInterval)
      ensures statisticsDataMap == old(statisticsDataMap) && multiStatisticsDataMap == old(multiStatisticsDataMap)
      ensures counter == old(counter) && list == old(list)
    {
      var timeStampHelper := startDate + gapTime;
      timeStampHelper := timeStampHelper + gapTime * j;
      NextMultiple(gapTime, j);
      timeStampsMap := timeStampsMap[j + 1 := Label(timeStampHelper, zoneOffset)];
    }

    /** `addLogLevelData`: one more entry of the level, or a `NullPointerException` for an unknown level. */
    method AddLogLevelData(logLevel: string) returns (thrown: Option<Fault>)
      modifies this
      ensures thrown.None? ==> CountLevel(old(State()), logLevel) == Ok(State())
      ensures thrown.Some? ==> CountLevel(old(State()), logLevel) == Err(thrown.value) && State() == old(State())
      ensures startDate == old(startDate) && endDate == old(endDate)
      ensures timeStampsMap == old(timeStampsMap) && list == old(list)
    {
      if logLevel !in statisticsDataMap {
        return Some(NullPointer);
      }
      var value := statisticsDataMap[logLevel];
      value := value + 1;
      statisticsDataMap := statisticsDataMap[logLevel := value];
      thrown := None;
    }

    /** `addLogLevelDataDependingOnTime`, as written. */
    method AddLogLevelDataDependingOnTime(data: TextEntry) returns (thrown: Option<Fault>)
      modifies this
      ensures thrown.None? ==> PlaceByTime(old(State()), data.time, data.level) == Ok(State())
      ensures thrown.Some? ==> PlaceByTime(old(State()), data.time, data.level) == Err(thrown.value)
      ensures startDate == old(startDate) && endDate == old(endDate)
      ensures timeStampsMap == old(timeStampsMap) && list == old(list)
    {
      thrown := None;
      if counter <= 11 {
        if data.time < endOfInterval {
          thrown := Increment(data.level);
        } else {
          endOfInterval := endOfInterval + gapTime;
          counter := counter + 1;
          if counter <= 11 {
            thrown := Increment(data.level);
          }
        }
      }
    }

    /** `value[counter]++` on the level's intervals. */
    method Increment(logLevel: string) returns (thrown: Option<Fault>)
      modifies this
      ensures thrown.None? ==> Bump(old(State()), logLevel, counter) == Ok(State())
      ensures thrown.Some? ==> Bump(old(State()), logLevel, counter) == Err(thrown.value)
      ensures counter == old(counter) && endOfInterval == old(endOfInterval) && gapTime == old(gapTime)
      ensures startDate == old(startDate) && endDate == old(endDate)
      ensures timeStampsMap == old(timeStampsMap) && list == old(list)
    {
      if logLevel !in multiStatisticsDataMap {
        return Some(NullPointer);
      }
      var value := multiStatisticsDataMap[logLevel];
      if !(0 <= counter < |value|) {
        return Some(IndexOutOfBounds);
      }
      value := value[counter := value[counter] + 1];
      multiStatisticsDataMap := multiStatisticsDataMap[logLevel := value];
      thrown := None;
    }

    /** One round of the loop in `sortedStatistics`. */
    method CountEntry(data: TextEntry) returns (thrown: Option<Fault>)
      modifies this
      ensures thrown.None? ==> Record(old(State()), data) == Ok(State())
      ensures thrown.Some? ==> Record(old(State()), data) == Err(thrown.value)
      ensures timeStampsMap == old(timeStampsMap) && list == old(list)
    {
      thrown := AddLogLevelData(data.level);
      if thrown.Some? {
        return;
      }
      thrown := AddLogLevelDataDependingOnTime(data);
    }

    /** The first two calls of `sortedStatistics`: `initializeMaps`, then `setTimeSpan`. */
    method Reset(beginDate: int, endDate: int)
      modifies this
      ensures State() == Start(beginDate, endDate) && list == []
      ensures timeStampsMap == old(timeStampsMap) + LabelsUpTo(beginDate, GapTime(beginDate, endDate), zoneOffset, 12)
    {
      InitializeMaps();
      SetTimeSpan(beginDate, endDate);
    }

    /** The end of `sortedStatistics`: the three maps are added to the empty list, which is the answer. */
    method Respond() returns (response: Response)
      requires list == []
      modifies this
      ensures response == Answer(State(), timeStampsMap) && State() == old(State())
      ensures timeStampsMap == old(timeStampsMap) && list == Answer(State(), timeStampsMap).body
    {
      list := list + [LevelCounts(statisticsDataMap)];
      list := list + [LevelBuckets(multiStatisticsDataMap)];
      list := list + [TimeStamps(timeStampsMap)];
      assert list == Answer(State(), timeStampsMap).body;
      response := Okay(list);
    }

    /** The loop in `sortedStatistics`: count the entries in order until one throws. */
    method CountAll(helper: seq<TextEntry>) returns (thrown: Option<Fault>)
      modifies this
      ensures thrown.None? ==> Process(old(State()), helper) == Ok(State())
      ensures thrown.Some? ==> Process(old(State()), helper) == Err(thrown.value)
      ensures timeStampsMap == old(timeStampsMap) && list == old(list)
    {
      ghost var s := State();
      for i := 0 to |helper|
        invariant Process(s, helper[..i]) == Ok(State())
        invariant timeStampsMap == old(timeStampsMap) && list == old(list)
      {
        var data := helper[i];
        assert helper[..i + 1][..i] == helper[..i];
        thrown := CountEntry(data);
        if thrown.Some? {
          ProcessStopsAtError(s, helper, i + 1);
          return;
        }
      }
      assert helper[..|helper|] == helper;
      thrown := None;
    }

    /**
     * `sortedStatistics`: reset, set the span, then count the entries the
     * sorted search returned (`None` where the search threw an
     * `IOException`) and answer with the counts, the intervals and the labels.
     */
    method SortedStatistics(beginDate: int, endDate: int, found: Option<seq<TextEntry>>) returns (response: Response)
      modifies this
      ensures found.None? ==> response == InternalServerError
      ensures found.Some? && Statistics(beginDate, endDate, found.value).Err? ==>
        response == Thrown(Statistics(beginDate, endDate, found.value).fault)
      ensures found.Some? && Statistics(beginDate, endDate, found.value).Ok? ==>
        var t := Statistics(beginDate, endDate, found.value).value;
        && State() == t
        && response == Answer(t, old(timeStampsMap) + LabelsUpTo(beginDate, GapTime(beginDate, endDate), zoneOffset, 12))
    {
      Reset(beginDate, endDate);
      if found.None? {
        return InternalServerError;
      }
      var thrown := CountAll(found.value);
      if thrown.Some? {
        return Thrown(thrown.value);
      }
      response := Respond();
    }
  }

  // ----- the interval of an entry -----

  /**
   * As written, an entry more than one gap past the boundary still moves
   * the boundary by one gap only: with the span 0 .. 120 (gap 10), a first
   * entry at 25, which lies in interval 2 (20 .. 30), is counted in
   * interval 1.
   */
  lemma SkippedIntervalMisplaces()
    ensures GapTime(0, 120) == 10 && (25 - 0) / 10 == 2
    ensures PlaceByTime(Start(0, 120), 25, "INFO").Ok?
    ensures PlaceByTime(Start(0, 120), 25, "INFO").value.counter == 1
    ensures PlaceByTime(Start(0, 120), 25, "INFO").value.buckets["INFO"][1] == 1
    ensures PlaceByTime(Start(0, 120), 25, "INFO").value.buckets["INFO"][2] == 0
  {
  }

  /**
   * The evidently intended placement: move the boundary on gap by gap until
   * the entry lies before it, then count the entry in that interval.
   */
  function CorrectedPlaceByTime(t: Tally, time: int, level: string): Result<Tally>
    decreases 12 - t.counter
  {
    if t.counter > 11 then Ok(t)
    else if time < t.endOfInterval then Bump(t, level, t.counter)
    else CorrectedPlaceByTime(t.(endOfInterval := t.endOfInterval + t.gapTime, counter := t.counter + 1), time, level)
  }

  /**
   * With a positive gap and entries in time order (none before the start of
   * the current interval), the corrected placement counts an entry at
   * `time` in interval `(time - start) / gap`, and drops it exactly when
   * that is 12 or more.
   */
  lemma {:induction false} CorrectedPlacesInInterval(t: Tally, start: int, time: int, level: string)
    requires t.gapTime > 0 && 0 <= t.counter <= 12
    requires t.endOfInterval == start + (t.counter + 1) * t.gapTime
    requires start + t.counter * t.gapTime <= time
    requires level in t.buckets && |t.buckets[level]| == 12
    ensures CorrectedPlaceByTime(t, time, level).Ok?
    ensures var r := CorrectedPlaceByTime(t, time, level).value;
      var k := (time - start) / t.gapTime;
      && (k < 12 ==> r.counter == k && r.buckets == t.buckets[level := t.buckets[level][k := t.buckets[level][k] + 1]])
      && (k >= 12 ==> r.counter == 12 && r.buckets == t.buckets)
    decreases 12 - t.counter
  {
    var g := t.gapTime;
    var k := (time - start) / g;
    if t.counter > 11 {
      assert t.counter == 12;
      assert k >= 12 by {
        assert time - start == g * k + (time - start) % g;
        if k < 12 {
          MulAtLeast(g, 12 - k);
        }
      }
    } else if time < t.endOfInterval {
      ModUnique(time - start, g, t.counter, time - start - g * t.counter);
    } else {
      var moved := t.(endOfInterval := t.endOfInterval + g, counter := t.counter + 1);
      assert moved.endOfInterval == start + (moved.counter + 1) * g;
      assert start + moved.counter * g <= time;
      CorrectedPlacesInInterval(moved, start, time, level);
    }
  }
}

=== FILE: statistics_view.dfy ===
/**
 * `Statistics.js`: the statistics page shows up to three charts side by
 * side in a twelve-column grid. The holder's `innerHTML` is modelled as the
 * list of chart containers it holds, and each `load*Chart` call as an entry
 * in a log of the charts drawn.
 */
module StatisticsView {
  import opened Wrappers

  /** An entry of `activeStatistics`. */
  datatype ActiveStatistic = ActiveStatistic(chartName: string, chartValue: int)

  /** One `<div class="... col-md-W ...">` holding `<canvas id="...">`. */
  datatype Container = Container(width: int, canvasId: string)

  datatype Chart = BarChart | PieChart | LineChart

  /** What `showActiveStatistics` does to the holder. */
  datatype Layout =
    | Cleared                     // the holder is emptied
    | Columns(widths: seq<int>)   // `createChartContainer` with these widths
    | Untouched                   // no case applies

  function Sum(s: seq<int>): int
  {
    if s == [] then 0 else s[0] + Sum(s[1..])
  }

  /**
   * The width choice of `showActiveStatistics`: one chart takes the whole
   * row; two take half each when their `chartValue`s are both 1 or both 2,
   * otherwise the one whose value is 2 takes two thirds; three take a third
   * each. Whatever is laid out fills exactly the twelve columns.
   */
  function ChooseLayout(active: seq<ActiveStatistic>): (r: Layout)
    ensures r.Cleared? <==> |active| == 0
    ensures r.Columns? ==> |r.widths| == |active| && Sum(r.widths) == 12
    ensures r.Columns? ==> forall k :: 0 <= k < |r.widths| ==> r.widths[k] > 0
    ensures |active| == 1 ==> r == Columns([12])
    ensures |active| == 3 ==> r == Columns([4, 4, 4])
    ensures |active| == 2 ==>
      (r.Untouched? <==> active[0].chartValue != 2 && active[1].chartValue != 2
                         && !(active[0].chartValue == 1 && active[1].chartValue == 1))
    ensures |active| > 3 ==> r.Untouched?
  {
    match |active|
    case 0 => Cleared
    case 1 => Columns([12])
    case 2 =>
      if (active[0].chartValue == 2 && active[1].chartValue == 2) || (active[0].chartValue == 1 && active[1].chartValue == 1) then
        Columns([6, 6])
      else if active[0].chartValue == 2 then Columns([8, 4])
      else if active[1].chartValue == 2 then Columns([4, 8])
      else Untouched
    case 3 => Columns([4, 4, 4])
    case _ => Untouched
  }

  /** Two charts of the same kind share the row evenly; a 2 next to another value gets the wider column. */
  lemma TwoChartWidths(a: ActiveStatistic, b: ActiveStatistic)
    ensures a.chartValue == b.chartValue && (a.chartValue == 1 || a.chartValue == 2) ==> ChooseLayout([a, b]) == Columns([6, 6])
    ensures a.chartValue == 2 && b.chartValue != 2 ==> ChooseLayout([a, b]) == Columns([8, 4])
    ensures a.chartValue != 2 && b.chartValue == 2 && a.chartValue != b.chartValue ==> ChooseLayout([a, b]) == Columns([4, 8])
  {
  }

  /** The containers `createChartContainer` emits: one per chart, in order, with the chart's name as canvas id. */
  function Containers(charts: seq<ActiveStatistic>, widths: seq<int>): (r: seq<Container>)
    requires |charts| <= |widths|
    ensures |r| == |charts|
    ensures forall k :: 0 <= k < |r| ==> r[k] == Container(widths[k], charts[k].chartName)
  {
    if charts == [] then [] else Containers(charts[..|charts| - 1], widths) + [Container(widths[|charts| - 1], charts[|charts| - 1].chartName)]
  }

  /** `reloadStatistics`' dispatch on the chart name; any other name draws nothing. */
  function ChartNamed(name: string): Option<Chart>
  {
    if name == "barChart" then Some(BarChart)
    else if name == "pieChart" then Some(PieChart)
    else if name == "lineChart" then Some(LineChart)
    else None
  }

  /** The charts drawn for the active statistics: each known one once, in order. */
  function Reloads(active: seq<ActiveStatistic>): (r: seq<Chart>)
    ensures |r| <= |active|
  {
    if active == [] then []
    else
      var init := Reloads(active[..|active| - 1]);
      match ChartNamed(active[|active| - 1].chartName)
      case Some(c) => init + [c]
      case None => init
  }

  /** With only known names every chart is drawn once, in the order given. */
  lemma {:induction false} KnownChartsAllReloaded(active: seq<ActiveStatistic>)
    requires forall k :: 0 <= k < |active| ==> ChartNamed(active[k].chartName).Some?
    ensures |Reloads(active)| == |active|
    ensures forall k :: 0 <= k < |active| ==> Reloads(active)[k] == ChartNamed(active[k].chartName).value
  {
    if active != [] {
      KnownChartsAllReloaded(active[..|active| - 1]);
    }
  }

  /** `document.getElementById(id)` finds a canvas: some container of the holder has that id. */
  predicate HasCanvas(holder: seq<Container>, id: string)
  {
    exists k :: 0 <= k < |holder| && holder[k].canvasId == id
  }

  /** The charts drawn by a run of reloads, and the error that stopped it, if any. */
  datatype ReloadRun = ReloadRun(drawn: seq<Chart>, thrown: Option<Fault>)

  /**
   * One more `reloadStatistics(name)` after `run`: nothing once an error has
   * been thrown; a known chart whose canvas is missing is a TypeError
   * (`getContext` on the null `getElementById` returns); an unknown name draws
   * nothing.
   */
  function ReloadStep(holder: seq<Container>, run: ReloadRun, name: string): (r: ReloadRun)
    ensures run.thrown.Some? ==> r == run
  {
    if run.thrown.Some? then run
    else
      match ChartNamed(name)
      case None => run
      case Some(c) => if HasCanvas(holder, name) then ReloadRun(run.drawn + [c], None) else ReloadRun(run.drawn, Some(TypeError))
  }

  /** The reload loop of `showActiveStatistics` over the holder it left. */
  function ReloadRunOf(holder: seq<Container>, active: seq<ActiveStatistic>): ReloadRun
  {
    if active == [] then ReloadRun([], None)
    else ReloadStep(holder, ReloadRunOf(holder, active[..|active| - 1]), active[|active| - 1].chartName)
  }

  /** When every active chart has its canvas, each known chart is drawn once, in order, and nothing is thrown. */
  lemma {:induction false} CanvasesPresent(holder: seq<Container>, active: seq<ActiveStatistic>)
    requires forall k :: 0 <= k < |active| ==> HasCanvas(holder, active[k].chartName)
    ensures ReloadRunOf(holder, active) == ReloadRun(Reloads(active), None)
  {
    if active != [] {
      CanvasesPresent(holder, active[..|active| - 1]);
    }
  }

  /** A known chart without a canvas makes the run end in a TypeError. */
  lemma {:induction false} MissingCanvasThrows(holder: seq<Container>, active: seq<ActiveStatistic>, k: nat)
    requires k < |active| && ChartNamed(active[k].chartName).Some? && !HasCanvas(holder, active[k].chartName)
    ensures ReloadRunOf(holder, active).thrown == Some(TypeError)
  {
    var init := active[..|active| - 1];
    if k < |active| - 1 {
      MissingCanvasThrows(holder, init, k);
    } else {
      ReloadFaultsAreTypeErrors(holder, init);
    }
  }

  /** The only error a run can end with is a TypeError. */
  lemma {:induction false} ReloadFaultsAreTypeErrors(holder: seq<Container>, active: seq<ActiveStatistic>)
    ensures ReloadRunOf(holder, active).thrown.Some? ==> ReloadRunOf(holder, active).thrown == Some(TypeError)
  {
    if active != [] {
      ReloadFaultsAreTypeErrors(holder, active[..|active| - 1]);
    }
  }

  /** Once a reload has thrown, the rest of the loop does not run. */
  lemma {:induction false} FaultStops(holder: seq<Container>, active: seq<ActiveStatistic>, i: nat)
    requires i <= |active| && ReloadRunOf(holder, active[..i]).thrown.Some?
    ensures ReloadRunOf(holder, active) == ReloadRunOf(holder, active[..i])
  {
    if i < |active| {
      assert active[..|active| - 1][..i] == active[..i];
      FaultStops(holder, active[..|active| - 1], i);
    } else {
      assert active[..i] == active;
    }
  }

  /** After a laid-out holder every active chart has its canvas: each known one is drawn and nothing is thrown. */
  lemma LaidOutChartsDrawn(active: seq<ActiveStatistic>, widths: seq<int>)
    requires |active| <= |widths|
    ensures ReloadRunOf(Containers(active, widths), active) == ReloadRun(Reloads(active), None)
  {
    var holder := Containers(active, widths);
    forall k | 0 <= k < |active|
      ensures HasCanvas(holder, active[k].chartName)
    {
      assert holder[k].canvasId == active[k].chartName;
    }
    CanvasesPresent(holder, active);
  }

  class StatisticsPage {
    /** `countStatistics`. */
    var countStatistics: int
    /** The holder's content. */
    var holder: seq<Container>
    /** The charts drawn so far, in order. */
    var drawn: seq<Chart>

    constructor ()
      ensures countStatistics == 0 && holder == [] && drawn == []
    {
      countStatistics := 0;
      holder := [];
      drawn := [];
    }

    /**
     * `showActiveStatistics`: the holder is laid out as `ChooseLayout` says
     * (left as it was when no case applies), then the active charts are
     * redrawn in order until one of them has no canvas.
     */
    method ShowActiveStatistics(active: seq<ActiveStatistic>) returns (thrown: Option<Fault>)
      modifies this
      ensures countStatistics == |active|
      ensures match ChooseLayout(active)
        case Cleared => holder == []
        case Columns(widths) => holder == Containers(active, widths)
        case Untouched => holder == old(holder)
      ensures drawn == old(drawn) + ReloadRunOf(holder, active).drawn
      ensures thrown == ReloadRunOf(holder, active).thrown
    {
      countStatistics := |active|;
      assert active[..countStatistics] == active;
      match countStatistics {
      case 0 =>
        holder := [];
      case 1 =>
        CreateChartContainer(active, [12]);
      case 2 =>
        if (active[0].chartValue == 2 && active[1].chartValue == 2) || (active[0].chartValue == 1 && active[1].chartValue == 1) {
          CreateChartContainer(active, [6, 6]);
        } else if active[0].chartValue == 2 {
          CreateChartContainer(active, [8, 4]);
        } else if active[1].chartValue == 2 {
          CreateChartContainer(active, [4, 8]);
        }
      case 3 =>
        for i := 0 to countStatistics
          invariant countStatistics == 3 == |active|
          invariant i > 0 ==> holder == Containers(active, [4, 4, 4])
          invariant drawn == old(drawn)
        {
          CreateChartContainer(active, [4, 4, 4]);
        }
      case _ =>
      }
      thrown := ReloadAll(active);
    }

    /** The loop at the end of `showActiveStatistics`; an error thrown by a reload ends it. */
    method ReloadAll(active: seq<ActiveStatistic>) returns (thrown: Option<Fault>)
      requires countStatistics == |active|
      modifies this`drawn
      ensures drawn == old(drawn) + ReloadRunOf(holder, active).drawn
      ensures thrown == ReloadRunOf(holder, active).thrown
    {
      var i := 0;
      while i < countStatistics
        invariant 0 <= i <= |active|
        invariant ReloadRunOf(holder, active[..i]).thrown.None?
        invariant drawn == old(drawn) + ReloadRunOf(holder, active[..i]).drawn
      {
        assert active[..i + 1][..i] == active[..i];
        thrown := ReloadStatistics(active[i].chartName);
        if thrown.Some? {
          FaultStops(holder, active, i + 1);
          return;
        }
        i := i + 1;
      }
      assert active[..i] == active;
      return None;
    }

    /**
     * `createChartContainer`: the holder is emptied, then gets one container
     * per chart; calling it again with the same arguments changes nothing more.
     */
    method CreateChartContainer(charts: seq<ActiveStatistic>, chartWidths: seq<int>)
      requires 0 <= countStatistics <= |charts| && countStatistics <= |chartWidths|
      modifies this`holder
      ensures holder == Containers(charts[..countStatistics], chartWidths)
    {
      holder := [];
      for i := 0 to countStatistics
        invariant holder == Containers(charts[..i], chartWidths)
      {
        assert charts[..i + 1][..i] == charts[..i] && charts[..i + 1][i] == charts[i];
        holder := holder + [Container(chartWidths[i], charts[i].chartName)];
      }
    }

    /**
     * `reloadStatistics`: draws the named chart, if the name is one of the
     * three; `load*Chart` on a canvas the holder lacks is a TypeError.
     */
    method ReloadStatistics(statistic: string) returns (thrown: Option<Fault>)
      modifies this`drawn
      ensures var step := ReloadStep(holder, ReloadRun([], None), statistic);
        drawn == old(drawn) + step.drawn && thrown == step.thrown
    {
      thrown := None;
      if statistic == "barChart" {
        thrown := LoadChart(statistic, BarChart);
      } else if statistic == "pieChart" {
        thrown := LoadChart(statistic, PieChart);
      } else if statistic == "lineChart" {
        thrown := LoadChart(statistic, LineChart);
      }
    }

    /** `loadBarChart` and its siblings: `getElementById(id).getContext('2d')`, then the chart. */
    method LoadChart(id: string, chart: Chart) returns (thrown: Option<Fault>)
      modifies this`drawn
      ensures thrown.None? <==> HasCanvas(holder, id)
      ensures thrown.Some? ==> thrown == Some(TypeError) && drawn == old(drawn)
      ensures thrown.None? ==> drawn == old(drawn) + [chart]
    {
      if HasCanvas(holder, id) {
        drawn := drawn + [chart];
        return None;
      }
      return Some(TypeError);
    }
  }
}

=== FILE: text.dfy ===
/** The `java.lang.String` operations the parsers rely on, over `seq<char>`. */
module Text {
  import opened Wrappers

  /** Does `pat` occur in `s` at index `i`? */
  predicate OccursAt(s: string, pat: string, i: int)
  {
    0 <= i && i + |pat| <= |s| && s[i..i + |pat|] == pat
  }

  /**
   * `s.indexOf(pat, from)`: the first index `i >= from` where `pat` occurs, or -1.
   * A negative `from` counts as 0, as in Java.
   */
  function IndexOf(s: string, pat: string, from: int): (r: int)
    requires |pat| > 0
    ensures r == -1 || (r >= from && OccursAt(s, pat, r))
    ensures r >= -1
    ensures forall j :: from <= j && (r == -1 || j < r) ==> !OccursAt(s, pat, j)
    decreases |s| - from
  {
    if from < 0 then IndexOf(s, pat, 0)
    else if from + |pat| > |s| then -1
    else if s[from..from + |pat|] == pat then from
    else IndexOf(s, pat, from + 1)
  }

  predicate Contains(s: string, pat: string)
  {
    exists i :: 0 <= i <= |s| - |pat| && OccursAt(s, pat, i)
  }

  lemma ContainsIffFound(s: string, pat: string)
    requires |pat| > 0
    ensures Contains(s, pat) <==> IndexOf(s, pat, 0) != -1
  {
  }

  /** The first occurrence at or after `from` is what `indexOf` finds. */
  lemma IndexOfFirst(s: string, pat: string, from: int, i: int)
    requires |pat| > 0 && 0 <= from <= i && OccursAt(s, pat, i)
    requires forall j :: from <= j < i ==> !OccursAt(s, pat, j)
    ensures IndexOf(s, pat, from) == i
  {
  }

  predicate StartsWith(s: string, prefix: string)
  {
    |prefix| <= |s| && s[..|prefix|] == prefix
  }

  /** `s.substring(b, e)`: index errors unless 0 <= b <= e <= |s|. */
  function Substring(s: string, b: int, e: int): (r: Result<string>)
    ensures r.Ok? <==> 0 <= b <= e <= |s|
    ensures r.Ok? ==> |r.value| == e - b
  {
    if 0 <= b <= e <= |s| then Ok(s[b..e]) else Err(IndexOutOfBounds)
  }

  /** `s.substring(b)`. */
  function SubstringFrom(s: string, b: int): (r: Result<string>)
    ensures r.Ok? <==> 0 <= b <= |s|
  {
    Substring(s, b, |s|)
  }

  /** The characters `String.trim` removes: everything up to and including U+0020. */
  predicate IsTrimmed(c: char) { c <= ' ' }

  function TrimStart(s: string): (r: string)
    ensures |r| <= |s| && r == s[|s| - |r|..]
    ensures r == [] || !IsTrimmed(r[0])
    ensures forall i :: 0 <= i < |s| - |r| ==> IsTrimmed(s[i])
  {
    if s != [] && IsTrimmed(s[0]) then TrimStart(s[1..]) else s
  }

  function TrimEnd(s: string): (r: string)
    ensures |r| <= |s| && r == s[..|r|]
    ensures r == [] || !IsTrimmed(r[|r| - 1])
    ensures forall i :: |r| <= i < |s| ==> IsTrimmed(s[i])
  {
    if s != [] && IsTrimmed(s[|s| - 1]) then TrimEnd(s[..|s| - 1]) else s
  }

  /** `s.trim()`: drop the leading and trailing characters <= ' '. */
  function Trim(s: string): string
  {
    TrimEnd(TrimStart(s))
  }

  /** A word character of Java's and JavaScript's regular expressions (`\w`). */
  predicate IsWordChar(c: char)
  {
    ('a' <= c <= 'z') || ('A' <= c <= 'Z') || ('0' <= c <= '9') || c == '_'
  }

  // ----- splitting on one character and joining again -----

  /** The first `c` at or after `i`, or the length. */
  function CharAt(s: string, c: char, i: nat): (r: nat)
    requires i <= |s|
    ensures i <= r <= |s| && (r < |s| ==> s[r] == c)
    ensures forall j :: i <= j < r ==> s[j] != c
    decreases |s| - i
  {
    if i == |s| || s[i] == c then i else CharAt(s, c, i + 1)
  }

  /** The pieces between the `c`s, empty ones included: JavaScript's `s.split(c)`. */
  function SplitAll(s: string, c: char): (r: seq<string>)
    ensures |r| >= 1
    decreases |s|
  {
    var k := CharAt(s, c, 0);
    if k == |s| then [s] else [s[..k]] + SplitAll(s[k + 1..], c)
  }

  /** The pieces joined with `c` in between. */
  function Join(parts: seq<string>, c: char): string
  {
    if parts == [] then [] else if |parts| == 1 then parts[0] else parts[0] + [c] + Join(parts[1..], c)
  }

  /** Splitting and joining again gives the text back, and no piece holds a `c`. */
  lemma {:induction false} SplitJoin(s: string, c: char)
    ensures Join(SplitAll(s, c), c) == s
    ensures forall k :: 0 <= k < |SplitAll(s, c)| ==> c !in SplitAll(s, c)[k]
    decreases |s|
  {
    var k := CharAt(s, c, 0);
    if k < |s| {
      var first, rest := s[..k], s[k + 1..];
      var tail := SplitAll(rest, c);
      SplitJoin(rest, c);
      assert s == first + [c] + rest;
      SplitFirst(first, rest, c);
      assert SplitAll(s, c) == [first] + tail;
      assert Join([first] + tail, c) == first + [c] + Join(tail, c) by {
        assert ([first] + tail)[1..] == tail;
      }
    }
  }

  /** A text without `c` is one piece. */
  lemma SplitNone(s: string, c: char)
    requires c !in s
    ensures SplitAll(s, c) == [s]
  {
    assert CharAt(s, c, 0) == |s|;
    assert s[..|s|] == s;
  }

  /** The first piece is the text before the first `c`. */
  lemma SplitFirst(key: string, rest: string, c: char)
    requires c !in key
    ensures SplitAll(key + [c] + rest, c) == [key] + SplitAll(rest, c)
  {
    var s := key + [c] + rest;
    assert s[|key|] == c;
    assert forall j :: 0 <= j < |key| ==> s[j] == key[j];
    assert CharAt(s, c, 0) == |key|;
    assert s[..|key|] == key;
    assert s[|key| + 1..] == rest;
  }

  /** Joining pieces without `c` and splitting again gives the pieces back. */
  lemma {:induction false} JoinSplit(parts: seq<string>, c: char)
    requires parts != []
    requires forall k :: 0 <= k < |parts| ==> c !in parts[k]
    ensures SplitAll(Join(parts, c), c) == parts
    decreases |parts|
  {
    if |parts| == 1 {
      assert CharAt(parts[0], c, 0) == |parts[0]|;
      assert parts[0][..|parts[0]|] == parts[0];
    } else {
      JoinSplit(parts[1..], c);
      SplitFirst(parts[0], Join(parts[1..], c), c);
      assert [parts[0]] + parts[1..] == parts;
    }
  }
}

=== FILE: time_range.dfy ===
/** `index/data/TimeRange`: a closed range of dates in milliseconds. */
module TimeRanges {
  import opened JavaNum

  datatype TimeRange = TimeRange(beginDate: int, endDate: int)

  /** `new TimeRange()`: the whole of time, from 0 to `Long.MAX_VALUE`. */
  function Default(): TimeRange { TimeRange(0, LONG_MAX) }

  predicate Within(t: int, r: TimeRange) { r.beginDate <= t <= r.endDate }

  /** `a.contains(b)`: the begin or the end of `b` lies in `a`. */
  predicate Contains(a: TimeRange, b: TimeRange)
  {
    (a.beginDate <= b.beginDate && b.beginDate <= a.endDate) ||
    (a.beginDate <= b.endDate && b.endDate <= a.endDate)
  }

  /** `a.overlaps(b)`. */
  predicate Overlaps(a: TimeRange, b: TimeRange)
  {
    Contains(a, b) || Contains(b, a)
  }

  predicate WellFormed(r: TimeRange) { r.beginDate <= r.endDate }

  /**
   * For ranges whose begin is not after their end, `overlaps` holds exactly
   * when some date lies in both; in particular it is symmetric.
   */
  lemma OverlapsIffShareDate(a: TimeRange, b: TimeRange)
    requires WellFormed(a) && WellFormed(b)
    ensures Overlaps(a, b) <==> exists t :: Within(t, a) && Within(t, b)
    ensures Overlaps(a, b) <==> Overlaps(b, a)
  {
    if Overlaps(a, b) {
      if Contains(a, b) && Within(b.beginDate, a) {
        assert Within(b.beginDate, b);
      } else if Contains(a, b) {
        assert Within(b.endDate, a) && Within(b.endDate, b);
      } else if Within(a.beginDate, b) {
        assert Within(a.beginDate, a);
      } else {
        assert Within(a.endDate, a) && Within(a.endDate, b);
      }
    }
    if exists t :: Within(t, a) && Within(t, b) {
      var t :| Within(t, a) && Within(t, b);
      if a.beginDate <= b.beginDate {
        assert Within(b.beginDate, a);
      } else {
        assert Within(a.beginDate, b);
      }
    }
  }

  /** A range whose end comes before its begin contains nothing, yet `overlaps` can hold. */
  lemma ReversedRangeOverlaps()
    ensures Overlaps(TimeRange(10, 20), TimeRange(15, 5))
    ensures !exists t :: Within(t, TimeRange(15, 5))
  {
  }

  /** The example of `main`: (10, 20) and (22, 25) do not overlap. */
  lemma DisjointExample()
    ensures !Overlaps(TimeRange(10, 20), TimeRange(22, 25))
  {
  }
}

=== FILE: type_converter.dfy ===
/**
 * `index/data/I_TypeConverter`: how keys and values of the on-disk indexes are
 * serialised. Every write reports how many bytes it claims to have written,
 * every read how many bytes it claims to have consumed; the index readers
 * rely on the two agreeing.
 */
module TypeConverters {
  import opened Wrappers
  import opened JavaNum
  import opened RandomAccess
  import opened Sequences

  /** The predefined converters. */
  datatype Scalar =
    | LongConv
    | IntegerConv
    | ShortConv
    | ByteConv
    | StringConv
    | TimeRangeConv

  /** A predefined converter, or a collection converter built from one. */
  datatype Converter =
    | Plain(scalar: Scalar)
    | ListConv(element: Scalar)  // listConverter: an ArrayList
    | SetConv(element: Scalar)   // setConverter: a LinkedHashSet

  /**
   * A value a converter handles. Strings are represented by their byte
   * encoding; a collection by its elements in iteration order.
   */
  datatype Value =
    | Number(n: int)
    | Text(bytes: seq<Octet>)
    | Range(begin: int, end: int)
    | Items(elements: seq<Value>)

  /** `v` is a value of the Java type the scalar converter `s` handles. */
  predicate FitsScalar(s: Scalar, v: Value)
  {
    match s
    case LongConv => v.Number? && IsLong(v.n)
    case IntegerConv => v.Number? && IsInt(v.n)
    case ShortConv => v.Number? && IsShort(v.n)
    case ByteConv => v.Number? && IsByte(v.n)
    case StringConv => v.Text? && |v.bytes| <= INT_MAX
    case TimeRangeConv => v.Range? && IsLong(v.begin) && IsLong(v.end)
  }

  predicate AllFit(s: Scalar, xs: seq<Value>)
  {
    forall i :: 0 <= i < |xs| ==> FitsScalar(s, xs[i])
  }

  /** `v` is a value of the Java type converter `c` handles (a set has no duplicates). */
  predicate Fits(c: Converter, v: Value)
  {
    match c
    case Plain(s) => FitsScalar(s, v)
    case ListConv(s) => v.Items? && |v.elements| <= INT_MAX && AllFit(s, v.elements)
    case SetConv(s) => v.Items? && |v.elements| <= INT_MAX && AllFit(s, v.elements) && Distinct(v.elements)
  }

  /** The bytes the scalar converter's `write` puts into the file. */
  function EncodeScalar(s: Scalar, v: Value): seq<Octet>
    requires FitsScalar(s, v)
  {
    match s
    case LongConv => BigEndian(v.n, 8)
    case IntegerConv => BigEndian(v.n, 4)
    case ShortConv => BigEndian(v.n, 2)
    case ByteConv => BigEndian(v.n, 1)
    case StringConv => BigEndian(|v.bytes|, 4) + v.bytes
    case TimeRangeConv => BigEndian(v.begin, 8) + BigEndian(v.end, 8)
  }

  /** The encodings of the elements of a collection, one per element. */
  function Chunks(s: Scalar, xs: seq<Value>): (r: seq<seq<Octet>>)
    requires AllFit(s, xs)
    ensures |r| == |xs|
  {
    seq(|xs|, i requires 0 <= i < |xs| => EncodeScalar(s, xs[i]))
  }

  function Concat(chunks: seq<seq<Octet>>): seq<Octet>
  {
    if chunks == [] then [] else chunks[0] + Concat(chunks[1..])
  }

  /** The bytes the element loop of `CollectionTypeConverter.write` emits. */
  function EncodeAll(s: Scalar, xs: seq<Value>): seq<Octet>
    requires AllFit(s, xs)
  {
    Concat(Chunks(s, xs))
  }

  /** The bytes `write` puts into the file. */
  function Encode(c: Converter, v: Value): seq<Octet>
    requires Fits(c, v)
  {
    match c
    case Plain(s) => EncodeScalar(s, v)
    case ListConv(s) => BigEndian(|v.elements|, 4) + EncodeAll(s, v.elements)
    case SetConv(s) => BigEndian(|v.elements|, 4) + EncodeAll(s, v.elements)
  }

  /** The count a scalar converter's `write` returns, as the code computes it: LONG returns 2. */
  function ScalarWriteCount(s: Scalar, v: Value): int
    requires FitsScalar(s, v)
  {
    match s
    case LongConv => 2
    case IntegerConv => 4
    case ShortConv => 2
    case ByteConv => 1
    case StringConv => 4 + |v.bytes|
    case TimeRangeConv => 16
  }

  function WriteCountAll(s: Scalar, xs: seq<Value>): int
    requires AllFit(s, xs)
  {
    if xs == [] then 0 else ScalarWriteCount(s, xs[0]) + WriteCountAll(s, xs[1..])
  }

  /** The count `write` returns. */
  function WriteCount(c: Converter, v: Value): int
    requires Fits(c, v)
  {
    match c
    case Plain(s) => ScalarWriteCount(s, v)
    case ListConv(s) => 4 + WriteCountAll(s, v.elements)
    case SetConv(s) => 4 + WriteCountAll(s, v.elements)
  }

  /** How many LONG values a write of `v` emits. */
  function LongCount(c: Converter, v: Value): nat
    requires Fits(c, v)
  {
    match c
    case Plain(s) => if s == LongConv then 1 else 0
    case ListConv(s) => if s == LongConv then |v.elements| else 0
    case SetConv(s) => if s == LongConv then |v.elements| else 0
  }

  // ----- reading -----

  /**
   * The outcome of a `read`: the value, the count it reports, and the bytes
   * of the file after the file pointer once it returns.
   */
  datatype Decoded = Decoded(value: Value, count: int, rest: seq<Octet>)
  datatype DecodedItems = DecodedItems(values: seq<Value>, count: int, rest: seq<Octet>)

  /** `readLong`, `readInt`, `readShort`, `readByte`: `w` big-endian bytes, or an EOFException. */
  function DecodeFixed(stream: seq<Octet>, w: nat): Result<Decoded>
    requires w >= 1
  {
    if |stream| < w then Err(EndOfFile)
    else Ok(Decoded(Number(Signed(stream[..w])), w, stream[w..]))
  }

  /**
   * The STRING converter's `read`: a 4-byte size, then `read(byte[size])`,
   * which copies as many bytes as the file still has and leaves the rest of
   * the array zero.
   */
  function DecodeString(stream: seq<Octet>): Result<Decoded>
  {
    if |stream| < 4 then Err(EndOfFile)
    else
      var size := Signed(stream[..4]);
      if size < 0 then Err(NegativeArraySize)
      else
        var got := stream[4..][..Min(size, |stream| - 4)];
        Ok(Decoded(Text(got + Zeros(size - |got|)), size + 4, stream[4 + |got|..]))
  }

  /** The TIME_RANGE converter's `read`: begin, then end. */
  function DecodeRange(stream: seq<Octet>): Result<Decoded>
  {
    if |stream| < 16 then Err(EndOfFile)
    else Ok(Decoded(Range(Signed(stream[..8]), Signed(stream[8..16])), 16, stream[16..]))
  }

  /** What a predefined converter's `read` returns on the bytes after the file pointer. */
  function DecodeScalar(s: Scalar, stream: seq<Octet>): Result<Decoded>
  {
    match s
    case LongConv => DecodeFixed(stream, 8)
    case IntegerConv => DecodeFixed(stream, 4)
    case ShortConv => DecodeFixed(stream, 2)
    case ByteConv => DecodeFixed(stream, 1)
    case StringConv => DecodeString(stream)
    case TimeRangeConv => DecodeRange(stream)
  }

  /** A converter's `read`, as a function of the bytes after the file pointer. */
  type Reader = seq<Octet> -> Result<Decoded>

  /** The `read` of the element converter a collection converter was built from. */
  function ElementReader(s: Scalar): Reader
  {
    stream => DecodeScalar(s, stream)
  }

  /** Reading `n` elements one after the other with the element converter's `read`. */
  function DecodeItems(read: Reader, stream: seq<Octet>, n: nat): Result<DecodedItems>
    decreases n
  {
    if n == 0 then Ok(DecodedItems([], 0, stream))
    else match read(stream)
      case Err(f) => Err(f)
      case Ok(d) => Prepend([d.value], d.count, DecodeItems(read, d.rest, n - 1))
  }

  /** Put already decoded elements and their count in front of a decoding result. */
  function Prepend(vs: seq<Value>, count: int, r: Result<DecodedItems>): Result<DecodedItems>
  {
    match r
    case Err(f) => Err(f)
    case Ok(d) => Ok(DecodedItems(vs + d.values, count + d.count, d.rest))
  }

  /** The elements of a new ArrayList, or of a new LinkedHashSet, after adding `vs` in order. */
  function Collect(c: Converter, vs: seq<Value>): seq<Value>
    requires !c.Plain?
  {
    if c.SetConv? then Dedup(vs) else vs
  }

  /** What `read` returns on the bytes after the file pointer. */
  function Decode(c: Converter, stream: seq<Octet>): Result<Decoded>
  {
    if c.Plain? then DecodeScalar(c.scalar, stream) else DecodeCollection(c, stream)
  }

  /**
   * `CollectionTypeConverter.read`: a 4-byte count, then that many elements
   * added one by one to a new ArrayList or LinkedHashSet.
   */
  function DecodeCollection(c: Converter, stream: seq<Octet>): Result<Decoded>
    requires !c.Plain?
  {
    if |stream| < 4 then Err(EndOfFile)
    else
      var n := Signed(stream[..4]);
      // new ArrayList(n) and new LinkedHashSet(n) reject a negative capacity
      if n < 0 then Err(IllegalArgument)
      else match DecodeItems(ElementReader(c.element), stream[4..], n)
        case Err(f) => Err(f)
        case Ok(d) =>
          Ok(Decoded(Items(Collect(c, d.values)), 4 + d.count, d.rest))
  }

  // ----- properties -----

  lemma PrependNothing(r: Result<DecodedItems>)
    ensures Prepend([], 0, r) == r
  {
    if r.Ok? {
      assert [] + r.value.values == r.value.values;
    }
  }

  lemma PrependTwice(a: seq<Value>, ca: int, b: seq<Value>, cb: int, r: Result<DecodedItems>)
    ensures Prepend(a, ca, Prepend(b, cb, r)) == Prepend(a + b, ca + cb, r)
  {
    if r.Ok? {
      assert a + (b + r.value.values) == (a + b) + r.value.values;
    }
  }

  lemma Pow256Values()
    ensures Pow256(1) == 0x100 && Pow256(2) == 0x1_0000 && Pow256(4) == 0x1_0000_0000
    ensures Pow256(8) == 0x1_0000_0000_0000_0000
    ensures Half(1) == 0x80 && Half(2) == 0x8000 && Half(4) == 0x8000_0000
    ensures Half(8) == 0x8000_0000_0000_0000
  {
    assert Pow256(3) == 0x100_0000;
    assert Pow256(5) == 0x100_0000_0000;
    assert Pow256(6) == 0x1_0000_0000_0000;
    assert Pow256(7) == 0x100_0000_0000_0000;
  }

  /** How the bytes of two consecutive fields and whatever follows them split up again. */
  lemma SplitFields(a: seq<Octet>, b: seq<Octet>, t: seq<Octet>)
    ensures ((a + b) + t)[..|a|] == a
    ensures ((a + b) + t)[|a|..] == b + t
    ensures ((a + b) + t)[|a|..|a| + |b|] == b
    ensures ((a + b) + t)[|a| + |b|..] == t
  {
    assert (a + b) + t == a + (b + t);
  }

  lemma {:induction false} ConcatSnoc(chunks: seq<seq<Octet>>, c: seq<Octet>)
    ensures Concat(chunks + [c]) == Concat(chunks) + c
    decreases |chunks|
  {
    if chunks == [] {
      assert [c][1..] == [];
    } else {
      assert (chunks + [c])[1..] == chunks[1..] + [c];
      ConcatSnoc(chunks[1..], c);
    }
  }

  /** Writing one more element appends its bytes and its count. */
  lemma {:induction false} EncodeAllSnoc(s: Scalar, xs: seq<Value>, x: Value)
    requires AllFit(s, xs) && FitsScalar(s, x)
    ensures AllFit(s, xs + [x])
    ensures EncodeAll(s, xs + [x]) == EncodeAll(s, xs) + EncodeScalar(s, x)
    ensures WriteCountAll(s, xs + [x]) == WriteCountAll(s, xs) + ScalarWriteCount(s, x)
    decreases |xs|
  {
    assert Chunks(s, xs + [x]) == Chunks(s, xs) + [EncodeScalar(s, x)];
    ConcatSnoc(Chunks(s, xs), EncodeScalar(s, x));
    if xs == [] {
      assert [x][1..] == [];
    } else {
      assert (xs + [x])[1..] == xs[1..] + [x];
      EncodeAllSnoc(s, xs[1..], x);
    }
  }

  lemma DecodeEncodeFixed(s: Scalar, v: Value, tail: seq<Octet>)
    requires s.LongConv? || s.IntegerConv? || s.ShortConv? || s.ByteConv?
    requires FitsScalar(s, v)
    ensures DecodeScalar(s, EncodeScalar(s, v) + tail) == Ok(Decoded(v, |EncodeScalar(s, v)|, tail))
  {
    Pow256Values();
    var bytes := EncodeScalar(s, v);
    assert (bytes + tail)[..|bytes|] == bytes;
    assert (bytes + tail)[|bytes|..] == tail;
    match s
    case LongConv => SignedOfBigEndian(v.n, 8);
    case IntegerConv => SignedOfBigEndian(v.n, 4);
    case ShortConv => SignedOfBigEndian(v.n, 2);
    case ByteConv => SignedOfBigEndian(v.n, 1);
  }

  lemma DecodeEncodeString(v: Value, tail: seq<Octet>)
    requires FitsScalar(StringConv, v)
    ensures DecodeString(BigEndian(|v.bytes|, 4) + v.bytes + tail) == Ok(Decoded(v, 4 + |v.bytes|, tail))
  {
    Pow256Values();
    var stream := BigEndian(|v.bytes|, 4) + v.bytes + tail;
    SplitFields(BigEndian(|v.bytes|, 4), v.bytes, tail);
    SignedOfBigEndian(|v.bytes|, 4);
    assert stream[4..][..|v.bytes|] == v.bytes;
    assert v.bytes + Zeros(0) == v.bytes;
  }

  lemma DecodeEncodeRange(v: Value, tail: seq<Octet>)
    requires FitsScalar(TimeRangeConv, v)
    ensures DecodeRange(BigEndian(v.begin, 8) + BigEndian(v.end, 8) + tail) == Ok(Decoded(v, 16, tail))
  {
    Pow256Values();
    SplitFields(BigEndian(v.begin, 8), BigEndian(v.end, 8), tail);
    SignedOfBigEndian(v.begin, 8);
    SignedOfBigEndian(v.end, 8);
  }

  /**
   * Read after write for the predefined converters: `read` on the bytes
   * `write` emitted gives back the value, reports their number, and leaves
   * the file pointer right after them.
   */
  lemma DecodeEncodeScalar(s: Scalar, v: Value, tail: seq<Octet>)
    requires FitsScalar(s, v)
    ensures DecodeScalar(s, EncodeScalar(s, v) + tail) == Ok(Decoded(v, |EncodeScalar(s, v)|, tail))
  {
    match s
    case StringConv => DecodeEncodeString(v, tail);
    case TimeRangeConv => DecodeEncodeRange(v, tail);
    case _ => DecodeEncodeFixed(s, v, tail);
  }

  /** `read` gives back `x` from `chunk`, whatever follows it. */
  ghost predicate ReadsBack(read: Reader, x: Value, chunk: seq<Octet>)
  {
    forall tail :: read(chunk + tail) == Ok(Decoded(x, |chunk|, tail))
  }

  /**
   * Read after write for the element loop, whatever the element converter:
   * if its `read` gives back each element from that element's bytes, then
   * reading `|xs|` elements from the concatenated bytes gives back `xs`.
   */
  lemma {:induction false} DecodeChunks(read: Reader, xs: seq<Value>, chunks: seq<seq<Octet>>, tail: seq<Octet>)
    requires |chunks| == |xs|
    requires forall i :: 0 <= i < |xs| ==> ReadsBack(read, xs[i], chunks[i])
    ensures DecodeItems(read, Concat(chunks) + tail, |xs|) == Ok(DecodedItems(xs, |Concat(chunks)|, tail))
    decreases |xs|
  {
    if xs != [] {
      var later := Concat(chunks[1..]) + tail;
      assert Concat(chunks) + tail == chunks[0] + later;
      assert ReadsBack(read, xs[0], chunks[0]);
      assert read(chunks[0] + later) == Ok(Decoded(xs[0], |chunks[0]|, later));
      forall i | 0 <= i < |xs[1..]|
        ensures ReadsBack(read, xs[1..][i], chunks[1..][i])
      {
        assert ReadsBack(read, xs[i + 1], chunks[i + 1]);
      }
      DecodeChunks(read, xs[1..], chunks[1..], tail);
      assert [xs[0]] + xs[1..] == xs;
    } else {
      assert Concat(chunks) + tail == tail;
    }
  }

  lemma ScalarReadsBack(s: Scalar, x: Value)
    requires FitsScalar(s, x)
    ensures ReadsBack(ElementReader(s), x, EncodeScalar(s, x))
  {
    forall tail
      ensures ElementReader(s)(EncodeScalar(s, x) + tail) == Ok(Decoded(x, |EncodeScalar(s, x)|, tail))
    {
      DecodeEncodeScalar(s, x, tail);
    }
  }

  /** Read after write for the element loop over predefined-converter elements. */
  lemma DecodeEncodeAll(s: Scalar, xs: seq<Value>, tail: seq<Octet>)
    requires AllFit(s, xs)
    ensures DecodeItems(ElementReader(s), EncodeAll(s, xs) + tail, |xs|) == Ok(DecodedItems(xs, |EncodeAll(s, xs)|, tail))
  {
    var chunks := Chunks(s, xs);
    forall i | 0 <= i < |xs|
      ensures ReadsBack(ElementReader(s), xs[i], chunks[i])
    {
      ScalarReadsBack(s, xs[i]);
    }
    DecodeChunks(ElementReader(s), xs, chunks, tail);
  }

  /** Read after write for a list or set converter: the size, then the elements. */
  lemma DecodeEncodeCollection(c: Converter, xs: seq<Value>, tail: seq<Octet>)
    requires !c.Plain? && Fits(c, Items(xs))
    ensures DecodeCollection(c, BigEndian(|xs|, 4) + EncodeAll(c.element, xs) + tail)
         == Ok(Decoded(Items(xs), 4 + |EncodeAll(c.element, xs)|, tail))
  {
    Pow256Values();
    SplitFields(BigEndian(|xs|, 4), EncodeAll(c.element, xs), tail);
    SignedOfBigEndian(|xs|, 4);
    DecodeEncodeAll(c.element, xs, tail);
    if c.SetConv? {
      DedupOfDistinct(xs);
    }
  }

  /**
   * Read after write: on the bytes `write` emitted, `read` returns the value
   * written, reports exactly their number, and leaves the file pointer right
   * after them. A set comes back in its insertion order.
   */
  lemma DecodeEncode(c: Converter, v: Value, tail: seq<Octet>)
    requires Fits(c, v)
    ensures Decode(c, Encode(c, v) + tail) == Ok(Decoded(v, |Encode(c, v)|, tail))
  {
    if c.Plain? {
      DecodeEncodeScalar(c.scalar, v, tail);
    } else {
      DecodeEncodeCollection(c, v.elements, tail);
    }
  }

  /** Every successful read consumes at least one byte. */
  lemma DecodeShrinks(c: Converter, stream: seq<Octet>)
    ensures Decode(c, stream).Ok? ==> |Decode(c, stream).value.rest| < |stream|
  {
    if !c.Plain? && |stream| >= 4 && Signed(stream[..4]) >= 0 {
      DecodeItemsShrinks(c.element, stream[4..], Signed(stream[..4]));
    }
  }

  lemma {:induction false} DecodeItemsShrinks(e: Scalar, stream: seq<Octet>, n: nat)
    ensures DecodeItems(ElementReader(e), stream, n).Ok? ==> |DecodeItems(ElementReader(e), stream, n).value.rest| <= |stream|
    decreases n
  {
    var d := ElementReader(e)(stream);
    if n > 0 && d.Ok? {
      DecodeItemsShrinks(e, d.value.rest, n - 1);
    }
  }

  /** What a `read` leaves after the file pointer is the tail of what was there. */
  lemma DecodeScalarSuffix(s: Scalar, stream: seq<Octet>)
    ensures DecodeScalar(s, stream).Ok? ==> SuffixOf(DecodeScalar(s, stream).value.rest, stream)
  {
  }

  lemma {:induction false} DecodeItemsSuffix(e: Scalar, stream: seq<Octet>, n: nat)
    ensures DecodeItems(ElementReader(e), stream, n).Ok? ==> SuffixOf(DecodeItems(ElementReader(e), stream, n).value.rest, stream)
    decreases n
  {
    var d := ElementReader(e)(stream);
    if n > 0 && d.Ok? {
      DecodeScalarSuffix(e, stream);
      DecodeItemsSuffix(e, d.value.rest, n - 1);
      var r := DecodeItems(ElementReader(e), d.value.rest, n - 1);
      if r.Ok? {
        SuffixTransitive(r.value.rest, d.value.rest, stream);
      }
    }
  }

  lemma DecodeSuffix(c: Converter, stream: seq<Octet>)
    ensures Decode(c, stream).Ok? ==> SuffixOf(Decode(c, stream).value.rest, stream)
  {
    if c.Plain? {
      DecodeScalarSuffix(c.scalar, stream);
    } else if |stream| >= 4 && Signed(stream[..4]) >= 0 {
      DecodeItemsSuffix(c.element, stream[4..], Signed(stream[..4]));
      var r := DecodeItems(ElementReader(c.element), stream[4..], Signed(stream[..4]));
      if r.Ok? {
        SuffixTransitive(r.value.rest, stream[4..], stream);
      }
    }
  }

  /** The same, stated on the file: write at `p`, go back to `p`, read. */
  lemma ReadAfterWrite(c: Converter, v: Value, data: seq<Octet>, p: nat)
    requires Fits(c, v)
    ensures Decode(c, Remaining(Overwrite(data, p, Encode(c, v)), p))
         == Ok(Decoded(v, |Encode(c, v)|, Remaining(data, p + |Encode(c, v)|)))
  {
    RemainingAfterWrite(data, p, Encode(c, v));
    DecodeEncode(c, v, Remaining(data, p + |Encode(c, v)|));
  }

  lemma {:induction false} WriteCountShortfallAll(s: Scalar, xs: seq<Value>)
    requires AllFit(s, xs)
    ensures WriteCountAll(s, xs) == |EncodeAll(s, xs)| - (if s == LongConv then 6 * |xs| else 0)
    decreases |xs|
  {
    if xs != [] {
      WriteCountShortfallAll(s, xs[1..]);
      assert Chunks(s, xs)[1..] == Chunks(s, xs[1..]);
    }
  }

  /**
   * The count `write` returns is the number of bytes it wrote, except that
   * every LONG written is reported as 2 bytes instead of 8.
   */
  lemma WriteCountShortfall(c: Converter, v: Value)
    requires Fits(c, v)
    ensures WriteCount(c, v) == |Encode(c, v)| - 6 * LongCount(c, v)
  {
    if !c.Plain? {
      WriteCountShortfallAll(c.element, v.elements);
    }
  }

  /** For every value written without a LONG, write and read report the same count. */
  lemma WriteCountMatchesRead(c: Converter, v: Value, tail: seq<Octet>)
    requires Fits(c, v) && LongCount(c, v) == 0
    ensures Decode(c, Encode(c, v) + tail).Ok?
    ensures Decode(c, Encode(c, v) + tail).value.count == WriteCount(c, v)
  {
    WriteCountShortfall(c, v);
    DecodeEncode(c, v, tail);
  }

  /** The LONG converter writes 8 bytes and reads back 8, but its write reports 2. */
  lemma LongWriteUnderReports(v: int, tail: seq<Octet>)
    requires IsLong(v)
    ensures |Encode(Plain(LongConv), Number(v))| == 8
    ensures Decode(Plain(LongConv), Encode(Plain(LongConv), Number(v)) + tail) == Ok(Decoded(Number(v), 8, tail))
    ensures WriteCount(Plain(LongConv), Number(v)) == 2
  {
    DecodeEncode(Plain(LongConv), Number(v), tail);
  }

  /**
   * The count the documentation of `write` promises ("the amount of bytes
   * that were written"): LONG reports 8.
   */
  function CorrectedWriteCount(c: Converter, v: Value): (r: int)
    requires Fits(c, v)
    ensures r == |Encode(c, v)|
  {
    WriteCountShortfall(c, v);
    WriteCount(c, v) + 6 * LongCount(c, v)
  }

  /** With the corrected LONG count, every converter's write and read report the same count. */
  lemma CorrectedCountMatchesRead(c: Converter, v: Value, tail: seq<Octet>)
    requires Fits(c, v)
    ensures Decode(c, Encode(c, v) + tail).Ok?
    ensures Decode(c, Encode(c, v) + tail).value.count == CorrectedWriteCount(c, v)
  {
    DecodeEncode(c, v, tail);
  }

  // ----- the converters as they run against a file -----

  /** A predefined converter's `write`. */
  method WriteScalar(f: RandomAccessFile, s: Scalar, v: Value) returns (count: int)
    requires FitsScalar(s, v)
    modifies f
    ensures f.data == Overwrite(old(f.data), old(f.pointer), EncodeScalar(s, v))
    ensures f.pointer == old(f.pointer) + |EncodeScalar(s, v)|
    ensures count == ScalarWriteCount(s, v)
  {
    match s
    case LongConv =>
      f.Write(BigEndian(v.n, 8));
      count := 2;
    case IntegerConv =>
      f.Write(BigEndian(v.n, 4));
      count := 4;
    case ShortConv =>
      f.Write(BigEndian(v.n, 2));
      count := 2;
    case ByteConv =>
      f.Write(BigEndian(v.n, 1));
      count := 1;
    case StringConv =>
      count := WriteString(f, v.bytes);
    case TimeRangeConv =>
      count := WriteRange(f, v.begin, v.end);
  }

  /** The STRING converter's `write`: the length, then the bytes. */
  method WriteString(f: RandomAccessFile, bytes: seq<Octet>) returns (count: int)
    modifies f
    ensures f.data == Overwrite(old(f.data), old(f.pointer), BigEndian(|bytes|, 4) + bytes)
    ensures f.pointer == old(f.pointer) + 4 + |bytes|
    ensures count == 4 + |bytes|
  {
    OverwriteTwice(f.data, f.pointer, BigEndian(|bytes|, 4), bytes);
    f.Write(BigEndian(|bytes|, 4));
    f.Write(bytes);
    count := 4 + |bytes|;
  }

  /** The TIME_RANGE converter's `write`: begin, then end. */
  method WriteRange(f: RandomAccessFile, begin: int, end: int) returns (count: int)
    modifies f
    ensures f.data == Overwrite(old(f.data), old(f.pointer), BigEndian(begin, 8) + BigEndian(end, 8))
    ensures f.pointer == old(f.pointer) + 16
    ensures count == 16
  {
    OverwriteTwice(f.data, f.pointer, BigEndian(begin, 8), BigEndian(end, 8));
    f.Write(BigEndian(begin, 8));
    f.Write(BigEndian(end, 8));
    count := 16;
  }

  /**
   * `write(file, value)`: emits `Encode(c, v)` at the file pointer and returns
   * the reported count.
   */
  method Write(f: RandomAccessFile, c: Converter, v: Value) returns (count: int)
    requires Fits(c, v)
    modifies f
    ensures f.data == Overwrite(old(f.data), old(f.pointer), Encode(c, v))
    ensures f.pointer == old(f.pointer) + |Encode(c, v)|
    ensures count == WriteCount(c, v)
  {
    if c.Plain? {
      count := WriteScalar(f, c.scalar, v);
    } else {
      count := WriteCollection(f, c.element, v.elements);
    }
  }

  /** `CollectionTypeConverter.write`: the size, then every element in iteration order. */
  method WriteCollection(f: RandomAccessFile, e: Scalar, xs: seq<Value>) returns (count: int)
    requires |xs| <= INT_MAX && AllFit(e, xs)
    modifies f
    ensures f.data == Overwrite(old(f.data), old(f.pointer), BigEndian(|xs|, 4) + EncodeAll(e, xs))
    ensures f.pointer == old(f.pointer) + 4 + |EncodeAll(e, xs)|
    ensures count == 4 + WriteCountAll(e, xs)
  {
    ghost var d0 := f.data;
    ghost var p0 := f.pointer;
    var header := BigEndian(|xs|, 4);
    f.Write(header);
    count := 4;
    assert EncodeAll(e, xs[..0]) == [];
    assert header + EncodeAll(e, xs[..0]) == header;
    var i := 0;
    while i < |xs|
      invariant 0 <= i <= |xs|
      invariant f.data == Overwrite(d0, p0, header + EncodeAll(e, xs[..i]))
      invariant f.pointer == p0 + 4 + |EncodeAll(e, xs[..i])|
      invariant count == 4 + WriteCountAll(e, xs[..i])
    {
      var n := WriteElement(f, e, xs, i, d0, p0);
      count := count + n;
      i := i + 1;
    }
    assert xs[..|xs|] == xs;
  }

  /** One iteration of the write loop: element `i` goes after the size and elements before it. */
  method WriteElement(f: RandomAccessFile, e: Scalar, xs: seq<Value>, i: nat, ghost d0: seq<Octet>, ghost p0: nat)
    returns (n: int)
    requires i < |xs| && AllFit(e, xs)
    requires f.data == Overwrite(d0, p0, BigEndian(|xs|, 4) + EncodeAll(e, xs[..i]))
    requires f.pointer == p0 + 4 + |EncodeAll(e, xs[..i])|
    modifies f
    ensures f.data == Overwrite(d0, p0, BigEndian(|xs|, 4) + EncodeAll(e, xs[..i + 1]))
    ensures f.pointer == p0 + 4 + |EncodeAll(e, xs[..i + 1])|
    ensures WriteCountAll(e, xs[..i + 1]) == WriteCountAll(e, xs[..i]) + n
  {
    ghost var before := f.data;
    n := WriteScalar(f, e, xs[i]);
    WriteStep(e, xs, i, d0, p0, before, f.data);
  }

  /** What one more element of the write loop does to the file written so far. */
  lemma WriteStep(e: Scalar, xs: seq<Value>, i: nat, d0: seq<Octet>, p0: nat, before: seq<Octet>, after: seq<Octet>)
    requires i < |xs| && AllFit(e, xs)
    requires before == Overwrite(d0, p0, BigEndian(|xs|, 4) + EncodeAll(e, xs[..i]))
    requires after == Overwrite(before, p0 + 4 + |EncodeAll(e, xs[..i])|, EncodeScalar(e, xs[i]))
    ensures after == Overwrite(d0, p0, BigEndian(|xs|, 4) + EncodeAll(e, xs[..i + 1]))
    ensures |EncodeAll(e, xs[..i + 1])| == |EncodeAll(e, xs[..i])| + |EncodeScalar(e, xs[i])|
    ensures WriteCountAll(e, xs[..i + 1]) == WriteCountAll(e, xs[..i]) + ScalarWriteCount(e, xs[i])
  {
    assert xs[..i + 1] == xs[..i] + [xs[i]];
    EncodeAllSnoc(e, xs[..i], xs[i]);
    AppendAfterWrite(d0, p0, BigEndian(|xs|, 4), EncodeAll(e, xs[..i]), EncodeScalar(e, xs[i]), EncodeAll(e, xs[..i + 1]), before, after);
  }

  /** Writing `c` right after a write of `h + a` is one write of `h + (a + c)`. */
  lemma AppendAfterWrite(d0: seq<Octet>, p0: nat, h: seq<Octet>, a: seq<Octet>, c: seq<Octet>, ac: seq<Octet>, before: seq<Octet>, after: seq<Octet>)
    requires before == Overwrite(d0, p0, h + a)
    requires after == Overwrite(before, p0 + |h| + |a|, c)
    requires ac == a + c
    ensures after == Overwrite(d0, p0, h + ac)
  {
    OverwriteTwice(d0, p0, h + a, c);
    assert (h + a) + c == h + ac;
  }

  /** A read of `w` bytes that leaves the pointer after what it consumed. */
  method ReadFixed(f: RandomAccessFile, w: nat) returns (r: Result<Decoded>)
    requires w >= 1
    modifies f
    ensures f.data == old(f.data)
    ensures r == DecodeFixed(Remaining(old(f.data), old(f.pointer)), w)
    ensures r.Ok? ==> f.pointer + |r.value.rest| == |f.data| && Remaining(f.data, f.pointer) == r.value.rest
  {
    ghost var stream := Remaining(f.data, f.pointer);
    var bytes := f.ReadFully(w);
    if bytes.Err? {
      return Err(bytes.fault);
    }
    assert bytes.value == stream[..w];
    r := Ok(Decoded(Number(Signed(bytes.value)), w, f.data[f.pointer..]));
  }

  method ReadScalar(f: RandomAccessFile, s: Scalar) returns (r: Result<Decoded>)
    modifies f
    ensures f.data == old(f.data)
    ensures r == DecodeScalar(s, Remaining(old(f.data), old(f.pointer)))
    ensures r.Ok? ==> f.pointer + |r.value.rest| == |f.data| && Remaining(f.data, f.pointer) == r.value.rest
  {
    match s
    case LongConv => r := ReadFixed(f, 8);
    case IntegerConv => r := ReadFixed(f, 4);
    case ShortConv => r := ReadFixed(f, 2);
    case ByteConv => r := ReadFixed(f, 1);
    case StringConv => r := ReadString(f);
    case TimeRangeConv => r := ReadRange(f);
  }

  method ReadString(f: RandomAccessFile) returns (r: Result<Decoded>)
    modifies f
    ensures f.data == old(f.data)
    ensures r == DecodeString(Remaining(old(f.data), old(f.pointer)))
    ensures r.Ok? ==> f.pointer + |r.value.rest| == |f.data| && Remaining(f.data, f.pointer) == r.value.rest
  {
    ghost var stream := Remaining(f.data, f.pointer);
    var header := f.ReadFully(4);
    if header.Err? {
      return Err(header.fault);
    }
    assert header.value == stream[..4];
    var size := Signed(header.value);
    if size < 0 {
      return Err(NegativeArraySize);
    }
    var got := f.ReadAvailable(size);
    assert got == stream[4..][..Min(size, |stream| - 4)];
    r := Ok(Decoded(Text(got + Zeros(size - |got|)), size + 4, f.data[f.pointer..]));
  }

  method ReadRange(f: RandomAccessFile) returns (r: Result<Decoded>)
    modifies f
    ensures f.data == old(f.data)
    ensures r == DecodeRange(Remaining(old(f.data), old(f.pointer)))
    ensures r.Ok? ==> f.pointer + |r.value.rest| == |f.data| && Remaining(f.data, f.pointer) == r.value.rest
  {
    ghost var stream := Remaining(f.data, f.pointer);
    var begin := f.ReadFully(8);
    if begin.Err? {
      return Err(begin.fault);
    }
    var end := f.ReadFully(8);
    if end.Err? {
      return Err(end.fault);
    }
    assert begin.value == stream[..8] && end.value == stream[8..16];
    r := Ok(Decoded(Range(Signed(begin.value), Signed(end.value)), 16, f.data[f.pointer..]));
  }

  /** `read(file)`: what `Decode` says, with the file pointer left after the consumed bytes. */
  method Read(f: RandomAccessFile, c: Converter) returns (r: Result<Decoded>)
    modifies f
    ensures f.data == old(f.data)
    ensures r == Decode(c, Remaining(old(f.data), old(f.pointer)))
    ensures r.Ok? ==> f.pointer + |r.value.rest| == |f.data| && Remaining(f.data, f.pointer) == r.value.rest
  {
    if c.Plain? {
      r := ReadScalar(f, c.scalar);
    } else {
      r := ReadCollection(f, c);
    }
  }

  /** `CollectionTypeConverter.read`: the 4-byte count, then the element loop. */
  method ReadCollection(f: RandomAccessFile, c: Converter) returns (r: Result<Decoded>)
    requires !c.Plain?
    modifies f
    ensures f.data == old(f.data)
    ensures r == DecodeCollection(c, Remaining(old(f.data), old(f.pointer)))
    ensures r.Ok? ==> f.pointer + |r.value.rest| == |f.data| && Remaining(f.data, f.pointer) == r.value.rest
  {
    ghost var stream := Remaining(f.data, f.pointer);
    var header := f.ReadFully(4);
    if header.Err? {
      return Err(header.fault);
    }
    assert header.value == stream[..4];
    var n := Signed(header.value);
    if n < 0 {
      return Err(IllegalArgument);
    }
    assert stream[4..] == Remaining(f.data, f.pointer);
    var items, elements := ReadElements(f, c, n);
    if items.Err? {
      return Err(items.fault);
    }
    r := Ok(Decoded(Items(elements), 4 + items.value.count, items.value.rest));
  }

  /**
   * The element loop of `CollectionTypeConverter.read`: `n` reads with the
   * element converter, each element added to the new collection.
   */
  method ReadElements(f: RandomAccessFile, c: Converter, n: nat) returns (r: Result<DecodedItems>, elements: seq<Value>)
    requires !c.Plain? && f.pointer <= |f.data|
    modifies f
    ensures f.data == old(f.data)
    ensures r == DecodeItems(ElementReader(c.element), Remaining(old(f.data), old(f.pointer)), n)
    ensures r.Ok? ==> elements == Collect(c, r.value.values)
    ensures r.Ok? ==> f.pointer + |r.value.rest| == |f.data| && Remaining(f.data, f.pointer) == r.value.rest
  {
    ghost var start := Remaining(f.data, f.pointer);
    var values: seq<Value> := [];
    var count := 0;
    elements := [];
    var i := 0;
    ghost var rest := start;
    while i < n
      invariant 0 <= i <= n
      invariant f.pointer <= |f.data| && f.data == old(f.data) && rest == Remaining(f.data, f.pointer)
      invariant DecodeItems(ElementReader(c.element), start, i) == Ok(DecodedItems(values, count, rest))
      invariant elements == Collect(c, values)
    {
      var x := ReadElement(f, c.element, start, i, n, values, count);
      if x.Err? {
        return Err(x.fault), elements;
      }
      var item := x.value.value;
      CollectStep(c, values, item);
      if c.ListConv? || item !in elements {
        elements := elements + [item];
      }
      values := values + [item];
      count := count + x.value.count;
      rest := x.value.rest;
      i := i + 1;
    }
    r := Ok(DecodedItems(values, count, Remaining(f.data, f.pointer)));
  }

  /** One iteration of the read loop: element `i` is read from where the first `i` ended. */
  method ReadElement(f: RandomAccessFile, e: Scalar, ghost start: seq<Octet>, ghost i: nat, ghost n: nat, ghost values: seq<Value>, ghost count: int)
    returns (x: Result<Decoded>)
    requires i < n && f.pointer <= |f.data|
    requires DecodeItems(ElementReader(e), start, i) == Ok(DecodedItems(values, count, Remaining(f.data, f.pointer)))
    modifies f
    ensures f.data == old(f.data)
    ensures x.Err? ==> DecodeItems(ElementReader(e), start, n) == Err(x.fault)
    ensures x.Ok? ==> f.pointer <= |f.data| && x.value.rest == Remaining(f.data, f.pointer)
    ensures x.Ok? ==> DecodeItems(ElementReader(e), start, i + 1) == Ok(DecodedItems(values + [x.value.value], count + x.value.count, x.value.rest))
  {
    x := ReadScalar(f, e);
    DecodeItemsSnoc(ElementReader(e), start, i, DecodedItems(values, count, Remaining(old(f.data), old(f.pointer))));
    if x.Err? {
      DecodeItemsStopsAtError(ElementReader(e), start, i + 1, n);
    }
  }

  /** Reading one more element after `i` successful reads. */
  lemma {:induction false} DecodeItemsSnoc(read: Reader, start: seq<Octet>, i: nat, d: DecodedItems)
    requires DecodeItems(read, start, i) == Ok(d)
    ensures DecodeItems(read, start, i + 1) == match read(d.rest)
      case Err(f) => Err(f)
      case Ok(x) => Ok(DecodedItems(d.values + [x.value], d.count + x.count, x.rest))
    decreases i
  {
    if i == 0 {
      match read(start)
      case Err(f) =>
      case Ok(x) => assert [x.value] + [] == [] + [x.value];
    } else {
      var y := read(start).value;
      var d' := DecodeItems(read, y.rest, i - 1).value;
      DecodeItemsSnoc(read, y.rest, i - 1, d');
      match read(d.rest)
      case Err(f) =>
      case Ok(x) => assert [y.value] + (d'.values + [x.value]) == ([y.value] + d'.values) + [x.value];
    }
  }

  /** Once a read fails, reading more elements fails with the same error. */
  lemma {:induction false} DecodeItemsStopsAtError(read: Reader, start: seq<Octet>, i: nat, n: nat)
    requires i <= n && DecodeItems(read, start, i).Err?
    ensures DecodeItems(read, start, n) == DecodeItems(read, start, i)
    decreases i
  {
    if read(start).Ok? {
      DecodeItemsStopsAtError(read, read(start).value.rest, i - 1, n - 1);
    }
  }

  /** Adding an element to an ArrayList appends it; a LinkedHashSet appends it only when new. */
  lemma CollectStep(c: Converter, values: seq<Value>, x: Value)
    requires !c.Plain?
    ensures Collect(c, values + [x]) == if c.ListConv? || x !in Collect(c, values) then Collect(c, values) + [x] else Collect(c, values)
  {
    assert (values + [x])[..|values|] == values;
  }
}

=== FILE: validation.dfy ===
/**
 * `validation.js`: the checks behind the search form's date, time and list
 * inputs.
 *
 * The date pattern is transliterated alternative by alternative and proved
 * equal to a calendar rule. JavaScript `Date` objects are kept abstract:
 * `makeTime` is `new Date(y, mo, d, h, mi, s).getTime()` for numeric
 * arguments (the year already mapped), and `fieldsOf` gives the local
 * calendar fields of a time value. The conversions that lead to NaN and the
 * two-digit year rule of the constructor are modelled explicitly.
 */
module DateValidation {
  import opened Wrappers
  import opened Text
  import opened JavaNum
  import opened JsNumbers

  // ----- the date pattern of `checkInputValidity` -----

  /** The characters the pattern's `.` does not match. */
  predicate LineTerminator(c: char)
  {
    c == '\n' || c == '\r' || c == '\U{2028}' || c == '\U{2029}'
  }

  /**
   * The case folding the `i` flag applies when it compares a back-reference,
   * modelled for ASCII letters only: JavaScript also folds letters outside
   * ASCII (`é` and `É`, say), which this function leaves apart.
   */
  function FoldCase(c: char): char
  {
    if 'a' <= c <= 'z' then (c as int - 32) as char else c
  }

  /** `0?[13578]|1[02]` */
  predicate MonthOf31(m: string)
  {
    || (|m| == 1 && m[0] in "13578")
    || (|m| == 2 && m[0] == '0' && m[1] in "13578")
    || (|m| == 2 && m[0] == '1' && m[1] in "02")
  }

  /** `0?[13-9]|1[0-2]` */
  predicate MonthOf30(m: string)
  {
    || (|m| == 1 && m[0] in "13456789")
    || (|m| == 2 && m[0] == '0' && m[1] in "13456789")
    || (|m| == 2 && m[0] == '1' && m[1] in "012")
  }

  /** `0?2` */
  predicate February(m: string)
  {
    m == "2" || m == "02"
  }

  /** `0?[1-9]|1[0-2]` */
  predicate AnyMonth(m: string)
  {
    || (|m| == 1 && '1' <= m[0] <= '9')
    || (|m| == 2 && m[0] == '0' && '1' <= m[1] <= '9')
    || (|m| == 2 && m[0] == '1' && m[1] in "012")
  }

  /** `0?[1-9]|1\d|2[0-8]` */
  predicate Day1To28(d: string)
  {
    || (|d| == 1 && '1' <= d[0] <= '9')
    || (|d| == 2 && d[0] == '0' && '1' <= d[1] <= '9')
    || (|d| == 2 && d[0] == '1' && IsDigit(d[1]))
    || (|d| == 2 && d[0] == '2' && '0' <= d[1] <= '8')
  }

  /** `1[6-9]|[2-9]\d` */
  predicate Century(c: string)
  {
    |c| == 2 && ((c[0] == '1' && '6' <= c[1] <= '9') || ('2' <= c[0] <= '9' && IsDigit(c[1])))
  }

  /** `(?:1[6-9]|[2-9]\d)?\d{2}` */
  predicate AnyYear(y: string)
  {
    || (|y| == 2 && IsDigit(y[0]) && IsDigit(y[1]))
    || (|y| == 4 && Century(y[..2]) && IsDigit(y[2]) && IsDigit(y[3]))
  }

  /** `0[48]|[2468][048]|[13579][26]` */
  predicate LeapEnding(e: string)
  {
    |e| == 2 && ((e[0] == '0' && e[1] in "48") || (e[0] in "2468" && e[1] in "048") || (e[0] in "13579" && e[1] in "26"))
  }

  /** `16|[2468][048]|[3579][26]` */
  predicate LeapCentury(c: string)
  {
    c == "16" || (|c| == 2 && ((c[0] in "2468" && c[1] in "048") || (c[0] in "3579" && c[1] in "26")))
  }

  /** `(?:1[6-9]|[2-9]\d)?(?:0[48]|[2468][048]|[13579][26])|(?:16|[2468][048]|[3579][26])00` */
  predicate LeapYear(y: string)
  {
    || LeapEnding(y)
    || (|y| == 4 && Century(y[..2]) && LeapEnding(y[2..]))
    || (|y| == 4 && LeapCentury(y[..2]) && y[2..] == "00")
  }

  /** The three alternatives of the pattern for one way of cutting the text into day, separator, month, separator and year. */
  predicate PatternCut(d: string, a: char, m: string, b: char, y: string)
  {
    && !LineTerminator(a) && FoldCase(a) == FoldCase(b)
    && (|| (d == "31" && MonthOf31(m) && AnyYear(y))
        || ((d == "29" || d == "30") && MonthOf30(m) && AnyYear(y))
        || (d == "29" && February(m) && LeapYear(y))
        || (Day1To28(d) && AnyMonth(m) && AnyYear(y)))
  }

  /** The cut with a day of `dl` and a month of `ml` characters. */
  predicate PatternAt(s: string, dl: nat, ml: nat)
  {
    dl + ml + 2 <= |s| && PatternCut(s[..dl], s[dl], s[dl + 1..dl + 1 + ml], s[dl + 1 + ml], s[dl + ml + 2..])
  }

  /** `regexDate.test(s)`: days and months have one or two characters, so there are four ways to cut. */
  predicate MatchesDatePattern(s: string)
  {
    PatternAt(s, 1, 1) || PatternAt(s, 1, 2) || PatternAt(s, 2, 1) || PatternAt(s, 2, 2)
  }

  // ----- the calendar the pattern stands for -----

  predicate DayField(d: string)
  {
    1 <= |d| <= 2 && AllDigits(d) && 1 <= DigitsValue(d) <= 31
  }

  predicate MonthField(m: string)
  {
    1 <= |m| <= 2 && AllDigits(m) && 1 <= DigitsValue(m) <= 12
  }

  /** Two digits, or four from 1600 on. */
  predicate YearField(y: string)
  {
    AllDigits(y) && (|y| == 2 || (|y| == 4 && DigitsValue(y) >= 1600))
  }

  predicate GregorianLeap(year: int)
  {
    year % 4 == 0 && (year % 100 != 0 || year % 400 == 0)
  }

  /** A four-digit year is leap by the Gregorian rule; a two-digit one when divisible by 4, except `00`. */
  predicate LeapField(y: string)
    requires YearField(y)
  {
    if |y| == 2 then DigitsValue(y) % 4 == 0 && DigitsValue(y) != 0 else GregorianLeap(DigitsValue(y))
  }

  function DaysInMonth(month: int, leap: bool): int
  {
    if month == 2 then (if leap then 29 else 28)
    else if month == 4 || month == 6 || month == 9 || month == 11 then 30
    else 31
  }

  /** A day that exists in its month and year, between two equal separators that are not line breaks. */
  predicate CalendarCut(d: string, a: char, m: string, b: char, y: string)
  {
    && !LineTerminator(a) && FoldCase(a) == FoldCase(b)
    && DayField(d) && MonthField(m) && YearField(y)
    && DigitsValue(d) <= DaysInMonth(DigitsValue(m), LeapField(y))
  }

  predicate CalendarAt(s: string, dl: nat, ml: nat)
  {
    dl + ml + 2 <= |s| && CalendarCut(s[..dl], s[dl], s[dl + 1..dl + 1 + ml], s[dl + 1 + ml], s[dl + ml + 2..])
  }

  predicate CalendarDate(s: string)
  {
    CalendarAt(s, 1, 1) || CalendarAt(s, 1, 2) || CalendarAt(s, 2, 1) || CalendarAt(s, 2, 2)
  }

  lemma OneDigitValue(t: string)
    requires |t| == 1 && AllDigits(t)
    ensures DigitsValue(t) == DigitValue(t[0])
  {
    assert t[..0] == [];
  }

  lemma TwoDigitValue(t: string)
    requires |t| == 2 && AllDigits(t)
    ensures DigitsValue(t) == 10 * DigitValue(t[0]) + DigitValue(t[1])
  {
    OneDigitValue(t[..1]);
  }

  lemma FourDigitValue(y: string)
    requires |y| == 4 && AllDigits(y)
    ensures DigitsValue(y) == 100 * DigitsValue(y[..2]) + DigitsValue(y[2..])
  {
    TwoDigitValue(y[..2]);
    TwoDigitValue(y[2..]);
    assert y[..3][..2] == y[..2];
    assert y[..4] == y;
  }

  /** The day alternatives pick the days 31, 29 to 30, and 1 to 28. */
  lemma DayAlternatives(d: string)
    ensures d == "31" <==> DayField(d) && DigitsValue(d) == 31
    ensures (d == "29" || d == "30") <==> DayField(d) && 29 <= DigitsValue(d) <= 30
    ensures Day1To28(d) <==> DayField(d) && DigitsValue(d) <= 28
  {
    if |d| == 1 && AllDigits(d) {
      OneDigitValue(d);
    } else if |d| == 2 && AllDigits(d) {
      TwoDigitValue(d);
      assert d == [d[0], d[1]];
    } else if |d| == 2 {
      assert !IsDigit(d[0]) || !IsDigit(d[1]);
    }
  }

  /** The month alternatives pick the long months, every month but February, February, and any month. */
  lemma MonthAlternatives(m: string)
    ensures MonthOf31(m) <==> MonthField(m) && DigitsValue(m) in {1, 3, 5, 7, 8, 10, 12}
    ensures MonthOf30(m) <==> MonthField(m) && DigitsValue(m) != 2
    ensures February(m) <==> MonthField(m) && DigitsValue(m) == 2
    ensures AnyMonth(m) <==> MonthField(m)
  {
    if |m| == 1 && AllDigits(m) {
      OneDigitValue(m);
      assert m == [m[0]];
    } else if |m| == 2 && AllDigits(m) {
      TwoDigitValue(m);
      assert m == [m[0], m[1]];
    } else if |m| == 2 {
      assert !IsDigit(m[0]) || !IsDigit(m[1]);
    } else if |m| == 1 {
      assert !IsDigit(m[0]);
    }
  }

  /** The digit classes of the leap-year alternatives, by digit value. */
  lemma DigitClasses(c: char)
    requires IsDigit(c)
    ensures c in "48" <==> DigitValue(c) % 4 == 0 && DigitValue(c) != 0
    ensures c in "048" <==> DigitValue(c) % 4 == 0
    ensures c in "26" <==> DigitValue(c) % 4 == 2
    ensures c in "2468" <==> DigitValue(c) % 2 == 0 && DigitValue(c) != 0
    ensures c in "13579" <==> DigitValue(c) % 2 == 1
    ensures c in "3579" <==> DigitValue(c) % 2 == 1 && DigitValue(c) != 1
  {
  }

  /** A number of two digits `a b` is a multiple of 4 iff `a` is even and `b` a multiple of 4, or `a` odd and `b` is 2 or 6. */
  lemma ByFour(a: int, b: int)
    requires 0 <= a <= 9 && 0 <= b <= 9
    ensures (10 * a + b) % 4 == 0 <==> (a % 2 == 0 && b % 4 == 0) || (a % 2 == 1 && b % 4 == 2)
  {
    var n := 10 * a + b;
    var p := a % 2;
    var t := 10 * p + b;
    assert a == 2 * (a / 2) + p;
    assert n == 4 * (5 * (a / 2) + t / 4) + t % 4;
    ModUnique(n, 4, 5 * (a / 2) + t / 4, t % 4);
  }

  /** Two digits `e` end a leap year, in the pattern's sense, exactly when their value is a non-zero multiple of 4. */
  lemma LeapEndingValue(e: string)
    ensures LeapEnding(e) <==> |e| == 2 && AllDigits(e) && DigitsValue(e) % 4 == 0 && DigitsValue(e) != 0
  {
    if |e| == 2 && AllDigits(e) {
      TwoDigitValue(e);
      DigitClasses(e[0]);
      DigitClasses(e[1]);
      ByFour(DigitValue(e[0]), DigitValue(e[1]));
    } else if |e| == 2 {
      assert !IsDigit(e[0]) || !IsDigit(e[1]);
    }
  }

  /** The leap centuries are the multiples of 4 from 16 on. */
  lemma LeapCenturyValue(c: string)
    ensures LeapCentury(c) <==> |c| == 2 && AllDigits(c) && DigitsValue(c) % 4 == 0 && DigitsValue(c) >= 16
  {
    if |c| == 2 && AllDigits(c) {
      LeapCenturyDigits(c);
      TwoDigitValue(c);
      ByFour(DigitValue(c[0]), DigitValue(c[1]));
    } else if |c| == 2 {
      assert !IsDigit(c[0]) || !IsDigit(c[1]);
    }
  }

  lemma LeapCenturyDigits(c: string)
    requires |c| == 2 && AllDigits(c)
    ensures var a, b := DigitValue(c[0]), DigitValue(c[1]);
      LeapCentury(c) <==> (a == 1 && b == 6) || (a % 2 == 0 && a != 0 && b % 4 == 0) || (a % 2 == 1 && a != 1 && b % 4 == 2)
  {
    DigitClasses(c[0]);
    DigitClasses(c[1]);
    assert c == "16" <==> c[0] == '1' && c[1] == '6' by {
      assert c == [c[0], c[1]];
    }
  }

  lemma CenturyValue(c: string)
    ensures Century(c) <==> |c| == 2 && AllDigits(c) && DigitsValue(c) >= 16
  {
    if |c| == 2 && AllDigits(c) {
      TwoDigitValue(c);
    } else if |c| == 2 {
      assert !IsDigit(c[0]) || !IsDigit(c[1]);
    }
  }

  /** The Gregorian rule for a year written as a century and two more digits. */
  lemma GregorianDigits(c: int, e: int)
    requires 0 <= c && 0 <= e < 100
    ensures GregorianLeap(100 * c + e) <==> (e % 4 == 0 && e != 0) || (e == 0 && c % 4 == 0)
  {
    var y := 100 * c + e;
    ModUnique(y, 100, c, e);
    ModUnique(y, 4, 25 * c + e / 4, e % 4);
    if e == 0 {
      var q := c / 4;
      var r := c % 4;
      assert c == 4 * q + r;
      assert y == 400 * q + 100 * r;
      ModUnique(y, 400, q, 100 * r);
    }
  }

  /** The year alternatives pick the two- and four-digit years, and among them the leap years. */
  lemma YearAlternatives(y: string)
    ensures AnyYear(y) <==> YearField(y)
    ensures LeapYear(y) <==> YearField(y) && LeapField(y)
  {
    LeapEndingValue(y);
    if |y| == 4 {
      CenturyValue(y[..2]);
      LeapEndingValue(y[2..]);
      LeapCenturyValue(y[..2]);
      if AllDigits(y) {
        FourDigitValue(y);
        TwoDigitValue(y[2..]);
        GregorianDigits(DigitsValue(y[..2]), DigitsValue(y[2..]));
        if y[2..] != "00" {
          assert y[2..] == [y[2], y[3]];
        }
      } else {
        assert !AllDigits(y[..2]) || !IsDigit(y[2]) || !IsDigit(y[3]);
      }
    } else if |y| == 2 && !AllDigits(y) {
      assert !IsDigit(y[0]) || !IsDigit(y[1]);
    }
  }

  /**
   * The pattern accepts exactly the real calendar days: day 31 only in
   * January, March, May, July, August, October and December, days 29 and
   * 30 in every month but February, 29 February only in leap years, years
   * of two digits or from 1600 to 9999, and the same separator twice.
   */
  lemma PatternIsCalendar(d: string, a: char, m: string, b: char, y: string)
    ensures PatternCut(d, a, m, b, y) <==> CalendarCut(d, a, m, b, y)
  {
    DayAlternatives(d);
    MonthAlternatives(m);
    YearAlternatives(y);
  }

  /** `regexDate.test(s)` holds exactly for the texts that name a calendar day. */
  lemma DatePatternIsCalendar(s: string)
    ensures MatchesDatePattern(s) <==> CalendarDate(s)
  {
    forall dl: nat, ml: nat | 1 <= dl <= 2 && 1 <= ml <= 2 && dl + ml + 2 <= |s|
      ensures PatternAt(s, dl, ml) <==> CalendarAt(s, dl, ml)
    {
      PatternIsCalendar(s[..dl], s[dl], s[dl + 1..dl + 1 + ml], s[dl + 1 + ml], s[dl + ml + 2..]);
    }
  }

  // ----- dates and times -----

  /** A `Date`: a time value in milliseconds, or an invalid date (NaN). */
  datatype JsDate = Invalid | Time(ms: int)

  /** The local calendar fields `getFullYear()` ... `getSeconds()` of a date, the month counted from 0. */
  datatype Fields = Fields(year: int, month: int, day: int, hours: int, minutes: int, seconds: int)

  /** `help[i]` converted to a number: `undefined` past the end is NaN. */
  function NumberAt(pieces: seq<string>, i: nat): Option<int>
  {
    if i < |pieces| then JsNumber(pieces[i]) else None
  }

  /** `nvl(help[i], 0)` converted to a number: a missing piece is 0. */
  function NumberOrZeroAt(pieces: seq<string>, i: nat): Option<int>
  {
    if i < |pieces| then JsNumber(pieces[i]) else Some(0)
  }

  function Minus1(n: Option<int>): Option<int>
  {
    if n.Some? then Some(n.value - 1) else None
  }

  /** The year a `Date` constructor uses: 0 to 99 stand for 1900 to 1999. */
  function FullYear(y: int): (r: int)
    ensures 0 <= y <= 99 ==> r == 1900 + y
    ensures !(0 <= y <= 99) ==> r == y
  {
    if 0 <= y <= 99 then 1900 + y else y
  }

  /** `new Date(y, mo, d, h, mi, s)`: NaN in any argument gives an invalid date. */
  function NewDate(makeTime: (int, int, int, int, int, int) -> int, y: Option<int>, mo: Option<int>, d: Option<int>,
                   h: Option<int>, mi: Option<int>, s: Option<int>): JsDate
  {
    if y.Some? && mo.Some? && d.Some? && h.Some? && mi.Some? && s.Some? then
      Time(makeTime(FullYear(y.value), mo.value, d.value, h.value, mi.value, s.value))
    else Invalid
  }

  /** `stringToDate`: the `.`-separated day, month and year, at local midnight. */
  function StringToDate(makeTime: (int, int, int, int, int, int) -> int, text: string): JsDate
  {
    var help := SplitAll(text, '.');
    NewDate(makeTime, NumberAt(help, 2), Minus1(NumberAt(help, 1)), NumberAt(help, 0), Some(0), Some(0), Some(0))
  }

  /** `stringToTime`: the `:`-separated hours, minutes and seconds on the day `new Date(0, 0, 0)`. */
  function StringToTime(makeTime: (int, int, int, int, int, int) -> int, text: string): JsDate
  {
    var help := SplitAll(text, ':');
    NewDate(makeTime, Some(0), Some(0), Some(0), NumberAt(help, 0), NumberOrZeroAt(help, 1), NumberOrZeroAt(help, 2))
  }

  /** `createTrueDateTime`: the calendar day of `date` at the time of day of `time`. */
  function CreateTrueDateTime(makeTime: (int, int, int, int, int, int) -> int, fieldsOf: int -> Fields,
                              date: JsDate, time: JsDate): JsDate
  {
    if date.Invalid? || time.Invalid? then Invalid
    else
      var f := fieldsOf(date.ms);
      var g := fieldsOf(time.ms);
      NewDate(makeTime, Some(f.year), Some(f.month), Some(f.day), Some(g.hours), Some(g.minutes), Some(g.seconds))
  }

  /** `a.getTime() < b.getTime()`: false when either is NaN. */
  predicate Before(a: JsDate, b: JsDate)
  {
    a.Time? && b.Time? && a.ms < b.ms
  }

  /** `a.getTime() <= b.getTime()`. */
  predicate NotAfter(a: JsDate, b: JsDate)
  {
    a.Time? && b.Time? && a.ms <= b.ms
  }

  /** `a.getTime() === b.getTime()`. */
  predicate SameTime(a: JsDate, b: JsDate)
  {
    a.Time? && b.Time? && a.ms == b.ms
  }

  /** The datepicker's bounds set by `setMinMaxDate`: 1 January 1970 at local midnight, and `now`. */
  predicate InRange(makeTime: (int, int, int, int, int, int) -> int, now: int, d: JsDate)
  {
    d.Time? && makeTime(1970, 0, 1, 0, 0, 0) <= d.ms <= now
  }

  /** The digits of a field hold no separator. */
  lemma DigitsHaveNo(t: string, c: char)
    requires AllDigits(t) && !IsDigit(c)
    ensures c !in t
  {
  }

  /**
   * A date the pattern accepts with `.` as separator is read by
   * `stringToDate` as that day: month `m` becomes `m - 1`, and a two-digit
   * year lies in 1900 to 1999.
   */
  lemma PatternDateParses(makeTime: (int, int, int, int, int, int) -> int, d: string, m: string, y: string)
    requires CalendarCut(d, '.', m, '.', y)
    ensures StringToDate(makeTime, d + "." + m + "." + y)
         == Time(makeTime(FullYear(DigitsValue(y)), DigitsValue(m) - 1, DigitsValue(d), 0, 0, 0))
    ensures |y| == 2 ==> 1900 <= FullYear(DigitsValue(y)) <= 1999
  {
    DatePieceNumbers(d, m, y);
    if |y| == 2 {
      TwoDigitValue(y);
    }
  }

  /** The three pieces of such a date are its three runs of digits, read as their values. */
  lemma DatePieceNumbers(d: string, m: string, y: string)
    requires AllDigits(d) && AllDigits(m) && AllDigits(y)
    ensures var help := SplitAll(d + "." + m + "." + y, '.');
      && NumberAt(help, 0) == Some(DigitsValue(d))
      && NumberAt(help, 1) == Some(DigitsValue(m))
      && NumberAt(help, 2) == Some(DigitsValue(y))
  {
    ThreePieces(d, m, y, '.');
    DigitsNumber(d);
    DigitsNumber(m);
    DigitsNumber(y);
  }

  /** Three runs of digits joined by a non-digit split back into the three runs. */
  lemma ThreePieces(d: string, m: string, y: string, c: char)
    requires AllDigits(d) && AllDigits(m) && AllDigits(y) && !IsDigit(c)
    ensures SplitAll(d + [c] + m + [c] + y, c) == [d, m, y]
  {
    DigitsHaveNo(d, c);
    DigitsHaveNo(m, c);
    DigitsHaveNo(y, c);
    assert d + [c] + m + [c] + y == d + [c] + (m + [c] + y);
    SplitFirst(d, m + [c] + y, c);
    SplitFirst(m, y, c);
    SplitNone(y, c);
  }

  /** The text `h:mi:s` of digits is read as that time of day; minutes and seconds may be left off. */
  lemma TimeTextParses(makeTime: (int, int, int, int, int, int) -> int, h: string, mi: string)
    requires h != "" && mi != "" && AllDigits(h) && AllDigits(mi)
    ensures StringToTime(makeTime, h) == Time(makeTime(1900, 0, 0, DigitsValue(h), 0, 0))
    ensures StringToTime(makeTime, h + ":" + mi) == Time(makeTime(1900, 0, 0, DigitsValue(h), DigitsValue(mi), 0))
  {
    DigitsHaveNo(h, ':');
    DigitsHaveNo(mi, ':');
    SplitNone(h, ':');
    SplitFirst(h, mi, ':');
    SplitNone(mi, ':');
    assert NumberAt([h], 0) == NumberAt([h, mi], 0) == Some(DigitsValue(h)) by {
      DigitsNumber(h);
    }
    assert NumberOrZeroAt([h, mi], 1) == Some(DigitsValue(mi)) by {
      DigitsNumber(mi);
    }
  }

  /** Both bounds of a proper range are dates; the same day is a proper range. */
  lemma SameDayIsProper(a: JsDate, b: JsDate)
    ensures SameTime(a, b) ==> NotAfter(a, b)
    ensures NotAfter(a, b) <==> Before(a, b) || SameTime(a, b)
    ensures !(Before(a, b) && SameTime(a, b))
  {
  }

  // ----- the form -----

  datatype DateInput = StartDate | EndDate

  /** The search form: the four inputs' texts, their validity, and the page-level variables of `validation.js`. */
  class DateForm {
    const makeTime: (int, int, int, int, int, int) -> int
    const fieldsOf: int -> Fields
    /** The datepicker's `maxDate`, the moment `setMinMaxDate` ran. */
    const now: int

    var startDate: string
    var endDate: string
    var startTime: string
    var endTime: string
    /** `setCustomValidity("")` (valid) or `setCustomValidity("invalid")`, per input. */
    var startDateValid: bool
    var endDateValid: bool
    var startTimeValid: bool
    var endTimeValid: bool
    /** Whether the two time inputs are disabled. */
    var timesDisabled: bool
    /** `isSameDay`; `undefined` at first, which counts as false. */
    var isSameDay: bool
    /** `trueStartDate` and `trueEndDate`; `None` is `null` or `undefined`. */
    var trueStart: Option<JsDate>
    var trueEnd: Option<JsDate>

    constructor (makeTime: (int, int, int, int, int, int) -> int, fieldsOf: int -> Fields, now: int,
                 startDate: string, endDate: string, startTime: string, endTime: string)
      ensures this.makeTime == makeTime && this.fieldsOf == fieldsOf && this.now == now
      ensures this.startDate == startDate && this.endDate == endDate
      ensures this.startTime == startTime && this.endTime == endTime
      ensures startDateValid && endDateValid && startTimeValid && endTimeValid
      ensures !timesDisabled && !isSameDay && trueStart == None && trueEnd == None
    {
      this.makeTime := makeTime;
      this.fieldsOf := fieldsOf;
      this.now := now;
      this.startDate := startDate;
      this.endDate := endDate;
      this.startTime := startTime;
      this.endTime := endTime;
      startDateValid := true;
      endDateValid := true;
      startTimeValid := true;
      endTimeValid := true;
      timesDisabled := false;
      isSameDay := false;
      trueStart := None;
      trueEnd := None;
    }

    function StartDay(): JsDate
      reads this`startDate
    {
      StringToDate(makeTime, startDate)
    }

    function EndDay(): JsDate
      reads this`endDate
    {
      StringToDate(makeTime, endDate)
    }

    /** `compareBothTimeInputs`: both time inputs are valid iff the start time is strictly earlier. */
    method CompareBothTimeInputs()
      modifies this`startTimeValid, this`endTimeValid
      ensures var proper := Before(StringToTime(makeTime, startTime), StringToTime(makeTime, endTime));
        startTimeValid == proper && endTimeValid == proper
    {
      var start := StringToTime(makeTime, startTime);
      var end := StringToTime(makeTime, endTime);
      var isProperRange := start.Time? && end.Time? && start.ms < end.ms;
      startTimeValid := isProperRange;
      endTimeValid := isProperRange;
    }

    /**
     * `compareBothDateInputs`: both date inputs are valid, and the times
     * enabled, iff the start day is not after the end day; otherwise the
     * combined dates are reset to `null`. `isSameDay` records equality.
     */
    method CompareBothDateInputs()
      modifies this`startDateValid, this`endDateValid, this`timesDisabled, this`isSameDay, this`trueStart, this`trueEnd
      ensures var proper := NotAfter(StartDay(), EndDay());
        && startDateValid == proper && endDateValid == proper && timesDisabled == !proper
        && isSameDay == SameTime(StartDay(), EndDay())
        && (proper ==> trueStart == old(trueStart) && trueEnd == old(trueEnd))
        && (!proper ==> trueStart == None && trueEnd == None)
      ensures isSameDay ==> startDateValid && endDateValid && !timesDisabled
    {
      var start := StringToDate(makeTime, startDate);
      var end := StringToDate(makeTime, endDate);
      var isProperRange := start.Time? && end.Time? && start.ms <= end.ms;
      isSameDay := start.Time? && end.Time? && start.ms == end.ms;
      if isProperRange {
        startDateValid := true;
        endDateValid := true;
        timesDisabled := false;
      } else {
        startDateValid := false;
        endDateValid := false;
        timesDisabled := true;
        trueStart := None;
        trueEnd := None;
      }
    }

    /**
     * `addTime`: on the same day the times are compared, otherwise both are
     * valid; then both combined dates are set.
     */
    method AddTime()
      modifies this`startTimeValid, this`endTimeValid, this`trueStart, this`trueEnd
      ensures var proper := Before(StringToTime(makeTime, startTime), StringToTime(makeTime, endTime));
        && (isSameDay ==> startTimeValid == proper && endTimeValid == proper)
        && (!isSameDay ==> startTimeValid && endTimeValid)
      ensures trueStart == Some(CreateTrueDateTime(makeTime, fieldsOf, StartDay(), StringToTime(makeTime, startTime)))
      ensures trueEnd == Some(CreateTrueDateTime(makeTime, fieldsOf, EndDay(), StringToTime(makeTime, endTime)))
    {
      if isSameDay {
        CompareBothTimeInputs();
      } else {
        startTimeValid := true;
        endTimeValid := true;
      }
      trueStart := Some(CreateTrueDateTime(makeTime, fieldsOf, StringToDate(makeTime, startDate), StringToTime(makeTime, startTime)));
      trueEnd := Some(CreateTrueDateTime(makeTime, fieldsOf, StringToDate(makeTime, endDate), StringToTime(makeTime, endTime)));
    }

    /**
     * `checkInputValidity`: a date input is valid iff its text matches the
     * pattern and its day lies between 1 January 1970 and `now`; then the
     * range is compared (only for such a date) and the times are added.
     */
    method CheckInputValidity(which: DateInput)
      modifies this`startDateValid, this`endDateValid, this`timesDisabled, this`isSameDay
      modifies this`startTimeValid, this`endTimeValid, this`trueStart, this`trueEnd
      ensures var text := if which == StartDate then startDate else endDate;
        var inRange := MatchesDatePattern(text) && InRange(makeTime, now, StringToDate(makeTime, text));
        var proper := NotAfter(StartDay(), EndDay());
        && (inRange ==> startDateValid == proper && endDateValid == proper && timesDisabled == !proper
                        && isSameDay == SameTime(StartDay(), EndDay()))
        && (!inRange ==> isSameDay == old(isSameDay) && timesDisabled == old(timesDisabled)
                         && (which == StartDate ==> !startDateValid && endDateValid == old(endDateValid))
                         && (which == EndDate ==> !endDateValid && startDateValid == old(startDateValid)))
      ensures (which == StartDate && startDateValid) || (which == EndDate && endDateValid) ==>
        var text := if which == StartDate then startDate else endDate;
        CalendarDate(text) && InRange(makeTime, now, StringToDate(makeTime, text)) && NotAfter(StartDay(), EndDay())
      ensures var proper := Before(StringToTime(makeTime, startTime), StringToTime(makeTime, endTime));
        && (isSameDay ==> startTimeValid == proper && endTimeValid == proper)
        && (!isSameDay ==> startTimeValid && endTimeValid)
      ensures trueStart == Some(CreateTrueDateTime(makeTime, fieldsOf, StartDay(), StringToTime(makeTime, startTime)))
      ensures trueEnd == Some(CreateTrueDateTime(makeTime, fieldsOf, EndDay(), StringToTime(makeTime, endTime)))
    {
      CheckDate(which);
      AddTime();
    }

    /** The part of `checkInputValidity` before `addTime`. */
    method CheckDate(which: DateInput)
      modifies this`startDateValid, this`endDateValid, this`timesDisabled, this`isSameDay, this`trueStart, this`trueEnd
      ensures var text := if which == StartDate then startDate else endDate;
        var inRange := MatchesDatePattern(text) && InRange(makeTime, now, StringToDate(makeTime, text));
        var proper := NotAfter(StartDay(), EndDay());
        && (inRange ==> startDateValid == proper && endDateValid == proper && timesDisabled == !proper
                        && isSameDay == SameTime(StartDay(), EndDay()))
        && (!inRange ==> isSameDay == old(isSameDay) && timesDisabled == old(timesDisabled)
                         && (which == StartDate ==> !startDateValid && endDateValid == old(endDateValid))
                         && (which == EndDate ==> !endDateValid && startDateValid == old(startDateValid)))
      ensures (which == StartDate && startDateValid) || (which == EndDate && endDateValid) ==>
        var text := if which == StartDate then startDate else endDate;
        CalendarDate(text) && InRange(makeTime, now, StringToDate(makeTime, text)) && NotAfter(StartDay(), EndDay())
    {
      var text := if which == StartDate then startDate else endDate;
      var isDateInRange := false;
      if MatchesDatePattern(text) {
        var dateValue := StringToDate(makeTime, text);
        isDateInRange := InRange(makeTime, now, dateValue);
      }
      if isDateInRange {
        if which == StartDate {
          startDateValid := true;
        } else {
          endDateValid := true;
        }
        CompareBothDateInputs();
        DatePatternIsCalendar(text);
      } else {
        if which == StartDate {
          startDateValid := false;
        } else {
          endDateValid := false;
        }
      }
    }
  }

  // ----- list inputs -----

  /** A line break as the CSS tokenizer sees one. */
  predicate CssNewline(c: char)
  {
    c == '\n' || c == '\r' || c == '\U{000C}'
  }

  /** The white space the CSS tokenizer skips after a hexadecimal escape. */
  predicate CssSpace(c: char)
  {
    CssNewline(c) || c == ' ' || c == '\t'
  }

  predicate IsHex(c: char)
  {
    '0' <= c <= '9' || 'a' <= c <= 'f' || 'A' <= c <= 'F'
  }

  function HexValue(c: char): nat
    requires IsHex(c)
  {
    if c <= '9' then (c as int) - ('0' as int)
    else if c <= 'F' then (c as int) - ('A' as int) + 10
    else (c as int) - ('a' as int) + 10
  }

  /** The number of hexadecimal digits at the start of `v`, at most six. */
  function HexRun(v: string): (n: nat)
    ensures n <= 6 && n <= |v|
    ensures forall k :: 0 <= k < n ==> IsHex(v[k])
    ensures n < 6 && n < |v| ==> !IsHex(v[n])
  {
    if v == [] || !IsHex(v[0]) then 0
    else if HexRun(v[1..]) == 6 then 6
    else 1 + HexRun(v[1..])
  }

  /** The number the hexadecimal digits `h` denote. */
  function HexNumber(h: string): nat
    requires forall k :: 0 <= k < |h| ==> IsHex(h[k])
  {
    if h == [] then 0 else HexNumber(h[..|h| - 1]) * 16 + HexValue(h[|h| - 1])
  }

  /** The character an escaped code point stands for: U+FFFD for zero, a surrogate or a number past U+10FFFF. */
  function EscapedChar(cp: nat): char
  {
    if cp == 0 || 0xD800 <= cp <= 0xDFFF || cp > 0x10FFFF then '\U{FFFD}' else cp as char
  }

  /** The input preprocessing of CSS: U+0000 is read as U+FFFD. */
  function CssInput(c: char): char
  {
    if c == '\0' then '\U{FFFD}' else c
  }

  function PrependChar(c: char, rest: Option<string>): Option<string>
  {
    if rest.Some? then Some([c] + rest.value) else None
  }

  /**
   * The value of the string token that begins after the quote of
   * `option[value='` when `v` and then `']` follow it, by the rules of
   * "consume a string token" and "consume an escaped code point" of CSS
   * Syntax Module Level 3 (sections 4.3.5 and 4.3.7), or nothing when the
   * selector cannot be parsed. An unescaped quote ends the string early and
   * the rest of the selector no longer parses; an unescaped line break makes a
   * bad string. A backslash escapes the next character, a line break after it
   * continues the string, and one to six hexadecimal digits (and one white
   * space after them) name a code point. A backslash at the very end escapes
   * the closing quote, so the string runs on through `']` to the end of the
   * selector, which closes it and the attribute block.
   */
  function CssStringValue(v: string): (r: Option<string>)
    decreases |v|
  {
    if v == [] then Some("")
    else if v[0] == '\'' || CssNewline(v[0]) then None
    else if v[0] != '\\' then PrependChar(CssInput(v[0]), CssStringValue(v[1..]))
    else if |v| == 1 then Some("']")
    else if CssNewline(v[1]) then CssStringValue(v[2..])
    else if IsHex(v[1]) then
      var n := HexRun(v[1..]);
      var next := 1 + n;
      var skip := if next < |v| && CssSpace(v[next]) then next + 1 else next;
      PrependChar(EscapedChar(HexNumber(v[1..next])), CssStringValue(v[skip..]))
    else PrependChar(CssInput(v[1]), CssStringValue(v[2..]))
  }

  /**
   * `checkIfListInputExists`: jQuery looks for `option[value='<value>']` in
   * the list. A selector it cannot parse is a SyntaxError; otherwise the
   * input is valid iff its text is empty or some option's value is the
   * selector's unescaped string.
   */
  function ListInputValid(value: string, options: seq<string>): (r: Result<bool>)
    ensures r.Err? <==> CssStringValue(value).None?
    ensures r.Err? ==> r.fault == SyntaxError
    ensures r.Ok? ==> (r.value <==> value == "" || CssStringValue(value).value in options)
    ensures PlainValue(value) ==> (r.Err? <==> '\'' in value)
    ensures PlainValue(value) && r.Ok? ==> (r.value <==> value == "" || value in options)
  {
    PlainValueSelf(value);
    match CssStringValue(value)
    case None => Err(SyntaxError)
    case Some(wanted) => Ok(wanted in options || value == "")
  }

  /** A value without backslash, line break or U+0000. */
  predicate PlainValue(v: string)
  {
    forall i :: 0 <= i < |v| ==> v[i] != '\\' && !CssNewline(v[i]) && v[i] != '\0'
  }

  /** A plain value is looked for as it is typed, and fails exactly when it holds a quote. */
  lemma {:induction false} PlainValueSelf(v: string)
    ensures PlainValue(v) ==> (CssStringValue(v).None? <==> '\'' in v)
    ensures PlainValue(v) && '\'' !in v ==> CssStringValue(v) == Some(v)
  {
    if v != [] && PlainValue(v) {
      assert PlainValue(v[1..]);
      PlainValueSelf(v[1..]);
      assert v == [v[0]] + v[1..];
    }
  }

  /** A quote or a line break, the characters that can break the selector. */
  predicate Breaks(c: char)
  {
    c == '\'' || CssNewline(c)
  }

  predicate HasBreak(v: string)
  {
    exists i :: 0 <= i < |v| && Breaks(v[i])
  }

  lemma BreakInTail(v: string, k: nat)
    requires k <= |v| && HasBreak(v[k..])
    ensures HasBreak(v)
  {
    var i :| 0 <= i < |v[k..]| && Breaks(v[k..][i]);
    assert v[k + i] == v[k..][i];
  }

  /** An unescaped quote or line break is needed for the selector to fail. */
  lemma {:induction false} FailureNeedsBreak(v: string)
    ensures CssStringValue(v).None? ==> HasBreak(v)
  {
    if v != [] && CssStringValue(v).None? {
      if Breaks(v[0]) {
        assert Breaks(v[0]);
      } else if v[0] != '\\' {
        FailureNeedsBreak(v[1..]);
        BreakInTail(v, 1);
      } else if CssNewline(v[1]) || !IsHex(v[1]) {
        FailureNeedsBreak(v[2..]);
        BreakInTail(v, 2);
      } else {
        var next := 1 + HexRun(v[1..]);
        var skip := if next < |v| && CssSpace(v[next]) then next + 1 else next;
        FailureNeedsBreak(v[skip..]);
        BreakInTail(v, skip);
      }
    }
  }

  /** A backslash in front of each quote and backslash, as `CSS.escape` would put one. */
  function EscapeQuotes(s: string): (e: string)
    ensures |e| >= |s|
  {
    if s == [] then ""
    else (if s[0] == '\'' || s[0] == '\\' then ['\\', s[0]] else [s[0]]) + EscapeQuotes(s[1..])
  }

  /** A text without line break or U+0000, its quotes and backslashes escaped, selects the option of that very text. */
  lemma {:induction false} EscapedValueSelects(s: string)
    requires forall i :: 0 <= i < |s| ==> !CssNewline(s[i]) && s[i] != '\0'
    ensures CssStringValue(EscapeQuotes(s)) == Some(s)
  {
    if s != [] {
      EscapedValueSelects(s[1..]);
      var e := EscapeQuotes(s);
      var rest := EscapeQuotes(s[1..]);
      if s[0] == '\'' || s[0] == '\\' {
        assert e == ['\\', s[0]] + rest && e[2..] == rest;
      } else {
        assert e == [s[0]] + rest && e[1..] == rest;
      }
      assert s == [s[0]] + s[1..];
    }
  }

  /** `it\'s` is a valid selector value that looks for the option "it's"; `it's` is a SyntaxError. */
  lemma EscapedQuoteExample()
    ensures ListInputValid("it\\'s", ["it's"]) == Ok(true)
    ensures ListInputValid("it's", ["it's"]) == Err(SyntaxError)
  {
    var v := "it\\'s";
    assert v[1..] == "t\\'s" && v[1..][1..] == "\\'s" && v[1..][1..][2..] == "s" && "s"[1..] == [];
    assert CssStringValue("") == Some("");
    assert CssInput('s') == 's' && "s"[0] == 's';
    assert ['s'] + "" == "s";
    assert CssStringValue("s") == Some("s");
    assert "\\'s"[2..] == "s" && !IsHex('\'') && ['\''] + "s" == "'s";
    assert CssStringValue("\\'s") == Some("'s");
    assert "t\\'s"[1..] == "\\'s" && ['t'] + "'s" == "t's";
    assert CssStringValue("t\\'s") == Some("t's");
    assert ['i'] + "t's" == "it's";
    assert CssStringValue(v) == Some("it's");
    var w := "it's";
    assert w[1..] == "t's" && w[1..][1..] == "'s";
    assert CssStringValue("'s").None?;
  }

  /** `a\62` looks for the option "ab": `62` is the code point of `b`. */
  lemma HexEscapeExample()
    ensures ListInputValid("a\\62", ["ab"]) == Ok(true)
    ensures ListInputValid("a\\62", ["a\\62"]) == Ok(false)
  {
    var v := "a\\62";
    var e := v[1..];
    assert e == "\\62";
    assert e[1..] == "62" && e[1..][1..] == "2" && e[1..][1..][1..] == [];
    assert HexRun(e[1..]) == 2;
    assert e[1..3] == "62" && e[1..3][..1] == "6" && e[1..3][..1][..0] == [];
    assert HexNumber(e[1..3][..1]) == 6;
    assert HexNumber(e[1..3]) == 0x62;
    assert EscapedChar(0x62) == 'b';
    assert e[3..] == [] && CssStringValue(e[3..]) == Some("");
    assert e[0] == '\\' && e[1] == '6' && |e| == 3 && !CssNewline(e[1]) && IsHex(e[1]);
    assert ['b'] + "" == "b";
    assert CssStringValue(e) == Some("b");
    assert ['a'] + "b" == "ab";
    assert CssStringValue(v) == Some("ab");
  }

}

=== FILE: wrappers.dfy ===
/** Optional values and results with the failures the Java and JavaScript code can raise. */
module Wrappers {

  /** A Java reference that may be null, or a JavaScript value that may be undefined. */
  datatype Option<T> = None | Some(value: T)

  /** The exceptions (or JavaScript errors) an operation of the system can end with. */
  datatype Fault =
    | EndOfFile          // java.io.EOFException
    | IndexOutOfBounds   // String/array index errors
    | IllegalArgument    // Enum.valueOf with an unknown name, negative capacity
    | NegativeArraySize  // new byte[n] with n < 0
    | NullPointer        // dereferencing a missing map entry
    | NumberFormat       // Long.parseLong on a malformed number
    | ParseFailure       // the timestamp parser rejected its text
    | FileSystem         // java.nio.file.FileSystemException: the file is in use
    | TypeError          // JavaScript: property access on undefined
    | SyntaxError        // JavaScript: a selector jQuery cannot parse

  datatype Result<T> = Ok(value: T) | Err(fault: Fault)
  {
    predicate IsOk() { Ok? }
  }
}
